=== FILE: README.md ===
# ToolRegistry in Dafny

A functional model of the core of ToolRegistry, a Python library. The library
collects Python callables, MCP server tools and OpenAPI operations as
"tools". It describes them to a chat model as JSON schemas and runs the tool
calls the model sends back. The model covers seven parts:

- **Registry.** The namespace algebra of the tool registry: `register`,
  `_prefix_tools_namespace`, `merge`, `reduce_namespace`, `spinoff`, the
  lookups and `get_tools_json`. A registry is a name, an insertion-ordered
  map from tool name to tool and a stored set of sub-registry prefixes.
- **Execution.** The bookkeeping of tool-call execution in both
  `ToolRegistry` and `Executor`: the worker, result collection, task
  preparation, the process-to-thread fallback, `set_execution_mode`, and
  the rebuilding of chat messages from calls and results.
- **Tools and parameters.** Building a tool from a function, its JSON
  description, parameter validation, `run` and `arun`, and the per-parameter
  field rules of the generated parameter model.
- **Class integration.** The selection rules that decide which members of a
  class or instance are registered, under which name and which namespace.
  This covers the current integration, the older static-method integration
  and the hub integration.
- **Remote-tool adapters.** Binding positional arguments to keywords, MCP
  result flattening and argument filtering, and turning an OpenAPI 3.0
  operation into a tool. The OpenAPI part follows the Operation, Parameter,
  Request Body and Server Objects of the OpenAPI Specification 3.0
  (sections 4.7.10, 4.7.12, 4.7.13 and 4.7.5). It also covers the probe
  order used to find a service's specification.
- **Hub file tools.** Applying unified-diff hunks and git-conflict blocks to
  a file's lines, search hits with their context windows, and path
  validation. `list_dir`, `get_size`, `delete` and `copy` are modelled over
  an in-memory directory tree.
- **Hub web search.** SearXNG base-URL normalisation and its score
  filter, stable sort and truncation. For Google: result parsing with
  de-duplication and a cap, the pagination loop, link decoding, proxy
  selection and the user-agent version ranges.

### How the Python world is represented

- **Dictionaries** are sequences of key/value pairs with unique keys (module
  `Dicts`). Assigning to a present key keeps its slot. Rebuilding a dict
  from pairs keeps each key's first position and last value.
- **Callables** are values recording the outcome of calling them.
- **Worker pools** are sequential maps over the submitted tasks. A pool may
  fail as a whole, and a task's future may raise.
- **Opaque helpers are parameters.** Anything whose source is not part of
  this model is passed in as a function: `normalize_tool_name` (`norm`),
  JSON parsing, `unquote`, `os.path.expanduser`, regular-expression search,
  HTML scraping and the HTTP exchange.
- **`Tool.update_namespace`** is also not part of this model. Its effect is
  fixed by the docstring of `_prefix_tools_namespace`
  (src/toolregistry/tool_registry.py:206-210): an undotted name `t` becomes
  `norm(ns).t`, and a dotted name keeps its namespace unless forced.

### Files

| file | module | covers |
|---|---|---|
| outcomes.dfy | Outcomes | `Option`, `Result`, Python exception kinds |
| strs.dfy | Strs | string helpers: `split`, `rstrip`, slicing, decimal text |
| dicts.dfy | Dicts | insertion-ordered dictionaries |
| values.dfy | Values | JSON values, callables and call outcomes |
| tools.dfy | Tools | `Tool.from_function`, `get_json_schema`, `run`, `arun`, namespaces of names |
| params.dfy | ParameterModels | `_get_typed_annotation`, `_create_field`, `_generate_parameters_model`, validation |
| registry.dfy | Registry | the registry and its namespace algebra |
| execution.dfy | Execution | the worker, collection, preparation, modes, message recovery |
| classes.dfy | ClassIntegration | class and instance registration rules |
| binding.dfy | ArgBinding | `_process_args` of the MCP and OpenAPI wrappers |
| mcp.dfy | Mcp | the MCP wrapper and `MCPTool.from_tool_json` |
| openapi.dfy | OpenApi | `OpenAPITool.from_openapi_spec`, dispatch, registration filter, endpoint probe |
| fileops.dfy | FileOps | `replace_by_diff`, `replace_by_git`, `make_git_conflict`, search hits, `validate_path` |
| filesystem.dfy | FileSystem | `list_dir`, `get_size`, `delete`, `copy` over a tree |
| searxng.dfy | Searxng | SearXNG URL, ranking and enrichment |
| google.dfy | GoogleSearch | Google parsing, pagination, links, proxies, user agent |

## Model

| member | source | states |
|---|---|---|
| Registry.Empty | src/toolregistry/tool_registry.py:100-101 | A new registry holds no tools, and its stored prefix set agrees with its (absent) dotted names |
| Registry.GetTool | src/toolregistry/tool_registry.py:545-555 | `get_tool` finds a tool exactly for the names `in` the registry. The tool it returns is the one stored under that name |
| Registry.GetCallable | src/toolregistry/tool_registry.py:557-567 | `get_callable` is defined exactly for registered names, and then gives that tool's callable |
| Registry.Schemas | src/toolregistry/tool_registry.py:543 | One JSON description per tool, in order, each the tool's own description |
| Registry.GetToolsJson | src/toolregistry/tool_registry.py:528-543 | Given a name, the list holds that tool's description, or nothing when the name is absent. Without a name it holds one description per tool, in registration order, each naming its key |
| Registry.StoreInNamespace | src/toolregistry/tool_registry.py:183-185 | A Tool instance is moved into the namespace and stored under its final name, replacing what was there. Every other name keeps its tool, and keys stay unique and coherent |
| Registry.RegisterAsWritten | src/toolregistry/tool_registry.py:180-190 | As written, registering a plain function raises TypeError and leaves the tools unchanged, yet the namespace has already been added to the prefix set |
| Registry.Register | src/toolregistry/tool_registry.py:180-190 | Registration fails only on an unnamed lambda. On success the tool is stored under its final namespaced name, replacing any tool there, and no other entry changes. A truthy namespace is added to the prefix set, normalised |
| Registry.FindSubRegistriesAdd | src/toolregistry/tool_registry.py:133-137 | Adding one key adds its namespace, if it has one, to the namespaces `_find_sub_registries` derives |
| Registry.RegisterKeepsSubRegistriesAgree | src/toolregistry/tool_registry.py:180-181 | A successful registration into a normalised, dot-free namespace keeps the stored prefix set equal to the derived one |
| Registry.PrefixToolsNamespace | src/toolregistry/tool_registry.py:215-219 | Every tool is re-keyed by its moved name, and each key holds the last tool moved onto it, as repeated dict assignment leaves it. Colliding names collapse, so the map never grows, and keys stay unique and coherent |
| Registry.PrefixKeys | src/toolregistry/tool_registry.py:216-218 | The new names are exactly the old names moved into the registry's namespace |
| Registry.PrefixUndotted | src/toolregistry/tool_registry.py:206-208 | Undotted names all land in the registry's normalised namespace |
| Registry.PrefixKeepsDotted | src/toolregistry/tool_registry.py:206-209 | Without force, already-dotted names are left alone |
| Registry.Merge | src/toolregistry/tool_registry.py:241-261 | Both registries are prefixed. Without force the merged names are the union of both prefixed name sets, and `other` is returned exactly as prefixed. With force, `other` keeps its keys, but every tool it shares with self is renamed into self's namespace, because both maps hold the same Tool objects. The stored prefix set is recomputed from the final names, the merged map stays coherent, and its size is at most the sum |
| Registry.OtherAfterMerge | src/toolregistry/tool_registry.py:249-257 | Other's map keeps its keys. An entry self does not take over is unchanged. Without force nothing changes; with force a taken-over tool is the same tool renamed into self's namespace |
| Registry.MergeForceNames | src/toolregistry/tool_registry.py:244-258 | With force, the merged names are exactly the union of both prefixed name sets, each moved into self's namespace |
| Registry.MergeForceRenamesOther | src/toolregistry/tool_registry.py:244-258 | With force and without keep_existing, every tool left in `other` now names self's namespace |
| Registry.MergeForceExample | src/toolregistry/tool_registry.py:241-261 | Force-merging registry "b" holding tool "y" into registry "a" leaves `other` with key "b.y" whose tool is named "a.y" |
| Registry.MergeConflicts | src/toolregistry/tool_registry.py:249-254 | On a shared name, keep_existing keeps self's tool and otherwise other's tool wins. Every other name keeps the tool of the registry it came from |
| Registry.ForceNeverGrows | src/toolregistry/tool_registry.py:256-258 | With force_namespace the merged registry has at most as many names as the unforced union |
| Registry.ReduceNamespace | src/toolregistry/tool_registry.py:277-283 | No-op unless exactly one prefix p is stored. Then len(p)+1 leading characters are dropped from every name, whether or not it starts with `p.`, and the prefix set is emptied. Each shortened key holds the last tool shortened onto it |
| Registry.ReduceUndoesPrefix | src/toolregistry/tool_registry.py:277-283 | Reducing names of the form `p.x`, where p is the only prefix, gives back the `x`s: it undoes prefixing |
| Registry.SpinoffParts | src/toolregistry/tool_registry.py:307-331 | The new registry holds exactly the names starting with `prefix.`, under the name prefix, with prefix set {prefix}. Self keeps exactly the other names, with prefix discarded from its set |
| Registry.Spinoff | src/toolregistry/tool_registry.py:306-337 | Raises ValueError, with the source's message, exactly when no name starts with `prefix.`. Otherwise it returns the two parts, both reduced unless retain_namespace |
| Registry.SpinoffPartitions | src/toolregistry/tool_registry.py:307-328 | With retain_namespace the two registries' names are disjoint and together are the original names |
| Registry.SpinoffReducesNew | src/toolregistry/tool_registry.py:317-321 | Without retain_namespace the new registry holds the matching names with `prefix.` dropped, and has an empty prefix set |
| Registry.MergeUndotted | src/toolregistry/tool_registry.py:244-261 | Merging two registries of undotted tool names gives the names `r.x` and `o.y`, and the prefix set {r, o} |
| Registry.SpinoffPrefixed | src/toolregistry/tool_registry.py:306-337 | Spinning `b` off a registry holding `a.x` and `b.y` succeeds. It returns the `y`s and leaves the `x`s |
| Registry.MergeThenSpinoff | src/toolregistry/tool_registry.py:241-337 | Merge followed by spinoff of other's name, without retaining namespaces, gives back both original name sets. This assumes distinct, normalised, dot-free registry names and undotted tool names |
| Tools.UpdateNamespaceParts | src/toolregistry/tool_registry.py:206-210 | A name moved into namespace ns ends up in `norm(ns)` and keeps its local part. This holds for an undotted name, and for a dotted one when forced |
| Tools.UpdateNamespaceIdempotent | src/toolregistry/tool_registry.py:206-210 | Moving a name into the same namespace twice is moving it once |
| Tools.UpdateNamespace | src/toolregistry/tool_registry.py:206-210 | A moved name is either left as it is or placed under `norm(ns)` followed by a dot; no other namespace can appear |
| Tools.UpdateToolNamespace | src/toolregistry/tool_registry.py:216-218 | Moving a tool into a namespace changes its name and nothing else |
| Tools.FromFunction | src/toolregistry/tool.py:61-84 | The name is the explicit one, else `__name__`, and "<lambda>" raises ValueError. The description is the explicit one, else the docstring, else "". is_async is "coroutine function". When the model cannot be generated, parameters is {} |
| Tools.GetJsonSchema | src/toolregistry/tool.py:86-108 | The description carries exactly the name, description, parameters and async flag, and they can be read back |
| Tools.JsonSchemaDependsOnlyOnFourFields | src/toolregistry/tool.py:98-110 | Two tools get equal descriptions exactly when those four fields agree |
| Tools.ValidateParameters | src/toolregistry/tool.py:128-133 | Without a parameter model the input is returned unchanged. With one, the result holds exactly the model's fields in order |
| Tools.Run | src/toolregistry/tool.py:147-151 | `run` never raises. A validation error or an exception from the call becomes "Error executing <name>: <msg>", and otherwise the call's result is returned |
| Tools.ARun | src/toolregistry/tool.py:166-178 | `arun` awaits a coroutine function's call and gives its result or the same error string |
| Tools.ARunAwaitsRun | src/toolregistry/tool.py:166-172 | `arun` is `run` followed by an await, except where `run` already turned a raised exception into its string. The NotImplementedError branch is never reached |
| Tools.ARunRejectsPlainResult | src/toolregistry/tool.py:171-172 | Awaiting a synchronous tool's non-awaitable result ends in the error string, while `run` returns the result |
| ParameterModels.ResolvedType | src/toolregistry/parameter_models.py:39-48 | An unannotated parameter gets Any and an annotation of None gets None. A string annotation is evaluated, and InvalidSignature is raised exactly when that fails |
| ParameterModels.CreateField | src/toolregistry/parameter_models.py:64-78 | Without a default the field is required and has the resolved type. With one it is Optional of that type and carries the default. The title is the name only for an unannotated parameter |
| ParameterModels.NonSelf | src/toolregistry/parameter_models.py:97-99 | Exactly the parameters not named "self" are kept |
| ParameterModels.NonSelfKeepsAll | src/toolregistry/parameter_models.py:97-99 | A signature without `self` is kept whole, in order |
| ParameterModels.NonSelfAppend | src/toolregistry/parameter_models.py:97-99 | Skipping `self` commutes with concatenation, so the kept parameters stay in signature order, each once |
| ParameterModels.Fields | src/toolregistry/parameter_models.py:97-110 | One field per non-self parameter, in signature order: field i is `CreateField` of the i-th non-self parameter with its resolved annotation type. Fails exactly when some annotation cannot be resolved |
| ParameterModels.GenerateParametersModel | src/toolregistry/parameter_models.py:92-117 | A model exists exactly when the signature can be read and every annotation resolves. It is named "<func name>Parameters" and its fields are exactly those `Fields` builds from the signature |
| ParameterModels.Validate | src/toolregistry/parameter_models.py:21-23 | A validated model dumps exactly its declared fields, in order: the provided value, else the default. Validation fails exactly when a required field is missing |
| ClassIntegration.IsAllStaticMethods | src/toolregistry/class_tool_integration.py:21-25 | True exactly when every public entry of the class's own dict is a staticmethod, private names being ignored whatever their kind; the native helper in src/toolregistry/native/utils.py:14-17 is the same test |
| ClassIntegration.NoPublicMembersIsAllStatic | src/toolregistry/class_tool_integration.py:21-25 | A class with no public entries counts as all-static |
| ClassIntegration.DetermineNamespace | src/toolregistry/class_tool_integration.py:28-37 | A string is returned as it is, even ""; another truthy value gives the class name (the type name for an instance); a falsy value gives None — the same rule as the native helper in src/toolregistry/native/utils.py:35-43 |
| ClassIntegration.RegisterStaticMethods | src/toolregistry/class_tool_integration.py:40-43 | Exactly the public staticmethods' functions are registered, without a name of their own, in the namespace |
| ClassIntegration.SomesAppend | src/toolregistry/class_tool_integration.py:40-43 | Registrations keep the order and multiplicity of the members that produce them |
| ClassIntegration.RegisterInstanceMethods | src/toolregistry/class_tool_integration.py:46-56 | Exactly the public callable attributes of `dir()` are registered, except names that are classmethods in the type's own dict |
| ClassIntegration.RegisterClassMethods | src/toolregistry/class_tool_integration.py:89-104 | An all-static class registers its staticmethods. Any other class is instantiated, and a failure is raised before anything is registered. An instance registers its methods. Every registration uses the one namespace |
| ClassIntegration.StaticClassNotInstantiated | src/toolregistry/class_tool_integration.py:91-93 | An all-static class's constructor never matters |
| ClassIntegration.ConstructorTypeErrorRewrapped | src/toolregistry/class_tool_integration.py:95-101 | A TypeError from the constructor is re-raised as "Cannot instantiate class … without arguments" |
| ClassIntegration.OwnClassMethodsExcluded | src/toolregistry/class_tool_integration.py:50-53 | A classmethod of the instance's own type is never registered |
| ClassIntegration.RegisterClassMethodsAsync | src/toolregistry/class_tool_integration.py:123 | The async variant makes the same registrations |
| ClassIntegration.RegisterClassMethodsLegacy | src/toolregistry/static_method_integration.py:48-78 | Same all-static test and namespace rule. A constructor error propagates unchanged. Otherwise the registrations are exactly the public callable attributes of the instance, each in the chosen namespace |
| ClassIntegration.LegacyKeepsClassMethods | src/toolregistry/static_method_integration.py:70-78 | The older integration registers a public classmethod that the current one skips |
| ClassIntegration.RegisterHubTools | src/toolregistry/hub_integration.py:42-48 | Every plain function member is registered under its attribute name, with no underscore filter. It goes in the class's namespace exactly when with_namespace |
| ClassIntegration.RegisterHubToolsAsync | src/toolregistry/hub_integration.py:58-59 | The async variant registers without any namespace |
| ClassIntegration.HubAsyncIgnoresNamespace | src/toolregistry/hub_integration.py:58-59 | The async variant with with_namespace=True equals the sync one without it, and differs from the sync one with it |
| ClassIntegration.RegisterMember | src/toolregistry/tool_registry.py:180-190 | With the corrected `register` (see Findings), registering one member fails exactly on a lambda, and otherwise adds its final name |
| ClassIntegration.ApplyRegistrationsFails | src/toolregistry/class_tool_integration.py:40-56 | With the corrected `register` (see Findings), a run of registrations stops with an error exactly when some member is an unnamed lambda |
| ClassIntegration.AsWrittenStopsAtFirstMember | src/toolregistry/class_tool_integration.py:40-56 | With `register` as the code stands, the run stops at its first member with the TypeError about the `namespace` keyword, and no tool is added |
| ClassIntegration.ApplyRegistrationsAdds | src/toolregistry/class_tool_integration.py:40-56 | With the corrected `register` (see Findings), a run without error adds exactly the members' final names |
| ClassIntegration.ApplyRegistrationsCoherent | src/toolregistry/class_tool_integration.py:40-56 | With the corrected `register` (see Findings), every tool stays stored under its own name through the run |
| Execution.JsonChecked | src/toolregistry/executor.py:61-66 | The result always serialises. A serialisable result is kept, and one `json.dumps` rejects with TypeError becomes its `str()`. When `json.dumps` raises some other exception, the outcome is "Error executing <fn>: <msg>" |
| Execution.ProcessToolCall | src/toolregistry/executor.py:49-73 | The worker returns the id it was given with a serialisable result: "Error: Tool '<fn>' not found or callable is None" for a missing payload, "Error executing <fn>: <msg>" for a load or call failure, else the call's value or its `str()`. An exception from `json.dumps` other than TypeError gives "Error executing <fn>: <msg>" too; the registry's copy (src/toolregistry/tool_registry.py:23-63) is the same |
| Execution.Responses | src/toolregistry/executor.py:90-104 | One assignment per task, in submission order. A raising future gives "Error executing tool call: <msg>" under the task's own id |
| Execution.ExecuteParallel | src/toolregistry/executor.py:76-104 | Fails exactly when the pool breaks on a non-empty batch. Otherwise the map has exactly the submitted ids as keys, each once |
| Execution.CollectLastWins | src/toolregistry/executor.py:97-101 | Each id holds the result of the last task submitted under it |
| Execution.CollectHealthy | src/toolregistry/tool_registry.py:585-598 | With a healthy pool and a unique id, the id maps to exactly what the worker returned |
| Execution.PrepareOne | src/toolregistry/executor.py:136-153 | A call becomes a task exactly when its name, arguments, id, lookup and serialisation all succeed. The task carries the looked-up callable only when serialising and the tool exists. Unknown tools are still submitted |
| Execution.PrepErrors | src/toolregistry/executor.py:150-153 | Every call either becomes a task or leaves an error entry |
| Execution.Prepare | src/toolregistry/tool_registry.py:629-651 | There is one task per call that prepares successfully, in call order, and it is that call's prepared task. The error map has an entry exactly for the keys the failing calls leave (the id, or "unknown_id"). Each entry holds "Error preparing tool call <name>: <msg>" from the last failing call under that key |
| Execution.PrepareNext | src/toolregistry/tool_registry.py:631-651 | One call either joins the tasks or stores its error entry, keeping the loop's running state equal to the outcome for the calls so far |
| Execution.Submitted | src/toolregistry/tool_registry.py:629-651 | Preparation yields at most one task per call; which task, and in what order, is stated by Execution.Prepare |
| Execution.SubmittedSound | src/toolregistry/tool_registry.py:629-651 | Every submitted task is the prepared task of one of the calls; nothing else is submitted |
| Execution.ExecuteToolCalls | src/toolregistry/executor.py:132-172 | An invalid effective mode fails the assertion; with nothing submitted the preparation errors are returned, otherwise exactly the collected map; thread mode uses the thread pool, process mode falls back to threads when the variant does. The registry's version (src/toolregistry/tool_registry.py:616-665) is the variant without fallback that serialises only in process mode |
| Execution.PreparationErrorsDropped | src/toolregistry/executor.py:155-172 | Once one task is submitted, an id that only a failed call carried is absent from the result |
| Execution.FallbackMatchesThreadMode | src/toolregistry/executor.py:159-168 | With the fallback, a broken process pool gives what thread mode gives |
| Execution.ThreadModeIgnoresProcessPool | src/toolregistry/executor.py:169-172 | Thread mode never depends on the process pool |
| Execution.AsWrittenThreadPayloadsEmpty | src/toolregistry/tool_registry.py:639-643 | In thread mode the registry sends no callable with any task |
| Execution.AsWrittenThreadModeNotFound | src/toolregistry/tool_registry.py:639-643 | So in thread mode every submitted call, even of a registered tool, gets the not-found string |
| Execution.CorrectedPayloadsAreCallables | src/toolregistry/executor.py:145 | Serialising whenever a callable exists sends a task's callable exactly when its tool is registered |
| Execution.CorrectedThreadModeRuns | src/toolregistry/executor.py:145 | With that serialisation, a registered tool run in thread mode returns the worker's result on its callable |
| Execution.MissingGetToolSubmitsNothing | src/toolregistry/executor.py:141 | Without a `get_tool`, every call fails preparation |
| Execution.ExecutorAsWrittenRunsNothing | src/toolregistry/executor.py:136-156 | `Executor` as written runs no call and returns one preparation error per call |
| Execution.ExecutorWithLookupSubmits | src/toolregistry/executor.py:141-149 | With a registry's lookup supplied, a well-formed call for a registered tool is submitted with its callable |
| Execution.SetExecutionModeAsWritten | src/toolregistry/executor.py:115-120 | As written, any value is stored, despite the log message |
| Execution.InvalidModeBreaksExecute | src/toolregistry/executor.py:132-133 | After storing an invalid mode, a call without override fails its assertion |
| Execution.SetExecutionMode | src/toolregistry/executor.py:115-120 | As the message describes, the stored mode is always valid: the given mode when valid, else "process" |
| Execution.SetModeKeepsExecuteValid | src/toolregistry/executor.py:132-133 | After the corrected setter, a call without override never fails the mode assertion |
| Execution.WithPlaceholder | src/toolregistry/tool_registry.py:688-691 | A missing id gets the placeholder, and present entries never change |
| Execution.FillPlaceholders | src/toolregistry/tool_registry.py:686-691 | The caller's map keeps every entry it had, and gains only placeholder entries |
| Execution.FillPlaceholdersKeys | src/toolregistry/tool_registry.py:686-691 | For well-formed calls, the map ends with exactly the old keys plus the calls' ids |
| Execution.FirstMalformed | src/toolregistry/tool_registry.py:686-703 | A call without id or name raises AttributeError, and none is raised exactly when all are well-formed |
| Execution.MessagePairs | src/toolregistry/tool_registry.py:693-715 | Exactly two messages per call in call order: the assistant echo, then the tool reply |
| Execution.RecoverMessages | src/toolregistry/tool_registry.py:667-716 | For each call, in order: an assistant message echoing id, name and arguments, then a tool message "<name> --> <result>" with that id. It fails exactly on a malformed call |
| Execution.RecoverMessagesResults | src/toolregistry/tool_registry.py:688-691 | Every call's id is in the returned map: the caller's result if supplied, else the placeholder |
| ArgBinding.ProcessArgs | src/toolregistry/mcp_integration.py:46-61 | No positionals: the keywords unchanged; positionals with no params: ValueError; too many: TypeError; otherwise success exactly when no positional's name is a keyword or repeats, giving the keywords followed by the bound pairs. The OpenAPI wrapper (src/toolregistry/openapi_integration.py:145-160) binds by the same code |
| ArgBinding.BindSpec | src/toolregistry/mcp_integration.py:53-60 | The binding loop succeeds exactly on bindable input, and then appends the pairs in order |
| ArgBinding.ProcessArgsBinds | src/toolregistry/mcp_integration.py:53-60 | Each positional ends up under its own parameter name, and every keyword keeps its value |
| Mcp.PropertyNames | src/toolregistry/mcp_integration.py:116 | The schema's property names in order: none without "properties", and an error when it is not a dict |
| Mcp.FilterArgs | src/toolregistry/mcp_integration.py:115-118 | Exactly the passed keywords that are schema properties are forwarded, with their values |
| Mcp.Handle | src/toolregistry/mcp_integration.py:164-198 | Text gives its text, and embedded text gives its text. Another embedded resource is kept as it is. Any other exact type is an error |
| Mcp.HandleAll | src/toolregistry/mcp_integration.py:191-199 | The handled items in order, or the error of the first unhandled item |
| Mcp.PostProcess | src/toolregistry/mcp_integration.py:161-201 | An error result or empty content is returned raw. One item is returned unwrapped and several as a list in order. Unhandled content raises NotImplementedError |
| Mcp.TextResultsFlatten | src/toolregistry/mcp_integration.py:191-201 | A result of texts flattens to the list of its texts |
| Mcp.CallAsync | src/toolregistry/mcp_integration.py:101-121 | Binding errors come first, then ValueError for an empty url or name, then ValueError for a tool not on the server |
| Mcp.CallAsyncForwards | src/toolregistry/mcp_integration.py:111-121 | Past the checks, `call_tool` receives the filtered arguments of the first tool of that name, and its result is post-processed |
| Mcp.CallSync | src/toolregistry/mcp_integration.py:77-85 | `call_sync` gives what `call_async` gives |
| Mcp.FromToolJson | src/toolregistry/mcp_integration.py:224-237 | The params are the schema's property names in order, or [] for an empty schema. The schema is kept verbatim, and the tool is synchronous |
| Mcp.PositionalsReachServer | src/toolregistry/mcp_integration.py:46-61 | A tool built from the server's listing forwards each positional argument, under its property name, to the server |
| OpenApi.MakeWrapper | src/toolregistry/openapi_integration.py:134-138 | The method is lower-cased, and missing params become [] |
| OpenApi.OperationName | src/toolregistry/openapi_integration.py:224 | The name is the operationId, else "<method>_<path>" with every '/' replaced by '_' |
| OpenApi.OperationDescription | src/toolregistry/openapi_integration.py:225 | The description is "description", else "summary", else "" |
| OpenApi.Properties | src/toolregistry/openapi_integration.py:228-253 | The properties are keyed by the parameter names and then the JSON body's property names |
| OpenApi.BodyPropertyEntry | src/toolregistry/openapi_integration.py:248-252 | An unshadowed body property carries its type (default "string") and description (default "") |
| OpenApi.ParameterEntry | src/toolregistry/openapi_integration.py:232-238 | An unshadowed parameter carries its schema type (default "string") and description (default "") |
| OpenApi.ParamNames | src/toolregistry/openapi_integration.py:239-253 | The positional order is the parameters, then the body properties |
| OpenApi.Required | src/toolregistry/openapi_integration.py:240-255 | A name is required exactly when its parameter is flagged required or the body schema lists it |
| OpenApi.FromOperation | src/toolregistry/openapi_integration.py:216-271 | The tool has that name, description and object schema, is synchronous, and wraps a wrapper built from the same pieces |
| OpenApi.CallAsync | src/toolregistry/openapi_integration.py:182-198 | After binding, an empty base URL or name raises ValueError. GET sends the arguments as query parameters, and any other method as a JSON body, to base_url+path |
| OpenApi.DispatchByMethod | src/toolregistry/openapi_integration.py:136-195 | Whatever case the document uses, a GET tool sends query parameters and any other verb a JSON body |
| OpenApi.BaseUrl | src/toolregistry/openapi_integration.py:288 | The base URL is servers[0].url, or "" without "servers". An empty server list raises IndexError |
| OpenApi.PathTools | src/toolregistry/openapi_integration.py:291-301 | Every get/post/put/delete operation (in any case) of a path item becomes its tool, and every tool is the tool of such an operation |
| OpenApi.PathToolsAppend | src/toolregistry/openapi_integration.py:291-301 | The tools follow the path item's field order one for one: a field gives one tool exactly when its method is registered |
| OpenApi.DocumentTools | src/toolregistry/openapi_integration.py:290-301 | Every get/post/put/delete operation of every path becomes a tool for the document's base URL, and every tool is the tool of such an operation |
| OpenApi.DocumentToolsAppend | src/toolregistry/openapi_integration.py:290-301 | Paths contribute their tools in document order, each path its own tools |
| OpenApi.RegisterOpenApiTools | src/toolregistry/openapi_integration.py:287-301 | The registered tools are the tools of the get/post/put/delete operations of every path and nothing else, all with the document's base URL, in document order. An empty server list raises |
| OpenApi.ProbeFrom | src/toolregistry/openapi_integration.py:38-47 | The probe returns the first endpoint answering 200 with a JSON or YAML content type, or not-found when none does |
| OpenApi.CheckCommonEndpoints | src/toolregistry/openapi_integration.py:28-48 | The six fixed suffixes are probed in order on the URL without trailing slashes, and errors are swallowed |
| OpenApi.OpenApiJsonFirst | src/toolregistry/openapi_integration.py:28-45 | A service serving /openapi.json is found there |
| FileOps.LinesConcat | src/toolregistry/hub/file_ops.py:43-44 | `splitlines(keepends=True)` for '\n' line ends: joining the lines gives the text back |
| FileOps.HeaderParses | src/toolregistry/hub/file_ops.py:48-57 | Any header `@@ -a[,b] +c[,d] @@` matches the hunk pattern and yields its old start a |
| FileOps.Classify | src/toolregistry/hub/file_ops.py:53-74 | A line starting "@@" is a header, parsed. ' ', '-' and '+' lines are context, removal and addition, the latter with the text after the marker |
| FileOps.ReplaceByDiff | src/toolregistry/hub/file_ops.py:42-80 | Errors are only ValueError or IndexError, and a malformed first header raises "Invalid diff hunk header" |
| FileOps.Apply | src/toolregistry/hub/file_ops.py:51-80 | The hunk loop fails only with ValueError or IndexError, the two errors the source's loop can raise |
| FileOps.BadHeaderRejected | src/toolregistry/hub/file_ops.py:53-56 | A malformed first header is rejected, whatever precedes it |
| FileOps.NoHunkNoChange | src/toolregistry/hub/file_ops.py:76-80 | A diff without hunks (---/+++ lines included) leaves the file unchanged |
| FileOps.ContextCopies | src/toolregistry/hub/file_ops.py:66-68 | Context lines copy the original lines under the cursor without comparing text |
| FileOps.ContextHunkKeepsFile | src/toolregistry/hub/file_ops.py:59-80 | A hunk of only context lines leaves the file unchanged |
| FileOps.ReplaceOneLine | src/toolregistry/hub/file_ops.py:57-80 | A one-line hunk replaces line n by the new text, and every other line is kept |
| FileOps.LastAddedLineUnterminated | src/toolregistry/hub/file_ops.py:71-72 | An added line is taken verbatim, so a final unterminated '+' line leaves the file without a final newline |
| FileOps.ReplaceByGit | src/toolregistry/hub/file_ops.py:154-194 | A diff without conflict blocks leaves the file unchanged |
| FileOps.GitApplyLines | src/toolregistry/hub/file_ops.py:165-194 | Every emitted line is a line of the file or of the diff; the loop invents no text |
| FileOps.OutsideBlocksCopy | src/toolregistry/hub/file_ops.py:187-191 | Outside blocks, each diff line copies the next original line, whatever its text |
| FileOps.BlockApplies | src/toolregistry/hub/file_ops.py:167-186 | A block inserts its replacement verbatim and skips as many original lines as it has search lines |
| FileOps.OneBlockReplaces | src/toolregistry/hub/file_ops.py:164-194 | Lines outside the block are kept, the search lines are dropped by count, and the replacement is inserted |
| FileOps.MakeGitConflict | src/toolregistry/hub/file_ops.py:271 | The conflict text's lines are the HEAD marker, ours plus a newline, the separator, theirs plus a newline, and the incoming marker |
| FileOps.GitConflictEatsNextLine | src/toolregistry/hub/file_ops.py:271 | As written, a newline-terminated `ours` gains an empty search line, so applying the conflict deletes an extra file line |
| FileOps.MakeGitConflictCorrected | src/toolregistry/hub/file_ops.py:271 | The corrected text contributes each side's own lines, adding a line end only where one is missing |
| FileOps.CorrectedConflictReplaces | src/toolregistry/hub/file_ops.py:164-194 | Applying the corrected conflict to a file starting with ours's lines replaces them by theirs's lines and keeps the rest |
| FileOps.Around | src/toolregistry/hub/file_ops.py:119-125 | The context indices are exactly the other lines at most two away, clamped to the file, ascending |
| FileOps.Context | src/toolregistry/hub/file_ops.py:121-125 | The context holds the 1-based number and the newline-stripped text of each neighbour |
| FileOps.SearchLines | src/toolregistry/hub/file_ops.py:117-133 | Exactly one hit per matching line, in line order, with a 1-based line number |
| FileOps.ValidatePath | src/toolregistry/hub/file_ops.py:289-295 | "" is invalid with "Empty path". A path containing any of * ? " > < \| after expansion is invalid with "Contains dangerous characters". Otherwise it is valid with message "" |
| FileSystem.WalkExactly | src/toolregistry/hub/filesystem.py:117 | In a well-formed tree the walk lists exactly the non-empty paths that resolve |
| FileSystem.ListDir | src/toolregistry/hub/filesystem.py:100-113 | A non-directory raises FileNotFoundError, checked before depth < 1 raises ValueError. Depth 1 gives exactly the child names, hiding dot-names unless show_hidden |
| FileSystem.ListDirDeep | src/toolregistry/hub/filesystem.py:116-129 | Depth k ≥ 2 gives exactly the resolvable relative paths of 1 to k components, dropping any with a hidden component unless show_hidden |
| FileSystem.ShowHiddenAddsOnly | src/toolregistry/hub/filesystem.py:108-129 | The show_hidden listing contains the listing without it |
| FileSystem.DeepAgreesWithShallow | src/toolregistry/hub/filesystem.py:108-129 | At depth ≥ 2 the one-component entries are the depth-1 listing |
| FileSystem.WalkTotal | src/toolregistry/hub/filesystem.py:214 | Summing the file sizes over the walk gives the recursive disk usage |
| FileSystem.GetSize | src/toolregistry/hub/filesystem.py:208-214 | A missing path raises FileNotFoundError. A file gives its size, and a directory the sum over all files below it, hidden ones included |
| FileSystem.DeleteAbsent | src/toolregistry/hub/filesystem.py:187-193 | Deleting a path that does not exist changes nothing |
| FileSystem.DeleteRemoves | src/toolregistry/hub/filesystem.py:188-191 | In a well-formed tree, a deleted path resolves to nothing afterwards |
| FileSystem.DeleteFrame | src/toolregistry/hub/filesystem.py:187-193 | Deleting leaves every path apart from the deleted one as it was |
| FileSystem.Delete | src/toolregistry/hub/filesystem.py:181-193 | Deleting below a file changes nothing; in a directory, every entry with another first name is kept as it was |
| FileSystem.MakeDirsFails | src/toolregistry/hub/filesystem.py:163 | Creating the destination directories fails exactly when a prefix of the path is a file |
| FileSystem.MakeDirs | src/toolregistry/hub/filesystem.py:163 | A successful creation ends in a directory, and top-level entries off the path are kept as they were |
| FileSystem.CopyFile | src/toolregistry/hub/filesystem.py:160-161 | `copy2` writes inside a directory destination. It succeeds exactly when the target is placeable, not a directory and not the source, and then the target holds a file of that size |
| FileSystem.Copy | src/toolregistry/hub/filesystem.py:157-165 | A missing source raises FileNotFoundError. A file is copied with `copy2` |
| FileSystem.CopyTreeLands | src/toolregistry/hub/filesystem.py:162-163 | Copying a directory without clashes succeeds, and every file below the source is then at the same relative place below the destination |
| FileSystem.CopyTreeKeeps | src/toolregistry/hub/filesystem.py:162-163 | The destination's entries that the source does not name are kept, with all below them |
| FileSystem.CopyTree | src/toolregistry/hub/filesystem.py:162-163 | When the destination cannot be created as a directory, `copytree` changes nothing and raises FileExistsError if the destination itself is a file, NotADirectoryError if a file sits at a proper prefix of it |
| FileSystem.MakeDirsOnFile | src/toolregistry/hub/filesystem.py:163 | A file at the destination itself makes directory creation fail |
| FileSystem.CopyFrame | src/toolregistry/hub/filesystem.py:157-165 | A copy changes nothing apart from the destination |
| Searxng.BaseUrl | src/toolregistry/hub/websearch_searxng.py:142-144 | The URL loses its trailing slashes and ends in "/search" |
| Searxng.BaseUrlIdempotent | src/toolregistry/hub/websearch_searxng.py:142-144 | Normalising twice is normalising once |
| Searxng.BaseUrlFixedPoints | src/toolregistry/hub/websearch_searxng.py:142-144 | The URLs left untouched are exactly those already ending in "/search" |
| Searxng.Kept | src/toolregistry/hub/websearch_searxng.py:174-176 | Exactly the entries scoring at least the threshold are kept, with a missing score counting as 0 |
| Searxng.KeptWithScore | src/toolregistry/hub/websearch_searxng.py:174-176 | The filter keeps each score's entries in their order |
| Searxng.SortDesc | src/toolregistry/hub/websearch_searxng.py:177 | The sort is a permutation in non-increasing score order |
| Searxng.SortStable | src/toolregistry/hub/websearch_searxng.py:177 | Entries of equal score keep their input order |
| Searxng.SortCharacterised | src/toolregistry/hub/websearch_searxng.py:177 | The sort is the only descending arrangement that keeps each score's order |
| Searxng.Truncate | src/toolregistry/hub/websearch_searxng.py:178-179 | At most n entries, the first ones, are kept, and a negative n counts from the end |
| Searxng.SelectedSound | src/toolregistry/hub/websearch_searxng.py:174-179 | Only entries of the answer that pass the threshold are selected |
| Searxng.SelectedCount | src/toolregistry/hub/websearch_searxng.py:178-179 | As many entries are selected as asked for, or all that pass |
| Searxng.SelectedTop | src/toolregistry/hub/websearch_searxng.py:177-179 | The selection is best first, and nothing left out scores above anything selected |
| Searxng.FetchPage | src/toolregistry/hub/websearch_searxng.py:96-131 | An entry without a url raises ValueError. Otherwise the page keeps the url and the excerpt, and falls back from BeautifulSoup to the Jina reader to "Unable to fetch content" |
| Searxng.Enrich | src/toolregistry/hub/websearch_searxng.py:181-188 | Enrichment gives one page per entry in order, and raises when an entry lacks a url |
| Searxng.Search | src/toolregistry/hub/websearch_searxng.py:164-194 | Request and status errors give []. Otherwise the result fails exactly when a selected entry has no URL. On success, page i is the fetched page of selected entry i |
| GoogleSearch.RandInt | src/toolregistry/hub/websearch_google.py:26 | `randint(lo, hi)` lies in [lo, hi] |
| GoogleSearch.RandIntReaches | src/toolregistry/hub/websearch_google.py:26 | Every value in the range can be drawn |
| GoogleSearch.Versions | src/toolregistry/hub/websearch_google.py:25-33 | All ten version numbers lie in their documented ranges |
| GoogleSearch.VersionsReachable | src/toolregistry/hub/websearch_google.py:25-33 | Every in-range combination can be drawn |
| GoogleSearch.UserAgent | src/toolregistry/hub/websearch_google.py:25-33 | The user agent starts with the Lynx product token; the drawn versions' ranges are stated by GoogleSearch.Versions |
| GoogleSearch.Proxies | src/toolregistry/hub/websearch_google.py:91-95 | A proxy is used exactly when it is set and starts with "http", which covers "https" |
| GoogleSearch.RedirectLink | src/toolregistry/hub/websearch_google.py:69 | A redirect href `/url?q=<target>&<tracking>` decodes to `unquote(target)` |
| GoogleSearch.ParseSkips | src/toolregistry/hub/websearch_google.py:66-71 | A block lacking link, title or description, or with an already fetched link, is passed over |
| GoogleSearch.ParseTakes | src/toolregistry/hub/websearch_google.py:69-78 | Any other block yields its item, and its link joins the fetched set |
| GoogleSearch.ParseRecords | src/toolregistry/hub/websearch_google.py:58-76 | At most num items are yielded, and every yielded link joins the shared set |
| GoogleSearch.ParseFresh | src/toolregistry/hub/websearch_google.py:70-73 | Yielded links are pairwise distinct and absent from the set beforehand |
| GoogleSearch.ParseSound | src/toolregistry/hub/websearch_google.py:62-78 | Every yielded item comes from a complete block of the page |
| GoogleSearch.ParseComplete | src/toolregistry/hub/websearch_google.py:58-78 | Short of num items, every complete block's link ends up in the set |
| GoogleSearch.Parse | src/toolregistry/hub/websearch_google.py:58-78 | The fetched set only grows; at most one item per block, and none when num ≤ 0 |
| GoogleSearch.PaginateBounds | src/toolregistry/hub/websearch_google.py:110-141 | The loop asks for nothing once the count is reached, and passes a failed request on. It yields at most num−count results after at most num−count+1 requests, so it terminates |
| GoogleSearch.Paginate | src/toolregistry/hub/websearch_google.py:110-141 | Short of the count, a successful run starts with a request at the start offset |
| GoogleSearch.PaginateStops | src/toolregistry/hub/websearch_google.py:134-135 | An empty batch ends the loop |
| GoogleSearch.PaginateOffsets | src/toolregistry/hub/websearch_google.py:110-140 | The i-th request is at start + 10·i |
| GoogleSearch.PaginateFresh | src/toolregistry/hub/websearch_google.py:98-138 | The results across pages have pairwise distinct links, none previously fetched |
| GoogleSearch.MetaSearch | src/toolregistry/hub/websearch_google.py:81-143 | At most num_results results, pairwise distinct by link, and none when num_results ≤ 0 |
| GoogleSearch.MetaSearchRequests | src/toolregistry/hub/websearch_google.py:110-140 | Requests go at start_num, start_num+10, …, and there are at most num_results+1 of them |

## Left out

- Worker pools, `dill` serialisation, `atexit` shutdown and `asyncio` event loops are left out. Pools are sequential maps with abstract outcomes, and a coroutine is modelled by the outcome it awaits to. The wrappers' `__call__` loop detection is omitted.
- Real invocation of Python callables is left out. A callable is represented by the outcome of the call at hand, independent of the arguments.
- Pydantic's model creation, type coercion and JSON-schema generation are left out. Validation takes the provided value, else the default, else reports a missing field, and the schema generator is a parameter.
- `normalize_tool_name` and `Tool.update_namespace` are not part of this model. The first is a parameter `norm`. The second is defined from the documented rule in src/toolregistry/tool_registry.py:206-210; `update_namespace` with no namespace is taken to leave the name unchanged.
- `merge`'s TypeError for a non-registry argument (src/toolregistry/tool_registry.py:242) is left out: the argument's type already rules it out.
- The random default registry name (src/toolregistry/tool_registry.py:97-98) is left out; the name is a parameter.
- The `register_from_*` entry points, the deprecated aliases, `__repr__` and `__str__` are left out. The entry points' call signatures do not match the integration classes they call.
- `register_mcp_tools(_async)` and `register_openapi_tools`' own loop are left out: they only register what `from_tool_json` and `from_openapi_spec` build.
- Fetching and validating the OpenAPI document (`get_openapi_spec`, `parse_openapi_spec_from_url`) is left out. The document is given parsed.
- Network I/O is left out: MCP SSE sessions, httpx, and the requests of SearXNG and Google. Each exchange is a parameter or a given sequence of answers.
- Mcp.CallAsync: states the error cases only; the successful path is stated separately by Mcp.CallAsyncForwards.
- Tools as shared objects are left out. In the source, `register(tool)` renames the caller's Tool object in place (src/toolregistry/tool_registry.py:183-185), and after `merge` both registries hold the same Tool objects (src/toolregistry/tool_registry.py:249-254), so a later forced prefix or `register` in one registry also renames tools seen through the other. The model treats tools as values: only the sharing inside one `merge` call is captured, by Registry.OtherAfterMerge; renames made by later calls do not reach the other registry.
- Execution.Submitted: its own contract bounds only the number of tasks. Which task each call yields, and their order, are stated by Execution.Prepare and Execution.SubmittedSound.
- FileOps.Apply: its own contract gives only the error kinds. The per-line steps and whole-diff shapes are stated by the lemmas named at FileOps.ReplaceByDiff.
- FileOps.GitApply: carries no contract of its own, so that the proofs about it stay small. The loop is described by FileOps.OutsideBlocksCopy (no block: the file is copied), FileOps.OneBlockReplaces (one block: search-and-replace by line count) and FileOps.GitApplyLines (no invented lines).
- GoogleSearch.UserAgent: its own contract gives only the leading product token. The version ranges are stated by GoogleSearch.Versions and GoogleSearch.VersionsReachable; the rest of the string's layout is not stated.
- GoogleSearch.Parse: its own contract gives only growth of the fetched set and the count bounds. What is taken and skipped is stated by the GoogleSearch.Parse* lemmas.
- GoogleSearch.Paginate: its own contract gives only the first request's offset. Bounds, stopping, offsets and freshness are stated by the GoogleSearch.Paginate* lemmas.
- FileSystem.MakeDirs: its own contract says only that it ends in a directory and keeps entries off the path. When it fails is stated by FileSystem.MakeDirsFails; what it creates is used through FileSystem.CopyTreeLands.
- The image and blob branches of MCP content handling are modelled but stated only as "handled" (no error). Their dictionaries are not spelled out in the contract.
- `make_diff` (difflib) is left out.
- `read_file`, `write_file`, `os.walk`, `fnmatch` and the file-name filter of `search_files` are left out. Search works on one file's lines, with the regular expression's `search` as a predicate parameter.
- Strs.LowerChar: covers ASCII letters only, as do Strs.Lower and Strs.IsDigit. Python's `str.lower()` (src/toolregistry/openapi_integration.py:136) and the regular expression class `\d` (src/toolregistry/hub/file_ops.py:48) are Unicode-aware. The model applies them only to HTTP verbs, content types and diff hunk headers, which are normally ASCII.
- `splitlines` is modelled only for '\n' line ends. The other Unicode line boundaries are left out.
- FileSystem.Delete: requires a non-empty path. Deleting the root directory itself is not modelled.
- `list_dir` depth ≥ 2 is stated as a set of paths. `rglob`'s listing order and the joined string form of the paths are not modelled.
- `copytree`'s error text and its copying of a directory into itself are not modelled. Entries that clash are skipped and reported as a failure flag.
- NotADirectoryError for a file in the middle of a path is folded into "resolves to nothing".
- Symbolic links, permissions, timestamps and the other filesystem methods (`move`, `create_file`, modification times) are left out.
- SearXNG: JSON decoding errors, and a present score of `None` (which Python would fail to compare), are left out. Scores are reals.
- `_format_text`, the BeautifulSoup and Jina scrapers, and `sleep` are parameters or left out.
- Google HTML parsing is left out: the page is given as its list of result blocks. `unquote` and the random draws are parameters.
- The `num` request parameter is left out: its value does not affect the loop's bookkeeping.
- The server's answers are a finite sequence; past its end a page reads as empty.
- `websearch.py` and the other hub web-search helpers are left out.

## Findings

| source | as written | input that shows it | evidently intended | confidence | as-written member | corrected member |
|---|---|---|---|---|---|---|
| src/toolregistry/tool_registry.py:187-189 | `register` passes `namespace=` to `Tool.from_function`, whose signature (src/toolregistry/tool.py:37-42) has no such parameter | registering any plain function, e.g. `register(f)` | build the tool with `from_function(func, name, description)`, then move it into the namespace as for a Tool instance | not executed | Registry.RegisterAsWritten | Registry.Register |
| src/toolregistry/tool_registry.py:639-643 | the callable is serialised only in process mode, so thread-mode tasks carry no payload | a registered tool called with `execution_mode="thread"` gets "Error: Tool '<name>' not found or callable is None" | send the callable whenever one exists, as src/toolregistry/executor.py:145 does | not executed | Execution.AsWrittenThreadModeNotFound | Execution.CorrectedThreadModeRuns |
| src/toolregistry/executor.py:141 | `Executor.execute_tool_calls` calls `self.get_tool`, which `Executor` does not define | any non-empty list of calls: each gets "Error preparing tool call …" and none runs | a tool lookup supplied to the executor, e.g. a registry's `get_tool` | not executed | Execution.ExecutorAsWrittenRunsNothing | Execution.ExecutorWithLookupSubmits |
| src/toolregistry/executor.py:115-120 | `set_execution_mode` logs "Fall back to 'process' mode" but stores the invalid mode | `set_execution_mode("fiber")`, then `execute_tool_calls(calls)` fails its assertion | store "process" for an invalid mode | not executed | Execution.InvalidModeBreaksExecute | Execution.SetModeKeepsExecuteValid |
| src/toolregistry/hub/file_ops.py:271 | `make_git_conflict` adds "\n" after each side even when it already ends a line | ours "a\n", theirs "b\n", file "a\nc\n": `replace_by_git` yields "b\n\n" and the line "c" is lost | add a line end only where one is missing | not executed | FileOps.GitConflictEatsNextLine | FileOps.CorrectedConflictReplaces |

=== FILE: binding.dfy ===
/** Binding a remote tool's positional arguments to its parameter names,
    shared (character for character) by the MCP and the OpenAPI wrappers. */
module ArgBinding {
  import opened Outcomes
  import opened Strs
  import opened Dicts
  import opened Values

  /** The pairs `params[i] = args[i]` in order. */
  function Pairs(params: seq<string>, args: seq<Value>): (ps: Args)
    requires |args| <= |params|
    ensures |ps| == |args|
    ensures forall i :: 0 <= i < |args| ==> ps[i] == (params[i], args[i])
  {
    seq(|args|, i requires 0 <= i < |args| => (params[i], args[i]))
  }

  function BothMessage(p: string): string {
    "Parameter '" + p + "' passed both as positional and keyword argument"
  }

  /** The binding loop: each positional in turn is stored under its
      parameter name, unless that name is already a keyword -- including
      one the loop itself bound a step earlier. */
  function Bind(params: seq<string>, args: seq<Value>, kwargs: Args): Result<Args>
    requires |args| <= |params|
    decreases |args|
  {
    if |args| == 0 then Ok(kwargs)
    else if params[0] in KeySet(kwargs) then Err(Error(TypeError, BothMessage(params[0])))
    else Bind(params[1..], args[1..], Put(kwargs, params[0], args[0]))
  }

  /** No positional lands on a name that is a keyword or that an earlier
      positional took. */
  predicate Bindable(params: seq<string>, args: seq<Value>, kwargs: Args)
    requires |args| <= |params|
  {
    (forall i :: 0 <= i < |args| ==> params[i] !in KeySet(kwargs)) && Distinct(params[..|args|])
  }

  /** `_process_args(*args, **kwargs)` of both wrappers (a parameter list of
      None behaves like the empty list). */
  function ProcessArgs(params: seq<string>, args: seq<Value>, kwargs: Args): (r: Result<Args>)
    ensures |args| == 0 ==> r == Ok(kwargs)
    ensures |args| > 0 && |params| == 0 ==> r == Err(Error(ValueError, "Tool parameters not initialized"))
    ensures 0 < |params| < |args| ==> r == Err(Error(TypeError,
      "Expected at most " + NatToString(|params|) + " positional arguments, got " + NatToString(|args|)))
    ensures |args| <= |params| ==> (r.Ok? <==> Bindable(params, args, kwargs))
    ensures |args| <= |params| && r.Ok? ==> r.value == kwargs + Pairs(params, args)
    ensures |args| <= |params| && r.Err? ==> r.error.kind == TypeError
  {
    if |args| == 0 then Ok(kwargs)
    else if |params| == 0 then Err(Error(ValueError, "Tool parameters not initialized"))
    else if |args| > |params| then
      Err(Error(TypeError, "Expected at most " + NatToString(|params|) + " positional arguments, got " + NatToString(|args|)))
    else
      BindSpec(params, args, kwargs);
      Bind(params, args, kwargs)
  }

  /** The loop succeeds exactly on bindable input, and then appends the
      bound pairs, in order, after the keywords. */
  lemma BindSpec(params: seq<string>, args: seq<Value>, kwargs: Args)
    requires |args| <= |params|
    ensures Bind(params, args, kwargs).Ok? <==> Bindable(params, args, kwargs)
    ensures Bind(params, args, kwargs).Ok? ==> Bind(params, args, kwargs).value == kwargs + Pairs(params, args)
    ensures Bind(params, args, kwargs).Err? ==> Bind(params, args, kwargs).error.kind == TypeError
  {
    BindOk(params, args, kwargs);
    BindValue(params, args, kwargs);
    BindErr(params, args, kwargs);
  }

  lemma {:induction false} BindOk(params: seq<string>, args: seq<Value>, kwargs: Args)
    requires |args| <= |params|
    ensures Bind(params, args, kwargs).Ok? <==> Bindable(params, args, kwargs)
    decreases |args|
  {
    if |args| > 0 && params[0] !in KeySet(kwargs) {
      BindOk(params[1..], args[1..], Put(kwargs, params[0], args[0]));
      BindableStep(params, args, kwargs);
    }
  }

  lemma {:induction false} BindValue(params: seq<string>, args: seq<Value>, kwargs: Args)
    requires |args| <= |params|
    ensures Bind(params, args, kwargs).Ok? ==> Bind(params, args, kwargs).value == kwargs + Pairs(params, args)
    decreases |args|
  {
    if |args| > 0 && params[0] !in KeySet(kwargs) {
      var kw := Put(kwargs, params[0], args[0]);
      PutAbsent(kwargs, params[0], args[0]);
      BindValue(params[1..], args[1..], kw);
      PairsCons(params, args, kwargs);
    }
  }

  lemma PairsCons(params: seq<string>, args: seq<Value>, kwargs: Args)
    requires 0 < |args| <= |params|
    ensures kwargs + [(params[0], args[0])] + Pairs(params[1..], args[1..]) == kwargs + Pairs(params, args)
  {
    assert Pairs(params, args) == [(params[0], args[0])] + Pairs(params[1..], args[1..]);
  }

  lemma {:induction false} BindErr(params: seq<string>, args: seq<Value>, kwargs: Args)
    requires |args| <= |params|
    ensures Bind(params, args, kwargs).Err? ==> Bind(params, args, kwargs).error.kind == TypeError
    decreases |args|
  {
    if |args| > 0 && params[0] !in KeySet(kwargs) {
      BindErr(params[1..], args[1..], Put(kwargs, params[0], args[0]));
    }
  }

  /** One step of the loop keeps bindability. */
  lemma BindableStep(params: seq<string>, args: seq<Value>, kwargs: Args)
    requires 0 < |args| <= |params| && params[0] !in KeySet(kwargs)
    ensures Bindable(params, args, kwargs) <==> Bindable(params[1..], args[1..], Put(kwargs, params[0], args[0]))
  {
    var n := |args|;
    var ps := params[..n];
    assert params[1..][..n - 1] == ps[1..];
    DistinctCons(ps);
    assert (forall i :: 0 <= i < n - 1 ==> params[1..][i] != params[0]) <==> params[0] !in ps[1..] by {
      assert forall i :: 0 <= i < n - 1 ==> params[1..][i] == ps[1..][i];
    }
    assert (forall i :: 0 <= i < n ==> params[i] !in KeySet(kwargs)) <==>
           (forall i :: 0 <= i < n - 1 ==> params[1..][i] !in KeySet(kwargs)) by {
      assert forall i :: 0 <= i < n - 1 ==> params[1..][i] == params[i + 1];
    }
  }

  lemma DistinctCons(ps: seq<string>)
    requires |ps| > 0
    ensures Distinct(ps) <==> ps[0] !in ps[1..] && Distinct(ps[1..])
  {
    assert forall i :: 1 <= i < |ps| ==> ps[i] == ps[1..][i - 1];
    if ps[0] !in ps[1..] && Distinct(ps[1..]) {
      forall i, j | 0 <= i < j < |ps| ensures ps[i] != ps[j] {
        if i > 0 { assert ps[1..][i - 1] != ps[1..][j - 1]; }
      }
    }
  }

  /** Each positional ends up under its own parameter name, and every
      keyword keeps its value. */
  lemma ProcessArgsBinds(params: seq<string>, args: seq<Value>, kwargs: Args, i: nat, k: string)
    requires ProcessArgs(params, args, kwargs).Ok? && Unique(kwargs)
    requires i < |args|
    ensures |args| <= |params|
    ensures Get(ProcessArgs(params, args, kwargs).value, params[i]) == Some(args[i])
    ensures k in KeySet(kwargs) ==> Get(ProcessArgs(params, args, kwargs).value, k) == Get(kwargs, k)
  {
    var r := ProcessArgs(params, args, kwargs).value;
    assert |args| <= |params|;
    assert Bindable(params, args, kwargs);
    assert Unique(r) by {
      forall x, y | 0 <= x < y < |r| ensures Keys(r)[x] != Keys(r)[y] {
        if y >= |kwargs| && x >= |kwargs| {
          assert params[..|args|][x - |kwargs|] != params[..|args|][y - |kwargs|];
        } else if y >= |kwargs| {
          assert r[x] == kwargs[x];
          assert kwargs[x].0 in KeySet(kwargs);
        } else {
          assert Keys(kwargs)[x] != Keys(kwargs)[y];
        }
      }
    }
    GetAt(r, |kwargs| + i);
    if k in KeySet(kwargs) {
      var j := Find(Keys(kwargs), k);
      GetAt(kwargs, j);
      GetAt(r, j);
    }
  }
}

=== FILE: classes.dfy ===
/** Which members of a class (or instance) become tools, under which name
    and namespace: the current class integration (with its helpers, also
    found in the native utilities), the older static-method integration,
    and the hub integration.  A class is seen through the views Python's
    introspection gives of it: its own `__dict__` in definition order, what
    `dir()` of an instance lists (sorted, inherited names included), what
    `inspect.getmembers(cls, inspect.isfunction)` lists, and whether calling
    it without arguments raises. */
module ClassIntegration {
  import opened Outcomes
  import opened Strs
  import opened Dicts
  import opened Values
  import opened ParameterModels
  import opened Tools
  import opened Registry
  import opened Seqs

  /** An entry of a class's own `__dict__`. */
  datatype Member =
    | StaticMethod(f: Callable)
    | ClassMethod(f: Callable)
    | InstanceMethod(f: Callable)
    | Attribute                 // any other class attribute

  datatype ClassInfo = ClassInfo(
    name: string,
    ownDict: seq<(string, Member)>,
    /** `dir(instance)` with `getattr(instance, name)` when it is callable. */
    instanceDir: seq<(string, Option<Callable>)>,
    /** `inspect.getmembers(cls, inspect.isfunction)`'s candidates: each
        attribute of the class with the plain function it is, if any. */
    classMembers: seq<(string, Option<Callable>)>,
    /** What `cls()` raises, if anything. */
    initError: Option<Error>)

  /** An instance: the name of its type, its type's own `__dict__`, and its
      `dir()` view. */
  datatype InstanceInfo = InstanceInfo(typeName: string, typeDict: seq<(string, Member)>,
                                       dir: seq<(string, Option<Callable>)>)

  datatype Target = OfClass(cls: ClassInfo) | OfInstance(inst: InstanceInfo)

  /** `with_namespace`: a string, or any other value seen for its truth. */
  datatype WithNamespace = NsName(s: string) | NsFlag(b: bool)

  /** One `registry.register(func, name=..., namespace=...)` call. */
  datatype Registration = Registration(f: Callable, name: Option<string>, namespace: Option<string>)

  predicate Public(name: string) {
    !StartsWith(name, "_")
  }

  /** The registrations present in `os`, in order. */
  function Somes(os: seq<Option<Registration>>): (rs: seq<Registration>)
    ensures |rs| <= |os|
    ensures forall g :: g in rs <==> Some(g) in os
    ensures (forall i :: 0 <= i < |os| ==> os[i].Some?) ==> |rs| == |os| && forall i :: 0 <= i < |os| ==> rs[i] == os[i].value
  {
    if |os| == 0 then []
    else
      assert os == [os[0]] + os[1..];
      (if os[0].Some? then [os[0].value] else []) + Somes(os[1..])
  }

  /** Dropping the `None`s commutes with concatenation: the registrations
      keep their order and multiplicity. */
  lemma {:induction false} SomesAppend(a: seq<Option<Registration>>, b: seq<Option<Registration>>)
    ensures Somes(a + b) == Somes(a) + Somes(b)
    decreases |a|
  {
    if |a| == 0 {
      assert a + b == b;
    } else {
      var h := if a[0].Some? then [a[0].value] else [];
      SomesAppend(a[1..], b);
      ConsSplit(a, b);
      SomesCons(a[0], a[1..] + b);
      SomesUnfold(a);
      ConcatShift(h, Somes(a + b), Somes(a), Somes(a[1..]), Somes(b));
    }
  }

  lemma SomesCons(o: Option<Registration>, rest: seq<Option<Registration>>)
    ensures Somes([o] + rest) == (if o.Some? then [o.value] else []) + Somes(rest)
  {
    assert ([o] + rest)[1..] == rest;
  }

  lemma SomesUnfold(os: seq<Option<Registration>>)
    requires |os| > 0
    ensures Somes(os) == (if os[0].Some? then [os[0].value] else []) + Somes(os[1..])
  { }

  // ------------------------------------------------------ current integration

  /** `_is_all_static_methods`: every public entry of the class's own dict
      is a staticmethod (true when there are none). */
  function IsAllStaticMethods(ownDict: seq<(string, Member)>): (b: bool)
    ensures b <==> forall i :: 0 <= i < |ownDict| && Public(ownDict[i].0) ==> ownDict[i].1.StaticMethod?
    decreases |ownDict|
  {
    if |ownDict| == 0 then true
    else
      assert forall i :: 1 <= i < |ownDict| ==> ownDict[i] == ownDict[1..][i - 1];
      if Public(ownDict[0].0) && !ownDict[0].1.StaticMethod? then false
      else IsAllStaticMethods(ownDict[1..])
  }

  /** A class with no public entries counts as all-static, whatever its
      private entries are. */
  lemma NoPublicMembersIsAllStatic(ownDict: seq<(string, Member)>)
    requires forall i :: 0 <= i < |ownDict| ==> !Public(ownDict[i].0)
    ensures IsAllStaticMethods(ownDict)
  {
  }

  function TargetName(t: Target): string {
    if t.OfClass? then t.cls.name else t.inst.typeName
  }

  /** `_determine_namespace`: a string is used as it is (even ""); any other
      truthy value gives the class name (the type's name for an instance);
      a falsy one gives none. */
  function DetermineNamespace(t: Target, withNs: WithNamespace): (ns: Option<string>)
    ensures withNs.NsName? ==> ns == Some(withNs.s)
    ensures withNs.NsFlag? ==> (ns.Some? <==> withNs.b)
    ensures withNs.NsFlag? && ns.Some? ==> ns.value == TargetName(t)
  {
    match withNs
    case NsName(s) => Some(s)
    case NsFlag(b) => if b then Some(TargetName(t)) else None
  }

  predicate PublicStatic(e: (string, Member)) {
    Public(e.0) && e.1.StaticMethod?
  }

  function StaticEntry(e: (string, Member), ns: Option<string>): Option<Registration> {
    if PublicStatic(e) then Some(Registration(e.1.f, None, ns)) else None
  }

  /** `_register_static_methods`: each public staticmethod's function,
      without a name of its own, in the namespace. */
  function RegisterStaticMethods(ownDict: seq<(string, Member)>, ns: Option<string>): (rs: seq<Registration>)
    ensures forall i :: 0 <= i < |ownDict| && PublicStatic(ownDict[i]) ==> Registration(ownDict[i].1.f, None, ns) in rs
    ensures forall g :: g in rs ==> exists i :: 0 <= i < |ownDict| && PublicStatic(ownDict[i]) && g == Registration(ownDict[i].1.f, None, ns)
  {
    var os := seq(|ownDict|, i requires 0 <= i < |ownDict| => StaticEntry(ownDict[i], ns));
    assert forall i :: 0 <= i < |ownDict| ==> os[i] == StaticEntry(ownDict[i], ns);
    Somes(os)
  }

  /** The instance rule: a public name of `dir()`, not a classmethod in the
      type's own dict (inherited classmethods are not looked for), whose
      attribute is callable. */
  predicate InstanceSelected(typeDict: seq<(string, Member)>, e: (string, Option<Callable>)) {
    Public(e.0) && !(Get(typeDict, e.0).Some? && Get(typeDict, e.0).value.ClassMethod?) && e.1.Some?
  }

  function InstanceEntry(typeDict: seq<(string, Member)>, e: (string, Option<Callable>), ns: Option<string>): Option<Registration> {
    if InstanceSelected(typeDict, e) then Some(Registration(e.1.value, None, ns)) else None
  }

  /** `_register_instance_methods`: each selected attribute, without a name
      of its own, in the namespace. */
  function RegisterInstanceMethods(typeDict: seq<(string, Member)>, dir: seq<(string, Option<Callable>)>,
                                   ns: Option<string>): (rs: seq<Registration>)
    ensures forall i :: 0 <= i < |dir| && InstanceSelected(typeDict, dir[i]) ==> Registration(dir[i].1.value, None, ns) in rs
    ensures forall g :: g in rs ==> exists i :: 0 <= i < |dir| && InstanceSelected(typeDict, dir[i]) && g == Registration(dir[i].1.value, None, ns)
  {
    var os := seq(|dir|, i requires 0 <= i < |dir| => InstanceEntry(typeDict, dir[i], ns));
    assert forall i :: 0 <= i < |dir| ==> os[i] == InstanceEntry(typeDict, dir[i], ns);
    Somes(os)
  }

  /** `ClassToolIntegration.register_class_methods`: the registrations it
      makes, or the error it raises before making any. */
  function RegisterClassMethods(t: Target, withNs: WithNamespace): (r: Result<seq<Registration>>)
    ensures r.Ok? ==> forall g :: g in r.value ==>
      g.namespace == DetermineNamespace(t, withNs) && g.name.None?
    ensures t.OfClass? && IsAllStaticMethods(t.cls.ownDict) ==>
      r == Ok(RegisterStaticMethods(t.cls.ownDict, DetermineNamespace(t, withNs)))
    ensures t.OfClass? && !IsAllStaticMethods(t.cls.ownDict) && t.cls.initError.Some? ==>
      r.Err? && r.error.kind == t.cls.initError.value.kind
    ensures t.OfClass? && !IsAllStaticMethods(t.cls.ownDict) && t.cls.initError == None ==>
      r == Ok(RegisterInstanceMethods(t.cls.ownDict, t.cls.instanceDir, DetermineNamespace(t, withNs)))
    ensures t.OfInstance? ==> r == Ok(RegisterInstanceMethods(t.inst.typeDict, t.inst.dir, DetermineNamespace(t, withNs)))
  {
    var ns := DetermineNamespace(t, withNs);
    match t
    case OfClass(c) =>
      if IsAllStaticMethods(c.ownDict) then Ok(RegisterStaticMethods(c.ownDict, ns))
      else
        match c.initError {
          case Some(e) =>
            if e.kind == TypeError then
              Err(Error(TypeError, "Cannot instantiate class " + c.name + " without arguments. Please provide an instance of the class."))
            else Err(e)
          case None => Ok(RegisterInstanceMethods(c.ownDict, c.instanceDir, ns))
        }
    case OfInstance(i) => Ok(RegisterInstanceMethods(i.typeDict, i.dir, ns))
  }

  /** An all-static class is never instantiated: what its constructor would
      do does not matter. */
  lemma StaticClassNotInstantiated(c: ClassInfo, e: Option<Error>, withNs: WithNamespace)
    requires IsAllStaticMethods(c.ownDict)
    ensures RegisterClassMethods(OfClass(c), withNs) == RegisterClassMethods(OfClass(c.(initError := e)), withNs)
  {
  }

  /** A TypeError from the constructor is re-raised with a message naming
      the class. */
  lemma ConstructorTypeErrorRewrapped(c: ClassInfo, withNs: WithNamespace)
    requires !IsAllStaticMethods(c.ownDict) && c.initError.Some? && c.initError.value.kind == TypeError
    ensures RegisterClassMethods(OfClass(c), withNs) ==
      Err(Error(TypeError, "Cannot instantiate class " + c.name + " without arguments. Please provide an instance of the class."))
  {
  }

  /** A classmethod defined on the type itself is never registered from an
      instance, however `dir()` shows it. */
  lemma OwnClassMethodsExcluded(inst: InstanceInfo, withNs: WithNamespace, i: nat)
    requires i < |inst.dir|
    requires Get(inst.typeDict, inst.dir[i].0).Some? && Get(inst.typeDict, inst.dir[i].0).value.ClassMethod?
    requires forall j :: 0 <= j < |inst.dir| && j != i ==> inst.dir[j].1 != inst.dir[i].1
    ensures forall g :: g in RegisterClassMethods(OfInstance(inst), withNs).value ==> Some(g.f) != inst.dir[i].1
  {
  }

  /** `register_class_methods_async` delegates to the synchronous method. */
  function RegisterClassMethodsAsync(t: Target, withNs: WithNamespace): (r: Result<seq<Registration>>)
    ensures r == RegisterClassMethods(t, withNs)
  {
    RegisterClassMethods(t, withNs)
  }

  // ------------------------------------------------------ older integration

  /** `static_method_integration.ClassToolIntegration.register_class_methods`:
      the same all-static test; the namespace is the string itself, else the
      class name when `with_namespace` is truthy; a non-static class is
      instantiated (its error propagates unchanged) and every public
      callable attribute is registered, classmethods included. */
  function RegisterClassMethodsLegacy(c: ClassInfo, withNs: WithNamespace): (r: Result<seq<Registration>>)
    ensures IsAllStaticMethods(c.ownDict) ==>
      r == Ok(RegisterStaticMethods(c.ownDict, DetermineNamespace(OfClass(c), withNs)))
    ensures !IsAllStaticMethods(c.ownDict) && c.initError.Some? ==> r == Err(c.initError.value)
    ensures !IsAllStaticMethods(c.ownDict) && c.initError.None? ==> (r.Ok? &&
      (forall i :: 0 <= i < |c.instanceDir| && Public(c.instanceDir[i].0) && c.instanceDir[i].1.Some? ==>
        Registration(c.instanceDir[i].1.value, None, DetermineNamespace(OfClass(c), withNs)) in r.value))
    ensures !IsAllStaticMethods(c.ownDict) && c.initError.None? ==>
      forall g :: g in r.value ==>
        exists i :: 0 <= i < |c.instanceDir| && Public(c.instanceDir[i].0) && c.instanceDir[i].1.Some? &&
          g == Registration(c.instanceDir[i].1.value, None, DetermineNamespace(OfClass(c), withNs))
  {
    var ns := DetermineNamespace(OfClass(c), withNs);
    if IsAllStaticMethods(c.ownDict) then Ok(RegisterStaticMethods(c.ownDict, ns))
    else if c.initError.Some? then Err(c.initError.value)
    else
      var os := seq(|c.instanceDir|, i requires 0 <= i < |c.instanceDir| => LegacyEntry(c.instanceDir[i], ns));
      assert forall i :: 0 <= i < |c.instanceDir| ==> os[i] == LegacyEntry(c.instanceDir[i], ns);
      Ok(Somes(os))
  }

  function LegacyEntry(e: (string, Option<Callable>), ns: Option<string>): Option<Registration> {
    if Public(e.0) && e.1.Some? then Some(Registration(e.1.value, None, ns)) else None
  }

  /** The two integrations part ways on a public classmethod: the older one
      registers it, the current one does not. */
  lemma LegacyKeepsClassMethods(c: ClassInfo, withNs: WithNamespace, i: nat)
    requires !IsAllStaticMethods(c.ownDict) && c.initError.None?
    requires i < |c.instanceDir| && Public(c.instanceDir[i].0) && c.instanceDir[i].1.Some?
    requires Get(c.ownDict, c.instanceDir[i].0).Some? && Get(c.ownDict, c.instanceDir[i].0).value.ClassMethod?
    requires forall j :: 0 <= j < |c.instanceDir| && j != i ==> c.instanceDir[j].1 != c.instanceDir[i].1
    ensures Registration(c.instanceDir[i].1.value, None, DetermineNamespace(OfClass(c), withNs))
              in RegisterClassMethodsLegacy(c, withNs).value
    ensures Registration(c.instanceDir[i].1.value, None, DetermineNamespace(OfClass(c), withNs))
              !in RegisterClassMethods(OfClass(c), withNs).value
  {
  }

  // -------------------------------------------------------- hub integration

  predicate IsFunction(e: (string, Option<Callable>)) {
    e.1.Some?
  }

  /** `register_hub_tools`: every member `inspect.isfunction` accepts, under
      its attribute name -- no underscore filter -- and in the class's
      namespace exactly when `with_namespace`. */
  function RegisterHubTools(c: ClassInfo, withNamespace: bool): (rs: seq<Registration>)
    ensures forall i :: 0 <= i < |c.classMembers| && IsFunction(c.classMembers[i]) ==>
      Registration(c.classMembers[i].1.value, Some(c.classMembers[i].0), if withNamespace then Some(c.name) else None) in rs
    ensures forall g :: g in rs ==> exists i :: 0 <= i < |c.classMembers| && IsFunction(c.classMembers[i]) && g == Registration(
      c.classMembers[i].1.value, Some(c.classMembers[i].0), if withNamespace then Some(c.name) else None)
  {
    var ns := if withNamespace then Some(c.name) else None;
    var os := seq(|c.classMembers|, i requires 0 <= i < |c.classMembers| => HubEntry(c.classMembers[i], ns));
    assert forall i :: 0 <= i < |c.classMembers| ==> os[i] == HubEntry(c.classMembers[i], ns);
    Somes(os)
  }

  function HubEntry(e: (string, Option<Callable>), ns: Option<string>): Option<Registration> {
    if IsFunction(e) then Some(Registration(e.1.value, Some(e.0), ns)) else None
  }

  /** `register_hub_tools_async` drops `with_namespace`: it always registers
      without a namespace. */
  function RegisterHubToolsAsync(c: ClassInfo, withNamespace: bool): (rs: seq<Registration>)
    ensures forall g :: g in rs ==> g.namespace.None?
  {
    RegisterHubTools(c, false)
  }

  lemma HubAsyncIgnoresNamespace(c: ClassInfo)
    ensures RegisterHubToolsAsync(c, true) == RegisterHubTools(c, false)
    ensures |c.classMembers| > 0 && IsFunction(c.classMembers[0]) ==> RegisterHubToolsAsync(c, true) != RegisterHubTools(c, true)
  {
    if |c.classMembers| > 0 && IsFunction(c.classMembers[0]) {
      var e := c.classMembers[0];
      var r := Registration(e.1.value, Some(e.0), Some(c.name));
      assert r in RegisterHubTools(c, true);
      assert r !in RegisterHubTools(c, false);
    }
  }

  // ------------------------------------------------- effect on the registry

  /** The name a registration ends up under. */
  function FinalName(norm: string -> string, g: Registration): string {
    UpdateNamespace(norm, ChosenName(g.f, g.name), g.namespace, true)
  }

  /** The registrations applied in order, stopping at the first error. */
  function ApplyRegistrations(norm: string -> string, r: Registry, gs: seq<Registration>,
                              schemaOf: ParamModel -> Json): (res: (Registry, Option<Error>))
    ensures res.0.name == r.name
    decreases |gs|
  {
    if |gs| == 0 then (r, None)
    else
      var g := gs[0];
      var step := Register(norm, r, AsFunction(g.f), None, g.name, g.namespace, schemaOf);
      if step.1.Some? then step
      else ApplyRegistrations(norm, step.0, gs[1..], schemaOf)
  }

  /** The same run over `register` as the code stands (see Findings): that
      `register` raises for every plain function, so the loop ends at its
      first member. */
  function ApplyRegistrationsAsWritten(norm: string -> string, r: Registry, gs: seq<Registration>)
    : (res: (Registry, Option<Error>))
    ensures res.0.name == r.name
  {
    if |gs| == 0 then (r, None)
    else RegisterAsWritten(norm, r, AsFunction(gs[0].f), None, gs[0].name, gs[0].namespace)
  }

  /** As the code stands, the first member already stops the run with the
      TypeError from `Tool.from_function`, and no tool is added. */
  lemma AsWrittenStopsAtFirstMember(norm: string -> string, r: Registry, gs: seq<Registration>)
    requires |gs| > 0
    ensures ApplyRegistrationsAsWritten(norm, r, gs).1 ==
      Some(Error(TypeError, "Tool.from_function() got an unexpected keyword argument 'namespace'"))
    ensures ApplyRegistrationsAsWritten(norm, r, gs).0.tools == r.tools
  {
  }

  /** Registering one class member: fails exactly on a lambda, and
      otherwise adds the member's final name. */
  lemma RegisterMember(norm: string -> string, r: Registry, g: Registration, schemaOf: ParamModel -> Json)
    ensures Register(norm, r, AsFunction(g.f), None, g.name, g.namespace, schemaOf).1.None? <==>
      ChosenName(g.f, g.name) != "<lambda>"
    ensures Register(norm, r, AsFunction(g.f), None, g.name, g.namespace, schemaOf).1.None? ==>
      KeySet(Register(norm, r, AsFunction(g.f), None, g.name, g.namespace, schemaOf).0.tools) == KeySet(r.tools) + {FinalName(norm, g)}
  {
    var step := Register(norm, r, AsFunction(g.f), None, g.name, g.namespace, schemaOf);
    if step.1.None? {
      assert FromFunction(g.f, g.name, None, schemaOf).value.name == ChosenName(g.f, g.name);
    }
  }

  /** No member would be registered under the name `<lambda>`. */
  predicate NoLambda(gs: seq<Registration>) {
    forall j :: 0 <= j < |gs| ==> ChosenName(gs[j].f, gs[j].name) != "<lambda>"
  }

  lemma NoLambdaCons(gs: seq<Registration>)
    requires |gs| > 0
    ensures NoLambda(gs) <==> ChosenName(gs[0].f, gs[0].name) != "<lambda>" && NoLambda(gs[1..])
  {
    assert forall j :: 1 <= j < |gs| ==> gs[j] == gs[1..][j - 1];
  }

  /** The run stops with an error exactly when some member is a lambda. */
  lemma {:induction false} ApplyRegistrationsFails(norm: string -> string, r: Registry, gs: seq<Registration>,
                                                   schemaOf: ParamModel -> Json)
    ensures ApplyRegistrations(norm, r, gs, schemaOf).1.None? <==> NoLambda(gs)
    decreases |gs|
  {
    if |gs| > 0 {
      var g := gs[0];
      var step := Register(norm, r, AsFunction(g.f), None, g.name, g.namespace, schemaOf);
      RegisterMember(norm, r, g, schemaOf);
      ApplyRegistrationsFails(norm, step.0, gs[1..], schemaOf);
      NoLambdaCons(gs);
    }
  }

  /** A run without error adds exactly the members' final names. */
  lemma {:induction false} ApplyRegistrationsAdds(norm: string -> string, r: Registry, gs: seq<Registration>,
                                                  schemaOf: ParamModel -> Json)
    ensures ApplyRegistrations(norm, r, gs, schemaOf).1.None? ==>
      KeySet(ApplyRegistrations(norm, r, gs, schemaOf).0.tools) == KeySet(r.tools) + set j | 0 <= j < |gs| :: FinalName(norm, gs[j])
    decreases |gs|
  {
    if |gs| > 0 {
      var g := gs[0];
      var step := Register(norm, r, AsFunction(g.f), None, g.name, g.namespace, schemaOf);
      RegisterMember(norm, r, g, schemaOf);
      ApplyRegistrationsAdds(norm, step.0, gs[1..], schemaOf);
      FinalNamesCons(norm, gs);
    }
  }

  /** Every registration keeps the tool map coherent. */
  lemma {:induction false} ApplyRegistrationsCoherent(norm: string -> string, r: Registry, gs: seq<Registration>,
                                                      schemaOf: ParamModel -> Json)
    requires Coherent(r.tools)
    ensures Coherent(ApplyRegistrations(norm, r, gs, schemaOf).0.tools)
    decreases |gs|
  {
    if |gs| > 0 {
      var g := gs[0];
      var step := Register(norm, r, AsFunction(g.f), None, g.name, g.namespace, schemaOf);
      if step.1.None? {
        ApplyRegistrationsCoherent(norm, step.0, gs[1..], schemaOf);
      }
    }
  }

  lemma FinalNamesCons(norm: string -> string, gs: seq<Registration>)
    requires |gs| > 0
    ensures (set j | 0 <= j < |gs| :: FinalName(norm, gs[j])) ==
            {FinalName(norm, gs[0])} + set j | 0 <= j < |gs[1..]| :: FinalName(norm, gs[1..][j])
  {
    var all := set j | 0 <= j < |gs| :: FinalName(norm, gs[j]);
    var tail := set j | 0 <= j < |gs[1..]| :: FinalName(norm, gs[1..][j]);
    forall x | x in all ensures x in {FinalName(norm, gs[0])} + tail {
      var j :| 0 <= j < |gs| && x == FinalName(norm, gs[j]);
      if j > 0 { assert x == FinalName(norm, gs[1..][j - 1]); }
    }
    forall x | x in tail ensures x in all {
      var j :| 0 <= j < |gs[1..]| && x == FinalName(norm, gs[1..][j]);
      assert x == FinalName(norm, gs[j + 1]);
    }
  }
}

=== FILE: dicts.dfy ===
/** Python's insertion-ordered `dict` with string keys, as a sequence of
    (key, value) pairs.  Storing under a key that is already present keeps
    that key's slot and replaces its value; a new key is appended.  A dict
    comprehension or a `dict.update` is a left-to-right sequence of such
    stores, so a key keeps the position of its first store and the value of
    its last. */
module Dicts {
  import opened Outcomes

  type Dict<V> = seq<(string, V)>

  function Keys<V>(d: Dict<V>): (ks: seq<string>)
    ensures |ks| == |d|
    ensures forall i :: 0 <= i < |d| ==> ks[i] == d[i].0
  {
    seq(|d|, i requires 0 <= i < |d| => d[i].0)
  }

  function KeySet<V>(d: Dict<V>): set<string> {
    set k | k in Keys(d)
  }

  predicate Distinct(ks: seq<string>) {
    forall i, j :: 0 <= i < j < |ks| ==> ks[i] != ks[j]
  }

  /** A Python dict never holds a key twice. */
  predicate Unique<V>(d: Dict<V>) {
    Distinct(Keys(d))
  }

  /** Position of the first `k` in `ks`, or `|ks|` when there is none. */
  function Find(ks: seq<string>, k: string): (i: nat)
    ensures i <= |ks|
    ensures i < |ks| <==> k in ks
    ensures i < |ks| ==> ks[i] == k
    ensures forall j :: 0 <= j < i ==> ks[j] != k
  {
    if |ks| == 0 then 0
    else if ks[0] == k then 0
    else 1 + Find(ks[1..], k)
  }

  /** `d.get(k)`. */
  function Get<V>(d: Dict<V>, k: string): (r: Option<V>)
    ensures r.Some? <==> k in KeySet(d)
    ensures r.Some? ==> (k, r.value) in d
  {
    var i := Find(Keys(d), k);
    if i < |d| then Some(d[i].1) else None
  }

  lemma GetAt<V>(d: Dict<V>, i: nat)
    requires Unique(d) && i < |d|
    ensures Get(d, d[i].0) == Some(d[i].1)
  {
    var j := Find(Keys(d), d[i].0);
    assert !(j < i) && !(i < j);
  }

  /** `d[k] = v`. */
  function Put<V>(d: Dict<V>, k: string, v: V): (r: Dict<V>)
    ensures Keys(r) == if k in KeySet(d) then Keys(d) else Keys(d) + [k]
    ensures KeySet(r) == KeySet(d) + {k}
    ensures Get(r, k) == Some(v)
    ensures Unique(d) ==> Unique(r)
  {
    var i := Find(Keys(d), k);
    if i < |d| then
      var r := d[i := (k, v)];
      assert Keys(r) == Keys(d);
      r
    else
      var r := d + [(k, v)];
      assert Keys(r) == Keys(d) + [k];
      assert Find(Keys(r), k) == |d|;
      r
  }

  /** Storing a new key appends it. */
  lemma PutAbsent<V>(d: Dict<V>, k: string, v: V)
    requires k !in KeySet(d)
    ensures Put(d, k, v) == d + [(k, v)]
  {
  }

  lemma FindCons(x: string, ks: seq<string>, k: string)
    requires k != x
    ensures Find([x] + ks, k) == 1 + Find(ks, k)
  {
    assert ([x] + ks)[1..] == ks;
  }

  /** `GetCons` for every key at once. */
  lemma GetConsAll<V>(h: (string, V), t: Dict<V>)
    ensures forall k :: Get([h] + t, k) == if h.0 == k then Some(h.1) else Get(t, k)
  {
    forall k ensures Get([h] + t, k) == if h.0 == k then Some(h.1) else Get(t, k) {
      GetCons(h, t, k);
    }
  }

  /** Looking up in a dict with a given first pair. */
  lemma GetCons<V>(h: (string, V), t: Dict<V>, k: string)
    ensures Get([h] + t, k) == if h.0 == k then Some(h.1) else Get(t, k)
  {
    var r := [h] + t;
    KeysCons(h, t);
    if h.0 == k {
      assert Keys(r)[0] == k;
      assert Find(Keys(r), k) == 0;
    } else {
      FindCons(h.0, Keys(t), k);
      var i := Find(Keys(t), k);
      assert Find(Keys(r), k) == i + 1;
      if i < |t| {
        assert r[i + 1] == t[i];
        assert Get(r, k) == Some(t[i].1);
        assert Get(t, k) == Some(t[i].1);
      } else {
        assert Get(r, k) == None;
        assert Get(t, k) == None;
      }
    }
  }

  lemma KeysCons<V>(h: (string, V), t: Dict<V>)
    ensures Keys([h] + t) == [h.0] + Keys(t)
  { }

  lemma KeySetCons<V>(h: (string, V), t: Dict<V>)
    ensures KeySet([h] + t) == {h.0} + KeySet(t)
  {
    KeysCons(h, t);
  }

  lemma {:induction false} FindSnoc(ks: seq<string>, x: string, k: string)
    requires k in ks
    ensures Find(ks + [x], k) == Find(ks, k)
  {
    if ks[0] != k {
      assert (ks + [x])[1..] == ks[1..] + [x];
      FindSnoc(ks[1..], x, k);
    }
  }

  /** A store under `k` leaves every other key's value alone. */
  lemma PutOther<V>(d: Dict<V>, k: string, v: V, k': string)
    requires k' != k
    ensures Get(Put(d, k, v), k') == Get(d, k')
  {
    var r := Put(d, k, v);
    if k !in KeySet(d) && k' in Keys(d) {
      FindSnoc(Keys(d), k, k');
    }
  }

  /** `d.update(e)`: every pair of `e` stored in order. */
  function Update<V>(d: Dict<V>, e: seq<(string, V)>): (r: Dict<V>)
    ensures KeySet(r) == KeySet(d) + KeySet(e)
    ensures Unique(d) ==> Unique(r)
    ensures |r| <= |d| + |e|
    decreases |e|
  {
    if |e| == 0 then d
    else
      assert Keys(e) == [e[0].0] + Keys(e[1..]);
      Update(Put(d, e[0].0, e[0].1), e[1..])
  }

  /** The value of the last pair of `ps` whose key is `k`, or `dflt` when none. */
  function LastValue<V>(ps: seq<(string, V)>, k: string, dflt: Option<V>): Option<V>
    decreases |ps|
  {
    if |ps| == 0 then dflt
    else LastValue(ps[1..], k, if ps[0].0 == k then Some(ps[0].1) else dflt)
  }

  /** After `d.update(e)` a key holds its value from the last pair of `e`
      that carries it, and its old value when `e` does not carry it. */
  lemma {:induction false} UpdateGet<V>(d: Dict<V>, e: seq<(string, V)>, k: string)
    ensures Get(Update(d, e), k) == LastValue(e, k, Get(d, k))
    decreases |e|
  {
    if |e| > 0 {
      var d' := Put(d, e[0].0, e[0].1);
      UpdateGet(d', e[1..], k);
      if k != e[0].0 {
        PutOther(d, e[0].0, e[0].1, k);
      }
    }
  }

  /** When no key repeats, the last value of a key is its only value. */
  lemma {:induction false} LastValueUnique<V>(ps: seq<(string, V)>, k: string, dflt: Option<V>)
    requires Unique(ps)
    ensures LastValue(ps, k, dflt) == if k in KeySet(ps) then Get(ps, k) else dflt
    decreases |ps|
  {
    if |ps| > 0 {
      var rest := ps[1..];
      assert Keys(ps) == [ps[0].0] + Keys(rest);
      assert Unique(rest);
      var dflt' := if ps[0].0 == k then Some(ps[0].1) else dflt;
      LastValueUnique(rest, k, dflt');
      if ps[0].0 != k {
        assert Find(Keys(ps), k) == 1 + Find(Keys(rest), k);
      }
    }
  }

  /** A key no pair carries keeps the default. */
  lemma {:induction false} LastValueAbsent<V>(ps: seq<(string, V)>, k: string, dflt: Option<V>)
    requires k !in KeySet(ps)
    ensures LastValue(ps, k, dflt) == dflt
    decreases |ps|
  {
    if |ps| > 0 {
      assert Keys(ps) == [ps[0].0] + Keys(ps[1..]);
      LastValueAbsent(ps[1..], k, dflt);
    }
  }

  /** The pair at `i` is the last to carry its key, so its value wins. */
  lemma {:induction false} LastValueAt<V>(ps: seq<(string, V)>, i: nat, dflt: Option<V>)
    requires i < |ps|
    requires forall j :: i < j < |ps| ==> ps[j].0 != ps[i].0
    ensures LastValue(ps, ps[i].0, dflt) == Some(ps[i].1)
    decreases |ps|
  {
    var k := ps[i].0;
    var d' := if ps[0].0 == k then Some(ps[0].1) else dflt;
    if i == 0 {
      forall j | 0 <= j < |ps| - 1 ensures Keys(ps[1..])[j] != k {
        assert ps[1..][j] == ps[j + 1];
      }
      LastValueAbsent(ps[1..], k, d');
    } else {
      assert ps[1..][i - 1] == ps[i];
      forall j | i - 1 < j < |ps| - 1 ensures ps[1..][j].0 != k {
        assert ps[1..][j] == ps[j + 1];
      }
      LastValueAt(ps[1..], i - 1, d');
    }
  }

  /** In a dict comprehension the last pair carrying a key sets its value. */
  lemma FromPairsLast<V>(ps: seq<(string, V)>, i: nat)
    requires i < |ps|
    requires forall j :: i < j < |ps| ==> ps[j].0 != ps[i].0
    ensures Get(FromPairs(ps), ps[i].0) == Some(ps[i].1)
  {
    UpdateGet([], ps, ps[i].0);
    LastValueAt(ps, i, None);
  }

  /** `d.update(e)` for an `e` that is itself a dict: keys of `e` take their
      value in `e`, the others keep theirs. */
  lemma UpdateGetDict<V>(d: Dict<V>, e: Dict<V>, k: string)
    requires Unique(e)
    ensures Get(Update(d, e), k) == if k in KeySet(e) then Get(e, k) else Get(d, k)
  {
    UpdateGet(d, e, k);
    LastValueUnique(e, k, Get(d, k));
  }

  /** Updating with one more pair is one more store. */
  lemma {:induction false} UpdateSnoc<V>(d: Dict<V>, e: seq<(string, V)>, x: (string, V))
    ensures Update(d, e + [x]) == Put(Update(d, e), x.0, x.1)
    decreases |e|
  {
    if |e| == 0 {
      assert ([] + [x])[1..] == [];
    } else {
      assert (e + [x])[1..] == e[1..] + [x];
      UpdateSnoc(Put(d, e[0].0, e[0].1), e[1..], x);
    }
  }

  /** A dict comprehension `{k: v for (k, v) in ps}` over computed pairs. */
  function FromPairs<V>(ps: seq<(string, V)>): (r: Dict<V>)
    ensures KeySet(r) == KeySet(ps)
    ensures Unique(r)
    ensures |r| <= |ps|
    ensures forall k :: Get(r, k) == LastValue(ps, k, None)
  {
    UpdateGetAll([], ps);
    Update([], ps)
  }

  /** `UpdateGet` for every key at once. */
  lemma UpdateGetAll<V>(d: Dict<V>, e: seq<(string, V)>)
    ensures forall k :: Get(Update(d, e), k) == LastValue(e, k, Get(d, k))
  {
    forall k ensures Get(Update(d, e), k) == LastValue(e, k, Get(d, k)) {
      UpdateGet(d, e, k);
    }
  }

  /** Stores of fresh, pairwise distinct keys simply append. */
  lemma {:induction false} UpdateFresh<V>(d: Dict<V>, e: seq<(string, V)>)
    requires Unique(d + e)
    ensures Update(d, e) == d + e
    decreases |e|
  {
    if |e| > 0 {
      assert Keys(d + e) == Keys(d) + Keys(e);
      forall i | 0 <= i < |d| ensures Keys(d)[i] != e[0].0 {
        assert Keys(d + e)[i] != Keys(d + e)[|d|];
      }
      assert (d + [e[0]]) + e[1..] == d + e;
      assert Keys(d + [e[0]] + e[1..]) == Keys(d + e);
      UpdateFresh(d + [e[0]], e[1..]);
    }
  }

  /** `for k, v in e.items(): if k not in d: d[k] = v` -- only absent keys
      are added. */
  function AddAbsent<V>(d: Dict<V>, e: seq<(string, V)>): (r: Dict<V>)
    ensures KeySet(r) == KeySet(d) + KeySet(e)
    ensures Unique(d) ==> Unique(r)
    ensures |r| <= |d| + |e|
    decreases |e|
  {
    if |e| == 0 then d
    else
      assert Keys(e) == [e[0].0] + Keys(e[1..]);
      var d' := if e[0].0 in KeySet(d) then d else Put(d, e[0].0, e[0].1);
      AddAbsent(d', e[1..])
  }

  /** Keys already present keep their value under `AddAbsent`. */
  lemma {:induction false} AddAbsentKeeps<V>(d: Dict<V>, e: seq<(string, V)>, k: string)
    requires k in KeySet(d)
    ensures Get(AddAbsent(d, e), k) == Get(d, k)
    decreases |e|
  {
    if |e| > 0 {
      var d' := if e[0].0 in KeySet(d) then d else Put(d, e[0].0, e[0].1);
      if e[0].0 !in KeySet(d) {
        PutOther(d, e[0].0, e[0].1, k);
      }
      AddAbsentKeeps(d', e[1..], k);
    }
  }

  /** `GetCons` for a non-empty dictionary. */
  lemma GetFirst<V>(e: Dict<V>, k: string)
    requires |e| > 0
    ensures Get(e, k) == if e[0].0 == k then Some(e[0].1) else Get(e[1..], k)
  {
    assert e == [e[0]] + e[1..];
    GetCons(e[0], e[1..], k);
  }

  /** An absent key takes its first value in `e` under `AddAbsent`. */
  lemma {:induction false} AddAbsentAdds<V>(d: Dict<V>, e: seq<(string, V)>, k: string)
    requires k !in KeySet(d)
    ensures Get(AddAbsent(d, e), k) == Get(e, k)
    decreases |e|
  {
    if |e| > 0 {
      var h, rest := e[0], e[1..];
      var d' := if h.0 in KeySet(d) then d else Put(d, h.0, h.1);
      GetFirst(e, k);
      assert AddAbsent(d, e) == AddAbsent(d', rest);
      if k == h.0 {
        AddAbsentKeeps(d', rest, k);
      } else {
        assert k !in KeySet(d');
        AddAbsentAdds(d', rest, k);
      }
    }
  }

  /** `{k: v for k, v in d.items() if p(k)}`. */
  function FilterKeys<V>(d: Dict<V>, p: string -> bool): (r: Dict<V>)
    ensures |r| <= |d|
    ensures forall i :: 0 <= i < |r| ==> p(r[i].0)
    ensures KeySet(r) == set k | k in KeySet(d) && p(k)
    ensures forall k :: p(k) ==> Get(r, k) == Get(d, k)
    decreases |d|
  {
    if |d| == 0 then []
    else
      var t := FilterKeys(d[1..], p);
      FilterStep(d, p, t);
      if p(d[0].0) then [d[0]] + t else t
  }

  /** One step of `FilterKeys`: what holds of the filtered tail carries
      over to the whole dict. */
  lemma FilterStep<V>(d: Dict<V>, p: string -> bool, t: Dict<V>)
    requires |d| > 0
    requires KeySet(t) == set k | k in KeySet(d[1..]) && p(k)
    requires forall k :: p(k) ==> Get(t, k) == Get(d[1..], k)
    ensures var r := if p(d[0].0) then [d[0]] + t else t;
      && KeySet(r) == (set k | k in KeySet(d) && p(k))
      && forall k :: p(k) ==> Get(r, k) == Get(d, k)
  {
    assert d == [d[0]] + d[1..];
    KeySetCons(d[0], d[1..]);
    KeySetCons(d[0], t);
    GetConsAll(d[0], d[1..]);
    GetConsAll(d[0], t);
  }

  /** A dict's length is the number of its distinct keys. */
  lemma {:induction false} UniqueSize<V>(d: Dict<V>)
    requires Unique(d)
    ensures |KeySet(d)| == |d|
    decreases |d|
  {
    if |d| > 0 {
      var last := |d| - 1;
      var init := d[..last];
      assert Keys(d) == Keys(init) + [d[last].0];
      assert Unique(init);
      UniqueSize(init);
      assert d[last].0 !in Keys(init) by {
        forall i | 0 <= i < last ensures Keys(init)[i] != d[last].0 {
          assert Keys(d)[i] != Keys(d)[last];
        }
      }
      assert KeySet(d) == KeySet(init) + {d[last].0};
    }
  }
}

=== FILE: execution.dfy ===
/** Running a batch of tool calls: the worker that executes one call and
    never raises, the collection of the workers' results into a map keyed by
    call id, the preparation of each call (argument parsing, tool lookup,
    serialisation), the execution mode with its process-to-thread fallback,
    and the rebuilding of the chat history from the results.
    Pools are a sequential map over the submitted tasks: a pool either fails
    as a whole when the tasks are submitted, or runs each task, where a
    task's future may still raise. */
module Execution {
  import opened Outcomes
  import opened Strs
  import opened Dicts
  import opened Values
  import opened Tools
  import opened Registry

  /** A tool call as the chat API delivers it; the id and the function name
      may be missing from a malformed object. */
  datatype ToolCall = ToolCall(id: Option<string>, name: Option<string>, arguments: string)

  /** A submitted task: the serialised callable (None when there is none to
      send), the call id, the function name and the parsed arguments. */
  datatype Task = Task(payload: Option<Callable>, callId: string, fname: string, args: Args)

  // ------------------------------------------------------------------ worker

  function NotFound(fname: string): Value {
    Str("Error: Tool '" + fname + "' not found or callable is None")
  }

  /** What `json.dumps` accepts without raising. */
  predicate Serialisable(v: Value) {
    v.J? || v.dumps.DumpsOk?
  }

  /** The JSON check after the call: a TypeError from `json.dumps` replaces
      the result by its `str()`, any other error escapes to the outer
      handler. */
  function JsonChecked(fname: string, v: Value): (r: Value)
    ensures Serialisable(r)
    ensures Serialisable(v) ==> r == v
    ensures v.Obj? && v.dumps.DumpsTypeError? ==> r == Str(v.repr)
    ensures v.Obj? && v.dumps.DumpsRaises? ==> r == ExecError(fname, v.dumps.msg)
  {
    if v.J? then v
    else
      match v.dumps
      case DumpsOk => v
      case DumpsTypeError => Str(v.repr)
      case DumpsRaises(m) => ExecError(fname, m)
  }

  /** `_process_tool_call_helper`: returns the call id it was given with a
      result that `json.dumps` accepts.  An absent payload gives the
      not-found string; a failure to deserialise or an exception from the
      call (or awaiting it) gives the execution error string; otherwise the
      callable's result, or its `str()` when JSON rejects it. */
  function ProcessToolCall(t: Task): (r: (string, Value))
    ensures r.0 == t.callId
    ensures Serialisable(r.1)
    ensures t.payload.None? ==> r.1 == NotFound(t.fname)
    ensures t.payload.Some? && t.payload.value.loadsError.Some? ==>
      r.1 == ExecError(t.fname, t.payload.value.loadsError.value)
    ensures t.payload.Some? && t.payload.value.loadsError.None? ==>
      var o := t.payload.value.invoke(t.args);
      && (o.Raises? ==> r.1 == ExecError(t.fname, o.msg))
      && (o.Returns? && Serialisable(o.v) ==> r.1 == o.v)
      && (o.Returns? && o.v.Obj? && o.v.dumps.DumpsTypeError? ==> r.1 == Str(o.v.repr))
      && (o.Returns? && o.v.Obj? && o.v.dumps.DumpsRaises? ==> r.1 == ExecError(t.fname, o.v.dumps.msg))
  {
    match t.payload
    case None => (t.callId, NotFound(t.fname))
    case Some(f) =>
      if f.loadsError.Some? then (t.callId, ExecError(t.fname, f.loadsError.value))
      else
        match f.invoke(t.args)
        case Raises(m) => (t.callId, ExecError(t.fname, m))
        case Returns(v) => (t.callId, JsonChecked(t.fname, v))
  }

  // ------------------------------------------------------------- collection

  /** A worker pool: `broken` is the exception raised while submitting (the
      whole batch fails); `futureError` the exception a task's future raises
      instead of returning the worker's pair. */
  datatype Pool = Pool(broken: Option<string>, futureError: Task -> Option<string>)

  /** A pool that runs every task. */
  function Healthy(): Pool {
    Pool(None, (t: Task) => None)
  }

  /** The assignments the collection loop makes, in submission order. */
  function Responses(pool: Pool, tasks: seq<Task>): (ps: seq<(string, Value)>)
    ensures |ps| == |tasks|
    ensures forall i :: 0 <= i < |tasks| ==> ps[i].0 == tasks[i].callId
    ensures forall i :: 0 <= i < |tasks| ==>
      ps[i].1 == (if pool.futureError(tasks[i]).Some?
                  then Str("Error executing tool call: " + pool.futureError(tasks[i]).value)
                  else ProcessToolCall(tasks[i]).1)
  {
    seq(|tasks|, i requires 0 <= i < |tasks| => (tasks[i].callId, Collected(pool, tasks[i])))
  }

  /** What the collection loop stores for one task. */
  function Collected(pool: Pool, t: Task): Value {
    match pool.futureError(t)
    case Some(m) => Str("Error executing tool call: " + m)
    case None => ProcessToolCall(t).1
  }

  function CallIds(tasks: seq<Task>): set<string> {
    set i | 0 <= i < |tasks| :: tasks[i].callId
  }

  /** `_execute_tool_calls_parallel`: one entry per distinct submitted id. */
  function ExecuteParallel(pool: Pool, tasks: seq<Task>): (r: Result<Dict<Value>>)
    ensures r.Err? <==> pool.broken.Some? && |tasks| > 0
    ensures r.Ok? ==> KeySet(r.value) == CallIds(tasks) && Unique(r.value) && |r.value| <= |tasks|
  {
    if pool.broken.Some? && |tasks| > 0 then Err(Error(OtherError, pool.broken.value))
    else
      var ps := Responses(pool, tasks);
      assert KeySet(ps) == CallIds(tasks) by {
        forall k | k in KeySet(ps) ensures k in CallIds(tasks) {
          var i :| 0 <= i < |ps| && Keys(ps)[i] == k;
          assert tasks[i].callId == k;
        }
        forall k | k in CallIds(tasks) ensures k in KeySet(ps) {
          var i :| 0 <= i < |tasks| && tasks[i].callId == k;
          assert Keys(ps)[i] == k;
        }
      }
      Ok(FromPairs(ps))
  }

  /** A task's id holds the result of the last task submitted under that id:
      later duplicates overwrite earlier ones. */
  lemma CollectLastWins(pool: Pool, tasks: seq<Task>, i: nat)
    requires ExecuteParallel(pool, tasks).Ok?
    requires i < |tasks|
    requires forall j :: i < j < |tasks| ==> tasks[j].callId != tasks[i].callId
    ensures Get(ExecuteParallel(pool, tasks).value, tasks[i].callId) == Some(Responses(pool, tasks)[i].1)
  {
    FromPairsLast(Responses(pool, tasks), i);
  }

  /** With a healthy pool and distinct ids, every task's id maps to exactly
      what the worker returned for it. */
  lemma CollectHealthy(tasks: seq<Task>, i: nat)
    requires i < |tasks|
    requires forall j :: 0 <= j < |tasks| && j != i ==> tasks[j].callId != tasks[i].callId
    ensures Get(ExecuteParallel(Healthy(), tasks).value, tasks[i].callId) == Some(ProcessToolCall(tasks[i]).1)
  {
    CollectLastWins(Healthy(), tasks, i);
  }

  // ------------------------------------------------------------ preparation

  /** Preparing one call, in the order the code reads it: the function name,
      the parsed arguments, the id, the tool lookup, then serialisation
      (skipped when `serialise` is false or no callable was found). */
  function PrepareOne(lookup: string -> Result<Option<Tool>>, serialise: bool,
                      loads: string -> Result<Args>, c: ToolCall): (r: Result<Task>)
    ensures r.Ok? ==> c.name.Some? && c.id.Some? && loads(c.arguments).Ok? && lookup(c.name.value).Ok?
    ensures r.Ok? ==> r.value.callId == c.id.value && r.value.fname == c.name.value
    ensures r.Ok? ==> r.value.args == loads(c.arguments).value
    ensures r.Ok? ==> (r.value.payload.Some? <==> serialise && lookup(c.name.value).value.Some?)
    ensures r.Ok? && r.value.payload.Some? ==> r.value.payload.value == lookup(c.name.value).value.value.callable
    ensures (c.name.Some? && c.id.Some? && loads(c.arguments).Ok? && lookup(c.name.value).Ok? &&
             !(serialise && lookup(c.name.value).value.Some? && lookup(c.name.value).value.value.callable.dumpsError.Some?))
            ==> r.Ok?
  {
    if c.name.None? then Err(Error(AttributeError, "'Function' object has no attribute 'name'"))
    else
      match loads(c.arguments)
      case Err(e) => Err(e)
      case Ok(args) =>
        if c.id.None? then Err(Error(AttributeError, "'ChatCompletionMessageToolCall' object has no attribute 'id'"))
        else
          match lookup(c.name.value)
          case Err(e) => Err(e)
          case Ok(tool) =>
            if tool.Some? && serialise then
              var f := tool.value.callable;
              if f.dumpsError.Some? then Err(Error(OtherError, f.dumpsError.value))
              else Ok(Task(Some(f), c.id.value, c.name.value, args))
            else Ok(Task(None, c.id.value, c.name.value, args))
  }

  /** The entry a failed preparation records: under the id, or "unknown_id". */
  function PrepError(c: ToolCall, e: Error): (string, Value) {
    (c.id.GetOr("unknown_id"), Str("Error preparing tool call " + c.name.GetOr("unknown_name") + ": " + e.msg))
  }

  /** The tasks that survive preparation, in call order. */
  function Submitted(lookup: string -> Result<Option<Tool>>, serialise: bool,
                     loads: string -> Result<Args>, calls: seq<ToolCall>): (ts: seq<Task>)
    ensures |ts| <= |calls|
  {
    if |calls| == 0 then []
    else
      var rest := Submitted(lookup, serialise, loads, calls[1..]);
      match PrepareOne(lookup, serialise, loads, calls[0])
      case Ok(t) => [t] + rest
      case Err(_) => rest
  }

  /** Every submitted task is what some call prepared into. */
  lemma {:induction false} SubmittedSound(lookup: string -> Result<Option<Tool>>, serialise: bool,
                                          loads: string -> Result<Args>, calls: seq<ToolCall>, t: Task)
    requires t in Submitted(lookup, serialise, loads, calls)
    ensures exists i :: 0 <= i < |calls| && PrepareOne(lookup, serialise, loads, calls[i]) == Ok(t)
    decreases |calls|
  {
    if PrepareOne(lookup, serialise, loads, calls[0]) == Ok(t) {
      assert 0 < |calls|;
    } else {
      SubmittedSound(lookup, serialise, loads, calls[1..], t);
      var i :| 0 <= i < |calls[1..]| && PrepareOne(lookup, serialise, loads, calls[1..][i]) == Ok(t);
      assert calls[1..][i] == calls[i + 1];
    }
  }

  /** The preparation errors, in call order. */
  function PrepErrors(lookup: string -> Result<Option<Tool>>, serialise: bool,
                      loads: string -> Result<Args>, calls: seq<ToolCall>): (es: seq<(string, Value)>)
    ensures |es| + |Submitted(lookup, serialise, loads, calls)| == |calls|
  {
    if |calls| == 0 then []
    else
      var rest := PrepErrors(lookup, serialise, loads, calls[1..]);
      match PrepareOne(lookup, serialise, loads, calls[0])
      case Ok(_) => rest
      case Err(e) => [PrepError(calls[0], e)] + rest
  }

  /** The response-map entry a call that fails preparation leaves. */
  function FailEntry(lookup: string -> Result<Option<Tool>>, serialise: bool,
                     loads: string -> Result<Args>, c: ToolCall): (string, Value)
    requires PrepareOne(lookup, serialise, loads, c).Err?
  {
    PrepError(c, PrepareOne(lookup, serialise, loads, c).error)
  }

  /** Call `i` fails preparation, and no failing call among the first `n`
      after it leaves an entry under the same key. */
  ghost predicate LastFailure(lookup: string -> Result<Option<Tool>>, serialise: bool,
                        loads: string -> Result<Args>, calls: seq<ToolCall>, i: int, n: int)
    requires n <= |calls|
  {
    0 <= i < n && PrepareOne(lookup, serialise, loads, calls[i]).Err? &&
    forall j :: i < j < n && PrepareOne(lookup, serialise, loads, calls[j]).Err? ==>
      FailEntry(lookup, serialise, loads, calls[j]).0 != FailEntry(lookup, serialise, loads, calls[i]).0
  }

  lemma {:induction false} SubmittedSnoc(lookup: string -> Result<Option<Tool>>, serialise: bool,
                                         loads: string -> Result<Args>, cs: seq<ToolCall>, c: ToolCall)
    ensures Submitted(lookup, serialise, loads, cs + [c]) ==
      Submitted(lookup, serialise, loads, cs) +
      (if PrepareOne(lookup, serialise, loads, c).Ok? then [PrepareOne(lookup, serialise, loads, c).value] else [])
    ensures PrepErrors(lookup, serialise, loads, cs + [c]) ==
      PrepErrors(lookup, serialise, loads, cs) +
      (if PrepareOne(lookup, serialise, loads, c).Err? then [FailEntry(lookup, serialise, loads, c)] else [])
    decreases |cs|
  {
    if |cs| == 0 {
      assert ([] + [c])[1..] == [];
    } else {
      assert (cs + [c])[1..] == cs[1..] + [c];
      SubmittedSnoc(lookup, serialise, loads, cs[1..], c);
    }
  }

  /** `SubmittedSnoc` for the prefixes of one call list. */
  lemma SubmittedStep(lookup: string -> Result<Option<Tool>>, serialise: bool,
                      loads: string -> Result<Args>, calls: seq<ToolCall>, i: nat)
    requires i < |calls|
    ensures Submitted(lookup, serialise, loads, calls[..i + 1]) ==
      Submitted(lookup, serialise, loads, calls[..i]) +
      (if PrepareOne(lookup, serialise, loads, calls[i]).Ok? then [PrepareOne(lookup, serialise, loads, calls[i]).value] else [])
    ensures PrepErrors(lookup, serialise, loads, calls[..i + 1]) ==
      PrepErrors(lookup, serialise, loads, calls[..i]) +
      (if PrepareOne(lookup, serialise, loads, calls[i]).Err? then [FailEntry(lookup, serialise, loads, calls[i])] else [])
  {
    assert calls[..i + 1] == calls[..i] + [calls[i]];
    SubmittedSnoc(lookup, serialise, loads, calls[..i], calls[i]);
  }

  /** A failing call stores its entry over the error map of the calls before it. */
  lemma PrepErrorsStep(lookup: string -> Result<Option<Tool>>, serialise: bool,
                       loads: string -> Result<Args>, calls: seq<ToolCall>, i: nat)
    requires i < |calls| && PrepareOne(lookup, serialise, loads, calls[i]).Err?
    ensures var x := FailEntry(lookup, serialise, loads, calls[i]);
      FromPairs(PrepErrors(lookup, serialise, loads, calls[..i + 1])) ==
      Put(FromPairs(PrepErrors(lookup, serialise, loads, calls[..i])), x.0, x.1)
  {
    SubmittedStep(lookup, serialise, loads, calls, i);
    UpdateSnoc([], PrepErrors(lookup, serialise, loads, calls[..i]), FailEntry(lookup, serialise, loads, calls[i]));
  }

  /** How many of the first `n` calls prepare successfully. */
  function OkCount(lookup: string -> Result<Option<Tool>>, serialise: bool, loads: string -> Result<Args>,
                   calls: seq<ToolCall>, n: nat): nat
    requires n <= |calls|
  {
    if n == 0 then 0
    else
      var here := if PrepareOne(lookup, serialise, loads, calls[n - 1]).Ok? then 1 else 0;
      OkCount(lookup, serialise, loads, calls, n - 1) + here
  }

  /** `tasks` are the outcomes of the first `n` calls that prepare
      successfully, one per such call and in call order; `origin` says
      which call each came from. */
  ghost predicate TasksSoFar(lookup: string -> Result<Option<Tool>>, serialise: bool, loads: string -> Result<Args>,
                             calls: seq<ToolCall>, n: int, tasks: seq<Task>, origin: seq<nat>)
    requires 0 <= n <= |calls|
  {
    && |origin| == |tasks| == OkCount(lookup, serialise, loads, calls, n)
    && (forall k :: 0 <= k < |tasks| ==>
          origin[k] < n && PrepareOne(lookup, serialise, loads, calls[origin[k]]) == Ok(tasks[k]))
    && (forall k, l :: 0 <= k < l < |tasks| ==> origin[k] < origin[l])
  }

  /** `errors` holds an entry for exactly the keys the failing calls among
      the first `n` leave, each with the value of the last such call. */
  ghost predicate ErrorsSoFar(lookup: string -> Result<Option<Tool>>, serialise: bool, loads: string -> Result<Args>,
                        calls: seq<ToolCall>, n: int, errors: Dict<Value>)
    requires 0 <= n <= |calls|
  {
    && Unique(errors)
    && (forall j :: 0 <= j < n && PrepareOne(lookup, serialise, loads, calls[j]).Err? ==>
          FailEntry(lookup, serialise, loads, calls[j]).0 in KeySet(errors))
    && (forall k :: k in KeySet(errors) ==>
          (exists j :: 0 <= j < n && PrepareOne(lookup, serialise, loads, calls[j]).Err? &&
                       FailEntry(lookup, serialise, loads, calls[j]).0 == k))
    && (forall j :: LastFailure(lookup, serialise, loads, calls, j, n) ==>
          Get(errors, FailEntry(lookup, serialise, loads, calls[j]).0) == Some(FailEntry(lookup, serialise, loads, calls[j]).1))
  }

  lemma TasksStep(lookup: string -> Result<Option<Tool>>, serialise: bool, loads: string -> Result<Args>,
                  calls: seq<ToolCall>, n: nat, tasks: seq<Task>, origin: seq<nat>)
    requires n < |calls| && TasksSoFar(lookup, serialise, loads, calls, n, tasks, origin)
    ensures PrepareOne(lookup, serialise, loads, calls[n]).Ok? ==>
      TasksSoFar(lookup, serialise, loads, calls, n + 1, tasks + [PrepareOne(lookup, serialise, loads, calls[n]).value], origin + [n])
    ensures PrepareOne(lookup, serialise, loads, calls[n]).Err? ==>
      TasksSoFar(lookup, serialise, loads, calls, n + 1, tasks, origin)
  {
  }

  lemma ErrorsStepOk(lookup: string -> Result<Option<Tool>>, serialise: bool, loads: string -> Result<Args>,
                     calls: seq<ToolCall>, n: nat, errors: Dict<Value>)
    requires n < |calls| && ErrorsSoFar(lookup, serialise, loads, calls, n, errors)
    requires PrepareOne(lookup, serialise, loads, calls[n]).Ok?
    ensures ErrorsSoFar(lookup, serialise, loads, calls, n + 1, errors)
  {
    forall j | LastFailure(lookup, serialise, loads, calls, j, n + 1)
      ensures LastFailure(lookup, serialise, loads, calls, j, n) {}
  }

  lemma ErrorsStepErr(lookup: string -> Result<Option<Tool>>, serialise: bool, loads: string -> Result<Args>,
                      calls: seq<ToolCall>, n: nat, errors: Dict<Value>, x: (string, Value))
    requires n < |calls| && ErrorsSoFar(lookup, serialise, loads, calls, n, errors)
    requires PrepareOne(lookup, serialise, loads, calls[n]).Err? && x == FailEntry(lookup, serialise, loads, calls[n])
    ensures ErrorsSoFar(lookup, serialise, loads, calls, n + 1, Put(errors, x.0, x.1))
  {
    ErrorKeysStep(lookup, serialise, loads, calls, n, errors);
    ErrorValuesStep(lookup, serialise, loads, calls, n, errors);
  }

  lemma ErrorKeysStep(lookup: string -> Result<Option<Tool>>, serialise: bool, loads: string -> Result<Args>,
                      calls: seq<ToolCall>, n: nat, errors: Dict<Value>)
    requires n < |calls| && PrepareOne(lookup, serialise, loads, calls[n]).Err?
    requires forall k :: k in KeySet(errors) ==>
      (exists j :: 0 <= j < n && PrepareOne(lookup, serialise, loads, calls[j]).Err? &&
                   FailEntry(lookup, serialise, loads, calls[j]).0 == k)
    ensures var x := FailEntry(lookup, serialise, loads, calls[n]);
      forall k :: k in KeySet(Put(errors, x.0, x.1)) ==>
        (exists j :: 0 <= j < n + 1 && PrepareOne(lookup, serialise, loads, calls[j]).Err? &&
                     FailEntry(lookup, serialise, loads, calls[j]).0 == k)
  {
    var x := FailEntry(lookup, serialise, loads, calls[n]);
    forall k | k in KeySet(Put(errors, x.0, x.1))
      ensures exists j :: 0 <= j < n + 1 && PrepareOne(lookup, serialise, loads, calls[j]).Err? &&
                          FailEntry(lookup, serialise, loads, calls[j]).0 == k
    {
      if k != x.0 {
        var j :| 0 <= j < n && PrepareOne(lookup, serialise, loads, calls[j]).Err? &&
                 FailEntry(lookup, serialise, loads, calls[j]).0 == k;
      }
    }
  }

  lemma ErrorValuesStep(lookup: string -> Result<Option<Tool>>, serialise: bool, loads: string -> Result<Args>,
                        calls: seq<ToolCall>, n: nat, errors: Dict<Value>)
    requires n < |calls| && PrepareOne(lookup, serialise, loads, calls[n]).Err?
    requires forall j :: LastFailure(lookup, serialise, loads, calls, j, n) ==>
      Get(errors, FailEntry(lookup, serialise, loads, calls[j]).0) == Some(FailEntry(lookup, serialise, loads, calls[j]).1)
    ensures var x := FailEntry(lookup, serialise, loads, calls[n]);
      forall j :: LastFailure(lookup, serialise, loads, calls, j, n + 1) ==>
        Get(Put(errors, x.0, x.1), FailEntry(lookup, serialise, loads, calls[j]).0) ==
          Some(FailEntry(lookup, serialise, loads, calls[j]).1)
  {
    var x := FailEntry(lookup, serialise, loads, calls[n]);
    PutOthers(errors, x.0, x.1);
    forall j | LastFailure(lookup, serialise, loads, calls, j, n + 1)
      ensures Get(Put(errors, x.0, x.1), FailEntry(lookup, serialise, loads, calls[j]).0) ==
                Some(FailEntry(lookup, serialise, loads, calls[j]).1)
    {
      if j < n {
        assert LastFailure(lookup, serialise, loads, calls, j, n);
      }
    }
  }

  /** The tasks of the first `n` calls, characterised call by call:
      `origin` names the call each surviving task came from. */
  lemma {:induction false} SubmittedPrefix(lookup: string -> Result<Option<Tool>>, serialise: bool,
                                           loads: string -> Result<Args>, calls: seq<ToolCall>, n: nat)
    returns (origin: seq<nat>)
    requires n <= |calls|
    ensures TasksSoFar(lookup, serialise, loads, calls, n, Submitted(lookup, serialise, loads, calls[..n]), origin)
    decreases n
  {
    if n == 0 {
      assert calls[..0] == [];
      origin := [];
    } else {
      var m := n - 1;
      SubmittedStep(lookup, serialise, loads, calls, m);
      var o := SubmittedPrefix(lookup, serialise, loads, calls, m);
      TasksStep(lookup, serialise, loads, calls, m, Submitted(lookup, serialise, loads, calls[..m]), o);
      origin := if PrepareOne(lookup, serialise, loads, calls[m]).Ok? then o + [m] else o;
    }
  }

  /** The error map of the first `n` calls, characterised call by call. */
  lemma {:induction false} PrepErrorsPrefix(lookup: string -> Result<Option<Tool>>, serialise: bool,
                                            loads: string -> Result<Args>, calls: seq<ToolCall>, n: nat)
    requires n <= |calls|
    ensures ErrorsSoFar(lookup, serialise, loads, calls, n, FromPairs(PrepErrors(lookup, serialise, loads, calls[..n])))
    decreases n
  {
    if n == 0 {
      assert calls[..0] == [];
    } else {
      var m := n - 1;
      var c := calls[m];
      SubmittedStep(lookup, serialise, loads, calls, m);
      PrepErrorsPrefix(lookup, serialise, loads, calls, m);
      var es := PrepErrors(lookup, serialise, loads, calls[..m]);
      if PrepareOne(lookup, serialise, loads, c).Ok? {
        assert PrepErrors(lookup, serialise, loads, calls[..n]) == es;
        ErrorsStepOk(lookup, serialise, loads, calls, m, FromPairs(es));
      } else {
        var x := FailEntry(lookup, serialise, loads, c);
        assert PrepErrors(lookup, serialise, loads, calls[..n]) == es + [x];
        UpdateSnoc([], es, x);
        ErrorsStepErr(lookup, serialise, loads, calls, m, FromPairs(es), x);
      }
    }
  }

  /** `Submitted` and `PrepErrors` over all the calls, characterised call by call. */
  lemma PreparedWhole(lookup: string -> Result<Option<Tool>>, serialise: bool,
                      loads: string -> Result<Args>, calls: seq<ToolCall>)
    returns (origin: seq<nat>)
    ensures TasksSoFar(lookup, serialise, loads, calls, |calls|, Submitted(lookup, serialise, loads, calls), origin)
    ensures ErrorsSoFar(lookup, serialise, loads, calls, |calls|, FromPairs(PrepErrors(lookup, serialise, loads, calls)))
  {
    assert calls[..|calls|] == calls;
    origin := SubmittedPrefix(lookup, serialise, loads, calls, |calls|);
    PrepErrorsPrefix(lookup, serialise, loads, calls, |calls|);
  }

  /** One turn of the preparation loop: call `i` joins the tasks, or its
      error entry is stored in the response map. */
  method PrepareNext(lookup: string -> Result<Option<Tool>>, serialise: bool,
                     loads: string -> Result<Args>, calls: seq<ToolCall>, i: nat,
                     tasks: seq<Task>, errors: Dict<Value>)
    returns (tasks': seq<Task>, errors': Dict<Value>)
    requires i < |calls|
    requires tasks == Submitted(lookup, serialise, loads, calls[..i])
    requires errors == FromPairs(PrepErrors(lookup, serialise, loads, calls[..i]))
    ensures tasks' == Submitted(lookup, serialise, loads, calls[..i + 1])
    ensures errors' == FromPairs(PrepErrors(lookup, serialise, loads, calls[..i + 1]))
  {
    SubmittedStep(lookup, serialise, loads, calls, i);
    match PrepareOne(lookup, serialise, loads, calls[i]) {
      case Ok(t) =>
        assert PrepErrors(lookup, serialise, loads, calls[..i + 1]) == PrepErrors(lookup, serialise, loads, calls[..i]);
        tasks', errors' := tasks + [t], errors;
      case Err(e) =>
        PrepErrorsStep(lookup, serialise, loads, calls, i);
        var entry := PrepError(calls[i], e);
        tasks', errors' := tasks, Put(errors, entry.0, entry.1);
    }
  }

  /** The preparation loop of `execute_tool_calls`: each call in turn joins
      the tasks, or stores its error entry in the response map (a later
      failure under the same key overwrites an earlier one).  The outcome is
      the one `Submitted` and `PrepErrors` describe. */
  method Prepare(lookup: string -> Result<Option<Tool>>, serialise: bool,
                 loads: string -> Result<Args>, calls: seq<ToolCall>)
    returns (tasks: seq<Task>, errors: Dict<Value>, ghost origin: seq<nat>)
    ensures TasksSoFar(lookup, serialise, loads, calls, |calls|, tasks, origin)
    ensures ErrorsSoFar(lookup, serialise, loads, calls, |calls|, errors)
    ensures tasks == Submitted(lookup, serialise, loads, calls)
    ensures errors == FromPairs(PrepErrors(lookup, serialise, loads, calls))
  {
    tasks, errors := [], [];
    var i := 0;
    while i < |calls|
      invariant 0 <= i <= |calls|
      invariant tasks == Submitted(lookup, serialise, loads, calls[..i])
      invariant errors == FromPairs(PrepErrors(lookup, serialise, loads, calls[..i]))
    {
      tasks, errors := PrepareNext(lookup, serialise, loads, calls, i, tasks, errors);
      i := i + 1;
    }
    assert calls[..i] == calls;
    origin := PreparedWhole(lookup, serialise, loads, calls);
  }

  // ------------------------------------------------------------- execution

  predicate ValidMode(m: string) {
    m == "process" || m == "thread"
  }

  /** `execution_mode or self.execution_mode`. */
  function EffectiveMode(override: Option<string>, stored: string): string {
    if override.Some? && override.value != "" then override.value else stored
  }

  /** Where the two `execute_tool_calls` differ: whether the callable is
      serialised in thread mode too, and whether a failing process pool is
      retried on the thread pool. */
  datatype Variant = Variant(serialiseInThreadMode: bool, fallBackToThreads: bool)

  /** `ToolRegistry.execute_tool_calls` as the code stands. */
  const RegistryAsWritten := Variant(false, false)
  /** `ToolRegistry.execute_tool_calls` serialising as `Executor` does. */
  const RegistryCorrected := Variant(true, false)
  /** `Executor.execute_tool_calls`. */
  const ExecutorVariant := Variant(true, true)

  /** `execute_tool_calls`: an invalid effective mode fails the assertion;
      with nothing submitted the preparation errors are returned; otherwise
      the collected map alone is (the preparation errors are dropped).
      Process mode uses the process pool, falling back to the thread pool
      on failure when the variant does; thread mode uses the thread pool. */
  function ExecuteToolCalls(v: Variant, lookup: string -> Result<Option<Tool>>, loads: string -> Result<Args>,
                            calls: seq<ToolCall>, override: Option<string>, stored: string,
                            processPool: Pool, threadPool: Pool): (r: Result<Dict<Value>>)
    ensures !ValidMode(EffectiveMode(override, stored)) <==> r == Err(Error(AssertionError, "execution_mode must be set"))
    ensures ValidMode(EffectiveMode(override, stored)) ==>
      var mode := EffectiveMode(override, stored);
      var tasks := Submitted(lookup, mode == "process" || v.serialiseInThreadMode, loads, calls);
      && (|tasks| == 0 ==> r == Ok(FromPairs(PrepErrors(lookup, mode == "process" || v.serialiseInThreadMode, loads, calls))))
      && (|tasks| > 0 && r.Ok? ==> KeySet(r.value) == CallIds(tasks))
      && (|tasks| > 0 && mode == "thread" ==> r == ExecuteParallel(threadPool, tasks))
      && (|tasks| > 0 && mode == "process" && ExecuteParallel(processPool, tasks).Ok? ==>
            r == ExecuteParallel(processPool, tasks))
      && (|tasks| > 0 && mode == "process" && ExecuteParallel(processPool, tasks).Err? ==>
            r == if v.fallBackToThreads then ExecuteParallel(threadPool, tasks) else ExecuteParallel(processPool, tasks))
  {
    var mode := EffectiveMode(override, stored);
    if !ValidMode(mode) then Err(Error(AssertionError, "execution_mode must be set"))
    else
      var serialise := mode == "process" || v.serialiseInThreadMode;
      var tasks := Submitted(lookup, serialise, loads, calls);
      if |tasks| == 0 then Ok(FromPairs(PrepErrors(lookup, serialise, loads, calls)))
      else if mode == "process" then
        var pr := ExecuteParallel(processPool, tasks);
        if pr.Err? && v.fallBackToThreads then ExecuteParallel(threadPool, tasks) else pr
      else ExecuteParallel(threadPool, tasks)
  }

  /** The registry's own lookup: `get_tool`, which never raises. */
  function RegistryLookup(r: Registry): string -> Result<Option<Tool>> {
    (n: string) => Ok(GetTool(r, n))
  }

  /** A preparation error is reported only when every call failed: as soon as
      one task is submitted, an id that only a failed call carried is
      absent from the result. */
  lemma PreparationErrorsDropped(v: Variant, lookup: string -> Result<Option<Tool>>, loads: string -> Result<Args>,
                                 calls: seq<ToolCall>, override: Option<string>, stored: string,
                                 processPool: Pool, threadPool: Pool, k: string)
    requires ValidMode(EffectiveMode(override, stored))
    requires var serialise := EffectiveMode(override, stored) == "process" || v.serialiseInThreadMode;
      var tasks := Submitted(lookup, serialise, loads, calls);
      |tasks| > 0 && k !in CallIds(tasks)
    requires ExecuteToolCalls(v, lookup, loads, calls, override, stored, processPool, threadPool).Ok?
    ensures k !in KeySet(ExecuteToolCalls(v, lookup, loads, calls, override, stored, processPool, threadPool).value)
  {
  }

  /** With the fallback, a broken process pool costs nothing: the result is
      what thread mode gives, provided serialisation succeeds. */
  lemma FallbackMatchesThreadMode(lookup: string -> Result<Option<Tool>>, loads: string -> Result<Args>,
                                  calls: seq<ToolCall>, processPool: Pool, threadPool: Pool)
    requires processPool.broken.Some?
    ensures ExecuteToolCalls(ExecutorVariant, lookup, loads, calls, Some("process"), "process", processPool, threadPool) ==
            ExecuteToolCalls(ExecutorVariant, lookup, loads, calls, Some("thread"), "process", processPool, threadPool)
  {
  }

  /** Thread mode never touches the process pool. */
  lemma ThreadModeIgnoresProcessPool(v: Variant, lookup: string -> Result<Option<Tool>>, loads: string -> Result<Args>,
                                     calls: seq<ToolCall>, stored: string, p1: Pool, p2: Pool, threadPool: Pool)
    ensures ExecuteToolCalls(v, lookup, loads, calls, Some("thread"), stored, p1, threadPool) ==
            ExecuteToolCalls(v, lookup, loads, calls, Some("thread"), stored, p2, threadPool)
  {
  }

  /** Every submitted task of the registry as written carries no payload in
      thread mode, whatever the registry holds. */
  lemma {:induction false} AsWrittenThreadPayloadsEmpty(lookup: string -> Result<Option<Tool>>,
                                                        loads: string -> Result<Args>, calls: seq<ToolCall>)
    ensures forall i :: 0 <= i < |Submitted(lookup, false, loads, calls)| ==>
      Submitted(lookup, false, loads, calls)[i].payload.None?
    decreases |calls|
  {
    if |calls| > 0 {
      AsWrittenThreadPayloadsEmpty(lookup, loads, calls[1..]);
      var rest := Submitted(lookup, false, loads, calls[1..]);
      match PrepareOne(lookup, false, loads, calls[0])
      case Ok(t) =>
        assert Submitted(lookup, false, loads, calls) == [t] + rest;
        assert forall i :: 1 <= i < |[t] + rest| ==> ([t] + rest)[i] == rest[i - 1];
      case Err(_) =>
    }
  }

  /** So, in thread mode, the registry as written answers every submitted
      call with the not-found string, even for a registered tool. */
  lemma AsWrittenThreadModeNotFound(r: Registry, loads: string -> Result<Args>, calls: seq<ToolCall>, stored: string, i: nat)
    requires var tasks := Submitted(RegistryLookup(r), false, loads, calls);
      i < |tasks| && forall j :: 0 <= j < |tasks| && j != i ==> tasks[j].callId != tasks[i].callId
    ensures var tasks := Submitted(RegistryLookup(r), false, loads, calls);
      var res := ExecuteToolCalls(RegistryAsWritten, RegistryLookup(r), loads, calls, Some("thread"), stored, Healthy(), Healthy());
      res.Ok? && Get(res.value, tasks[i].callId) == Some(NotFound(tasks[i].fname))
  {
    var tasks := Submitted(RegistryLookup(r), false, loads, calls);
    AsWrittenThreadPayloadsEmpty(RegistryLookup(r), loads, calls);
    CollectHealthy(tasks, i);
  }

  /** With serialisation in thread mode, a registered tool's callable is sent
      and its result comes back. */
  lemma {:induction false} CorrectedPayloadsAreCallables(r: Registry, loads: string -> Result<Args>, calls: seq<ToolCall>)
    ensures forall i :: 0 <= i < |Submitted(RegistryLookup(r), true, loads, calls)| ==>
      var t := Submitted(RegistryLookup(r), true, loads, calls)[i];
      (t.payload.Some? <==> Contains(r, t.fname)) &&
      (t.payload.Some? ==> t.payload.value == GetCallable(r, t.fname).value)
    decreases |calls|
  {
    if |calls| > 0 {
      CorrectedPayloadsAreCallables(r, loads, calls[1..]);
      var rest := Submitted(RegistryLookup(r), true, loads, calls[1..]);
      match PrepareOne(RegistryLookup(r), true, loads, calls[0])
      case Ok(t) =>
        assert Submitted(RegistryLookup(r), true, loads, calls) == [t] + rest;
        var n := calls[0].name.value;
        assert RegistryLookup(r)(n) == Ok(GetTool(r, n));
        assert forall i :: 1 <= i < |[t] + rest| ==> ([t] + rest)[i] == rest[i - 1];
      case Err(_) =>
    }
  }

  /** A registered tool named in a well-formed call, run in thread mode by
      the corrected registry: its id maps to the worker's result on the
      tool's callable. */
  lemma CorrectedThreadModeRuns(r: Registry, loads: string -> Result<Args>, calls: seq<ToolCall>, stored: string, i: nat)
    requires var tasks := Submitted(RegistryLookup(r), true, loads, calls);
      i < |tasks| && Contains(r, tasks[i].fname) &&
      forall j :: 0 <= j < |tasks| && j != i ==> tasks[j].callId != tasks[i].callId
    ensures var tasks := Submitted(RegistryLookup(r), true, loads, calls);
      var res := ExecuteToolCalls(RegistryCorrected, RegistryLookup(r), loads, calls, Some("thread"), stored, Healthy(), Healthy());
      && res.Ok?
      && tasks[i].payload == Some(GetCallable(r, tasks[i].fname).value)
      && Get(res.value, tasks[i].callId) == Some(ProcessToolCall(tasks[i]).1)
  {
    var tasks := Submitted(RegistryLookup(r), true, loads, calls);
    CorrectedPayloadsAreCallables(r, loads, calls);
    CollectHealthy(tasks, i);
  }

  // ----------------------------------------------- Executor without get_tool

  /** `Executor` calls `self.get_tool`, which the class does not define. */
  function MissingGetTool(): string -> Result<Option<Tool>> {
    (n: string) => Err(Error(AttributeError, "'Executor' object has no attribute 'get_tool'"))
  }

  /** A value reporting a failed preparation. */
  predicate PreparationFailure(v: Value) {
    v.J? && v.j.JStr? && StartsWith(v.j.s, "Error preparing tool call ")
  }

  lemma PrepErrorReports(c: ToolCall, e: Error)
    ensures PreparationFailure(PrepError(c, e).1)
  {
    var m := "Error preparing tool call " + c.name.GetOr("unknown_name") + ": " + e.msg;
    assert m[..|"Error preparing tool call "|] == "Error preparing tool call ";
  }

  lemma {:induction false} MissingGetToolSubmitsNothing(serialise: bool, loads: string -> Result<Args>, calls: seq<ToolCall>)
    ensures Submitted(MissingGetTool(), serialise, loads, calls) == []
    ensures forall i :: 0 <= i < |PrepErrors(MissingGetTool(), serialise, loads, calls)| ==>
      PreparationFailure(PrepErrors(MissingGetTool(), serialise, loads, calls)[i].1)
    decreases |calls|
  {
    if |calls| > 0 {
      MissingGetToolSubmitsNothing(serialise, loads, calls[1..]);
      var rest := PrepErrors(MissingGetTool(), serialise, loads, calls[1..]);
      var r := PrepareOne(MissingGetTool(), serialise, loads, calls[0]);
      assert r.Err?;
      PrepErrorReports(calls[0], r.error);
      assert PrepErrors(MissingGetTool(), serialise, loads, calls) == [PrepError(calls[0], r.error)] + rest;
    }
  }

  /** `Executor.execute_tool_calls` as written: no call is ever run; the
      result is the map of preparation errors. */
  lemma ExecutorAsWrittenRunsNothing(loads: string -> Result<Args>, calls: seq<ToolCall>,
                                     override: Option<string>, stored: string, processPool: Pool, threadPool: Pool)
    requires ValidMode(EffectiveMode(override, stored))
    ensures var res := ExecuteToolCalls(ExecutorVariant, MissingGetTool(), loads, calls, override, stored, processPool, threadPool);
      && res.Ok?
      && res.value == FromPairs(PrepErrors(MissingGetTool(), true, loads, calls))
      && |PrepErrors(MissingGetTool(), true, loads, calls)| == |calls|
  {
    MissingGetToolSubmitsNothing(true, loads, calls);
  }

  /** With the lookup supplied (here: a registry's `get_tool`), a
      well-formed call for a registered tool is submitted. */
  lemma ExecutorWithLookupSubmits(r: Registry, loads: string -> Result<Args>, c: ToolCall)
    requires c.name.Some? && c.id.Some? && loads(c.arguments).Ok? && Contains(r, c.name.value)
    requires GetCallable(r, c.name.value).value.dumpsError.None?
    ensures Submitted(RegistryLookup(r), true, loads, [c]) ==
      [Task(Some(GetCallable(r, c.name.value).value), c.id.value, c.name.value, loads(c.arguments).value)]
  {
    assert [c][1..] == [];
  }

  // --------------------------------------------------------- execution mode

  /** `set_execution_mode` as the code stands: any value is stored, whatever
      the log message says. */
  function SetExecutionModeAsWritten(mode: string): (stored: string)
    ensures stored == mode
  {
    mode
  }

  /** An invalid stored mode makes the next call without an override fail
      its assertion. */
  lemma InvalidModeBreaksExecute(v: Variant, lookup: string -> Result<Option<Tool>>, loads: string -> Result<Args>,
                                 calls: seq<ToolCall>, mode: string, processPool: Pool, threadPool: Pool)
    requires !ValidMode(mode)
    ensures ExecuteToolCalls(v, lookup, loads, calls, None, SetExecutionModeAsWritten(mode), processPool, threadPool) ==
      Err(Error(AssertionError, "execution_mode must be set"))
  {
  }

  /** `set_execution_mode` as its message describes: an invalid mode falls
      back to "process". */
  function SetExecutionMode(mode: string): (stored: string)
    ensures ValidMode(stored)
    ensures ValidMode(mode) ==> stored == mode
    ensures !ValidMode(mode) ==> stored == "process"
  {
    if ValidMode(mode) then mode else "process"
  }

  /** After the corrected setter, a call without an override always passes
      the mode assertion. */
  lemma SetModeKeepsExecuteValid(v: Variant, lookup: string -> Result<Option<Tool>>, loads: string -> Result<Args>,
                                 calls: seq<ToolCall>, mode: string, processPool: Pool, threadPool: Pool)
    ensures ExecuteToolCalls(v, lookup, loads, calls, None, SetExecutionMode(mode), processPool, threadPool).Ok? ||
            ExecuteToolCalls(v, lookup, loads, calls, None, SetExecutionMode(mode), processPool, threadPool).error.kind != AssertionError
  {
  }

  // ------------------------------------------------------- message recovery

  /** A chat message rebuilt from a call and its result. */
  datatype Message =
    | AssistantCall(callId: string, fname: string, arguments: string)
    | ToolReply(content: string, toolCallId: string)

  const Placeholder := "No result (possibly concurrency/dill serialization error)"

  /** `str(v)` as an f-string renders it; `reprOf` renders lists and dicts. */
  function StrOf(v: Value, reprOf: Json -> string): string {
    match v
    case Obj(_, repr, _, _) => repr
    case J(j) =>
      match j
      case JNull => "None"
      case JBool(b) => if b then "True" else "False"
      case JInt(i) => IntToString(i)
      case JStr(s) => s
      case _ => reprOf(j)
  }

  /** Every call carries an id and a function name. */
  predicate WellFormed(calls: seq<ToolCall>) {
    forall i :: 0 <= i < |calls| ==> calls[i].id.Some? && calls[i].name.Some?
  }

  /** The ids the calls carry. */
  function PresentIds(calls: seq<ToolCall>): (ids: set<string>)
    ensures forall i :: 0 <= i < |calls| && calls[i].id.Some? ==> calls[i].id.value in ids
    ensures forall x :: x in ids ==> exists i :: 0 <= i < |calls| && calls[i].id == Some(x)
    decreases |calls|
  {
    if |calls| == 0 then {}
    else
      var rest := PresentIds(calls[1..]);
      assert forall i :: 1 <= i < |calls| ==> calls[i] == calls[1..][i - 1];
      (if calls[0].id.Some? then {calls[0].id.value} else {}) + rest
  }

  /** The placeholder store for one call id. */
  function WithPlaceholder(responses: Dict<Value>, id: string): (r: Dict<Value>)
    ensures KeySet(r) == KeySet(responses) + {id}
    ensures forall k :: k in KeySet(responses) ==> Get(r, k) == Get(responses, k)
    ensures id !in KeySet(responses) ==> Get(r, id) == Some(Str(Placeholder))
    ensures Unique(responses) ==> Unique(r)
  {
    if id in KeySet(responses) then responses
    else
      var r := Put(responses, id, Str(Placeholder));
      assert forall k :: k in KeySet(responses) ==> Get(r, k) == Get(responses, k) by {
        forall k | k in KeySet(responses) ensures Get(r, k) == Get(responses, k) {
          PutOther(responses, id, Str(Placeholder), k);
        }
      }
      r
  }

  /** The caller's result map as the recovery loop leaves it: a placeholder
      for each missing id, up to the first malformed call.  Entries already
      there are never changed. */
  function FillPlaceholders(calls: seq<ToolCall>, responses: Dict<Value>): (r: Dict<Value>)
    ensures KeySet(responses) <= KeySet(r)
    ensures forall k :: k in KeySet(responses) ==> Get(r, k) == Get(responses, k)
    ensures forall k :: k in KeySet(r) && k !in KeySet(responses) ==> Get(r, k) == Some(Str(Placeholder))
    ensures Unique(responses) ==> Unique(r)
    decreases |calls|
  {
    if |calls| == 0 || calls[0].id.None? then responses
    else
      var r1 := WithPlaceholder(responses, calls[0].id.value);
      if calls[0].name.None? then r1
      else
        assert forall i :: 1 <= i < |calls| ==> calls[i] == calls[1..][i - 1];
        FillPlaceholders(calls[1..], r1)
  }

  /** For well-formed calls the map ends up with exactly the old keys and
      the calls' ids. */
  lemma {:induction false} FillPlaceholdersKeys(calls: seq<ToolCall>, responses: Dict<Value>)
    requires WellFormed(calls)
    ensures KeySet(FillPlaceholders(calls, responses)) == KeySet(responses) + PresentIds(calls)
    decreases |calls|
  {
    if |calls| > 0 {
      var r1 := WithPlaceholder(responses, calls[0].id.value);
      assert forall i :: 1 <= i < |calls| ==> calls[i] == calls[1..][i - 1];
      assert WellFormed(calls[1..]);
      FillPlaceholdersKeys(calls[1..], r1);
    }
  }

  /** The AttributeError of the first malformed call. */
  function FirstMalformed(calls: seq<ToolCall>): (e: Option<Error>)
    ensures e.None? <==> WellFormed(calls)
    ensures e.Some? ==> e.value.kind == AttributeError
    decreases |calls|
  {
    if |calls| == 0 then None
    else if calls[0].id.None? then Some(Error(AttributeError, "'ChatCompletionMessageToolCall' object has no attribute 'id'"))
    else if calls[0].name.None? then Some(Error(AttributeError, "'Function' object has no attribute 'name'"))
    else
      assert forall i :: 1 <= i < |calls| ==> calls[i] == calls[1..][i - 1];
      FirstMalformed(calls[1..])
  }

  /** The assistant message echoing a call. */
  function Echo(c: ToolCall): Message
    requires c.id.Some? && c.name.Some?
  {
    AssistantCall(c.id.value, c.name.value, c.arguments)
  }

  /** The tool message carrying a call's result as `final` holds it. */
  function Reply(c: ToolCall, final: Dict<Value>, reprOf: Json -> string): Message
    requires c.id.Some? && c.name.Some?
  {
    ToolReply(c.name.value + " --> " + StrOf(Get(final, c.id.value).GetOr(Str(Placeholder)), reprOf), c.id.value)
  }

  /** The assistant and tool message of each call, in call order. */
  function MessagePairs(calls: seq<ToolCall>, final: Dict<Value>, reprOf: Json -> string): (ms: seq<Message>)
    requires WellFormed(calls)
    ensures |ms| == 2 * |calls|
    ensures forall i :: 0 <= i < |calls| ==> ms[2 * i] == Echo(calls[i])
    ensures forall i :: 0 <= i < |calls| ==> ms[2 * i + 1] == Reply(calls[i], final, reprOf)
  {
    var ms := seq(2 * |calls|, j requires 0 <= j < 2 * |calls| =>
      if j % 2 == 0 then Echo(calls[j / 2]) else Reply(calls[j / 2], final, reprOf));
    assert forall i :: 0 <= i < |calls| ==> (2 * i) / 2 == i && (2 * i + 1) / 2 == i && (2 * i) % 2 == 0 && (2 * i + 1) % 2 == 1;
    ms
  }

  /** `recover_tool_call_assistant_message`: for each call in order, an
      assistant message echoing the call, then a tool message
      "<name> --> <result>" with the same id, where the result is the
      caller's entry for that id or the placeholder stored for a missing one
      (entries never change once present, so the final map gives the text
      each message was built from).  Also returns the caller's map as the
      method leaves it; a malformed call raises its AttributeError. */
  function RecoverMessages(calls: seq<ToolCall>, responses: Dict<Value>, reprOf: Json -> string)
    : (res: (Result<seq<Message>>, Dict<Value>))
    ensures res.0.Ok? <==> WellFormed(calls)
    ensures res.1 == FillPlaceholders(calls, responses)
    ensures res.0.Ok? ==> |res.0.value| == 2 * |calls|
    ensures res.0.Ok? ==> forall i :: 0 <= i < |calls| ==>
      && calls[i].id.value in KeySet(res.1)
      && res.0.value[2 * i] == AssistantCall(calls[i].id.value, calls[i].name.value, calls[i].arguments)
      && res.0.value[2 * i + 1] ==
           ToolReply(calls[i].name.value + " --> " + StrOf(Get(res.1, calls[i].id.value).value, reprOf), calls[i].id.value)
  {
    var final := FillPlaceholders(calls, responses);
    match FirstMalformed(calls)
    case Some(e) => (Err(e), final)
    case None =>
      FillPlaceholdersKeys(calls, responses);
      var msgs := MessagePairs(calls, final, reprOf);
      (Ok(msgs), final)
  }

  /** Every call's id is in the returned map: a result the caller supplied
      stays as it was, and an id without one shows the placeholder. */
  lemma RecoverMessagesResults(calls: seq<ToolCall>, responses: Dict<Value>, reprOf: Json -> string, i: nat)
    requires WellFormed(calls) && i < |calls|
    ensures var res := RecoverMessages(calls, responses, reprOf);
      var id := calls[i].id.value;
      Get(res.1, id) == if id in KeySet(responses) then Get(responses, id) else Some(Str(Placeholder))
  {
  }
}

=== FILE: fileops.dfy ===
/** The line-level algorithms of the hub's `FileOps`: applying unified-diff
    hunks and git-conflict blocks to a file's lines, the per-file part of
    `search_files`, `make_git_conflict` and `validate_path`.  A file is its
    sequence of lines, each keeping its line end, as `splitlines(keepends=True)`
    gives them; reading and writing the file are left out. */
module FileOps {
  import opened Outcomes
  import opened Strs

  /** No line end in `p`. */
  predicate NoBreak(p: string) {
    forall i :: 0 <= i < |p| ==> p[i] != '\n'
  }

  /** `s` ends a line: it is empty or ends with '\n'. */
  predicate Ended(s: string) {
    |s| == 0 || s[|s| - 1] == '\n'
  }

  /** Index of the first '\n' of `s`, or `|s|`. */
  function Break(s: string): (k: nat)
    ensures k <= |s|
  {
    if |s| == 0 || s[0] == '\n' then 0 else 1 + Break(s[1..])
  }

  /** The lines of a text whose only line break is '\n', each keeping it;
      a final unterminated piece is a line of its own. */
  function Lines(s: string): (ls: seq<string>)
    decreases |s|
  {
    if |s| == 0 then []
    else
      var k := Break(s);
      if k == |s| then [s] else [s[..k + 1]] + Lines(s[k + 1..])
  }

  /** `"".join(lines)`. */
  function Concat(ls: seq<string>): string {
    if |ls| == 0 then "" else ls[0] + Concat(ls[1..])
  }

  lemma {:induction false} BreakAfter(p: string, x: string)
    requires NoBreak(p)
    ensures Break(p + "\n" + x) == |p|
    decreases |p|
  {
    if |p| > 0 {
      assert (p + "\n" + x)[1..] == p[1..] + "\n" + x;
      BreakAfter(p[1..], x);
    }
  }

  lemma {:induction false} BreakIn(a: string)
    requires |a| > 0 && a[|a| - 1] == '\n'
    ensures Break(a) < |a| && a[Break(a)] == '\n' && NoBreak(a[..Break(a)])
    decreases |a|
  {
    if a[0] != '\n' {
      BreakIn(a[1..]);
      assert a[..Break(a)] == [a[0]] + a[1..][..Break(a[1..])];
    }
  }

  lemma {:induction false} BreakNone(s: string)
    requires NoBreak(s)
    ensures Break(s) == |s|
    decreases |s|
  {
    if |s| > 0 { BreakNone(s[1..]); }
  }

  lemma SplitAt(a: string, k: nat)
    requires k < |a| && a[k] == '\n'
    ensures a == a[..k] + "\n" + a[k + 1..]
  { }

  lemma Regroup(p: string, x: string, b: string)
    ensures (p + "\n" + x) + b == p + "\n" + (x + b)
  { }

  /** The first line runs up to the first line end. */
  lemma LinesCons(p: string, x: string)
    requires NoBreak(p)
    ensures Lines(p + "\n" + x) == [p + "\n"] + Lines(x)
  {
    var s := p + "\n" + x;
    BreakAfter(p, x);
    assert s[..|p| + 1] == p + "\n";
    assert s[|p| + 1..] == x;
  }

  /** A text with one line end, at its end, is one line. */
  lemma LinesLine(p: string)
    requires NoBreak(p)
    ensures Lines(p + "\n") == [p + "\n"]
  {
    LinesCons(p, "");
    assert p + "\n" + "" == p + "\n";
  }

  lemma {:induction false} ConcatCons(l: string, ls: seq<string>)
    ensures Concat([l] + ls) == l + Concat(ls)
  {
    assert ([l] + ls)[1..] == ls;
  }

  /** Joining the lines gives the text back. */
  lemma {:induction false} LinesConcat(s: string)
    ensures Concat(Lines(s)) == s
    decreases |s|
  {
    if |s| > 0 {
      var k := Break(s);
      if k < |s| {
        LinesConcat(s[k + 1..]);
        ConcatCons(s[..k + 1], Lines(s[k + 1..]));
        assert s == s[..k + 1] + s[k + 1..];
      } else {
        assert Concat([s]) == s + Concat([]) by { ConcatCons(s, []); }
      }
    }
  }

  lemma LinesAppendStep(p: string, x: string, b: string)
    requires NoBreak(p) && Lines(x + b) == Lines(x) + Lines(b)
    ensures Lines((p + "\n" + x) + b) == Lines(p + "\n" + x) + Lines(b)
  {
    Regroup(p, x, b);
    LinesCons(p, x);
    LinesCons(p, x + b);
  }

  /** A text that ends a line splits into its own lines followed by the
      rest's. */
  lemma {:induction false} LinesAppend(a: string, b: string)
    requires Ended(a)
    ensures Lines(a + b) == Lines(a) + Lines(b)
    decreases |a|
  {
    if |a| == 0 {
      assert a + b == b;
    } else {
      BreakIn(a);
      var k := Break(a);
      var p := a[..k];
      var x := a[k + 1..];
      if |x| > 0 {
        assert x[|x| - 1] == a[|a| - 1];
        LinesAppend(x, b);
      } else {
        assert x + b == b;
      }
      SplitAt(a, k);
      LinesAppendStep(p, x, b);
    }
  }

  // ------------------------------------------------------- replace_by_diff

  /** The line starts with the marker character `c`. */
  predicate Marked(l: string, c: char) {
    |l| > 0 && l[0] == c
  }

  lemma MarkedTests(l: string, c: char)
    requires Marked(l, c)
    ensures StartsWith(l, [c])
    ensures forall d :: d != c ==> !StartsWith(l, [d])
    ensures c != '@' ==> !StartsWith(l, "@@")
  {
    assert l[..1] == [c];
    if |l| >= 2 { assert l[..2][0] == c; }
  }

  function OptComma(s: string): string {
    if |s| > 0 && s[0] == ',' then s[1..] else s
  }

  /** A piece of a regular expression without alternation: literal text,
      `\d+` (or `\d*` when `atLeastOne` is false), or `,?`. */
  datatype Piece = Text(t: string) | Digits(atLeastOne: bool) | OptionalComma

  /** `@@ -(\d+),?(\d*) \+(\d+),?(\d*) @@`. */
  const HunkPattern: seq<Piece> := [Text("@@ -"), Digits(true), OptionalComma, Digits(false),
                                    Text(" +"), Digits(true), OptionalComma, Digits(false), Text(" @@")]

  function DigitGroups(ps: seq<Piece>): nat {
    if |ps| == 0 then 0 else (if ps[0].Digits? then 1 else 0) + DigitGroups(ps[1..])
  }

  /** `re.match` of the pieces at the start of `s`, giving the digit
      groups.  Each piece is matched greedily; for these patterns, where a
      digit run is never followed by a piece that could start with a digit,
      giving back a digit or a comma never lets a later piece match, so the
      greedy match is the regular-expression match. */
  function MatchPieces(s: string, ps: seq<Piece>): (r: Option<seq<string>>)
    ensures r.Some? ==> |r.value| == DigitGroups(ps) && forall i :: 0 <= i < |r.value| ==> AllDigits(r.value[i])
    decreases |ps|
  {
    if |ps| == 0 then Some([])
    else
      match ps[0]
      case Text(t) => if StartsWith(s, t) then MatchPieces(s[|t|..], ps[1..]) else None
      case OptionalComma => MatchPieces(OptComma(s), ps[1..])
      case Digits(one) =>
        var k := DigitRun(s);
        if one && k == 0 then None
        else
          (match MatchPieces(s[k..], ps[1..])
           case None => None
           case Some(gs) => Some([s[..k]] + gs))
  }

  /** The old start line of a hunk header, when the line matches. */
  function HunkStart(line: string): Option<nat> {
    match MatchPieces(line, HunkPattern)
    case None => None
    case Some(gs) => assert DigitGroups(HunkPattern) == 4; Some(ParseDigits(gs[0]))
  }

  /** A formatted header is classified as a hunk header with its start. */
  lemma ClassifyHeader(a: nat, b: Option<nat>, c: nat, d: Option<nat>, tail: string)
    ensures Classify(Header(a, b, c, d, tail)) == HunkHeader(Some(a))
  {
    HeaderParses(a, b, c, d, tail);
    assert Header(a, b, c, d, tail)[..2] == "@@";
  }

  /** `,n` when a line count is given. */
  function Count(b: Option<nat>): string {
    if b.Some? then "," + NatToString(b.value) else ""
  }

  /** The header `@@ -a[,b] +c[,d] @@` followed by anything. */
  function Header(a: nat, b: Option<nat>, c: nat, d: Option<nat>, tail: string): string {
    "@@ -" + (NatToString(a) + (Count(b) + (" +" + (NatToString(c) + (Count(d) + (" @@" + tail))))))
  }

  lemma {:induction false} DigitRunIs(s: string, k: nat)
    requires k <= |s| && AllDigits(s[..k]) && (k < |s| ==> !IsDigit(s[k]))
    ensures DigitRun(s) == k
    decreases k
  {
    if k > 0 {
      assert s[..k][0] == s[0];
      assert s[1..][..k - 1] == s[..k][1..];
      DigitRunIs(s[1..], k - 1);
    }
  }

  /** The digit run of a number's decimal text followed by a non-digit is
      exactly that text. */
  lemma DigitRunOf(n: nat, rest: string)
    requires |rest| == 0 || !IsDigit(rest[0])
    ensures DigitRun(NatToString(n) + rest) == |NatToString(n)|
    ensures (NatToString(n) + rest)[..|NatToString(n)|] == NatToString(n)
    ensures (NatToString(n) + rest)[|NatToString(n)|..] == rest
  {
    var s := NatToString(n) + rest;
    assert s[..|NatToString(n)|] == NatToString(n);
    DigitRunIs(s, |NatToString(n)|);
  }

  /** Literal text is consumed. */
  lemma MatchText(t: string, rest: string, ps: seq<Piece>)
    requires |ps| > 0 && ps[0] == Text(t)
    ensures MatchPieces(t + rest, ps) == MatchPieces(rest, ps[1..])
  {
    assert (t + rest)[..|t|] == t;
    assert (t + rest)[|t|..] == rest;
  }

  /** A number's digits are consumed as one group. */
  lemma MatchNumber(n: nat, rest: string, ps: seq<Piece>)
    requires |ps| > 0 && ps[0].Digits? && (|rest| == 0 || !IsDigit(rest[0]))
    requires MatchPieces(rest, ps[1..]).Some?
    ensures MatchPieces(NatToString(n) + rest, ps) == Some([NatToString(n)] + MatchPieces(rest, ps[1..]).value)
  {
    DigitRunOf(n, rest);
  }

  /** An optional `,n` followed by non-digit, non-comma text is consumed
      by `,?(\d*)`. */
  lemma MatchCount(b: Option<nat>, rest: string, ps: seq<Piece>)
    requires |ps| > 1 && ps[0] == OptionalComma && ps[1] == Digits(false)
    requires |rest| > 0 && !IsDigit(rest[0]) && rest[0] != ','
    ensures MatchPieces(Count(b) + rest, ps).Some? <==> MatchPieces(rest, ps[2..]).Some?
  {
    var r := OptComma(Count(b) + rest);
    if b.Some? {
      assert Count(b) + rest == "," + (NatToString(b.value) + rest);
      assert r == NatToString(b.value) + rest;
      DigitRunOf(b.value, rest);
    } else {
      assert r == rest;
      DigitRunIs(r, 0);
    }
    assert r[DigitRun(r)..] == rest;
  }

  /** Formatting a header and matching it gives back its old start. */
  lemma HeaderParses(a: nat, b: Option<nat>, c: nat, d: Option<nat>, tail: string)
    ensures HunkStart(Header(a, b, c, d, tail)) == Some(a)
  {
    var P := HunkPattern;
    var r5 := " @@" + tail;
    var r4 := Count(d) + r5;
    var r3 := NatToString(c) + r4;
    var r2 := " +" + r3;
    var r1 := Count(b) + r2;
    var r0 := NatToString(a) + r1;
    assert MatchPieces(r5, P[8..]) == Some([]) by {
      MatchText(" @@", tail, P[8..]);
      assert P[8..][1..] == [];
    }
    assert MatchPieces(r4, P[6..]).Some? by {
      MatchCount(d, r5, P[6..]);
      assert P[6..][2..] == P[8..];
    }
    MatchNumber(c, r4, P[5..]);
    assert P[5..][1..] == P[6..];
    MatchText(" +", r3, P[4..]);
    assert P[4..][1..] == P[5..];
    assert MatchPieces(r1, P[2..]).Some? by {
      MatchCount(b, r2, P[2..]);
      assert P[2..][2..] == P[4..];
    }
    MatchNumber(a, r1, P[1..]);
    assert P[1..][1..] == P[2..];
    MatchText("@@ -", r0, P);
    ParseNatToString(a);
  }

  /** How the patching loop treats a diff line. */
  datatype DiffLine =
    | HunkHeader(start: Option<nat>)  // starts with "@@"; the old start line when well-formed
    | ContextLine                     // ' '
    | RemovedLine                     // '-'
    | AddedLine(text: string)         // '+', with the text after the marker
    | OtherLine(line: string)         // anything else: skipped outside a hunk, an error inside

  function Classify(line: string): (c: DiffLine)
    ensures c.HunkHeader? <==> StartsWith(line, "@@")
    ensures c.HunkHeader? ==> c.start == HunkStart(line)
    ensures Marked(line, ' ') ==> c == ContextLine
    ensures Marked(line, '-') ==> c == RemovedLine
    ensures Marked(line, '+') ==> c == AddedLine(line[1..])
  {
    assert StartsWith(line, "@@") ==> line[0] == '@' by {
      if StartsWith(line, "@@") { assert line[..2][0] == line[0]; }
    }
    if StartsWith(line, "@@") then HunkHeader(HunkStart(line))
    else if Marked(line, ' ') then ContextLine
    else if Marked(line, '-') then RemovedLine
    else if Marked(line, '+') then AddedLine(line[1..])
    else OtherLine(line)
  }

  function Classified(diff: seq<string>): (ds: seq<DiffLine>)
    ensures |ds| == |diff| && forall i :: 0 <= i < |diff| ==> ds[i] == Classify(diff[i])
  {
    seq(|diff|, i requires 0 <= i < |diff| => Classify(diff[i]))
  }

  function Prepend(xs: seq<string>, r: Result<seq<string>>): Result<seq<string>> {
    if r.Ok? then Ok(xs + r.value) else r
  }

  /** The patching loop from `ds[0]` on, with the original-line cursor
      `pos` (a Python index: -1 is the last line) and whether a hunk is
      open. */
  function Apply(orig: seq<string>, ds: seq<DiffLine>, pos: int, inHunk: bool): (r: Result<seq<string>>)
    ensures r.Err? ==> r.error.kind in {ValueError, IndexError}
    decreases |ds|
  {
    if |ds| == 0 then Ok(SliceFrom(orig, pos))
    else if !inHunk && !ds[0].HunkHeader? then Apply(orig, ds[1..], pos, false)
    else
      match ds[0]
      case HunkHeader(None) => Err(Error(ValueError, "Invalid diff hunk header"))
      case HunkHeader(Some(n)) => Prepend(Slice(orig, pos, n - 1), Apply(orig, ds[1..], n - 1, true))
      case ContextLine =>
        (match Index(orig, pos)
         case None => Err(Error(IndexError, "list index out of range"))
         case Some(l) => Prepend([l], Apply(orig, ds[1..], pos + 1, true)))
      case RemovedLine => Apply(orig, ds[1..], pos + 1, true)
      case AddedLine(t) => Prepend([t], Apply(orig, ds[1..], pos, true))
      case OtherLine(l) => Err(Error(ValueError, "Invalid diff line: " + l))
  }

  /** `replace_by_diff` on the file's lines: the patched lines, or the
      error it raises. The contract gives only the error kinds and the
      bad-header case; the per-line behaviour is stated by the step lemmas
      `ApplyHeader`, `ApplyContext`, `ApplyRemoved` and `ApplyAdded` below,
      and the whole-diff shapes by `NoHunkNoChange` (no hunk leaves the file
      as it is), `ContextHunkKeepsFile` (a context-only hunk copies the file)
      and `ReplaceOneLine` (one `-`/`+` pair replaces one line). */
  function ReplaceByDiff(orig: seq<string>, diff: seq<string>): (r: Result<seq<string>>)
    ensures r.Err? ==> r.error.kind in {ValueError, IndexError}
    ensures forall i :: FirstHeaderBad(diff, i) ==> r == Err(Error(ValueError, "Invalid diff hunk header"))
  {
    assert forall i :: FirstHeaderBad(diff, i) ==> Apply(orig, Classified(diff), 0, false) == Err(Error(ValueError, "Invalid diff hunk header")) by {
      forall i | FirstHeaderBad(diff, i) ensures Apply(orig, Classified(diff), 0, false) == Err(Error(ValueError, "Invalid diff hunk header")) {
        BadHeaderRejected(orig, Classified(diff), 0, i);
      }
    }
    Apply(orig, Classified(diff), 0, false)
  }

  /** `diff[i]` is the first line starting with "@@", and it is not a
      well-formed hunk header. */
  predicate FirstHeaderBad(diff: seq<string>, i: int) {
    0 <= i < |diff| && StartsWith(diff[i], "@@") && HunkStart(diff[i]).None? &&
    forall j :: 0 <= j < i ==> !StartsWith(diff[j], "@@")
  }

  /** A malformed first header is rejected before anything is applied,
      whatever came before it. */
  lemma {:induction false} BadHeaderRejected(orig: seq<string>, ds: seq<DiffLine>, pos: int, i: nat)
    requires i < |ds| && ds[i] == HunkHeader(None)
    requires forall j :: 0 <= j < i ==> !ds[j].HunkHeader?
    ensures Apply(orig, ds, pos, false) == Err(Error(ValueError, "Invalid diff hunk header"))
    decreases i
  {
    if i > 0 {
      assert ds[1..][i - 1] == ds[i];
      assert forall j :: 0 <= j < i - 1 ==> ds[1..][j] == ds[j + 1];
      BadHeaderRejected(orig, ds[1..], pos, i - 1);
    }
  }

  /** Without a hunk header every diff line is ignored (`---`/`+++` lines
      included). */
  lemma {:induction false} NoHunkKeepsFile(orig: seq<string>, ds: seq<DiffLine>, pos: nat)
    requires forall i :: 0 <= i < |ds| ==> !ds[i].HunkHeader?
    requires pos <= |orig|
    ensures Apply(orig, ds, pos, false) == Ok(orig[pos..])
    decreases |ds|
  {
    if |ds| > 0 {
      assert forall i :: 0 <= i < |ds[1..]| ==> ds[1..][i] == ds[i + 1];
      NoHunkKeepsFile(orig, ds[1..], pos);
    }
  }

  /** A diff without a hunk leaves the file as it is. */
  lemma NoHunkNoChange(orig: seq<string>, diff: seq<string>)
    requires forall i :: 0 <= i < |diff| ==> !StartsWith(diff[i], "@@")
    ensures ReplaceByDiff(orig, diff) == Ok(orig)
  {
    NoHunkKeepsFile(orig, Classified(diff), 0);
  }

  /** Context lines copy the original line under the cursor whatever their
      own text says. */
  lemma {:induction false} ContextCopies(orig: seq<string>, ds: seq<DiffLine>, pos: nat)
    requires forall i :: 0 <= i < |ds| ==> ds[i] == ContextLine
    requires pos + |ds| <= |orig|
    ensures Apply(orig, ds, pos, true) == Ok(orig[pos..])
    decreases |ds|
  {
    if |ds| > 0 {
      assert forall i :: 0 <= i < |ds[1..]| ==> ds[1..][i] == ds[i + 1];
      ContextCopies(orig, ds[1..], pos + 1);
      assert [orig[pos]] + orig[pos + 1..] == orig[pos..];
    }
  }

  lemma ClassifiedCons(h: string, rest: seq<string>)
    ensures Classified([h] + rest) == [Classify(h)] + Classified(rest)
  {
    var l := [h] + rest;
    assert forall k :: 1 <= k < |l| ==> l[k] == rest[k - 1];
  }

  /** Context lines all classify as such. */
  lemma ClassifiedContext(cs: seq<string>)
    requires forall i :: 0 <= i < |cs| ==> Marked(cs[i], ' ')
    ensures forall i :: 0 <= i < |cs| ==> Classified(cs)[i] == ContextLine
  { }

  lemma ApplyContextHunk(orig: seq<string>, n: nat, ds: seq<DiffLine>)
    requires 1 <= n && n - 1 + |ds| <= |orig|
    requires forall i :: 0 <= i < |ds| ==> ds[i] == ContextLine
    ensures Apply(orig, [HunkHeader(Some(n))] + ds, 0, false) == Ok(orig)
  {
    assert ([HunkHeader(Some(n))] + ds)[1..] == ds;
    ContextCopies(orig, ds, n - 1);
    SliceHead(orig, n - 1);
  }

  lemma SliceHead(orig: seq<string>, k: nat)
    requires k <= |orig|
    ensures Slice(orig, 0, k) == orig[..k]
    ensures orig[..k] + orig[k..] == orig
  { }

  /** A hunk made only of context lines, starting at line `n`, leaves the
      file as it is. */
  lemma ContextHunkKeepsFile(orig: seq<string>, n: nat, cs: seq<string>)
    requires 1 <= n && n - 1 + |cs| <= |orig|
    requires forall i :: 0 <= i < |cs| ==> Marked(cs[i], ' ')
    ensures ReplaceByDiff(orig, [Header(n, None, n, None, "\n")] + cs) == Ok(orig)
  {
    var h := Header(n, None, n, None, "\n");
    ClassifyHeader(n, None, n, None, "\n");
    ClassifiedCons(h, cs);
    ClassifiedContext(cs);
    ApplyContextHunk(orig, n, Classified(cs));
  }

  lemma ApplyOneLine(orig: seq<string>, n: nat, y: string)
    requires 1 <= n <= |orig|
    ensures Apply(orig, [HunkHeader(Some(n)), RemovedLine, AddedLine(y)], 0, false) == Ok(orig[..n - 1] + [y] + orig[n..])
  {
    var ds := [HunkHeader(Some(n)), RemovedLine, AddedLine(y)];
    assert ds[1..] == [RemovedLine, AddedLine(y)];
    assert ds[1..][1..] == [AddedLine(y)];
    assert [AddedLine(y)][1..] == [];
    assert Apply(orig, [], n, true) == Ok(orig[n..]);
    assert Apply(orig, [AddedLine(y)], n, true) == Ok([y] + orig[n..]);
    assert Apply(orig, ds[1..], n - 1, true) == Ok([y] + orig[n..]);
    assert Slice(orig, 0, n - 1) == orig[..n - 1];
    assert Apply(orig, ds, 0, false) == Ok(orig[..n - 1] + ([y] + orig[n..]));
    assert orig[..n - 1] + ([y] + orig[n..]) == orig[..n - 1] + [y] + orig[n..];
  }

  lemma ClassifyContext(x: string)
    ensures Classify(" " + x) == ContextLine
  {
    assert Marked(" " + x, ' ');
  }

  lemma ClassifyRemoved(x: string)
    ensures Classify("-" + x) == RemovedLine
  {
    assert Marked("-" + x, '-');
  }

  lemma ClassifyAdded(y: string)
    ensures Classify("+" + y) == AddedLine(y)
  {
    assert Marked("+" + y, '+');
    assert ("+" + y)[1..] == y;
  }

  lemma Classified3(a: string, b: string, c: string)
    ensures Classified([a, b, c]) == [Classify(a), Classify(b), Classify(c)]
  { }

  lemma Classified4(a: string, b: string, c: string, d: string)
    ensures Classified([a, b, c, d]) == [Classify(a), Classify(b), Classify(c), Classify(d)]
  { }

  lemma ClassifiedOneLine(n: nat, x: string, y: string)
    ensures Classified([Header(n, Some(1), n, Some(1), "\n"), "-" + x, "+" + y]) ==
            [HunkHeader(Some(n)), RemovedLine, AddedLine(y)]
  {
    Classified3(Header(n, Some(1), n, Some(1), "\n"), "-" + x, "+" + y);
    ClassifyHeader(n, Some(1), n, Some(1), "\n");
    ClassifyRemoved(x);
    ClassifyAdded(y);
  }

  /** Replacing line `n` (1-based) by `y` with a one-line hunk: every other
      line is kept, and `y` takes its place. */
  lemma ReplaceOneLine(orig: seq<string>, n: nat, y: string)
    requires 1 <= n <= |orig|
    ensures ReplaceByDiff(orig, [Header(n, Some(1), n, Some(1), "\n"), "-" + orig[n - 1], "+" + y]) ==
            Ok(orig[..n - 1] + [y] + orig[n..])
  {
    ClassifiedOneLine(n, orig[n - 1], y);
    ApplyOneLine(orig, n, y);
  }

  lemma ApplyHeader(orig: seq<string>, n: nat, rest: seq<DiffLine>, pos: int, inHunk: bool)
    ensures Apply(orig, [HunkHeader(Some(n))] + rest, pos, inHunk) == Prepend(Slice(orig, pos, n - 1), Apply(orig, rest, n - 1, true))
  {
    assert ([HunkHeader(Some(n))] + rest)[1..] == rest;
  }

  lemma ApplyContext(orig: seq<string>, rest: seq<DiffLine>, pos: int)
    requires Index(orig, pos).Some?
    ensures Apply(orig, [ContextLine] + rest, pos, true) == Prepend([Index(orig, pos).value], Apply(orig, rest, pos + 1, true))
  {
    assert ([ContextLine] + rest)[1..] == rest;
  }

  lemma ApplyRemoved(orig: seq<string>, rest: seq<DiffLine>, pos: int)
    ensures Apply(orig, [RemovedLine] + rest, pos, true) == Apply(orig, rest, pos + 1, true)
  {
    assert ([RemovedLine] + rest)[1..] == rest;
  }

  lemma ApplyAdded(orig: seq<string>, t: string, rest: seq<DiffLine>, pos: int)
    ensures Apply(orig, [AddedLine(t)] + rest, pos, true) == Prepend([t], Apply(orig, rest, pos, true))
  {
    assert ([AddedLine(t)] + rest)[1..] == rest;
  }

  lemma ApplyUnterminated()
    ensures Apply(["a\n", "b\n"], [HunkHeader(Some(1)), ContextLine, RemovedLine, AddedLine("B")], 0, false) ==
            Ok(["a\n", "B"])
  {
    var orig := ["a\n", "b\n"];
    var d3 := [AddedLine("B")] + [];
    var d2 := [RemovedLine] + d3;
    var d1 := [ContextLine] + d2;
    assert [HunkHeader(Some(1))] + d1 == [HunkHeader(Some(1)), ContextLine, RemovedLine, AddedLine("B")];
    assert SliceFrom(orig, 2) == [];
    ApplyAdded(orig, "B", [], 2);
    var e: seq<string> := [];
    assert Apply(orig, [], 2, true) == Ok(e);
    assert ["B"] + e == ["B"];
    assert Apply(orig, d3, 2, true) == Ok(["B"]);
    ApplyRemoved(orig, d3, 1);
    assert Apply(orig, d2, 1, true) == Ok(["B"]);
    assert Index(orig, 0) == Some("a\n");
    ApplyContext(orig, d2, 0);
    assert ["a\n"] + ["B"] == ["a\n", "B"];
    assert Apply(orig, d1, 0, true) == Ok(["a\n", "B"]);
    ApplyHeader(orig, 1, d1, 0, false);
    assert Slice(orig, 0, 0) == e;
    assert e + ["a\n", "B"] == ["a\n", "B"];
  }

  lemma MarkersSplit()
    ensures " a\n" == " " + "a\n" && "-b\n" == "-" + "b\n" && "+B" == "+" + "B"
  { }

  lemma ClassifiedUnterminated()
    ensures Classified([Header(1, Some(2), 1, Some(2), "\n"), " a\n", "-b\n", "+B"]) ==
            [HunkHeader(Some(1)), ContextLine, RemovedLine, AddedLine("B")]
  {
    Classified4(Header(1, Some(2), 1, Some(2), "\n"), " a\n", "-b\n", "+B");
    ClassifyHeader(1, Some(2), 1, Some(2), "\n");
    MarkersSplit();
    ClassifyContext("a\n");
    ClassifyRemoved("b\n");
    ClassifyAdded("B");
  }

  /** A `+` line is added exactly as it follows the marker: when the last
      diff line is an added line without a line end (as a diff printed
      without a final newline ends), the patched file loses its final
      newline. */
  lemma LastAddedLineUnterminated()
    ensures ReplaceByDiff(["a\n", "b\n"], [Header(1, Some(2), 1, Some(2), "\n"), " a\n", "-b\n", "+B"]) ==
            Ok(["a\n", "B"])
  {
    ClassifiedUnterminated();
    ApplyUnterminated();
  }

  // -------------------------------------------------------- replace_by_git

  predicate ConflictStart(l: string) { StartsWith(l, "<<<<<<<") }
  predicate ConflictSep(l: string) { StartsWith(l, "=======") }
  predicate ConflictEnd(l: string) { StartsWith(l, ">>>>>>>") }

  /** Index of the first separator line, or `|ls|`. */
  function FirstSep(ls: seq<string>): (k: nat)
    ensures k <= |ls|
  {
    if |ls| == 0 || ConflictSep(ls[0]) then 0 else 1 + FirstSep(ls[1..])
  }

  /** Index of the first end-marker line, or `|ls|`. */
  function FirstEnd(ls: seq<string>): (k: nat)
    ensures k <= |ls|
  {
    if |ls| == 0 || ConflictEnd(ls[0]) then 0 else 1 + FirstEnd(ls[1..])
  }

  lemma {:induction false} FirstSepIs(ls: seq<string>, k: nat)
    requires k <= |ls| && (k < |ls| ==> ConflictSep(ls[k]))
    requires forall j :: 0 <= j < k ==> !ConflictSep(ls[j])
    ensures FirstSep(ls) == k
    decreases k
  {
    if k > 0 {
      assert forall j :: 0 <= j < k - 1 ==> ls[1..][j] == ls[j + 1];
      FirstSepIs(ls[1..], k - 1);
    }
  }

  lemma {:induction false} FirstEndIs(ls: seq<string>, k: nat)
    requires k <= |ls| && (k < |ls| ==> ConflictEnd(ls[k]))
    requires forall j :: 0 <= j < k ==> !ConflictEnd(ls[j])
    ensures FirstEnd(ls) == k
    decreases k
  {
    if k > 0 {
      assert forall j :: 0 <= j < k - 1 ==> ls[1..][j] == ls[j + 1];
      FirstEndIs(ls[1..], k - 1);
    }
  }

  /** `lines[k + 1:]`. */
  function After(ls: seq<string>, k: nat): seq<string> {
    if k < |ls| then ls[k + 1..] else []
  }

  /** The git-conflict loop from `diff[0]` on with original-line cursor
      `pos`.  A block's search lines are only counted, never compared; a
      missing separator or end marker just runs to the end. */
  function GitApply(orig: seq<string>, diff: seq<string>, pos: nat): seq<string>
    decreases |diff|
  {
    if |diff| == 0 then (if pos <= |orig| then orig[pos..] else [])
    else if ConflictStart(diff[0]) then
      var rest := diff[1..];
      var k := FirstSep(rest);
      var after := After(rest, k);
      var m := FirstEnd(after);
      after[..m] + GitApply(orig, After(after, m), pos + k)
    else if pos < |orig| then [orig[pos]] + GitApply(orig, diff[1..], pos + 1)
    else GitApply(orig, diff[1..], pos)
  }

  /** The loop invents no text: every line it emits is a line of the file
      or of the diff. */
  lemma {:induction false} GitApplyLines(orig: seq<string>, diff: seq<string>, pos: nat)
    ensures forall l :: l in GitApply(orig, diff, pos) ==> l in orig || l in diff
    decreases |diff|
  {
    if |diff| == 0 {
      RestLines(orig, diff, pos);
    } else if ConflictStart(diff[0]) {
      var rest := diff[1..];
      var after := After(rest, FirstSep(rest));
      GitApplyLines(orig, After(after, FirstEnd(after)), pos + FirstSep(rest));
      BlockLines(orig, diff, pos);
    } else {
      GitApplyLines(orig, diff[1..], if pos < |orig| then pos + 1 else pos);
      PlainLines(orig, diff, pos);
    }
  }

  lemma RestLines(orig: seq<string>, diff: seq<string>, pos: nat)
    requires |diff| == 0
    ensures forall l :: l in GitApply(orig, diff, pos) ==> l in orig || l in diff
  {
    var r := GitApply(orig, diff, pos);
    forall l | l in r ensures l in orig {
      var j :| 0 <= j < |r| && r[j] == l;
      assert l == orig[pos + j];
    }
  }

  /** `GitApplyLines` across a conflict block, given it for what follows. */
  lemma BlockLines(orig: seq<string>, diff: seq<string>, pos: nat)
    requires |diff| > 0 && ConflictStart(diff[0])
    requires var after := After(diff[1..], FirstSep(diff[1..]));
      forall l :: l in GitApply(orig, After(after, FirstEnd(after)), pos + FirstSep(diff[1..])) ==>
        l in orig || l in After(after, FirstEnd(after))
    ensures forall l :: l in GitApply(orig, diff, pos) ==> l in orig || l in diff
  {
    var after := After(diff[1..], FirstSep(diff[1..]));
    ConflictStep(orig, diff, pos);
    InDiffTail(diff, after, FirstEnd(after));
  }

  /** `GitApplyLines` across a line outside a block, given it for the rest. */
  lemma PlainLines(orig: seq<string>, diff: seq<string>, pos: nat)
    requires |diff| > 0 && !ConflictStart(diff[0])
    requires forall l :: l in GitApply(orig, diff[1..], if pos < |orig| then pos + 1 else pos) ==>
      l in orig || l in diff[1..]
    ensures forall l :: l in GitApply(orig, diff, pos) ==> l in orig || l in diff
  {
    PlainStep(orig, diff, pos);
    assert forall l :: l in diff[1..] ==> l in diff;
  }

  /** The pieces the conflict branch takes apart are made of diff lines. */
  lemma InDiffTail(diff: seq<string>, after: seq<string>, m: nat)
    requires |diff| > 0 && after == After(diff[1..], FirstSep(diff[1..]))
    ensures forall l :: l in after ==> l in diff
    ensures forall l :: l in After(after, m) ==> l in diff
  {
    var rest := diff[1..];
    assert forall l :: l in rest ==> l in diff;
    assert forall l :: l in after ==> l in rest;
  }

  /** `replace_by_git` on the file's lines. */
  function ReplaceByGit(orig: seq<string>, diff: seq<string>): (r: seq<string>)
    ensures (forall i :: 0 <= i < |diff| ==> !ConflictStart(diff[i])) ==> r == orig
  {
    assert (forall i :: 0 <= i < |diff| ==> !ConflictStart(diff[i])) ==> GitApply(orig, diff, 0) == orig by {
      if forall i :: 0 <= i < |diff| ==> !ConflictStart(diff[i]) {
        OutsideBlocksCopy(orig, diff, 0);
      }
    }
    GitApply(orig, diff, 0)
  }

  /** Outside conflict blocks each diff line stands for the next original
      line, whatever its own text. */
  lemma {:induction false} OutsideBlocksCopy(orig: seq<string>, diff: seq<string>, pos: nat)
    requires forall i :: 0 <= i < |diff| ==> !ConflictStart(diff[i])
    requires pos <= |orig|
    ensures GitApply(orig, diff, pos) == orig[pos..]
    decreases |diff|
  {
    if |diff| > 0 {
      assert forall i :: 0 <= i < |diff[1..]| ==> diff[1..][i] == diff[i + 1];
      if pos < |orig| {
        OutsideBlocksCopy(orig, diff[1..], pos + 1);
        assert [orig[pos]] + orig[pos + 1..] == orig[pos..];
      } else {
        OutsideBlocksCopy(orig, diff[1..], pos);
      }
    }
  }

  lemma {:induction false} PlainLinesCopy(orig: seq<string>, pre: seq<string>, tail: seq<string>, pos: nat)
    requires forall i :: 0 <= i < |pre| ==> !ConflictStart(pre[i])
    requires pos + |pre| <= |orig|
    ensures GitApply(orig, pre + tail, pos) == orig[pos..pos + |pre|] + GitApply(orig, tail, pos + |pre|)
    decreases |pre|
  {
    if |pre| == 0 {
      assert pre + tail == tail;
    } else {
      PlainLineStep(orig, pre, tail, pos);
      PlainLinesCopy(orig, pre[1..], tail, pos + 1);
      SliceCons(orig, pos, pos + |pre|);
    }
  }

  /** A plain first line copies one original line. */
  lemma PlainLineStep(orig: seq<string>, pre: seq<string>, tail: seq<string>, pos: nat)
    requires |pre| > 0 && !ConflictStart(pre[0]) && pos < |orig|
    requires forall i :: 0 <= i < |pre| ==> !ConflictStart(pre[i])
    ensures forall i :: 0 <= i < |pre[1..]| ==> !ConflictStart(pre[1..][i])
    ensures GitApply(orig, pre + tail, pos) == [orig[pos]] + GitApply(orig, pre[1..] + tail, pos + 1)
  {
    var d := pre + tail;
    assert d[0] == pre[0];
    assert d[1..] == pre[1..] + tail;
  }

  lemma SliceCons(s: seq<string>, i: nat, j: nat)
    requires i < j <= |s|
    ensures s[i..j] == [s[i]] + s[i + 1..j]
  {
  }

  /** One complete block. */
  function Block(marker: string, search: seq<string>, sep: string, repl: seq<string>, end: string): seq<string> {
    [marker] + search + [sep] + repl + [end]
  }

  predicate WellFormedBlock(marker: string, search: seq<string>, sep: string, repl: seq<string>, end: string) {
    ConflictStart(marker) && ConflictSep(sep) && ConflictEnd(end) &&
    (forall i :: 0 <= i < |search| ==> !ConflictSep(search[i])) &&
    (forall i :: 0 <= i < |repl| ==> !ConflictEnd(repl[i]))
  }

  /** A well-formed block inserts its replacement and moves the cursor past
      as many original lines as it has search lines. */
  lemma BlockApplies(orig: seq<string>, marker: string, search: seq<string>, sep: string, repl: seq<string>,
                     end: string, tail: seq<string>, pos: nat)
    requires WellFormedBlock(marker, search, sep, repl, end)
    ensures GitApply(orig, Block(marker, search, sep, repl, end) + tail, pos) ==
            repl + GitApply(orig, tail, pos + |search|)
  {
    var d := Block(marker, search, sep, repl, end) + tail;
    var rest := d[1..];
    assert rest == search + ([sep] + repl + [end] + tail);
    assert forall j :: 0 <= j < |search| ==> rest[j] == search[j];
    assert rest[|search|] == sep;
    FirstSepIs(rest, |search|);
    var after := After(rest, |search|);
    assert after == repl + ([end] + tail);
    assert forall j :: 0 <= j < |repl| ==> after[j] == repl[j];
    assert after[|repl|] == end;
    FirstEndIs(after, |repl|);
    assert after[..|repl|] == repl;
    assert After(after, |repl|) == tail;
  }

  /** GitApply's branch for a line outside a block, as one equation. */
  lemma PlainStep(orig: seq<string>, d: seq<string>, pos: nat)
    requires |d| > 0 && !ConflictStart(d[0])
    ensures GitApply(orig, d, pos) ==
      if pos < |orig| then [orig[pos]] + GitApply(orig, d[1..], pos + 1) else GitApply(orig, d[1..], pos)
  {
  }

  /** GitApply's conflict branch, as one equation. */
  lemma ConflictStep(orig: seq<string>, d: seq<string>, pos: nat)
    requires |d| > 0 && ConflictStart(d[0])
    ensures var after := After(d[1..], FirstSep(d[1..]));
      GitApply(orig, d, pos) ==
      after[..FirstEnd(after)] + GitApply(orig, After(after, FirstEnd(after)), pos + FirstSep(d[1..]))
  {
  }

  /** The search-and-replace the format is for: lines outside the block
      are kept, the block's search lines are dropped by count, and its
      replacement is inserted verbatim. */
  lemma OneBlockReplaces(orig: seq<string>, pre: seq<string>, marker: string, search: seq<string>, sep: string,
                         repl: seq<string>, end: string)
    requires forall i :: 0 <= i < |pre| ==> !ConflictStart(pre[i])
    requires WellFormedBlock(marker, search, sep, repl, end)
    requires |pre| + |search| <= |orig|
    ensures ReplaceByGit(orig, pre + Block(marker, search, sep, repl, end)) ==
            orig[..|pre|] + repl + orig[|pre| + |search|..]
  {
    var b := Block(marker, search, sep, repl, end);
    var x := GitApply(orig, b, |pre|);
    assert x == repl + orig[|pre| + |search|..] by {
      assert b == b + [];
      BlockApplies(orig, marker, search, sep, repl, end, [], |pre|);
    }
    assert GitApply(orig, pre + b, 0) == orig[0..0 + |pre|] + x by {
      PlainLinesCopy(orig, pre, b, 0);
    }
    assert orig[0..0 + |pre|] == orig[..|pre|];
    assert ReplaceByGit(orig, pre + b) == GitApply(orig, pre + b, 0);
  }

  const Head: string := "<<<<<<< HEAD\n"
  const Sep: string := "=======\n"
  const Incoming: string := ">>>>>>> incoming\n"

  lemma HeadLine()
    ensures Lines(Head) == [Head]
  {
    assert Head == "<<<<<<< HEAD" + "\n";
    LinesLine("<<<<<<< HEAD");
  }

  lemma HeadMarker()
    ensures ConflictStart(Head)
  {
    assert Head[..7] == "<<<<<<<";
  }

  lemma SepLine()
    ensures Lines(Sep) == [Sep]
  {
    assert Sep == "=======" + "\n";
    LinesLine("=======");
  }

  lemma SepMarker()
    ensures ConflictSep(Sep)
  {
    assert Sep[..7] == "=======";
  }

  lemma IncomingLine()
    ensures Lines(Incoming) == [Incoming]
  {
    assert Incoming == ">>>>>>> incoming" + "\n";
    LinesLine(">>>>>>> incoming");
  }

  lemma IncomingMarker()
    ensures ConflictEnd(Incoming)
  {
    assert Incoming[..7] == ">>>>>>>";
  }

  lemma MarkerLines()
    ensures Lines(Head) == [Head] && Lines(Sep) == [Sep] && Lines(Incoming) == [Incoming]
    ensures ConflictStart(Head) && ConflictSep(Sep) && ConflictEnd(Incoming)
  {
    HeadLine();
    SepLine();
    IncomingLine();
    HeadMarker();
    SepMarker();
    IncomingMarker();
  }

  /** Conflict text with the sides `o` and `t` taken as they are. */
  function ConflictText(o: string, t: string): string {
    Head + (o + (Sep + (t + Incoming)))
  }

  lemma BlockRegroup(m: string, s: seq<string>, sp: string, r: seq<string>, e: string)
    ensures [m] + (s + ([sp] + (r + [e]))) == Block(m, s, sp, r, e)
  { }

  /** The lines of a conflict text whose sides each end a line. */
  lemma ConflictLines(o: string, t: string)
    requires Ended(o) && Ended(t)
    ensures Lines(ConflictText(o, t)) == Block(Head, Lines(o), Sep, Lines(t), Incoming)
  {
    MarkerLines();
    assert Ended(Head) && Ended(Sep);
    LinesAppend(t, Incoming);
    LinesAppend(Sep, t + Incoming);
    LinesAppend(o, Sep + (t + Incoming));
    LinesAppend(Head, o + (Sep + (t + Incoming)));
    BlockRegroup(Head, Lines(o), Sep, Lines(t), Incoming);
  }

  /** `make_git_conflict(ours, theirs)`: both texts between the markers,
      each followed by a newline of its own. */
  function MakeGitConflict(ours: string, theirs: string): (r: string)
    ensures Lines(r) == Block(Head, Lines(ours + "\n"), Sep, Lines(theirs + "\n"), Incoming)
  {
    ConflictLines(ours + "\n", theirs + "\n");
    ConflictText(ours + "\n", theirs + "\n")
  }

  /** The lines of `p` followed by an empty line. */
  lemma LineThenBlank(p: string)
    requires NoBreak(p)
    ensures Lines(p + "\n" + "\n") == [p + "\n", "\n"]
  {
    LinesCons(p, "\n");
    LinesLine("");
    assert "" + "\n" == "\n";
  }

  /** A well-formed block at the head of the diff replaces the file's
      first lines. */
  lemma BlockAtStart(orig: seq<string>, search: seq<string>, repl: seq<string>)
    requires WellFormedBlock(Head, search, Sep, repl, Incoming)
    requires |search| <= |orig|
    ensures ReplaceByGit(orig, Block(Head, search, Sep, repl, Incoming)) == repl + orig[|search|..]
  {
    var b := Block(Head, search, Sep, repl, Incoming);
    var e: seq<string> := [];
    EmptyPrefix(orig, b, repl, |search|);
    OneBlockReplaces(orig, e, Head, search, Sep, repl, Incoming);
  }

  lemma EmptyPrefix(orig: seq<string>, b: seq<string>, repl: seq<string>, k: nat)
    requires k <= |orig|
    ensures [] + b == b
    ensures orig[..0] + repl + orig[k..] == repl + orig[k..]
  { }

  lemma ConflictTextAB()
    ensures Lines(MakeGitConflict("a\n", "b\n")) == Block(Head, ["a\n", "\n"], Sep, ["b\n", "\n"], Incoming)
  {
    assert "a\n" == "a" + "\n" && "b\n" == "b" + "\n";
    LineThenBlank("a");
    LineThenBlank("b");
  }

  lemma BlockAB()
    ensures ReplaceByGit(["a\n", "c\n"], Block(Head, ["a\n", "\n"], Sep, ["b\n", "\n"], Incoming)) == ["b\n", "\n"]
  {
    NotMarkersAB();
    BlockAtStart(["a\n", "c\n"], ["a\n", "\n"], ["b\n", "\n"]);
    assert ["a\n", "c\n"][2..] == [];
  }

  lemma NotMarkersAB()
    ensures !ConflictSep("a\n") && !ConflictSep("\n") && !ConflictEnd("b\n") && !ConflictEnd("\n")
  { }

  /** As written, a newline-terminated `ours` gains an empty search line:
      the block built from `ours = "a\n"` and `theirs = "b\n"` applied to
      the file `a`, `c` deletes `c` as well and leaves an empty line. */
  lemma GitConflictEatsNextLine()
    ensures ReplaceByGit(["a\n", "c\n"], Lines(MakeGitConflict("a\n", "b\n"))) == ["b\n", "\n"]
  {
    ConflictTextAB();
    BlockAB();
  }

  /** `s` with a line end unless it already has one (or is empty). */
  function Terminated(s: string): (t: string)
    ensures Ended(t)
    ensures StartsWith(t, s) && |t| <= |s| + 1
  {
    if Ended(s) then s else s + "\n"
  }

  /** The conflict text as evidently intended: each side contributes its
      own lines, and a line end is added only where one is missing. */
  function MakeGitConflictCorrected(ours: string, theirs: string): (r: string)
    ensures Lines(r) == Block(Head, Lines(Terminated(ours)), Sep, Lines(Terminated(theirs)), Incoming)
  {
    ConflictLines(Terminated(ours), Terminated(theirs));
    ConflictText(Terminated(ours), Terminated(theirs))
  }

  /** With the corrected text the round trip does what the markers say:
      when the file starts with the lines of `ours`, they are replaced by
      the lines of `theirs` and every later line is kept. */
  lemma CorrectedConflictReplaces(orig: seq<string>, ours: string, theirs: string)
    requires |Lines(Terminated(ours))| <= |orig| && orig[..|Lines(Terminated(ours))|] == Lines(Terminated(ours))
    requires forall i :: 0 <= i < |Lines(Terminated(ours))| ==> !ConflictSep(Lines(Terminated(ours))[i])
    requires forall i :: 0 <= i < |Lines(Terminated(theirs))| ==> !ConflictEnd(Lines(Terminated(theirs))[i])
    ensures ReplaceByGit(orig, Lines(MakeGitConflictCorrected(ours, theirs))) ==
            Lines(Terminated(theirs)) + orig[|Lines(Terminated(ours))|..]
  {
    MarkerLines();
    BlockAtStart(orig, Lines(Terminated(ours)), Lines(Terminated(theirs)));
  }

  // ------------------------------------------------------------ search

  /** One search hit: its 1-based line number, the line without trailing
      newlines, and its neighbours within two lines. */
  datatype Hit = Hit(lineNum: nat, line: string, context: seq<(nat, string)>)

  /** The numbered, stripped line `ln`. */
  function Numbered(lines: seq<string>, ln: nat): (nat, string)
    requires ln < |lines|
  {
    (ln + 1, RStrip(lines[ln], '\n'))
  }

  /** The indices `[lo, hi)` except `skip`, ascending. */
  function Range(lo: nat, hi: nat, skip: nat): (ix: seq<nat>)
    requires lo <= hi
    ensures forall a :: 0 <= a < |ix| ==> lo <= ix[a] < hi && ix[a] != skip
    ensures forall ln :: lo <= ln < hi && ln != skip ==> ln in ix
    ensures forall a, b :: 0 <= a < b < |ix| ==> ix[a] < ix[b]
    decreases hi - lo
  {
    if lo == hi then []
    else
      var rest := Range(lo + 1, hi, skip);
      if lo == skip then rest else [lo] + rest
  }

  /** The neighbours of line `i` among `n` lines: `range(max(0, i-2),
      min(n, i+3))` without `i` -- exactly the other lines at most two
      away, in order. */
  function Around(i: nat, n: nat): (ix: seq<nat>)
    requires i < n
    ensures forall a :: 0 <= a < |ix| ==> (ix[a] < n && ix[a] != i && i <= ix[a] + 2 && ix[a] <= i + 2)
    ensures forall ln :: 0 <= ln < n && ln != i && i <= ln + 2 && ln <= i + 2 ==> ln in ix
    ensures forall a, b :: 0 <= a < b < |ix| ==> ix[a] < ix[b]
  {
    var lo := if i < 2 then 0 else i - 2;
    var hi := if i + 3 < n then i + 3 else n;
    Range(lo, hi, i)
  }

  /** The context of a hit on line `i`: its neighbours, numbered and
      stripped. */
  function Context(lines: seq<string>, i: nat): (c: seq<(nat, string)>)
    requires i < |lines|
    ensures |c| == |Around(i, |lines|)|
    ensures forall a :: 0 <= a < |c| ==> c[a] == Numbered(lines, Around(i, |lines|)[a])
  {
    var ix := Around(i, |lines|);
    seq(|ix|, a requires 0 <= a < |ix| => Numbered(lines, ix[a]))
  }

  /** The hit for line `i`. */
  function HitAt(lines: seq<string>, i: nat): (h: Hit)
    requires i < |lines|
    ensures h.lineNum == i + 1
  {
    Hit(i + 1, RStrip(lines[i], '\n'), Context(lines, i))
  }

  /** The indices from `i` on of the lines that match, ascending. */
  function Matching(lines: seq<string>, matches: string -> bool, i: nat): (ix: seq<nat>)
    requires i <= |lines|
    ensures forall a :: 0 <= a < |ix| ==> i <= ix[a] < |lines| && matches(lines[ix[a]])
    ensures forall j :: i <= j < |lines| && matches(lines[j]) ==> j in ix
    ensures forall a, b :: 0 <= a < b < |ix| ==> ix[a] < ix[b]
    decreases |lines| - i
  {
    if i == |lines| then []
    else
      var rest := Matching(lines, matches, i + 1);
      if matches(lines[i]) then [i] + rest else rest
  }

  lemma HitsOf(lines: seq<string>, ix: seq<nat>, hs: seq<Hit>)
    requires forall a :: 0 <= a < |ix| ==> ix[a] < |lines|
    requires |hs| == |ix| && forall a :: 0 <= a < |ix| ==> hs[a] == HitAt(lines, ix[a])
    ensures forall i :: i in ix ==> HitAt(lines, i) in hs
    ensures forall a :: 0 <= a < |hs| ==> hs[a].lineNum == ix[a] + 1
  {
    forall i | i in ix ensures HitAt(lines, i) in hs {
      var a :| 0 <= a < |ix| && ix[a] == i;
      assert hs[a] == HitAt(lines, i);
    }
  }

  /** The hits of one file, in line order; `matches` is the compiled
      pattern's `search`.  Every hit is the hit of a matching line, every
      matching line has its hit, and line numbers ascend. */
  function SearchLines(lines: seq<string>, matches: string -> bool): (hs: seq<Hit>)
    ensures forall a :: 0 <= a < |hs| ==> (1 <= hs[a].lineNum <= |lines| && matches(lines[hs[a].lineNum - 1]) &&
      hs[a] == HitAt(lines, hs[a].lineNum - 1))
    ensures forall i :: 0 <= i < |lines| && matches(lines[i]) ==> HitAt(lines, i) in hs
    ensures forall a, b :: 0 <= a < b < |hs| ==> hs[a].lineNum < hs[b].lineNum
  {
    var ix := Matching(lines, matches, 0);
    var hs := seq(|ix|, a requires 0 <= a < |ix| => HitAt(lines, ix[a]));
    HitsOf(lines, ix, hs);
    hs
  }

  // --------------------------------------------------------- validate_path

  const Dangerous: seq<char> := ['*', '?', '"', '>', '<', '|']

  /** `validate_path`: (valid, message).  `expand` is `os.path.expanduser`,
      applied only to a path containing '~'. */
  function ValidatePath(path: string, expand: string -> string): (r: (bool, string))
    ensures path == "" ==> r == (false, "Empty path")
    ensures path != "" ==> (r.0 <==> forall c :: c in Dangerous ==> c !in (if '~' in path then expand(path) else path))
    ensures !r.0 && path != "" ==> r.1 == "Contains dangerous characters"
    ensures r.0 ==> r.1 == ""
  {
    if path == "" then (false, "Empty path")
    else
      var p := if '~' in path then expand(path) else path;
      if exists c :: c in Dangerous && c in p then (false, "Contains dangerous characters")
      else (true, "")
  }
}

=== FILE: filesystem.dfy ===
/** The directory operations of the hub's `FileSystem` class (`list_dir`,
    `get_size`, `delete`, `copy`) over an in-memory tree in place of the
    disk. */
module FileSystem {
  import opened Outcomes
  import opened Strs

  /** A file, with its size in bytes, or a directory, with its entries in
      listing order. */
  datatype Node = File(size: nat) | Dir(entries: seq<Entry>)
  datatype Entry = Entry(name: string, node: Node)

  /** A path relative to the root, as its components. */
  type Path = seq<string>

  /** The path as the string the error messages show. */
  function Join(p: Path): string {
    if |p| == 0 then ""
    else if |p| == 1 then p[0]
    else p[0] + "/" + Join(p[1..])
  }

  /** Index of the first entry called `name`, or `|es|` when there is none. */
  function FindIndex(es: seq<Entry>, name: string): (k: nat)
    ensures k <= |es|
    ensures k < |es| ==> es[k].name == name
    ensures forall j :: 0 <= j < k ==> es[j].name != name
  {
    if |es| == 0 then 0
    else if es[0].name == name then 0
    else 1 + FindIndex(es[1..], name)
  }

  /** Resolving a path component by component; `Some` of what is there. */
  function Lookup(n: Node, p: Path): (r: Option<Node>)
    ensures p == [] ==> r == Some(n)
    decreases p
  {
    if p == [] then Some(n)
    else
      match n
      case File(_) => None
      case Dir(es) =>
        var k := FindIndex(es, p[0]);
        if k == |es| then None else Lookup(es[k].node, p[1..])
  }

  /** No directory holds two entries of the same name, as on a real disk. */
  predicate WellFormed(n: Node)
    decreases n
  {
    match n
    case File(_) => true
    case Dir(es) =>
      (forall j, k :: 0 <= j < k < |es| ==> es[j].name != es[k].name) &&
      (forall j :: 0 <= j < |es| ==> WellFormed(es[j].node))
  }

  /** Python's `name.startswith(".")`. */
  predicate HiddenName(name: string) {
    StartsWith(name, ".")
  }

  /** Some component of the path is hidden. */
  predicate Hidden(p: Path) {
    exists c :: c in p && HiddenName(c)
  }

  // ------------------------------------------------------------- the walk

  /** Every path below `n` (`rglob("*")`), each with the node found there. */
  function Walk(n: Node): seq<(Path, Node)>
    decreases n, 1, 0
  {
    match n
    case File(_) => []
    case Dir(es) => WalkFrom(n, 0)
  }

  /** The walk of the entries of directory `d` from index `i` on: each
      entry, then everything below it. */
  function WalkFrom(d: Node, i: nat): seq<(Path, Node)>
    requires d.Dir? && i <= |d.entries|
    decreases d, 0, |d.entries| - i
  {
    if i == |d.entries| then []
    else
      EntryWalk(d.entries[i]) + WalkFrom(d, i + 1)
  }

  /** An entry, then everything below it. */
  function EntryWalk(e: Entry): seq<(Path, Node)>
    decreases e.node, 2, 0
  {
    [([e.name], e.node)] + Under(e.name, Walk(e.node))
  }

  /** The walk of a sub-directory, seen from its parent. */
  function Under(name: string, w: seq<(Path, Node)>): (r: seq<(Path, Node)>)
    ensures |r| == |w|
    ensures forall a :: 0 <= a < |w| ==> r[a] == ([name] + w[a].0, w[a].1)
  {
    seq(|w|, a requires 0 <= a < |w| => ([name] + w[a].0, w[a].1))
  }

  /** Everything in the walk of entry `k` is in the walk from any `i <= k`. */
  lemma {:induction false} WalkFromHas(d: Node, i: nat, k: nat)
    requires d.Dir? && i <= k < |d.entries|
    ensures ([d.entries[k].name], d.entries[k].node) in WalkFrom(d, i)
    ensures forall x :: x in Under(d.entries[k].name, Walk(d.entries[k].node)) ==> x in WalkFrom(d, i)
    decreases k - i
  {
    if i < k {
      WalkFromHas(d, i + 1, k);
    }
  }

  /** Every path that resolves is in the walk, with what it resolves to. */
  lemma {:induction false} WalkComplete(n: Node, p: Path)
    requires |p| >= 1 && Lookup(n, p).Some?
    ensures (p, Lookup(n, p).value) in Walk(n)
    decreases p
  {
    var es := n.entries;
    var k := FindIndex(es, p[0]);
    WalkFromHas(n, 0, k);
    assert Walk(n) == WalkFrom(n, 0);
    if |p| == 1 {
      assert p == [es[k].name];
    } else {
      WalkComplete(es[k].node, p[1..]);
      var w := Walk(es[k].node);
      var a :| 0 <= a < |w| && w[a] == (p[1..], Lookup(n, p).value);
      assert [p[0]] + p[1..] == p;
      assert Under(p[0], w)[a] == (p, Lookup(n, p).value);
    }
  }

  /** In a well-formed tree every walked path resolves to its node. */
  lemma {:induction false} WalkSound(n: Node)
    requires WellFormed(n)
    ensures forall a :: 0 <= a < |Walk(n)| ==> (|Walk(n)[a].0| >= 1 && Lookup(n, Walk(n)[a].0) == Some(Walk(n)[a].1))
    decreases n, 1, 0
  {
    if n.Dir? {
      WalkFromSound(n, 0);
    }
  }

  lemma {:induction false} WalkFromSound(d: Node, i: nat)
    requires d.Dir? && i <= |d.entries| && WellFormed(d)
    ensures forall a :: 0 <= a < |WalkFrom(d, i)| ==>
      (|WalkFrom(d, i)[a].0| >= 1 && Lookup(d, WalkFrom(d, i)[a].0) == Some(WalkFrom(d, i)[a].1))
    decreases d, 0, |d.entries| - i
  {
    if i < |d.entries| {
      var es := d.entries;
      var e := es[i];
      assert FindIndex(es, e.name) == i;
      var w := Walk(e.node);
      WalkSound(e.node);
      WalkFromSound(d, i + 1);
      var u := Under(e.name, w);
      forall a | 0 <= a < |u| ensures Lookup(d, u[a].0) == Some(u[a].1) {
        assert u[a].0[1..] == w[a].0;
      }
      assert Lookup(d, [e.name]) == Some(e.node) by {
        assert [e.name][1..] == [];
      }
      WalkFromSplit([([e.name], e.node)], u, WalkFrom(d, i + 1));
    }
  }

  lemma WalkFromSplit(h: seq<(Path, Node)>, u: seq<(Path, Node)>, t: seq<(Path, Node)>)
    ensures forall a :: 0 <= a < |h + u + t| ==>
      (a < |h| ==> (h + u + t)[a] == h[a]) &&
      (|h| <= a < |h| + |u| ==> (h + u + t)[a] == u[a - |h|]) &&
      (|h| + |u| <= a ==> (h + u + t)[a] == t[a - |h| - |u|])
  { }

  /** In a well-formed tree the walk lists exactly the paths that resolve. */
  lemma WalkExactly(n: Node, p: Path)
    requires WellFormed(n)
    ensures (exists m :: (p, m) in Walk(n)) <==> |p| >= 1 && Lookup(n, p).Some?
  {
    if |p| >= 1 && Lookup(n, p).Some? {
      WalkComplete(n, p);
    }
    WalkSound(n);
  }

  // ------------------------------------------------------------- list_dir

  /** Depth 1: the names of the immediate children, hidden ones only when
      asked for. */
  function Children(es: seq<Entry>, showHidden: bool): (r: seq<Path>)
    ensures forall p :: p in r <==> (|p| == 1 && Named(es, p[0]) && (showHidden || !HiddenName(p[0])))
  {
    if |es| == 0 then []
    else
      var rest := Children(es[1..], showHidden);
      assert forall x :: Named(es, x) <==> es[0].name == x || Named(es[1..], x) by {
        forall x ensures Named(es, x) <==> es[0].name == x || Named(es[1..], x) {
          if Named(es, x) && es[0].name != x {
            var j :| 0 <= j < |es| && es[j].name == x;
            assert es[1..][j - 1].name == x;
          }
          if Named(es[1..], x) {
            var j :| 0 <= j < |es| - 1 && es[1..][j].name == x;
            assert es[j + 1].name == x;
          }
        }
      }
      assert forall p: Path :: |p| == 1 ==> (p == [es[0].name] <==> p[0] == es[0].name) by {
        forall p: Path | |p| == 1 && p[0] == es[0].name ensures p == [es[0].name] { }
      }
      if showHidden || !HiddenName(es[0].name) then [[es[0].name]] + rest else rest
  }

  /** Some entry is called `x`. */
  predicate Named(es: seq<Entry>, x: string) {
    exists j :: 0 <= j < |es| && es[j].name == x
  }

  /** Depth k >= 2: the walked paths of at most `depth` components, dropping
      any with a hidden component unless asked for. */
  function Shallow(w: seq<(Path, Node)>, depth: int, showHidden: bool): (r: seq<Path>)
    ensures forall p :: p in r <==> (exists m :: (p, m) in w) && |p| <= depth && (showHidden || !Hidden(p))
  {
    if |w| == 0 then []
    else
      var rest := Shallow(w[1..], depth, showHidden);
      assert forall x :: x in w <==> x == w[0] || x in w[1..];
      if |w[0].0| <= depth && (showHidden || !Hidden(w[0].0)) then [w[0].0] + rest else rest
  }

  /** `list_dir(path, depth, show_hidden)`: the "not a directory" check
      comes before the depth check. */
  function ListDir(root: Node, path: Path, depth: int, showHidden: bool): (r: Result<seq<Path>>)
    ensures !(Lookup(root, path).Some? && Lookup(root, path).value.Dir?) ==>
      r == Err(Error(FileNotFoundError, "Path is not a directory or does not exist: " + Join(path)))
    ensures Lookup(root, path).Some? && Lookup(root, path).value.Dir? && depth < 1 ==>
      r == Err(Error(ValueError, "Depth must be 1 or greater."))
    ensures r.Ok? <==> Lookup(root, path).Some? && Lookup(root, path).value.Dir? && depth >= 1
    ensures r.Ok? && depth == 1 ==> forall p :: p in r.value <==>
      |p| == 1 && Lookup(root, path + p).Some? && (showHidden || !HiddenName(p[0]))
  {
    match Lookup(root, path)
    case Some(Dir(es)) =>
      if depth < 1 then Err(Error(ValueError, "Depth must be 1 or greater."))
      else if depth == 1 then
        ChildrenResolve(root, path, es);
        Ok(Children(es, showHidden))
      else Ok(Shallow(Walk(Dir(es)), depth, showHidden))
    case _ => Err(Error(FileNotFoundError, "Path is not a directory or does not exist: " + Join(path)))
  }

  lemma ChildrenResolve(root: Node, path: Path, es: seq<Entry>)
    requires Lookup(root, path) == Some(Dir(es))
    ensures forall p: Path :: |p| == 1 ==> (Lookup(root, path + p).Some? <==> Named(es, p[0]))
  {
    forall p: Path | |p| == 1 ensures Lookup(root, path + p).Some? <==> Named(es, p[0]) {
      LookupAppend(root, path, p);
      assert p == [p[0]] + [];
      LookupCons(Dir(es), p[0], []);
    }
  }

  /** Resolving `a + b` is resolving `b` where `a` leads. */
  lemma {:induction false} LookupAppend(n: Node, a: Path, b: Path)
    requires Lookup(n, a).Some?
    ensures Lookup(n, a + b) == Lookup(Lookup(n, a).value, b)
    decreases a
  {
    if a == [] {
      assert a + b == b;
    } else {
      var es := n.entries;
      var k := FindIndex(es, a[0]);
      assert a + b != [] && (a + b)[0] == a[0];
      assert (a + b)[1..] == a[1..] + b;
      assert Lookup(n, a + b) == Lookup(es[k].node, a[1..] + b);
      assert Lookup(n, a) == Lookup(es[k].node, a[1..]);
      LookupAppend(es[k].node, a[1..], b);
    }
  }

  /** Depth k >= 2 in a well-formed tree: exactly the resolvable paths of
      one to `depth` components, hidden ones only when asked for. */
  lemma ListDirDeep(root: Node, path: Path, depth: int, showHidden: bool, p: Path)
    requires WellFormed(root)
    requires ListDir(root, path, depth, showHidden).Ok? && depth >= 2
    ensures p in ListDir(root, path, depth, showHidden).value <==>
      1 <= |p| <= depth && Lookup(root, path + p).Some? && (showHidden || !Hidden(p))
  {
    var d := Lookup(root, path).value;
    WellFormedBelow(root, path);
    WalkExactly(d, p);
    LookupAppend(root, path, p);
  }

  /** Everything below a well-formed tree is well-formed. */
  lemma {:induction false} WellFormedBelow(n: Node, p: Path)
    requires WellFormed(n) && Lookup(n, p).Some?
    ensures WellFormed(Lookup(n, p).value)
    decreases p
  {
    if p != [] {
      var k := FindIndex(n.entries, p[0]);
      WellFormedBelow(n.entries[k].node, p[1..]);
    }
  }

  /** Showing hidden entries only adds to the listing. */
  lemma ShowHiddenAddsOnly(root: Node, path: Path, depth: int, p: Path)
    requires ListDir(root, path, depth, false).Ok?
    ensures ListDir(root, path, depth, true).Ok?
    ensures p in ListDir(root, path, depth, false).value ==> p in ListDir(root, path, depth, true).value
  { }

  /** At any depth k >= 2 the one-component entries are the depth-1
      listing. */
  lemma DeepAgreesWithShallow(root: Node, path: Path, depth: int, showHidden: bool, x: string)
    requires WellFormed(root)
    requires ListDir(root, path, depth, showHidden).Ok? && depth >= 2
    ensures ListDir(root, path, 1, showHidden).Ok?
    ensures [x] in ListDir(root, path, depth, showHidden).value <==> [x] in ListDir(root, path, 1, showHidden).value
  {
    ListDirDeep(root, path, depth, showHidden, [x]);
    assert Hidden([x]) <==> HiddenName(x) by {
      assert x in [x];
    }
  }

  // ------------------------------------------------------------- get_size

  /** The bytes of a node itself: its size if it is a file. */
  function Own(n: Node): nat {
    if n.File? then n.size else 0
  }

  /** Total size of the files among walked entries. */
  function FileTotal(w: seq<(Path, Node)>): nat {
    if |w| == 0 then 0 else Own(w[0].1) + FileTotal(w[1..])
  }

  /** The disk usage of a node, recursively (the reference definition). */
  function Total(n: Node): nat
    decreases n, 1, 0
  {
    match n
    case File(s) => s
    case Dir(_) => TotalFrom(n, 0)
  }

  function TotalFrom(d: Node, i: nat): nat
    requires d.Dir? && i <= |d.entries|
    decreases d, 0, |d.entries| - i
  {
    if i == |d.entries| then 0 else Total(d.entries[i].node) + TotalFrom(d, i + 1)
  }

  lemma {:induction false} FileTotalAppend(a: seq<(Path, Node)>, b: seq<(Path, Node)>)
    ensures FileTotal(a + b) == FileTotal(a) + FileTotal(b)
    decreases |a|
  {
    if |a| == 0 {
      assert a + b == b;
    } else {
      assert (a + b)[0] == a[0] && (a + b)[1..] == a[1..] + b;
      assert FileTotal(a + b) == Own(a[0].1) + FileTotal(a[1..] + b);
      FileTotalAppend(a[1..], b);
    }
  }

  lemma {:induction false} FileTotalUnder(name: string, w: seq<(Path, Node)>)
    ensures FileTotal(Under(name, w)) == FileTotal(w)
    decreases |w|
  {
    if |w| > 0 {
      assert Under(name, w)[1..] == Under(name, w[1..]);
      FileTotalUnder(name, w[1..]);
    }
  }

  /** Summing the files of the walk is the recursive disk usage. */
  lemma {:induction false} WalkTotal(n: Node)
    ensures Own(n) + FileTotal(Walk(n)) == Total(n)
    decreases n, 1, 0
  {
    if n.Dir? {
      WalkFromTotal(n, 0);
    }
  }

  lemma {:induction false} WalkFromTotal(d: Node, i: nat)
    requires d.Dir? && i <= |d.entries|
    ensures FileTotal(WalkFrom(d, i)) == TotalFrom(d, i)
    decreases d, 0, |d.entries| - i
  {
    if i < |d.entries| {
      var e := d.entries[i];
      var h: seq<(Path, Node)> := [([e.name], e.node)];
      var u := Under(e.name, Walk(e.node));
      var t := WalkFrom(d, i + 1);
      FileTotalAppend(h + u, t);
      FileTotalAppend(h, u);
      FileTotalUnder(e.name, Walk(e.node));
      WalkTotal(e.node);
      WalkFromTotal(d, i + 1);
    }
  }

  /** `get_size(path)`: a file's size, or the sum over every file below a
      directory, hidden ones included. */
  function GetSize(root: Node, path: Path): (r: Result<nat>)
    ensures Lookup(root, path).None? ==> r == Err(Error(FileNotFoundError, "Path does not exist: " + Join(path)))
    ensures Lookup(root, path).Some? ==> r == Ok(Total(Lookup(root, path).value))
  {
    match Lookup(root, path)
    case None => Err(Error(FileNotFoundError, "Path does not exist: " + Join(path)))
    case Some(File(s)) => Ok(s)
    case Some(Dir(es)) =>
      WalkTotal(Dir(es));
      Ok(FileTotal(Walk(Dir(es))))
  }

  // ------------------------------------------------------- editing the tree

  /** What entry `x` of a directory holds, if there is one. */
  function Child(es: seq<Entry>, x: string): Option<Node> {
    var k := FindIndex(es, x);
    if k == |es| then None else Some(es[k].node)
  }

  /** Resolving a path one component at a time. */
  lemma LookupCons(n: Node, x: string, q: Path)
    ensures n.File? ==> Lookup(n, [x] + q) == None
    ensures n.Dir? && Child(n.entries, x).None? ==> Lookup(n, [x] + q) == None
    ensures n.Dir? && Child(n.entries, x).Some? ==> Lookup(n, [x] + q) == Lookup(Child(n.entries, x).value, q)
  {
    assert ([x] + q)[0] == x && ([x] + q)[1..] == q;
  }

  /** Storing `e` under its name: the first entry of that name is
      replaced in place, or `e` is appended when there is none. */
  function Put(es: seq<Entry>, e: Entry): (r: seq<Entry>)
    ensures forall x :: Child(r, x) == if x == e.name then Some(e.node) else Child(es, x)
    ensures Child(es, e.name) == Some(e.node) ==> r == es
  {
    if |es| == 0 then [e]
    else if es[0].name == e.name then [e] + es[1..]
    else
      var t := Put(es[1..], e);
      ChildCons(es[0], t);
      ChildCons(es[0], es[1..]);
      assert es == [es[0]] + es[1..];
      [es[0]] + t
  }

  lemma ChildCons(h: Entry, t: seq<Entry>)
    ensures forall x :: Child([h] + t, x) == if h.name == x then Some(h.node) else Child(t, x)
  {
    forall x ensures Child([h] + t, x) == if h.name == x then Some(h.node) else Child(t, x) {
      assert ([h] + t)[1..] == t;
      if h.name != x {
        var k := FindIndex(t, x);
        assert FindIndex([h] + t, x) == k + 1;
        if k < |t| {
          assert ([h] + t)[k + 1] == t[k];
        }
      }
    }
  }

  /** Dropping the first entry called `name`. */
  function Remove(es: seq<Entry>, name: string): (r: seq<Entry>)
    ensures forall x :: x != name ==> Child(r, x) == Child(es, x)
    ensures Child(es, name).None? ==> r == es
  {
    if |es| == 0 then []
    else if es[0].name == name then es[1..]
    else
      var t := Remove(es[1..], name);
      ChildCons(es[0], t);
      ChildCons(es[0], es[1..]);
      assert es == [es[0]] + es[1..];
      [es[0]] + t
  }

  /** Among entries of distinct names, removing `name` leaves none. */
  lemma {:induction false} RemoveGone(es: seq<Entry>, name: string)
    requires forall j, k :: 0 <= j < k < |es| ==> es[j].name != es[k].name
    ensures Child(Remove(es, name), name).None?
  {
    if |es| > 0 {
      if es[0].name == name {
        assert forall j :: 0 <= j < |es| - 1 ==> es[1..][j].name != name by {
          forall j | 0 <= j < |es| - 1 ensures es[1..][j].name != name {
            assert es[1..][j] == es[j + 1];
          }
        }
      } else {
        RemoveGone(es[1..], name);
        var r := [es[0]] + Remove(es[1..], name);
        assert r[1..] == Remove(es[1..], name);
      }
    }
  }

  /** `a` is a prefix of `b`. */
  predicate IsPrefix(a: Path, b: Path) {
    |a| <= |b| && b[..|a|] == a
  }

  /** Neither path lies on the other's way: they lead to disjoint parts of
      the tree. */
  predicate Apart(a: Path, b: Path) {
    !IsPrefix(a, b) && !IsPrefix(b, a)
  }

  lemma ApartCons(a: Path, b: Path)
    requires Apart(a, b)
    ensures |a| >= 1 && |b| >= 1
    ensures a[0] == b[0] ==> Apart(a[1..], b[1..])
  {
    if a[0] == b[0] {
      PrefixCons(a, b);
      PrefixCons(b, a);
    }
  }

  lemma PrefixCons(a: Path, b: Path)
    requires |a| >= 1 && |b| >= 1 && a[0] == b[0]
    ensures IsPrefix(a, b) <==> IsPrefix(a[1..], b[1..])
  {
    if |a| <= |b| {
      assert b[..|a|] == [b[0]] + b[1..][..|a| - 1];
      assert a == [a[0]] + a[1..];
    }
  }

  lemma Split(p: Path)
    requires |p| >= 1
    ensures p == [p[0]] + p[1..]
  { }

  // --------------------------------------------------------------- delete

  /** `delete(path)`: a file is unlinked and a directory removed with
      everything below it; a path that resolves to nothing is left
      alone.  (The root itself is not addressed.) */
  function Delete(n: Node, p: Path): (r: Node)
    requires |p| >= 1
    ensures n.File? ==> r == n
    ensures n.Dir? ==> r.Dir? && forall x :: x != p[0] ==> Child(r.entries, x) == Child(n.entries, x)
    decreases p
  {
    match n
    case File(_) => n
    case Dir(es) =>
      if |p| == 1 then Dir(Remove(es, p[0]))
      else
        match Child(es, p[0])
        case None => n
        case Some(c) => Dir(Put(es, Entry(p[0], Delete(c, p[1..]))))
  }

  /** Deleting a path that does not exist changes nothing. */
  lemma {:induction false} DeleteAbsent(n: Node, p: Path)
    requires |p| >= 1 && Lookup(n, p).None?
    ensures Delete(n, p) == n
    decreases p
  {
    Split(p);
    LookupCons(n, p[0], p[1..]);
    if n.Dir? && |p| > 1 && Child(n.entries, p[0]).Some? {
      DeleteAbsent(Child(n.entries, p[0]).value, p[1..]);
    }
  }

  /** In a well-formed tree, the deleted path resolves to nothing after. */
  lemma {:induction false} DeleteRemoves(n: Node, p: Path)
    requires |p| >= 1 && WellFormed(n)
    ensures Lookup(Delete(n, p), p).None?
    decreases p
  {
    Split(p);
    var r := Delete(n, p);
    LookupCons(r, p[0], p[1..]);
    if n.Dir? {
      if |p| == 1 {
        RemoveGone(n.entries, p[0]);
      } else if Child(n.entries, p[0]).Some? {
        var c := Child(n.entries, p[0]).value;
        WellFormedChild(n, p[0]);
        DeleteRemoves(c, p[1..]);
      } else {
        LookupCons(n, p[0], p[1..]);
      }
    }
  }

  lemma WellFormedChild(n: Node, x: string)
    requires WellFormed(n) && n.Dir? && Child(n.entries, x).Some?
    ensures WellFormed(Child(n.entries, x).value)
  { }

  /** Deleting one path leaves every path apart from it as it was. */
  lemma {:induction false} DeleteFrame(n: Node, p: Path, q: Path)
    requires |p| >= 1 && Apart(p, q)
    ensures Lookup(Delete(n, p), q) == Lookup(n, q)
    decreases p
  {
    ApartCons(p, q);
    Split(q);
    var r := Delete(n, p);
    LookupCons(n, q[0], q[1..]);
    LookupCons(r, q[0], q[1..]);
    if n.Dir? && |p| > 1 && Child(n.entries, p[0]).Some? && q[0] == p[0] {
      DeleteFrame(Child(n.entries, p[0]).value, p[1..], q[1..]);
    }
  }

  // ------------------------------------------------------------ storing

  function Parent(p: Path): Path
    requires |p| >= 1
  {
    p[..|p| - 1]
  }

  /** Storing `m` at `p`: what is there is replaced, and a missing last
      component is created inside an existing directory; a path through
      anything else changes nothing. */
  function SetAt(n: Node, p: Path, m: Node): Node
    decreases p
  {
    if p == [] then m
    else
      match n
      case File(_) => n
      case Dir(es) =>
        match Child(es, p[0])
        case Some(c) => Dir(Put(es, Entry(p[0], SetAt(c, p[1..], m))))
        case None => if |p| == 1 then Dir(Put(es, Entry(p[0], m))) else n
  }

  /** `p` exists, or its parent is a directory to create it in. */
  predicate Placeable(n: Node, p: Path) {
    Lookup(n, p).Some? || (|p| >= 1 && Lookup(n, Parent(p)).Some? && Lookup(n, Parent(p)).value.Dir?)
  }

  lemma ParentCons(p: Path)
    requires |p| >= 2
    ensures Parent(p) == [p[0]] + Parent(p[1..])
  { }

  /** What is stored at a placeable path is found there. */
  lemma {:induction false} SetAtLands(n: Node, p: Path, m: Node)
    requires Placeable(n, p)
    ensures Lookup(SetAt(n, p, m), p) == Some(m)
    decreases p
  {
    if p != [] {
      Split(p);
      LookupCons(n, p[0], p[1..]);
      LookupCons(SetAt(n, p, m), p[0], p[1..]);
      if |p| == 1 {
        assert Parent(p) == [];
      } else {
        ParentCons(p);
        LookupCons(n, p[0], Parent(p[1..]));
        SetAtLands(Child(n.entries, p[0]).value, p[1..], m);
      }
    }
  }

  /** Storing at one path leaves every path apart from it as it was. */
  lemma {:induction false} SetAtFrame(n: Node, p: Path, m: Node, q: Path)
    requires Apart(p, q)
    ensures Lookup(SetAt(n, p, m), q) == Lookup(n, q)
    decreases p
  {
    ApartCons(p, q);
    Split(q);
    LookupCons(n, q[0], q[1..]);
    LookupCons(SetAt(n, p, m), q[0], q[1..]);
    if n.Dir? && Child(n.entries, p[0]).Some? && q[0] == p[0] {
      SetAtFrame(Child(n.entries, p[0]).value, p[1..], m, q[1..]);
    }
  }

  /** A chain of empty directories along `p`. */
  function Chain(p: Path): (r: Node)
    ensures r.Dir?
    decreases p
  {
    if p == [] then Dir([]) else Dir([Entry(p[0], Chain(p[1..]))])
  }

  /** `os.makedirs(p, exist_ok=True)`: the missing directories along `p`
      are created; `None` when a file is in the way (FileExistsError). */
  function MakeDirs(n: Node, p: Path): (r: Option<Node>)
    ensures r.Some? ==> r.value.Dir?
    ensures r.Some? && p != [] ==> n.Dir? && forall x :: x != p[0] ==> Child(r.value.entries, x) == Child(n.entries, x)
    decreases p
  {
    if p == [] then (if n.Dir? then Some(n) else None)
    else
      match n
      case File(_) => None
      case Dir(es) =>
        match Child(es, p[0])
        case Some(c) =>
          (match MakeDirs(c, p[1..])
           case None => None
           case Some(c2) => Some(Dir(Put(es, Entry(p[0], c2)))))
        case None => Some(Dir(Put(es, Entry(p[0], Chain(p[1..])))))
  }

  lemma {:induction false} ChainLookup(p: Path)
    ensures Lookup(Chain(p), p) == Some(Dir([]))
    decreases p
  {
    if p != [] {
      Split(p);
      LookupCons(Chain(p), p[0], p[1..]);
      ChainLookup(p[1..]);
    }
  }

  /** After `makedirs` the path is a directory; one that already was is
      left as it was, tree and all. */
  lemma {:induction false} MakeDirsMakes(n: Node, p: Path)
    ensures MakeDirs(n, p).Some? ==> Lookup(MakeDirs(n, p).value, p).Some? && Lookup(MakeDirs(n, p).value, p).value.Dir?
    ensures Lookup(n, p).Some? && Lookup(n, p).value.Dir? ==> MakeDirs(n, p) == Some(n)
    decreases p
  {
    if p != [] && n.Dir? {
      Split(p);
      LookupCons(n, p[0], p[1..]);
      var es := n.entries;
      match Child(es, p[0])
      case Some(c) =>
        MakeDirsMakes(c, p[1..]);
        if MakeDirs(c, p[1..]).Some? {
          LookupCons(MakeDirs(n, p).value, p[0], p[1..]);
        }
      case None =>
        LookupCons(MakeDirs(n, p).value, p[0], p[1..]);
        ChainLookup(p[1..]);
    }
  }

  /** `makedirs` fails exactly when some prefix of the path, the path
      itself included, is a file. */
  lemma {:induction false} MakeDirsFails(n: Node, p: Path)
    ensures MakeDirs(n, p).None? <==> exists k :: 0 <= k <= |p| && Lookup(n, p[..k]).Some? && Lookup(n, p[..k]).value.File?
    decreases p
  {
    if p == [] {
      assert forall k :: 0 <= k <= |p| ==> p[..k] == [];
    } else if n.File? {
      assert p[..0] == [];
    } else {
      Split(p);
      var es := n.entries;
      assert p[..0] == [];
      forall k | 1 <= k <= |p| ensures Lookup(n, p[..k]) == (if Child(es, p[0]).Some? then Lookup(Child(es, p[0]).value, p[1..][..k - 1]) else None) {
        assert p[..k] == [p[0]] + p[1..][..k - 1];
        LookupCons(n, p[0], p[1..][..k - 1]);
      }
      match Child(es, p[0])
      case Some(c) =>
        MakeDirsFails(c, p[1..]);
        if MakeDirs(c, p[1..]).None? {
          var k :| 0 <= k <= |p[1..]| && Lookup(c, p[1..][..k]).Some? && Lookup(c, p[1..][..k]).value.File?;
          assert Lookup(n, p[..k + 1]) == Lookup(c, p[1..][..k]);
        }
      case None =>
    }
  }

  /** A file at the path itself makes `makedirs` fail. */
  lemma {:induction false} MakeDirsOnFile(n: Node, p: Path)
    ensures Lookup(n, p).Some? && Lookup(n, p).value.File? ==> MakeDirs(n, p).None?
  {
    MakeDirsFails(n, p);
    assert p[..|p|] == p;
  }

  /** `makedirs` leaves every path apart from its own as it was. */
  lemma {:induction false} MakeDirsFrame(n: Node, p: Path, q: Path)
    requires Apart(p, q) && MakeDirs(n, p).Some?
    ensures Lookup(MakeDirs(n, p).value, q) == Lookup(n, q)
    decreases p
  {
    ApartCons(p, q);
    Split(q);
    var r := MakeDirs(n, p).value;
    LookupCons(n, q[0], q[1..]);
    LookupCons(r, q[0], q[1..]);
    if q[0] == p[0] {
      match Child(n.entries, p[0])
      case Some(c) => MakeDirsFrame(c, p[1..], q[1..]);
      case None => ChainApart(p[1..], q[1..]);
    }
  }

  lemma {:induction false} ChainApart(p: Path, q: Path)
    requires Apart(p, q)
    ensures Lookup(Chain(p), q) == None
    decreases p
  {
    ApartCons(p, q);
    Split(q);
    LookupCons(Chain(p), q[0], q[1..]);
    if q[0] == p[0] {
      ChainApart(p[1..], q[1..]);
    }
  }

  // ----------------------------------------------------------------- copy

  /** A call that changes the tree and may raise after doing so. */
  datatype Done = Done(fs: Node, raised: Option<Error>)

  /** `copytree`'s loop over the entries of source directory `s` from `i`
      on, into the destination entries `des`.  A sub-directory is merged
      into a directory of the same name (made when missing); a file
      replaces a file, or goes inside a directory of its name (`copy2`
      into a directory).  An entry that fails -- a directory onto a file,
      a file onto a directory holding a directory of its name -- is
      skipped and the flag turns false; the loop carries on. */
  function Merge(des: seq<Entry>, s: Node, i: nat): (seq<Entry>, bool)
    requires s.Dir? && i <= |s.entries|
    decreases s, |s.entries| - i, 1
  {
    if i == |s.entries| then (des, true)
    else
      var step := Step(des, s, i);
      var rest := Merge(step.0, s, i + 1);
      (rest.0, step.1 && rest.1)
  }

  /** Copying source entry `i` into `des`. */
  function Step(des: seq<Entry>, s: Node, i: nat): (seq<Entry>, bool)
    requires s.Dir? && i < |s.entries|
    decreases s, |s.entries| - i, 0
  {
    var e := s.entries[i];
    match e.node
    case Dir(_) =>
      (match Child(des, e.name)
       case Some(File(_)) => (des, false)
       case None =>
         var m := Merge([], e.node, 0);
         (Put(des, Entry(e.name, Dir(m.0))), m.1)
       case Some(Dir(dd)) =>
         var m := Merge(dd, e.node, 0);
         (Put(des, Entry(e.name, Dir(m.0))), m.1))
    case File(sz) =>
      (match Child(des, e.name)
       case Some(Dir(dd)) =>
         (match Child(dd, e.name)
          case Some(Dir(_)) => (des, false)
          case _ => (Put(des, Entry(e.name, Dir(Put(dd, Entry(e.name, File(sz)))))), true))
       case _ => (Put(des, Entry(e.name, File(sz))), true))
  }

  /** The source entries from `i` on meet no clash in `des`: no file
      where the source has a directory, no directory where it has a file,
      and the same below. */
  predicate Fits(des: seq<Entry>, s: Node, i: nat)
    decreases s
  {
    s.Dir? && i <= |s.entries| &&
    forall j :: i <= j < |s.entries| ==>
      match Child(des, s.entries[j].name)
      case None => true
      case Some(File(_)) => s.entries[j].node.File?
      case Some(Dir(dd)) => s.entries[j].node.File? == false && Fits(dd, s.entries[j].node, 0)
  }

  /** The loop only touches entries named after source entries. */
  lemma {:induction false} MergeFrame(des: seq<Entry>, s: Node, i: nat, x: string)
    requires s.Dir? && i <= |s.entries|
    requires forall j :: i <= j < |s.entries| ==> s.entries[j].name != x
    ensures Child(Merge(des, s, i).0, x) == Child(des, x)
    decreases |s.entries| - i
  {
    if i < |s.entries| {
      var step := Step(des, s, i);
      assert Child(step.0, x) == Child(des, x);
      MergeFrame(step.0, s, i + 1, x);
    }
  }

  /** Without clashes the loop succeeds and every file below the source
      ends up, with its size, at the same place below the destination. */
  lemma {:induction false} MergeLands(des: seq<Entry>, s: Node, i: nat)
    requires WellFormed(s) && Fits(des, s, i)
    ensures Merge(des, s, i).1
    ensures forall a :: 0 <= a < |WalkFrom(s, i)| && WalkFrom(s, i)[a].1.File? ==>
      Lookup(Dir(Merge(des, s, i).0), WalkFrom(s, i)[a].0) == Some(WalkFrom(s, i)[a].1)
    decreases s, |s.entries| - i, 1
  {
    if i < |s.entries| {
      var e := s.entries[i];
      var step := Step(des, s, i);
      var f := Merge(des, s, i).0;
      StepLands(des, s, i);
      FitsAfterStep(des, s, i);
      MergeLands(step.0, s, i + 1);
      MergeFrame(step.0, s, i + 1, e.name);
      var b := EntryWalk(e);
      AppendIndex(b, WalkFrom(s, i + 1));
      EntryWalkHead(e);
      forall a | 0 <= a < |b| && b[a].1.File? ensures Lookup(Dir(f), b[a].0) == Some(b[a].1) {
        SameChildSameLookup(f, step.0, e.name, b[a].0);
      }
    }
  }

  lemma FitsAfterStep(des: seq<Entry>, s: Node, i: nat)
    requires WellFormed(s) && Fits(des, s, i) && i < |s.entries|
    ensures Fits(Step(des, s, i).0, s, i + 1)
  {
    var e := s.entries[i];
    forall j | i + 1 <= j < |s.entries| ensures Child(Step(des, s, i).0, s.entries[j].name) == Child(des, s.entries[j].name) {
      assert s.entries[j].name != e.name;
    }
  }

  lemma AppendIndex(b: seq<(Path, Node)>, t: seq<(Path, Node)>)
    ensures forall a :: 0 <= a < |b| ==> (b + t)[a] == b[a]
    ensures forall a :: |b| <= a < |b + t| ==> (b + t)[a] == t[a - |b|]
  { }

  /** Every path of an entry's walk starts with the entry's name. */
  lemma EntryWalkHead(e: Entry)
    ensures forall a :: 0 <= a < |EntryWalk(e)| ==> |EntryWalk(e)[a].0| >= 1 && EntryWalk(e)[a].0[0] == e.name
  {
    var u := Under(e.name, Walk(e.node));
    assert forall a :: 1 <= a < |EntryWalk(e)| ==> EntryWalk(e)[a] == u[a - 1];
  }

  lemma SameChildSameLookup(es1: seq<Entry>, es2: seq<Entry>, x: string, p: Path)
    requires Child(es1, x) == Child(es2, x) && |p| >= 1 && p[0] == x
    ensures Lookup(Dir(es1), p) == Lookup(Dir(es2), p)
  {
    Split(p);
    LookupCons(Dir(es1), x, p[1..]);
    LookupCons(Dir(es2), x, p[1..]);
  }

  /** One source entry, copied without clash, lands in full. */
  lemma {:induction false} StepLands(des: seq<Entry>, s: Node, i: nat)
    requires WellFormed(s) && Fits(des, s, i) && i < |s.entries|
    ensures Step(des, s, i).1
    ensures forall a :: 0 <= a < |EntryWalk(s.entries[i])| && EntryWalk(s.entries[i])[a].1.File? ==>
      Lookup(Dir(Step(des, s, i).0), EntryWalk(s.entries[i])[a].0) == Some(EntryWalk(s.entries[i])[a].1)
    decreases s, |s.entries| - i, 0
  {
    var e := s.entries[i];
    var step := Step(des, s, i);
    var b := EntryWalk(e);
    var w := Walk(e.node);
    LookupCons(Dir(step.0), e.name, []);
    assert [e.name] + [] == [e.name];
    match e.node
    case File(sz) =>
      assert |b| == 1;
    case Dir(_) =>
      var sub := if Child(des, e.name).None? then [] else Child(des, e.name).value.entries;
      assert Fits(sub, e.node, 0);
      MergeLands(sub, e.node, 0);
      var m := Merge(sub, e.node, 0);
      assert step == (Put(des, Entry(e.name, Dir(m.0))), m.1);
      assert w == WalkFrom(e.node, 0);
      forall a | 0 <= a < |b| && b[a].1.File? ensures Lookup(Dir(step.0), b[a].0) == Some(b[a].1) {
        assert a >= 1;
        assert b[a] == ([e.name] + w[a - 1].0, w[a - 1].1);
        LookupCons(Dir(step.0), e.name, w[a - 1].0);
      }
  }

  /** The path is a directory. */
  predicate IsDir(n: Node, p: Path) {
    Lookup(n, p).Some? && Lookup(n, p).value.Dir?
  }

  function BaseName(p: Path): string {
    if |p| == 0 then "" else p[|p| - 1]
  }

  /** Where `copy2` writes: inside `dst` when it is a directory. */
  function CopyTarget(root: Node, src: Path, dst: Path): (t: Path)
    ensures IsDir(root, dst) ==> t == dst + [BaseName(src)]
    ensures !IsDir(root, dst) ==> t == dst
  {
    if IsDir(root, dst) then dst + [BaseName(src)] else dst
  }

  /** `shutil.copy2(src, dst)` of a file of `size` bytes. */
  function CopyFile(root: Node, src: Path, size: nat, dst: Path): (r: Done)
    ensures r.raised.None? ==> Lookup(r.fs, CopyTarget(root, src, dst)) == Some(File(size))
    ensures r.raised.None? <==> (CopyTarget(root, src, dst) != src && !IsDir(root, CopyTarget(root, src, dst)) &&
      Placeable(root, CopyTarget(root, src, dst)))
    ensures r.raised.Some? ==> r.fs == root
  {
    var t := CopyTarget(root, src, dst);
    if t == src then Done(root, Some(Error(SameFileError, "'" + Join(src) + "' and '" + Join(t) + "' are the same file")))
    else if IsDir(root, t) then Done(root, Some(Error(IsADirectoryError, Join(t))))
    else if Lookup(root, t).None? && Lookup(root, Parent(t)).None? then Done(root, Some(Error(FileNotFoundError, Join(t))))
    else if Lookup(root, t).None? && Lookup(root, Parent(t)).value.File? then Done(root, Some(Error(NotADirectoryError, Join(t))))
    else
      SetAtLands(root, t, File(size));
      Done(SetAt(root, t, File(size)), None)
  }

  /** `shutil.copytree(src, dst, dirs_exist_ok=True)` of directory `s`:
      make `dst` and its missing parents, then merge `s` into it; the
      failed entries are reported together at the end, after the rest
      has been copied.  When `makedirs` fails, a file at `dst` itself
      makes `mkdir` raise FileExistsError, and a file at a proper prefix
      makes the first `mkdir` below it raise NotADirectoryError. */
  function CopyTree(root: Node, s: Node, dst: Path): (r: Done)
    requires s.Dir?
    ensures Lookup(root, dst).Some? && Lookup(root, dst).value.File? ==>
      r == Done(root, Some(Error(FileExistsError, Join(dst))))
    ensures MakeDirs(root, dst).None? && !(Lookup(root, dst).Some? && Lookup(root, dst).value.File?) ==>
      r == Done(root, Some(Error(NotADirectoryError, Join(dst))))
  {
    match MakeDirs(root, dst)
    case None =>
      if Lookup(root, dst).Some? && Lookup(root, dst).value.File? then Done(root, Some(Error(FileExistsError, Join(dst))))
      else Done(root, Some(Error(NotADirectoryError, Join(dst))))
    case Some(made) =>
      MakeDirsOnFile(root, dst);
      MakeDirsMakes(root, dst);
      var m := Merge(Lookup(made, dst).value.entries, s, 0);
      Done(SetAt(made, dst, Dir(m.0)), if m.1 then None else Some(Error(CopyError, Join(dst))))
  }

  /** `copy(src, dst)`: a file is copied with `copy2`, a directory with
      `copytree`; anything else raises. */
  function Copy(root: Node, src: Path, dst: Path): (r: Done)
    ensures Lookup(root, src).None? ==>
      r == Done(root, Some(Error(FileNotFoundError, "Source path is not a file or directory: " + Join(src))))
    ensures Lookup(root, src).Some? && Lookup(root, src).value.File? ==> r == CopyFile(root, src, Lookup(root, src).value.size, dst)
  {
    match Lookup(root, src)
    case None => Done(root, Some(Error(FileNotFoundError, "Source path is not a file or directory: " + Join(src))))
    case Some(File(sz)) => CopyFile(root, src, sz, dst)
    case Some(Dir(es)) => CopyTree(root, Dir(es), dst)
  }

  /** Copying a well-formed directory onto a destination without clashes
      succeeds, and every file below the source is then found, with its
      size, at the same relative place below the destination. */
  lemma CopyTreeLands(root: Node, src: Path, dst: Path)
    requires IsDir(root, src) && WellFormed(Lookup(root, src).value)
    requires MakeDirs(root, dst).Some?
    requires Fits(EntriesOf(Lookup(MakeDirs(root, dst).value, dst)), Lookup(root, src).value, 0)
    ensures Copy(root, src, dst).raised.None?
    ensures forall a :: 0 <= a < |Walk(Lookup(root, src).value)| && Walk(Lookup(root, src).value)[a].1.File? ==>
      Lookup(Copy(root, src, dst).fs, dst + Walk(Lookup(root, src).value)[a].0) == Some(Walk(Lookup(root, src).value)[a].1)
  {
    var s := Lookup(root, src).value;
    var made := MakeDirs(root, dst).value;
    MakeDirsMakes(root, dst);
    var d := Lookup(made, dst).value.entries;
    MergeLands(d, s, 0);
    var m := Merge(d, s, 0);
    var fs := SetAt(made, dst, Dir(m.0));
    assert Copy(root, src, dst) == Done(fs, None);
    SetAtLands(made, dst, Dir(m.0));
    forall q | true ensures Lookup(fs, dst + q) == Lookup(Dir(m.0), q) {
      LookupAppend(fs, dst, q);
    }
  }

  /** The entries of what a lookup found, if it is a directory. */
  function EntriesOf(o: Option<Node>): seq<Entry> {
    if o.Some? && o.value.Dir? then o.value.entries else []
  }

  /** Copying a directory into an existing one keeps every entry of the
      destination that the source does not name, with all below it. */
  lemma CopyTreeKeeps(root: Node, src: Path, dst: Path, x: string, q: Path)
    requires IsDir(root, src) && IsDir(root, dst)
    requires forall j :: 0 <= j < |Lookup(root, src).value.entries| ==> Lookup(root, src).value.entries[j].name != x
    ensures Lookup(Copy(root, src, dst).fs, dst + ([x] + q)) == Lookup(root, dst + ([x] + q))
  {
    var s := Lookup(root, src).value;
    MakeDirsMakes(root, dst);
    var d := Lookup(root, dst).value.entries;
    var m := Merge(d, s, 0);
    var fs := SetAt(root, dst, Dir(m.0));
    assert Copy(root, src, dst).fs == fs;
    MergeFrame(d, s, 0, x);
    SetAtLands(root, dst, Dir(m.0));
    LookupAppend(fs, dst, [x] + q);
    LookupAppend(root, dst, [x] + q);
    LookupCons(Dir(m.0), x, q);
    LookupCons(Dir(d), x, q);
  }

  lemma ApartExtend(p: Path, x: string, q: Path)
    requires Apart(p, q)
    ensures Apart(p + [x], q)
  {
    PrefixDrop(p, x, q);
    PrefixOfExtended(q, p, x);
  }

  lemma PrefixDrop(p: Path, x: string, q: Path)
    ensures IsPrefix(p + [x], q) ==> IsPrefix(p, q)
  {
    if IsPrefix(p + [x], q) {
      assert q[..|p|] == (p + [x])[..|p + [x]|][..|p|];
    }
  }

  lemma PrefixOfExtended(q: Path, p: Path, x: string)
    ensures IsPrefix(q, p + [x]) ==> q == p + [x] || IsPrefix(q, p)
  {
    if IsPrefix(q, p + [x]) && |q| <= |p| {
      assert p[..|q|] == (p + [x])[..|q|];
    }
  }

  /** A copy changes nothing apart from the destination. */
  lemma CopyFrame(root: Node, src: Path, dst: Path, q: Path)
    requires Apart(dst, q)
    ensures Lookup(Copy(root, src, dst).fs, q) == Lookup(root, q)
  {
    match Lookup(root, src)
    case None =>
    case Some(File(sz)) =>
      var t := CopyTarget(root, src, dst);
      if IsDir(root, dst) {
        ApartExtend(dst, BaseName(src), q);
      }
      SetAtFrame(root, t, File(sz), q);
    case Some(Dir(es)) =>
      if MakeDirs(root, dst).Some? {
        var made := MakeDirs(root, dst).value;
        MakeDirsMakes(root, dst);
        MakeDirsFrame(root, dst, q);
        SetAtFrame(made, dst, Dir(Merge(Lookup(made, dst).value.entries, Dir(es), 0).0), q);
      }
  }
}

=== FILE: google.dfy ===
/** The Google scraper: the Lynx user agent it poses as, the proxy guard,
    the parsing of one result page, and the pagination loop.  The HTTP
    exchange (the sequence of parsed pages it answers), the random draws and
    `urllib.parse.unquote` are parameters. */
module GoogleSearch {
  import opened Outcomes
  import opened Strs

  // -------------------------------------------------------------- user agent

  /** `random.randint(lo, hi)` for a given draw. */
  function RandInt(lo: int, hi: int, draw: nat): (v: int)
    requires lo <= hi
    ensures lo <= v <= hi
  {
    lo + draw % (hi - lo + 1)
  }

  /** Every value of the range is drawn by some draw. */
  lemma RandIntReaches(lo: int, hi: int, v: int)
    requires lo <= v <= hi
    ensures RandInt(lo, hi, (v - lo) as nat) == v
  {
  }

  /** The ten version numbers of the agent string, in order: Lynx x.y.z,
      libwww-FM x.y, SSL-MM x.y, OpenSSL x.y.z. */
  const VersionRanges: seq<(int, int)> :=
    [(2, 3), (8, 9), (0, 2), (2, 3), (13, 15), (1, 2), (3, 5), (1, 3), (0, 4), (0, 9)]

  predicate InRanges(v: seq<int>) {
    |v| == |VersionRanges| && forall i :: 0 <= i < |v| ==> VersionRanges[i].0 <= v[i] <= VersionRanges[i].1
  }

  /** The version numbers `_get_lynx_useragent` draws. */
  function Versions(draws: seq<nat>): (v: seq<int>)
    requires |draws| == |VersionRanges|
    ensures InRanges(v)
  {
    seq(|draws|, i requires 0 <= i < |draws| => RandInt(VersionRanges[i].0, VersionRanges[i].1, draws[i]))
  }

  /** Every combination of in-range version numbers can be drawn. */
  lemma VersionsReachable(v: seq<int>)
    requires InRanges(v)
    ensures exists draws: seq<nat> :: |draws| == |VersionRanges| && Versions(draws) == v
  {
    var draws := seq(|v|, i requires 0 <= i < |v| => (v[i] - VersionRanges[i].0) as nat);
    forall i | 0 <= i < |v| ensures Versions(draws)[i] == v[i] {
      RandIntReaches(VersionRanges[i].0, VersionRanges[i].1, v[i]);
    }
  }

  /** `_get_lynx_useragent()`. */
  function UserAgent(draws: seq<nat>): (ua: string)
    requires |draws| == |VersionRanges|
    ensures StartsWith(ua, "Lynx/")
  {
    var v := Versions(draws);
    var n := seq(|v|, i requires 0 <= i < |v| => NatToString(if v[i] < 0 then 0 else v[i]));
    "Lynx/" + n[0] + "." + n[1] + "." + n[2] +
    " libwww-FM/" + n[3] + "." + n[4] +
    " SSL-MM/" + n[5] + "." + n[6] +
    " OpenSSL/" + n[7] + "." + n[8] + "." + n[9]
  }

  // ------------------------------------------------------------------- proxy

  lemma HttpsIsHttp(p: string)
    ensures StartsWith(p, "https") ==> StartsWith(p, "http")
  {
    if StartsWith(p, "https") {
      assert p[..4] == p[..5][..4];
    }
  }

  /** The proxy routed for both schemes: given only when it is set and
      starts with "https" or "http". */
  function Proxies(proxy: Option<string>): (r: Option<string>)
    ensures r.Some? <==> proxy.Some? && StartsWith(proxy.value, "http")
    ensures r.Some? ==> r == proxy
  {
    match proxy
    case None => None
    case Some(p) =>
      HttpsIsHttp(p);
      if p != "" && (StartsWith(p, "https") || StartsWith(p, "http")) then Some(p) else None
  }

  // ------------------------------------------------------------------- parse

  /** The anchor with an href of a result block, and the title span inside it. */
  datatype Anchor = Anchor(href: string, title: Option<string>)

  /** One `div.ezO2md` result block: its first anchor with an href and its
      description span, each possibly absent. */
  datatype Block = Block(anchor: Option<Anchor>, description: Option<string>)

  datatype Item = Item(link: string, title: string, description: string)

  predicate Complete(b: Block) {
    b.anchor.Some? && b.anchor.value.title.Some? && b.description.Some?
  }

  /** The link of an href: the text before the first '&', every "/url?q="
      removed, then unquoted. */
  function LinkOf(href: string, unquote: string -> string): string {
    unquote(ReplaceAll(BeforeFirst(href, '&'), RedirectPrefix, ""))
  }

  const RedirectPrefix: string := "/url?q="

  lemma {:induction false} ReplaceAbsent(s: string, pat: string)
    requires |pat| > 0 && !HasSubstring(s, pat)
    ensures ReplaceAll(s, pat, "") == s
    decreases |s|
  {
    if |s| >= |pat| {
      ReplaceAbsent(s[1..], pat);
      assert s == [s[0]] + s[1..];
    }
  }

  /** A Google redirect `/url?q=<target>&<tracking>` gives the unquoted
      target, as long as the target holds no '&' and no second "/url?q=". */
  lemma RedirectLink(target: string, tracking: string, unquote: string -> string)
    requires '&' !in target && !HasSubstring(target, RedirectPrefix)
    ensures LinkOf(RedirectPrefix + target + "&" + tracking, unquote) == unquote(target)
  {
    var p := RedirectPrefix + target;
    assert '&' !in p by {
      assert forall i :: 0 <= i < |RedirectPrefix| ==> p[i] == RedirectPrefix[i];
      assert forall i :: |RedirectPrefix| <= i < |p| ==> p[i] == target[i - |RedirectPrefix|];
    }
    assert RedirectPrefix + target + "&" + tracking == p + ['&'] + tracking;
    SplitJoin(p, '&', tracking);
    PrefixReplaced(target);
    ReplaceAbsent(target, RedirectPrefix);
  }

  lemma PrefixReplaced(target: string)
    ensures ReplaceAll(RedirectPrefix + target, RedirectPrefix, "") == ReplaceAll(target, RedirectPrefix, "")
  {
    var p := RedirectPrefix + target;
    assert p[..|RedirectPrefix|] == RedirectPrefix;
    assert p[|RedirectPrefix|..] == target;
  }

  function ItemOf(b: Block, link: string -> string): Item
    requires Complete(b)
  {
    Item(link(b.anchor.value.href), b.anchor.value.title.value, b.description.value)
  }

  /** The items the page offers: one per complete block. */
  function Candidates(blocks: seq<Block>, link: string -> string): set<Item> {
    set b | b in blocks && Complete(b) :: ItemOf(b, link)
  }

  /** The links of the items. */
  function Links(items: seq<Item>): set<string>
    decreases |items|
  {
    if |items| == 0 then {} else {items[0].link} + Links(items[1..])
  }

  lemma {:induction false} LinksHold(items: seq<Item>)
    ensures forall i :: 0 <= i < |items| ==> items[i].link in Links(items)
    decreases |items|
  {
    if |items| > 0 {
      LinksHold(items[1..]);
      assert forall i :: 1 <= i < |items| ==> items[i] == items[1..][i - 1];
    }
  }

  /** No link repeats: each item's link is absent from the later items. */
  predicate DistinctLinks(items: seq<Item>)
    decreases |items|
  {
    |items| == 0 || (items[0].link !in Links(items[1..]) && DistinctLinks(items[1..]))
  }

  /** Distinct links, pair by pair. */
  lemma {:induction false} DistinctPairwise(items: seq<Item>)
    requires DistinctLinks(items)
    ensures forall i, j :: 0 <= i < j < |items| ==> items[i].link != items[j].link
    decreases |items|
  {
    if |items| > 0 {
      var rest := items[1..];
      DistinctPairwise(rest);
      LinksHold(rest);
      forall i, j | 0 <= i < j < |items| ensures items[i].link != items[j].link {
        assert items[j] == rest[j - 1];
        if i > 0 { assert items[i] == rest[i - 1]; }
      }
    }
  }

  lemma LinksCons(it: Item, items: seq<Item>)
    ensures Links([it] + items) == {it.link} + Links(items)
  {
    assert ([it] + items)[1..] == items;
  }

  lemma {:induction false} LinksAppend(xs: seq<Item>, ys: seq<Item>)
    ensures Links(xs + ys) == Links(xs) + Links(ys)
    decreases |xs|
  {
    if |xs| > 0 {
      LinksAppend(xs[1..], ys);
      assert (xs + ys)[1..] == xs[1..] + ys;
    } else {
      assert xs + ys == ys;
    }
  }

  /** The items a page yields, and the shared link set afterwards. */
  datatype Batch = Batch(items: seq<Item>, seen: set<string>)

  /** `_parse_google_entries(html, fetched_links, num)`: the items yielded
      and the shared link set afterwards.  Incomplete blocks and links
      already fetched are skipped. */
  function Parse(blocks: seq<Block>, seen: set<string>, num: int, link: string -> string): (b: Batch)
    ensures seen <= b.seen
    ensures |b.items| <= |blocks| && (num <= 0 ==> b.items == [])
    decreases |blocks|
  {
    if |blocks| == 0 || num <= 0 then Batch([], seen)
    else
      var b := blocks[0];
      if !Complete(b) then Parse(blocks[1..], seen, num, link)
      else
        var l := link(b.anchor.value.href);
        if l in seen then Parse(blocks[1..], seen, num, link)
        else
          var rest := Parse(blocks[1..], seen + {l}, num - 1, link);
          Batch([ItemOf(b, link)] + rest.items, rest.seen)
  }

  /** A block that is incomplete or whose link was fetched is passed over. */
  lemma ParseSkips(blocks: seq<Block>, seen: set<string>, num: int, link: string -> string)
    requires |blocks| > 0 && num > 0
    requires !Complete(blocks[0]) || link(blocks[0].anchor.value.href) in seen
    ensures Parse(blocks, seen, num, link) == Parse(blocks[1..], seen, num, link)
  {
  }

  /** Any other block yields its item, and its link joins the set. */
  lemma ParseTakes(blocks: seq<Block>, seen: set<string>, num: int, link: string -> string)
    requires |blocks| > 0 && num > 0
    requires Complete(blocks[0]) && link(blocks[0].anchor.value.href) !in seen
    ensures var rest := Parse(blocks[1..], seen + {link(blocks[0].anchor.value.href)}, num - 1, link);
      Parse(blocks, seen, num, link) == Batch([ItemOf(blocks[0], link)] + rest.items, rest.seen)
  {
  }

  /** At most `num` items are yielded, and every yielded link joins the
      shared set, which gains nothing else. */
  lemma {:induction false} ParseRecords(blocks: seq<Block>, seen: set<string>, num: int, link: string -> string)
    ensures |Parse(blocks, seen, num, link).items| <= if num < 0 then 0 else num
    ensures Parse(blocks, seen, num, link).seen == seen + Links(Parse(blocks, seen, num, link).items)
    decreases |blocks|
  {
    if |blocks| > 0 && num > 0 {
      var b := blocks[0];
      if !Complete(b) || link(b.anchor.value.href) in seen {
        ParseSkips(blocks, seen, num, link);
        ParseRecords(blocks[1..], seen, num, link);
      } else {
        ParseTakes(blocks, seen, num, link);
        var l := link(b.anchor.value.href);
        ParseRecords(blocks[1..], seen + {l}, num - 1, link);
        LinksCons(ItemOf(b, link), Parse(blocks[1..], seen + {l}, num - 1, link).items);
      }
    }
  }

  lemma DistinctCons(it: Item, items: seq<Item>)
    requires DistinctLinks(items) && it.link !in Links(items)
    ensures DistinctLinks([it] + items)
  {
    assert ([it] + items)[1..] == items;
  }

  lemma {:induction false} DistinctAppend(xs: seq<Item>, ys: seq<Item>)
    requires DistinctLinks(xs) && DistinctLinks(ys) && Links(xs) !! Links(ys)
    ensures DistinctLinks(xs + ys)
    decreases |xs|
  {
    if |xs| == 0 {
      assert xs + ys == ys;
    } else {
      var t := xs[1..];
      assert Links(xs) == {xs[0].link} + Links(t);
      DistinctAppend(t, ys);
      LinksAppend(t, ys);
      assert (xs + ys)[1..] == t + ys;
      assert (xs + ys)[0] == xs[0];
    }
  }

  /** Every yielded link is new: absent from the shared set before the
      call, and from the earlier items. */
  lemma {:induction false} ParseFresh(blocks: seq<Block>, seen: set<string>, num: int, link: string -> string)
    ensures Links(Parse(blocks, seen, num, link).items) !! seen
    ensures DistinctLinks(Parse(blocks, seen, num, link).items)
    decreases |blocks|
  {
    if |blocks| > 0 && num > 0 {
      var b := blocks[0];
      if !Complete(b) || link(b.anchor.value.href) in seen {
        ParseSkips(blocks, seen, num, link);
        ParseFresh(blocks[1..], seen, num, link);
      } else {
        ParseTakes(blocks, seen, num, link);
        var l := link(b.anchor.value.href);
        var rest := Parse(blocks[1..], seen + {l}, num - 1, link).items;
        ParseFresh(blocks[1..], seen + {l}, num - 1, link);
        LinksCons(ItemOf(b, link), rest);
        DistinctCons(ItemOf(b, link), rest);
      }
    }
  }

  /** Every yielded item is the item of a complete block of the page. */
  lemma {:induction false} ParseSound(blocks: seq<Block>, seen: set<string>, num: int, link: string -> string)
    ensures forall it :: it in Parse(blocks, seen, num, link).items ==> it in Candidates(blocks, link)
    decreases |blocks|
  {
    if |blocks| > 0 && num > 0 {
      var b := blocks[0];
      assert Candidates(blocks[1..], link) <= Candidates(blocks, link);
      if !Complete(b) || link(b.anchor.value.href) in seen {
        ParseSkips(blocks, seen, num, link);
        ParseSound(blocks[1..], seen, num, link);
      } else {
        ParseTakes(blocks, seen, num, link);
        var l := link(b.anchor.value.href);
        ParseSound(blocks[1..], seen + {l}, num - 1, link);
        assert ItemOf(b, link) in Candidates(blocks, link);
      }
    }
  }

  /** Short of `num` items, every complete block's link ends up in the
      shared set: nothing offered was missed. */
  lemma {:induction false} ParseComplete(blocks: seq<Block>, seen: set<string>, num: int, link: string -> string)
    ensures |Parse(blocks, seen, num, link).items| < num ==>
      forall b :: b in blocks && Complete(b) ==> link(b.anchor.value.href) in Parse(blocks, seen, num, link).seen
    decreases |blocks|
  {
    if |blocks| > 0 && num > 0 {
      var b := blocks[0];
      assert forall c :: c in blocks ==> c == b || c in blocks[1..];
      if !Complete(b) || link(b.anchor.value.href) in seen {
        ParseSkips(blocks, seen, num, link);
        ParseRecords(blocks[1..], seen, num, link);
        ParseComplete(blocks[1..], seen, num, link);
      } else {
        ParseTakes(blocks, seen, num, link);
        var l := link(b.anchor.value.href);
        ParseRecords(blocks[1..], seen + {l}, num - 1, link);
        ParseComplete(blocks[1..], seen + {l}, num - 1, link);
      }
    }
  }

  // -------------------------------------------------------------- pagination

  /** The results of a run of the loop, and the offsets of the pages it
      requested. */
  datatype Run = Run(items: seq<Item>, starts: seq<int>)

  /** The server's answers to successive requests: each the parsed page, or
      the error `raise_for_status` raises.  Past the last answer given the
      server has nothing more, which reads as an empty page. */
  type Answers = seq<Result<seq<Block>>>

  function Next(pages: Answers): Result<seq<Block>> {
    if |pages| == 0 then Ok([]) else pages[0]
  }

  function Later(pages: Answers): Answers {
    if |pages| == 0 then [] else pages[1..]
  }

  /** `_meta_google_search`'s loop from offset `start` with `count` results
      fetched so far: the results, and the offsets of the pages requested.
      `Next(pages)` answers the request at `start`. */
  function Paginate(pages: Answers, num: int, start: int, count: int,
                    seen: set<string>, link: string -> string): (r: Result<Run>)
    ensures r.Ok? && count < num ==> |r.value.starts| > 0 && r.value.starts[0] == start
    decreases num - count
  {
    if count >= num then Ok(Run([], []))
    else
      match Next(pages)
      case Err(e) => Err(e)
      case Ok(blocks) =>
        var batch := Parse(blocks, seen, num - count, link);
        if |batch.items| == 0 then Ok(Run([], [start]))
        else
          match Paginate(Later(pages), num, start + 10, count + |batch.items|, batch.seen, link)
          case Err(e) => Err(e)
          case Ok(run) => Ok(Run(batch.items + run.items, [start] + run.starts))
  }

  /** A run asks for nothing once `count` reaches `num`, passes a failed
      request on, and otherwise yields at most the `num - count` results
      still wanted, from at most one page more than that. */
  lemma {:induction false} PaginateBounds(pages: Answers, num: int, start: int, count: int,
                                          seen: set<string>, link: string -> string)
    ensures count >= num ==> Paginate(pages, num, start, count, seen, link) == Ok(Run([], []))
    ensures count < num && Next(pages).Err? ==>
      Paginate(pages, num, start, count, seen, link) == Err(Next(pages).error)
    ensures var r := Paginate(pages, num, start, count, seen, link);
      r.Ok? ==> |r.value.items| <= if count < num then num - count else 0
    ensures var r := Paginate(pages, num, start, count, seen, link);
      r.Ok? && count < num ==> 0 < |r.value.starts| <= num - count + 1
    decreases num - count
  {
    if count < num && Next(pages).Ok? {
      var batch := Parse(Next(pages).value, seen, num - count, link);
      ParseRecords(Next(pages).value, seen, num - count, link);
      if |batch.items| > 0 {
        PaginateBounds(Later(pages), num, start + 10, count + |batch.items|, batch.seen, link);
      }
    }
  }

  /** An empty batch ends the loop: no further page is requested. */
  lemma PaginateStops(pages: Answers, num: int, start: int, count: int,
                      seen: set<string>, link: string -> string)
    requires count < num && Next(pages).Ok?
    requires Parse(Next(pages).value, seen, num - count, link).items == []
    ensures Paginate(pages, num, start, count, seen, link) == Ok(Run([], [start]))
  {
  }

  /** The pages requested are at `start`, `start + 10`, `start + 20`, ... */
  lemma {:induction false} PaginateOffsets(pages: Answers, num: int, start: int, count: int,
                                           seen: set<string>, link: string -> string)
    ensures Paginate(pages, num, start, count, seen, link).Ok? ==>
      forall i :: 0 <= i < |Paginate(pages, num, start, count, seen, link).value.starts| ==>
        Paginate(pages, num, start, count, seen, link).value.starts[i] == start + 10 * i
    decreases num - count
  {
    if count < num && Next(pages).Ok? {
      var batch := Parse(Next(pages).value, seen, num - count, link);
      if |batch.items| > 0 {
        PaginateOffsets(Later(pages), num, start + 10, count + |batch.items|, batch.seen, link);
      }
    }
  }

  /** A non-empty batch is followed by the page ten further on. */
  lemma PaginateNext(pages: Answers, num: int, start: int, count: int,
                     seen: set<string>, link: string -> string)
    requires count < num && Next(pages).Ok?
    requires |Parse(Next(pages).value, seen, num - count, link).items| > 0
    ensures var p := Parse(Next(pages).value, seen, num - count, link);
      var next := Paginate(Later(pages), num, start + 10, count + |p.items|, p.seen, link);
      Paginate(pages, num, start, count, seen, link) ==
        if next.Ok? then Ok(Run(p.items + next.value.items, [start] + next.value.starts)) else next
  {
  }

  /** The outcome of a run holds pairwise distinct links, none from `seen`. */
  predicate FreshRun(r: Result<Run>, seen: set<string>) {
    r.Ok? ==> DistinctLinks(r.value.items) && Links(r.value.items) !! seen
  }

  /** A fresh batch followed by a run that is fresh past it is fresh. */
  lemma FreshJoin(r: Result<Run>, xs: seq<Item>, next: Result<Run>,
                  start: int, seen: set<string>, seen': set<string>)
    requires DistinctLinks(xs) && Links(xs) !! seen && seen' == seen + Links(xs)
    requires FreshRun(next, seen')
    requires r == if next.Ok? then Ok(Run(xs + next.value.items, [start] + next.value.starts)) else next
    ensures FreshRun(r, seen)
  {
    if next.Ok? {
      DistinctAppend(xs, next.value.items);
      LinksAppend(xs, next.value.items);
    }
  }

  /** One turn of the loop: either the run ends here, with nothing or
      fresh results, or a fresh non-empty batch `xs` is followed by the
      run from the next page with `seen'` as the shared set. */
  lemma PaginateUnfold(pages: Answers, num: int, start: int, count: int,
                       seen: set<string>, link: string -> string)
    returns (stepped: bool, xs: seq<Item>, seen': set<string>)
    ensures !stepped ==> FreshRun(Paginate(pages, num, start, count, seen, link), seen)
    ensures stepped ==> count < num && |xs| > 0
    ensures stepped ==> DistinctLinks(xs) && Links(xs) !! seen && seen' == seen + Links(xs)
    ensures stepped ==> var next := Paginate(Later(pages), num, start + 10, count + |xs|, seen', link);
      Paginate(pages, num, start, count, seen, link) ==
        if next.Ok? then Ok(Run(xs + next.value.items, [start] + next.value.starts)) else next
  {
    xs, seen' := [], seen;
    stepped := count < num && Next(pages).Ok? && |Parse(Next(pages).value, seen, num - count, link).items| > 0;
    if stepped {
      var p := Parse(Next(pages).value, seen, num - count, link);
      xs, seen' := p.items, p.seen;
      ParseRecords(Next(pages).value, seen, num - count, link);
      ParseFresh(Next(pages).value, seen, num - count, link);
      PaginateNext(pages, num, start, count, seen, link);
    } else if count >= num {
      assert FreshRun(Ok(Run([], [])), seen);
    } else if Next(pages).Ok? {
      PaginateStops(pages, num, start, count, seen, link);
      assert FreshRun(Ok(Run([], [start])), seen);
    }
  }

  /** The results have pairwise distinct links, none of them in the shared
      set the loop started from. */
  lemma {:induction false} PaginateFresh(pages: Answers, num: int, start: int, count: int,
                                         seen: set<string>, link: string -> string)
    ensures FreshRun(Paginate(pages, num, start, count, seen, link), seen)
    decreases num - count
  {
    var stepped, xs, seen' := PaginateUnfold(pages, num, start, count, seen, link);
    if stepped {
      var next := Paginate(Later(pages), num, start + 10, count + |xs|, seen', link);
      PaginateFresh(Later(pages), num, start + 10, count + |xs|, seen', link);
      FreshJoin(Paginate(pages, num, start, count, seen, link), xs, next, start, seen, seen');
    }
  }

  /** `_meta_google_search(query, num_results, proxy, ..., start_num)`: at
      most `num` results, with pairwise distinct links; nothing is fetched
      when `num` is not positive. */
  function MetaSearch(pages: Answers, num: int, startNum: int,
                      unquote: string -> string): (r: Result<seq<Item>>)
    ensures r.Ok? ==> |r.value| <= if num < 0 then 0 else num
    ensures r.Ok? ==> forall i, j :: 0 <= i < j < |r.value| ==> r.value[i].link != r.value[j].link
    ensures num <= 0 ==> r == Ok([])
  {
    var link := (href: string) => LinkOf(href, unquote);
    PaginateBounds(pages, num, startNum, 0, {}, link);
    PaginateFresh(pages, num, startNum, 0, {}, link);
    match Paginate(pages, num, startNum, 0, {}, link)
    case Err(e) => Err(e)
    case Ok(run) =>
      DistinctPairwise(run.items);
      Ok(run.items)
  }

  /** The requests the search makes before it stops: offsets ten apart from
      `start_num`, at most one more than the results asked for, and none
      when `num` is not positive. */
  lemma MetaSearchRequests(pages: Answers, num: int, startNum: int, link: string -> string)
    requires Paginate(pages, num, startNum, 0, {}, link).Ok?
    ensures forall i :: 0 <= i < |Paginate(pages, num, startNum, 0, {}, link).value.starts| ==>
      Paginate(pages, num, startNum, 0, {}, link).value.starts[i] == startNum + 10 * i
    ensures num > 0 ==> 0 < |Paginate(pages, num, startNum, 0, {}, link).value.starts| <= num + 1
    ensures num <= 0 ==> Paginate(pages, num, startNum, 0, {}, link).value.starts == []
  {
    PaginateBounds(pages, num, startNum, 0, {}, link);
    PaginateOffsets(pages, num, startNum, 0, {}, link);
  }
}

=== FILE: mcp.dfy ===
/** The pure parts of the MCP adapter: binding a call's arguments, keeping
    only those the server's input schema declares, flattening the content
    of a `CallToolResult`, and building a tool from the server's tool
    listing.  The SSE session is a parameter: the server's tool list and
    the outcome of `call_tool`. */
module Mcp {
  import opened Outcomes
  import opened Strs
  import opened Dicts
  import opened Values
  import opened ArgBinding

  datatype Wrapper = Wrapper(url: string, name: string, params: Option<seq<string>>)

  /** A tool as the server lists it. */
  datatype ServerTool = ServerTool(name: string, inputSchema: Dict<Json>)

  datatype Resource =
    | TextResource(text: string)
    | BlobResource(blob: string, mimeType: Option<string>)
    | OtherResource(repr: string)

  datatype Content =
    | TextContent(text: string)
    | ImageContent(data: string, mimeType: string)
    | EmbeddedResource(resource: Resource)
      /** Any other class, subclasses of the three above included: the
          handler table is looked up by exact type. */
    | OtherContent(typeName: string)

  datatype CallToolResult = CallToolResult(isError: bool, content: seq<Content>)

  /** One handled content item: a JSON value, or the embedded resource
      returned as it came. */
  datatype Item = JsonItem(j: Json) | EmbeddedItem(c: Content)

  /** What `_post_process_result` returns. */
  datatype Processed = RawResult(result: CallToolResult) | Single(item: Item) | Many(items: seq<Item>)

  /** The Python type name `str(type(x))` shows for a JSON value. */
  function PyTypeName(j: Json): string {
    match j
    case JNull => "NoneType"
    case JBool(_) => "bool"
    case JInt(_) => "int"
    case JStr(_) => "str"
    case JArr(_) => "list"
    case JObj(_) => "dict"
  }

  /** `schema.get("properties", {})` seen as a dict through its method
      `attr` (`items` on the call path, `keys` when building the tool): its
      keys, in order. */
  function PropertyNames(schema: Dict<Json>, attr: string): (r: Result<seq<string>>)
    ensures Get(schema, "properties").None? ==> r == Ok([])
    ensures r.Ok? && Get(schema, "properties").Some? ==>
      Get(schema, "properties").value.JObj? && r.value == Keys(Get(schema, "properties").value.fields)
    ensures r.Err? <==> Get(schema, "properties").Some? && !Get(schema, "properties").value.JObj?
  {
    match Get(schema, "properties")
    case None => Ok([])
    case Some(p) =>
      if p.JObj? then Ok(Keys(p.fields))
      else Err(Error(AttributeError, "'" + PyTypeName(p) + "' object has no attribute '" + attr + "'"))
  }

  // ------------------------------------------------------------ call path

  /** The arguments forwarded to `call_tool`: each schema property, in
      schema order, that was passed. */
  function FilterArgs(props: seq<string>, kwargs: Args): (r: Args)
    ensures Unique(r)
    ensures KeySet(r) == (set p | p in props) * KeySet(kwargs)
    ensures forall k :: k in KeySet(r) ==> Get(r, k) == Get(kwargs, k)
  {
    var r := FilterFrom([], props, kwargs);
    assert KeySet(r) == (set p | p in props) * KeySet(kwargs);
    r
  }

  function FilterFrom(acc: Args, props: seq<string>, kwargs: Args): (r: Args)
    requires Unique(acc)
    requires forall k :: k in KeySet(acc) ==> Get(acc, k) == Get(kwargs, k)
    ensures Unique(r)
    ensures forall k :: k in KeySet(r) <==> k in KeySet(acc) || (k in props && k in KeySet(kwargs))
    ensures forall k :: k in KeySet(r) ==> Get(r, k) == Get(kwargs, k)
    decreases |props|
  {
    if |props| == 0 then acc
    else
      var p := props[0];
      assert props == [p] + props[1..];
      if p in KeySet(kwargs) then
        var acc' := Put(acc, p, Get(kwargs, p).value);
        assert forall k :: k in KeySet(acc') ==> Get(acc', k) == Get(kwargs, k) by {
          forall k | k in KeySet(acc') ensures Get(acc', k) == Get(kwargs, k) {
            if k != p { PutOther(acc, p, Get(kwargs, p).value, k); }
          }
        }
        FilterFrom(acc', props[1..], kwargs)
      else FilterFrom(acc, props[1..], kwargs)
  }

  /** One content item through the handler table. */
  function Handle(c: Content): (r: Result<Item>)
    ensures r.Err? <==> c.OtherContent?
    ensures c.TextContent? ==> r == Ok(JsonItem(JStr(c.text)))
    ensures c.EmbeddedResource? && c.resource.TextResource? ==> r == Ok(JsonItem(JStr(c.resource.text)))
    ensures c.EmbeddedResource? && c.resource.OtherResource? ==> r == Ok(EmbeddedItem(c))
  {
    match c
    case TextContent(text) => Ok(JsonItem(JStr(text)))
    case ImageContent(data, mime) =>
      Ok(JsonItem(JObj([("type", JStr("image")), ("data", JStr(data)), ("mimeType", JStr(mime))])))
    case EmbeddedResource(res) =>
      (match res
       case TextResource(text) => Ok(JsonItem(JStr(text)))
       case BlobResource(blob, mime) =>
         Ok(JsonItem(JObj([("type", JStr("blob")), ("data", JStr(blob)),
                           ("mimeType", if mime.Some? then JStr(mime.value) else JNull)])))
       case OtherResource(_) => Ok(EmbeddedItem(c)))
    case OtherContent(t) => Err(Error(NotImplementedError, "No handler for content type: " + t))
  }

  /** The handled items in order, or the first unhandled item's error. */
  function HandleAll(cs: seq<Content>): (r: Result<seq<Item>>)
    ensures r.Ok? <==> forall i :: 0 <= i < |cs| ==> !cs[i].OtherContent?
    ensures r.Ok? ==> |r.value| == |cs| && forall i :: 0 <= i < |cs| ==> Handle(cs[i]) == Ok(r.value[i])
    ensures r.Err? ==> exists i :: 0 <= i < |cs| && cs[i].OtherContent? && r == Err(Handle(cs[i]).error) &&
                                   forall j :: 0 <= j < i ==> !cs[j].OtherContent?
  {
    if |cs| == 0 then Ok([])
    else
      match Handle(cs[0])
      case Err(e) => Err(e)
      case Ok(item) =>
        var rest := HandleAll(cs[1..]);
        assert forall i :: 1 <= i < |cs| ==> cs[i] == cs[1..][i - 1];
        if rest.Err? then
          assert exists i :: 0 <= i < |cs| && cs[i].OtherContent? && rest == Err(Handle(cs[i]).error) &&
                             forall j :: 0 <= j < i ==> !cs[j].OtherContent? by {
            var j :| 0 <= j < |cs[1..]| && cs[1..][j].OtherContent? && rest == Err(Handle(cs[1..][j]).error) &&
                     forall k :: 0 <= k < j ==> !cs[1..][k].OtherContent?;
            assert cs[j + 1] == cs[1..][j];
          }
          Err(rest.error)
        else Ok([item] + rest.value)
  }

  /** `_post_process_result`. */
  function PostProcess(result: CallToolResult): (r: Result<Processed>)
    ensures result.isError || |result.content| == 0 ==> r == Ok(RawResult(result))
    ensures r.Err? <==> !result.isError && exists i :: 0 <= i < |result.content| && result.content[i].OtherContent?
    ensures r.Err? ==> r.error.kind == NotImplementedError
    ensures r.Ok? && !result.isError && |result.content| == 1 ==> r.value == Single(Handle(result.content[0]).value)
    ensures r.Ok? && !result.isError && |result.content| > 1 ==> (r.value.Many? &&
      |r.value.items| == |result.content| &&
      forall i :: 0 <= i < |result.content| ==> Handle(result.content[i]) == Ok(r.value.items[i]))
  {
    if result.isError || |result.content| == 0 then Ok(RawResult(result))
    else
      match HandleAll(result.content)
      case Err(e) => Err(e)
      case Ok(items) => if |items| == 1 then Ok(Single(items[0])) else Ok(Many(items))
  }

  /** A result made only of text (plain or embedded) flattens to its texts,
      in order. */
  lemma TextResultsFlatten(result: CallToolResult, texts: seq<string>)
    requires !result.isError && |result.content| > 1 && |texts| == |result.content|
    requires forall i :: 0 <= i < |texts| ==>
      result.content[i] == TextContent(texts[i]) || result.content[i] == EmbeddedResource(TextResource(texts[i]))
    ensures PostProcess(result) == Ok(Many(seq(|texts|, i requires 0 <= i < |texts| => JsonItem(JStr(texts[i])))))
  {
    var r := PostProcess(result);
    assert forall i :: 0 <= i < |result.content| ==> !result.content[i].OtherContent?;
    assert r.Ok?;
    var want := seq(|texts|, i requires 0 <= i < |texts| => JsonItem(JStr(texts[i])));
    assert forall i :: 0 <= i < |texts| ==> r.value.items[i] == want[i] by {
      forall i | 0 <= i < |texts| ensures r.value.items[i] == want[i] {
        assert Handle(result.content[i]) == Ok(r.value.items[i]);
      }
    }
    assert r.value.items == want;
  }

  /** `call_async(*args, **kwargs)`: bind, check the wrapper, find the tool
      on the server, forward the declared arguments, flatten the result.
      `listed` is the server's tool list (or the session's failure) and
      `callTool` the outcome of `session.call_tool`. */
  function CallAsync(w: Wrapper, args: seq<Value>, kwargs: Args,
                     listed: Result<seq<ServerTool>>,
                     callTool: (string, Args) -> Result<CallToolResult>): (r: Result<Processed>)
    ensures ProcessArgs(w.params.GetOr([]), args, kwargs).Err? ==> r == Err(ProcessArgs(w.params.GetOr([]), args, kwargs).error)
    ensures ProcessArgs(w.params.GetOr([]), args, kwargs).Ok? && (w.url == "" || w.name == "") ==>
      r == Err(Error(ValueError, "URL and name must be set before calling"))
    ensures ProcessArgs(w.params.GetOr([]), args, kwargs).Ok? && w.url != "" && w.name != "" &&
            listed.Ok? && (forall i :: 0 <= i < |listed.value| ==> listed.value[i].name != w.name) ==>
      r == Err(Error(ValueError, "Tool " + w.name + " not found on server"))
  {
    match ProcessArgs(w.params.GetOr([]), args, kwargs)
    case Err(e) => Err(e)
    case Ok(kw) =>
      if w.url == "" || w.name == "" then Err(Error(ValueError, "URL and name must be set before calling"))
      else
        match listed
        case Err(e) => Err(e)
        case Ok(tools) =>
          var i := FirstNamed(tools, w.name);
          if i == |tools| then Err(Error(ValueError, "Tool " + w.name + " not found on server"))
          else
            match PropertyNames(tools[i].inputSchema, "items")
            case Err(e) => Err(e)
            case Ok(props) =>
              match callTool(w.name, FilterArgs(props, kw))
              case Err(e) => Err(e)
              case Ok(result) => PostProcess(result)
  }

  /** What reaches the server when `CallAsync` gets that far. */
  lemma CallAsyncForwards(w: Wrapper, args: seq<Value>, kwargs: Args, tools: seq<ServerTool>,
                          callTool: (string, Args) -> Result<CallToolResult>, i: nat)
    requires ProcessArgs(w.params.GetOr([]), args, kwargs).Ok? && w.url != "" && w.name != ""
    requires i < |tools| && tools[i].name == w.name && forall j :: 0 <= j < i ==> tools[j].name != w.name
    requires PropertyNames(tools[i].inputSchema, "items").Ok?
    ensures CallAsync(w, args, kwargs, Ok(tools), callTool) ==
      var forwarded := FilterArgs(PropertyNames(tools[i].inputSchema, "items").value, ProcessArgs(w.params.GetOr([]), args, kwargs).value);
      match callTool(w.name, forwarded)
      case Err(e) => Err(e)
      case Ok(result) => PostProcess(result)
  {
    FirstNamedIs(tools, w.name, i);
  }

  /** Index of the first server tool called `name`, or `|tools|`. This is
      the same first-match search as `FileSystem.FindIndex`, kept separate
      because it runs over the MCP server's tool list rather than directory
      entries, and the two modules do not otherwise depend on each other. */
  function FirstNamed(tools: seq<ServerTool>, name: string): (i: nat)
    ensures i <= |tools|
    ensures i < |tools| ==> tools[i].name == name
    ensures forall j :: 0 <= j < i ==> tools[j].name != name
  {
    if |tools| == 0 then 0
    else if tools[0].name == name then 0
    else 1 + FirstNamed(tools[1..], name)
  }

  lemma FirstNamedIs(tools: seq<ServerTool>, name: string, i: nat)
    requires i < |tools| && tools[i].name == name && forall j :: 0 <= j < i ==> tools[j].name != name
    ensures FirstNamed(tools, name) == i
  {
  }

  /** `call_sync` binds the positionals itself and hands only keywords to
      `call_async`, whose second binding is then a no-op: the two agree. */
  function CallSync(w: Wrapper, args: seq<Value>, kwargs: Args,
                    listed: Result<seq<ServerTool>>,
                    callTool: (string, Args) -> Result<CallToolResult>): (r: Result<Processed>)
    ensures r == CallAsync(w, args, kwargs, listed, callTool)
  {
    match ProcessArgs(w.params.GetOr([]), args, kwargs)
    case Err(e) => Err(e)
    case Ok(kw) => CallAsync(w, [], kw, listed, callTool)
  }

  // ------------------------------------------------------- from_tool_json

  datatype McpTool = McpTool(name: string, description: string, parameters: Json,
                             wrapper: Wrapper, isAsync: bool)

  /** `MCPTool.from_tool_json`: the parameter list is the schema's property
      names (none for an empty schema), the schema is kept as it is, and the
      tool is synchronous. */
  function FromToolJson(name: string, description: string, schema: Dict<Json>, url: string): (r: Result<McpTool>)
    ensures |schema| == 0 ==> r.Ok? && r.value.wrapper.params == Some([])
    ensures r.Err? <==> |schema| > 0 && PropertyNames(schema, "keys").Err?
    ensures r.Ok? ==> (r.value.name == name && r.value.description == description &&
      r.value.parameters == JObj(schema) && !r.value.isAsync &&
      r.value.wrapper.url == url && r.value.wrapper.name == name && r.value.wrapper.params.Some?)
    ensures r.Ok? && |schema| > 0 ==> r.value.wrapper.params == Some(PropertyNames(schema, "keys").value)
  {
    var params := if |schema| == 0 then Ok([]) else PropertyNames(schema, "keys");
    match params
    case Err(e) => Err(e)
    case Ok(ps) => Ok(McpTool(name, description, JObj(schema), Wrapper(url, name, Some(ps)), false))
  }

  /** A tool built from the server's own listing forwards every positional
      argument: each lands under its property name and survives the
      server-side filter with its value. */
  lemma PositionalsReachServer(name: string, description: string, schema: Dict<Json>, url: string,
                               args: seq<Value>, i: nat)
    requires FromToolJson(name, description, schema, url).Ok?
    requires ProcessArgs(FromToolJson(name, description, schema, url).value.wrapper.params.value, args, []).Ok?
    requires PropertyNames(schema, "keys").Ok? && i < |args|
    ensures var ps := FromToolJson(name, description, schema, url).value.wrapper.params.value;
      i < |ps| &&
      Get(FilterArgs(PropertyNames(schema, "keys").value, ProcessArgs(ps, args, []).value), ps[i]) == Some(args[i])
  {
    var ps := FromToolJson(name, description, schema, url).value.wrapper.params.value;
    var kw := ProcessArgs(ps, args, []).value;
    ProcessArgsBinds(ps, args, [], i, "");
    assert |ps| > 0;
    assert ps == PropertyNames(schema, "keys").value;
    assert ps[i] in ps;
    assert ps[i] in KeySet(kw);
  }
}

=== FILE: openapi.dfy ===
/** The pure parts of the OpenAPI adapter: how an operation of an OpenAPI
    3.0 document becomes a tool (the Operation, Parameter, Request Body and
    Server Objects of sections 4.7.10, 4.7.12, 4.7.13 and 4.7.5 of the
    OpenAPI Specification 3.0), which operations are registered, how a call
    is dispatched, and the order in which well-known schema locations are
    probed.  The document is taken already parsed and resolved; absent
    optional fields are `None`.  HTTP is a parameter. */
module OpenApi {
  import opened Outcomes
  import opened Strs
  import opened Dicts
  import opened Values
  import opened ArgBinding
  import opened Seqs

  // ------------------------------------------------------------- documents

  /** The Schema Object fields the adapter reads. */
  datatype Schema = Schema(typ: Option<string>, description: Option<string>,
                           properties: Option<seq<(string, Schema)>>, required: Option<seq<string>>)

  datatype Parameter = Parameter(name: string, description: Option<string>, required: Option<bool>,
                                 schema: Option<Schema>)

  datatype MediaType = MediaType(schema: Option<Schema>)

  datatype RequestBody = RequestBody(content: Option<seq<(string, MediaType)>>)

  datatype Operation = Operation(operationId: Option<string>, summary: Option<string>,
                                 description: Option<string>, parameters: Option<seq<Parameter>>,
                                 requestBody: Option<RequestBody>)

  datatype Server = Server(url: Option<string>)

  /** A document: its servers and, per path, the path item's fields in
      order (only those named after a verb are read as operations). */
  datatype Document = Document(servers: Option<seq<Server>>, paths: seq<(string, seq<(string, Operation)>)>)

  function EmptySchema(): Schema {
    Schema(None, None, None, None)
  }

  // ------------------------------------------------------------- the tool

  datatype Wrapper = Wrapper(baseUrl: string, name: string, verb: string, path: string, params: seq<string>)

  datatype OpenApiTool = OpenApiTool(name: string, description: string, parameters: Json,
                                     wrapper: Wrapper, isAsync: bool)

  /** `OpenAPIToolWrapper(...)`: the method is lower-cased, a missing
      parameter list becomes empty. */
  function MakeWrapper(baseUrl: string, name: string, verb: string, path: string,
                       params: Option<seq<string>>): (w: Wrapper)
    ensures w.verb == Lower(verb)
    ensures w.params == (if params.Some? then params.value else [])
    ensures w.baseUrl == baseUrl && w.name == name && w.path == path
  {
    Wrapper(baseUrl, name, Lower(verb), path, params.GetOr([]))
  }

  /** `s.replace(a, b)` for one character. */
  function ReplaceChar(s: string, a: char, b: char): (r: string)
    ensures |r| == |s|
    ensures forall i :: 0 <= i < |s| ==> r[i] == (if s[i] == a then b else s[i])
  {
    seq(|s|, i requires 0 <= i < |s| => if s[i] == a then b else s[i])
  }

  /** The tool name: the operationId, else `method_path` with every '/'
      of the path replaced by '_'. */
  function OperationName(verb: string, path: string, op: Operation): (n: string)
    ensures op.operationId.Some? ==> n == op.operationId.value
    ensures op.operationId.None? ==> n == verb + "_" + ReplaceChar(path, '/', '_')
    ensures op.operationId.None? ==> '/' !in n[|verb| + 1..]
  {
    if op.operationId.Some? then op.operationId.value
    else
      var r := verb + "_" + ReplaceChar(path, '/', '_');
      assert r[|verb| + 1..] == ReplaceChar(path, '/', '_');
      r
  }

  function OperationDescription(op: Operation): (d: string)
    ensures op.description.Some? ==> d == op.description.value
    ensures op.description.None? && op.summary.Some? ==> d == op.summary.value
    ensures op.description.None? && op.summary.None? ==> d == ""
  {
    if op.description.Some? then op.description.value
    else if op.summary.Some? then op.summary.value
    else ""
  }

  /** A property's JSON-schema entry. */
  function Property(typ: Option<string>, description: Option<string>): Json {
    JObj([("type", JStr(typ.GetOr("string"))), ("description", JStr(description.GetOr("")))])
  }

  function ParamProperty(p: Parameter): Json {
    Property(p.schema.GetOr(EmptySchema()).typ, p.description)
  }

  /** The JSON body schema, when the body has an `application/json` entry. */
  function JsonBodySchema(op: Operation): Option<Schema> {
    if op.requestBody.Some? then
      var content := op.requestBody.value.content.GetOr([]);
      if "application/json" in KeySet(content) then
        Some(Get(content, "application/json").value.schema.GetOr(EmptySchema()))
      else None
    else None
  }

  function Params(op: Operation): seq<Parameter> {
    op.parameters.GetOr([])
  }

  /** The JSON body schema's properties, in order (none without one). */
  function BodyProps(op: Operation): seq<(string, Schema)> {
    if JsonBodySchema(op).Some? then JsonBodySchema(op).value.properties.GetOr([]) else []
  }

  /** The body schema's own `required` list, when it has one. */
  function BodyRequired(op: Operation): seq<string> {
    if JsonBodySchema(op).Some? && JsonBodySchema(op).value.required.Some? then
      JsonBodySchema(op).value.required.value
    else []
  }

  /** What the parameter loop stores, in order. */
  function ParamEntries(ps: seq<Parameter>): (e: seq<(string, Json)>)
    ensures |e| == |ps|
    ensures forall i :: 0 <= i < |ps| ==> e[i] == (ps[i].name, ParamProperty(ps[i]))
  {
    seq(|ps|, i requires 0 <= i < |ps| => (ps[i].name, ParamProperty(ps[i])))
  }

  /** What the body loop stores, in order. */
  function BodyEntries(bs: seq<(string, Schema)>): (e: seq<(string, Json)>)
    ensures |e| == |bs|
    ensures forall i :: 0 <= i < |bs| ==> e[i] == (bs[i].0, Property(bs[i].1.typ, bs[i].1.description))
  {
    seq(|bs|, i requires 0 <= i < |bs| => (bs[i].0, Property(bs[i].1.typ, bs[i].1.description)))
  }

  /** The `properties` dict: every parameter's entry, then every body
      property's, each stored by `d[name] = ...` (so a repeated name keeps
      its first slot and its last entry). */
  function Properties(op: Operation): (d: Dict<Json>)
    ensures Unique(d)
    ensures KeySet(d) == KeySet(ParamEntries(Params(op))) + KeySet(BodyEntries(BodyProps(op)))
  {
    Update(Update([], ParamEntries(Params(op))), BodyEntries(BodyProps(op)))
  }

  /** A body property that no later body property shadows has its own
      entry, whatever parameter had the same name. */
  lemma BodyPropertyEntry(op: Operation, i: nat)
    requires i < |BodyProps(op)|
    requires forall j :: i < j < |BodyProps(op)| ==> BodyProps(op)[j].0 != BodyProps(op)[i].0
    ensures Get(Properties(op), BodyProps(op)[i].0) ==
      Some(Property(BodyProps(op)[i].1.typ, BodyProps(op)[i].1.description))
  {
    var bs := BodyEntries(BodyProps(op));
    var d := Update([], ParamEntries(Params(op)));
    UpdateGet(d, bs, bs[i].0);
    LastValueAt(bs, i, Get(d, bs[i].0));
  }

  /** A parameter shadowed neither by a later parameter nor by a body
      property has its own entry. */
  lemma ParameterEntry(op: Operation, i: nat)
    requires i < |Params(op)|
    requires forall j :: i < j < |Params(op)| ==> Params(op)[j].name != Params(op)[i].name
    requires forall j :: 0 <= j < |BodyProps(op)| ==> BodyProps(op)[j].0 != Params(op)[i].name
    ensures Get(Properties(op), Params(op)[i].name) == Some(ParamProperty(Params(op)[i]))
  {
    var ps := ParamEntries(Params(op));
    var bs := BodyEntries(BodyProps(op));
    var k := Params(op)[i].name;
    var d := Update([], ps);
    assert k !in KeySet(bs) by {
      forall j | 0 <= j < |bs| ensures Keys(bs)[j] != k { }
    }
    UpdateGet(d, bs, k);
    LastValueAbsent(bs, k, Get(d, k));
    UpdateGet([], ps, k);
    LastValueAt(ps, i, Get([], k));
  }

  /** The positional parameter order: the parameters, then the body
      properties, repeats kept. */
  function ParamNames(op: Operation): (ns: seq<string>)
    ensures |ns| == |Params(op)| + |BodyProps(op)|
    ensures forall i :: 0 <= i < |Params(op)| ==> ns[i] == Params(op)[i].name
    ensures forall i :: 0 <= i < |BodyProps(op)| ==> ns[|Params(op)| + i] == BodyProps(op)[i].0
  {
    Keys(ParamEntries(Params(op))) + Keys(BodyEntries(BodyProps(op)))
  }

  /** The `required` list: the names of the parameters flagged required, in
      order, then the body schema's own list. */
  function RequiredNames(ps: seq<Parameter>): (ns: seq<string>)
    ensures forall n :: n in ns <==> exists i :: 0 <= i < |ps| && ps[i].required == Some(true) && ps[i].name == n
  {
    if |ps| == 0 then []
    else
      assert forall i :: 1 <= i < |ps| ==> ps[i] == ps[1..][i - 1];
      (if ps[0].required == Some(true) then [ps[0].name] else []) + RequiredNames(ps[1..])
  }

  function Required(op: Operation): (rs: seq<string>)
    ensures forall n :: n in rs <==>
      (exists i :: 0 <= i < |Params(op)| && Params(op)[i].required == Some(true) && Params(op)[i].name == n) ||
      n in BodyRequired(op)
  {
    RequiredNames(Params(op)) + BodyRequired(op)
  }

  function JsonStrings(ss: seq<string>): (j: Json)
    ensures j.JArr? && |j.items| == |ss| && forall i :: 0 <= i < |ss| ==> j.items[i] == JStr(ss[i])
  {
    JArr(seq(|ss|, i requires 0 <= i < |ss| => JStr(ss[i])))
  }

  /** `OpenAPITool.from_openapi_spec(base_url, path, method, spec)`. */
  function FromOperation(baseUrl: string, path: string, verb: string, op: Operation): (t: OpenApiTool)
    ensures t.name == OperationName(verb, path, op)
    ensures t.description == OperationDescription(op)
    ensures !t.isAsync
    ensures t.wrapper == MakeWrapper(baseUrl, t.name, verb, path, Some(ParamNames(op)))
    ensures t.parameters == JObj([("type", JStr("object")), ("properties", JObj(Properties(op))),
                                  ("required", JsonStrings(Required(op)))])
  {
    var name := OperationName(verb, path, op);
    OpenApiTool(name, OperationDescription(op),
                JObj([("type", JStr("object")), ("properties", JObj(Properties(op))), ("required", JsonStrings(Required(op)))]),
                MakeWrapper(baseUrl, name, verb, path, Some(ParamNames(op))), false)
  }

  // ------------------------------------------------------------- dispatch

  datatype Request = Request(verb: string, url: string, query: Option<Args>, body: Option<Args>)

  /** `call_async`: bind the arguments, refuse an empty base URL or name,
      then GET with the arguments as query parameters or send any other
      verb with them as a JSON body, to `base_url + path`.  `send` is the
      HTTP exchange, `raise_for_status` and `response.json()` included. */
  function CallAsync(w: Wrapper, args: seq<Value>, kwargs: Args, send: Request -> Result<Json>): (r: Result<Json>)
    ensures ProcessArgs(w.params, args, kwargs).Err? ==> r == Err(ProcessArgs(w.params, args, kwargs).error)
    ensures ProcessArgs(w.params, args, kwargs).Ok? && (w.baseUrl == "" || w.name == "") ==>
      r == Err(Error(ValueError, "Base URL and name must be set before calling"))
    ensures ProcessArgs(w.params, args, kwargs).Ok? && w.baseUrl != "" && w.name != "" ==>
      var kw := ProcessArgs(w.params, args, kwargs).value;
      r == send(if w.verb == "get" then Request("get", w.baseUrl + w.path, Some(kw), None)
                else Request(w.verb, w.baseUrl + w.path, None, Some(kw)))
  {
    match ProcessArgs(w.params, args, kwargs)
    case Err(e) => Err(e)
    case Ok(kw) =>
      if w.baseUrl == "" || w.name == "" then Err(Error(ValueError, "Base URL and name must be set before calling"))
      else if w.verb == "get" then send(Request("get", w.baseUrl + w.path, Some(kw), None))
      else send(Request(w.verb, w.baseUrl + w.path, None, Some(kw)))
  }

  /** Whatever case the document spells the verb in, a GET operation's
      tool sends its arguments as query parameters and every other verb
      as a JSON body. */
  lemma DispatchByMethod(baseUrl: string, path: string, verb: string, op: Operation,
                         kwargs: Args, send: Request -> Result<Json>)
    requires baseUrl != "" && OperationName(verb, path, op) != ""
    ensures var t := FromOperation(baseUrl, path, verb, op);
      CallAsync(t.wrapper, [], kwargs, send) ==
        send(if Lower(verb) == "get" then Request("get", baseUrl + path, Some(kwargs), None)
             else Request(Lower(verb), baseUrl + path, None, Some(kwargs)))
  {
  }

  // ------------------------------------------------------------- register

  predicate RegisteredMethod(m: string) {
    Lower(m) in ["get", "post", "put", "delete"]
  }

  /** `openapi_spec.get("servers", [{}])[0].get("url", "")`: an explicitly
      empty server list raises IndexError. */
  function BaseUrl(d: Document): (r: Result<string>)
    ensures d.servers.None? ==> r == Ok("")
    ensures d.servers.Some? && |d.servers.value| == 0 ==> r.Err? && r.error.kind == IndexError
    ensures d.servers.Some? && |d.servers.value| > 0 ==> r == Ok(d.servers.value[0].url.GetOr(""))
  {
    match d.servers
    case None => Ok("")
    case Some(ss) =>
      if |ss| == 0 then Err(Error(IndexError, "list index out of range"))
      else Ok(ss[0].url.GetOr(""))
  }

  /** The tools of one path item, in field order. */
  function PathTools(baseUrl: string, path: string, fields: seq<(string, Operation)>): (ts: seq<OpenApiTool>)
    ensures |ts| <= |fields|
    ensures forall t :: t in ts ==> RegisteredMethod(t.wrapper.verb) && t.wrapper.path == path &&
                                    t.wrapper.baseUrl == baseUrl
    ensures forall i :: 0 <= i < |fields| && RegisteredMethod(fields[i].0) ==>
      FromOperation(baseUrl, path, fields[i].0, fields[i].1) in ts
    ensures forall t :: t in ts ==> OfSomeField(t, baseUrl, path, fields)
    decreases |fields|
  {
    if |fields| == 0 then []
    else
      var rest := PathTools(baseUrl, path, fields[1..]);
      PathToolsStep(baseUrl, path, fields, rest);
      HeadTools(baseUrl, path, fields[0]) + rest
  }

  /** The tool of one field: none unless its method is registered. */
  function HeadTools(baseUrl: string, path: string, f: (string, Operation)): seq<OpenApiTool> {
    if RegisteredMethod(f.0) then [FromOperation(baseUrl, path, f.0, f.1)] else []
  }

  /** What `PathTools` promises of `fields[1..]` carries over to `fields`
      once the first field's tool is put in front. */
  lemma PathToolsStep(baseUrl: string, path: string, fields: seq<(string, Operation)>, rest: seq<OpenApiTool>)
    requires |fields| > 0 && |rest| <= |fields[1..]|
    requires forall t :: t in rest ==> RegisteredMethod(t.wrapper.verb) && t.wrapper.path == path && t.wrapper.baseUrl == baseUrl
    requires forall i :: 0 <= i < |fields[1..]| && RegisteredMethod(fields[1..][i].0) ==>
      FromOperation(baseUrl, path, fields[1..][i].0, fields[1..][i].1) in rest
    requires forall t :: t in rest ==> OfSomeField(t, baseUrl, path, fields[1..])
    ensures var ts := HeadTools(baseUrl, path, fields[0]) + rest;
      && |ts| <= |fields|
      && (forall t :: t in ts ==> RegisteredMethod(t.wrapper.verb) && t.wrapper.path == path && t.wrapper.baseUrl == baseUrl)
      && (forall i :: 0 <= i < |fields| && RegisteredMethod(fields[i].0) ==>
            FromOperation(baseUrl, path, fields[i].0, fields[i].1) in ts)
      && (forall t :: t in ts ==> OfSomeField(t, baseUrl, path, fields))
  {
    StepOn(baseUrl, path, fields, rest);
    StepComplete(baseUrl, path, fields, rest);
    StepSound(baseUrl, path, fields, rest);
  }

  lemma StepOn(baseUrl: string, path: string, fields: seq<(string, Operation)>, rest: seq<OpenApiTool>)
    requires |fields| > 0
    requires forall t :: t in rest ==> RegisteredMethod(t.wrapper.verb) && t.wrapper.path == path && t.wrapper.baseUrl == baseUrl
    ensures forall t :: t in HeadTools(baseUrl, path, fields[0]) + rest ==>
      RegisteredMethod(t.wrapper.verb) && t.wrapper.path == path && t.wrapper.baseUrl == baseUrl
  {
    var ts := HeadTools(baseUrl, path, fields[0]) + rest;
    forall t | t in ts ensures RegisteredMethod(t.wrapper.verb) && t.wrapper.path == path && t.wrapper.baseUrl == baseUrl {
      if t !in rest {
        HeadTool(baseUrl, path, fields);
      }
    }
  }

  lemma StepComplete(baseUrl: string, path: string, fields: seq<(string, Operation)>, rest: seq<OpenApiTool>)
    requires |fields| > 0
    requires forall i :: 0 <= i < |fields[1..]| && RegisteredMethod(fields[1..][i].0) ==>
      FromOperation(baseUrl, path, fields[1..][i].0, fields[1..][i].1) in rest
    ensures forall i :: 0 <= i < |fields| && RegisteredMethod(fields[i].0) ==>
      FromOperation(baseUrl, path, fields[i].0, fields[i].1) in HeadTools(baseUrl, path, fields[0]) + rest
  {
    CompleteShift(baseUrl, path, fields, rest);
  }

  lemma StepSound(baseUrl: string, path: string, fields: seq<(string, Operation)>, rest: seq<OpenApiTool>)
    requires |fields| > 0
    requires forall t :: t in rest ==> OfSomeField(t, baseUrl, path, fields[1..])
    ensures forall t :: t in HeadTools(baseUrl, path, fields[0]) + rest ==> OfSomeField(t, baseUrl, path, fields)
  {
    if RegisteredMethod(fields[0].0) {
      HeadTool(baseUrl, path, fields);
    }
    OfSomeFieldShift(baseUrl, path, fields, rest);
  }

  /** `t` is the tool of some registered operation among `fields`. */
  predicate OfSomeField(t: OpenApiTool, baseUrl: string, path: string, fields: seq<(string, Operation)>) {
    exists i :: 0 <= i < |fields| && RegisteredMethod(fields[i].0) && t == FromOperation(baseUrl, path, fields[i].0, fields[i].1)
  }

  /** A tool of a later field is a tool of the whole list. */
  lemma OfSomeFieldShift(baseUrl: string, path: string, fields: seq<(string, Operation)>, ts: seq<OpenApiTool>)
    requires |fields| > 0
    requires forall t :: t in ts ==> OfSomeField(t, baseUrl, path, fields[1..])
    ensures forall t :: t in ts ==> OfSomeField(t, baseUrl, path, fields)
  {
    forall t | t in ts ensures OfSomeField(t, baseUrl, path, fields) {
      OfLaterField(t, baseUrl, path, fields);
    }
  }

  lemma OfLaterField(t: OpenApiTool, baseUrl: string, path: string, fields: seq<(string, Operation)>)
    requires |fields| > 0 && OfSomeField(t, baseUrl, path, fields[1..])
    ensures OfSomeField(t, baseUrl, path, fields)
  {
    var i :| 0 <= i < |fields[1..]| && RegisteredMethod(fields[1..][i].0) &&
      t == FromOperation(baseUrl, path, fields[1..][i].0, fields[1..][i].1);
    assert fields[i + 1] == fields[1..][i];
  }

  /** The tool of a registered first field is a tool of the list. */
  lemma HeadTool(baseUrl: string, path: string, fields: seq<(string, Operation)>)
    requires |fields| > 0 && RegisteredMethod(fields[0].0)
    ensures var t := FromOperation(baseUrl, path, fields[0].0, fields[0].1);
      RegisteredMethod(t.wrapper.verb) && t.wrapper.path == path && t.wrapper.baseUrl == baseUrl &&
      OfSomeField(t, baseUrl, path, fields)
  {
    FromOperationRegistered(baseUrl, path, fields[0].0, fields[0].1);
  }

  /** The later fields' tools, found among the tools of `fields[1..]`. */
  lemma CompleteShift(baseUrl: string, path: string, fields: seq<(string, Operation)>, ts: seq<OpenApiTool>)
    requires |fields| > 0
    requires forall i :: 0 <= i < |fields[1..]| && RegisteredMethod(fields[1..][i].0) ==>
      FromOperation(baseUrl, path, fields[1..][i].0, fields[1..][i].1) in ts
    ensures forall i :: 1 <= i < |fields| && RegisteredMethod(fields[i].0) ==>
      FromOperation(baseUrl, path, fields[i].0, fields[i].1) in ts
  {
    forall i | 1 <= i < |fields| && RegisteredMethod(fields[i].0)
      ensures FromOperation(baseUrl, path, fields[i].0, fields[i].1) in ts
    {
      assert fields[i] == fields[1..][i - 1];
    }
  }

  /** A registered method stays registered once lower-cased. */
  lemma FromOperationRegistered(baseUrl: string, path: string, m: string, op: Operation)
    requires RegisteredMethod(m)
    ensures RegisteredMethod(FromOperation(baseUrl, path, m, op).wrapper.verb)
  {
    LowerIdempotent(m);
  }

  /** Tools follow field order one-for-one: the tools of two runs of fields
      are those of the first run followed by those of the second, and one
      field yields one tool exactly when its method is registered. */
  lemma {:induction false} PathToolsAppend(baseUrl: string, path: string, a: seq<(string, Operation)>, b: seq<(string, Operation)>)
    ensures PathTools(baseUrl, path, a + b) == PathTools(baseUrl, path, a) + PathTools(baseUrl, path, b)
    ensures |a| == 1 ==>
      PathTools(baseUrl, path, a) == (if RegisteredMethod(a[0].0) then [FromOperation(baseUrl, path, a[0].0, a[0].1)] else [])
    decreases |a|
  {
    if |a| == 0 {
      assert a + b == b;
    } else {
      var h := if RegisteredMethod(a[0].0) then [FromOperation(baseUrl, path, a[0].0, a[0].1)] else [];
      PathToolsAppend(baseUrl, path, a[1..], b);
      ConsSplit(a, b);
      PathToolsCons(baseUrl, path, a[0], a[1..] + b);
      PathToolsCons(baseUrl, path, a[0], a[1..]);
      ConsSplit(a, []);
      assert a + [] == a && a[1..] + [] == a[1..];
      ConcatShift(h, PathTools(baseUrl, path, a + b), PathTools(baseUrl, path, a), PathTools(baseUrl, path, a[1..]), PathTools(baseUrl, path, b));
    }
  }

  lemma PathToolsCons(baseUrl: string, path: string, f: (string, Operation), rest: seq<(string, Operation)>)
    ensures PathTools(baseUrl, path, [f] + rest) ==
      (if RegisteredMethod(f.0) then [FromOperation(baseUrl, path, f.0, f.1)] else []) + PathTools(baseUrl, path, rest)
  {
    assert ([f] + rest)[0] == f && ([f] + rest)[1..] == rest;
  }

  /** Paths contribute their tools in document order. */
  lemma {:induction false} DocumentToolsAppend(baseUrl: string, a: seq<(string, seq<(string, Operation)>)>, b: seq<(string, seq<(string, Operation)>)>)
    ensures DocumentTools(baseUrl, a + b) == DocumentTools(baseUrl, a) + DocumentTools(baseUrl, b)
    ensures |a| == 1 ==> DocumentTools(baseUrl, a) == PathTools(baseUrl, a[0].0, a[0].1)
    decreases |a|
  {
    if |a| == 0 {
      assert a + b == b;
    } else {
      var h := PathTools(baseUrl, a[0].0, a[0].1);
      DocumentToolsAppend(baseUrl, a[1..], b);
      ConsSplit(a, b);
      DocumentToolsCons(baseUrl, a[0], a[1..] + b);
      DocumentToolsCons(baseUrl, a[0], a[1..]);
      ConsSplit(a, []);
      assert a + [] == a && a[1..] + [] == a[1..];
      ConcatShift(h, DocumentTools(baseUrl, a + b), DocumentTools(baseUrl, a), DocumentTools(baseUrl, a[1..]), DocumentTools(baseUrl, b));
    }
  }

  lemma DocumentToolsCons(baseUrl: string, p: (string, seq<(string, Operation)>), rest: seq<(string, seq<(string, Operation)>)>)
    ensures DocumentTools(baseUrl, [p] + rest) == PathTools(baseUrl, p.0, p.1) + DocumentTools(baseUrl, rest)
  {
    assert ([p] + rest)[0] == p && ([p] + rest)[1..] == rest;
  }

  /** The tools of every path, in document order. */
  function DocumentTools(baseUrl: string, paths: seq<(string, seq<(string, Operation)>)>): (ts: seq<OpenApiTool>)
    ensures forall t :: t in ts ==> RegisteredMethod(t.wrapper.verb) && t.wrapper.baseUrl == baseUrl
    ensures forall i, j :: 0 <= i < |paths| && 0 <= j < |paths[i].1| && RegisteredMethod(paths[i].1[j].0) ==>
      FromOperation(baseUrl, paths[i].0, paths[i].1[j].0, paths[i].1[j].1) in ts
    ensures forall t :: t in ts ==> exists i, j :: (0 <= i < |paths| && 0 <= j < |paths[i].1| &&
      RegisteredMethod(paths[i].1[j].0) && t == FromOperation(baseUrl, paths[i].0, paths[i].1[j].0, paths[i].1[j].1))
    decreases |paths|
  {
    if |paths| == 0 then []
    else
      assert forall i :: 1 <= i < |paths| ==> paths[i] == paths[1..][i - 1];
      PathTools(baseUrl, paths[0].0, paths[0].1) + DocumentTools(baseUrl, paths[1..])
  }

  /** The tools `register_openapi_tools_async` hands to `register`, in
      order: exactly the get/post/put/delete operations (any case). */
  function RegisterOpenApiTools(d: Document): (r: Result<seq<OpenApiTool>>)
    ensures r.Err? <==> d.servers.Some? && |d.servers.value| == 0
    ensures r.Ok? ==> forall t :: t in r.value ==> RegisteredMethod(t.wrapper.verb) && t.wrapper.baseUrl == BaseUrl(d).value
    ensures r.Ok? ==> forall i, j :: 0 <= i < |d.paths| && 0 <= j < |d.paths[i].1| && RegisteredMethod(d.paths[i].1[j].0) ==>
      FromOperation(BaseUrl(d).value, d.paths[i].0, d.paths[i].1[j].0, d.paths[i].1[j].1) in r.value
    ensures r.Ok? ==> forall t :: t in r.value ==> exists i, j :: (0 <= i < |d.paths| && 0 <= j < |d.paths[i].1| &&
      RegisteredMethod(d.paths[i].1[j].0) && t == FromOperation(BaseUrl(d).value, d.paths[i].0, d.paths[i].1[j].0, d.paths[i].1[j].1))
    ensures r.Ok? ==> r.value == DocumentTools(BaseUrl(d).value, d.paths)
  {
    match BaseUrl(d)
    case Err(e) => Err(e)
    case Ok(base) => Ok(DocumentTools(base, d.paths))
  }

  // ------------------------------------------------ check_common_endpoints

  const CommonEndpoints: seq<string> :=
    ["/openapi.json", "/swagger.json", "/api-docs", "/v3/api-docs", "/swagger.yaml", "/openapi.yaml"]

  /** A response as the probe sees it; `contentType` is the Content-Type
      header, if sent. */
  datatype Response = Response(status: int, contentType: Option<string>)

  datatype Probe = Found(schemaUrl: string) | NotFound

  /** A probe that returned 200 with a JSON or YAML content type. */
  predicate Accepts(resp: Result<Response>) {
    resp.Ok? && resp.value.status == 200 &&
    (HasSubstring(Lower(resp.value.contentType.GetOr("")), "json") ||
     HasSubstring(Lower(resp.value.contentType.GetOr("")), "yaml"))
  }

  function ProbeFrom(base: string, endpoints: seq<string>, get: string -> Result<Response>): (r: Probe)
    ensures r.NotFound? <==> forall i :: 0 <= i < |endpoints| ==> !Accepts(get(base + endpoints[i]))
    ensures r.Found? ==> exists i :: (0 <= i < |endpoints| && r.schemaUrl == base + endpoints[i] &&
      Accepts(get(base + endpoints[i])) &&
      forall j :: 0 <= j < i ==> !Accepts(get(base + endpoints[j])))
    decreases |endpoints|
  {
    if |endpoints| == 0 then NotFound
    else if Accepts(get(base + endpoints[0])) then Found(base + endpoints[0])
    else
      var r := ProbeFrom(base, endpoints[1..], get);
      assert forall i :: 1 <= i < |endpoints| ==> endpoints[i] == endpoints[1..][i - 1];
      if r.Found? then
        assert exists i :: (0 <= i < |endpoints| && r.schemaUrl == base + endpoints[i] &&
          Accepts(get(base + endpoints[i])) && forall j :: 0 <= j < i ==> !Accepts(get(base + endpoints[j]))) by {
          var i :| 0 <= i < |endpoints[1..]| && r.schemaUrl == base + endpoints[1..][i] &&
            Accepts(get(base + endpoints[1..][i])) && forall j :: 0 <= j < i ==> !Accepts(get(base + endpoints[1..][j]));
          assert forall j :: 1 <= j < i + 1 ==> endpoints[j] == endpoints[1..][j - 1];
        }
        r
      else r
  }

  /** `check_common_endpoints(url)`: the first of the six well-known
      locations, under the URL without trailing slashes, that answers 200
      with a JSON or YAML content type.  `get` is `client.get`, with any
      exception it raises as an error (which only moves the probe on). */
  function CheckCommonEndpoints(url: string, get: string -> Result<Response>): (r: Probe)
    ensures r.NotFound? <==> forall i :: 0 <= i < 6 ==> !Accepts(get(RStrip(url, '/') + CommonEndpoints[i]))
    ensures r.Found? ==> exists i :: (0 <= i < 6 && r.schemaUrl == RStrip(url, '/') + CommonEndpoints[i] &&
      Accepts(get(RStrip(url, '/') + CommonEndpoints[i])) &&
      forall j :: 0 <= j < i ==> !Accepts(get(RStrip(url, '/') + CommonEndpoints[j])))
  {
    ProbeFrom(RStrip(url, '/'), CommonEndpoints, get)
  }

  /** The first location wins: a service that serves `/openapi.json` is
      never asked for anything else's answer. */
  lemma OpenApiJsonFirst(url: string, get: string -> Result<Response>)
    requires Accepts(get(RStrip(url, '/') + "/openapi.json"))
    ensures CheckCommonEndpoints(url, get) == Found(RStrip(url, '/') + "/openapi.json")
  {
  }
}

=== FILE: outcomes.dfy ===
/** Failure-carrying datatypes shared by every module: Python's `None`-or-value
    and the exceptions the modelled code raises or returns. */
module Outcomes {

  datatype Option<+T> = None | Some(value: T) {
    function GetOr(default: T): T {
      match this
      case Some(v) => v
      case None => default
    }
  }

  /** The Python exception classes the modelled code raises, by name. */
  datatype ErrorKind =
    | ValueError
    | TypeError
    | KeyError
    | IndexError
    | AttributeError
    | AssertionError
    | NotImplementedError
    | FileNotFoundError
    | FileExistsError
    | IsADirectoryError
    | NotADirectoryError
    | SameFileError
    | CopyError            // shutil.Error: the errors collected by copytree
    | InvalidSignature
    | ValidationError
    | HttpError            // raise_for_status on a non-2xx response
    | OtherError           // any other exception raised by code outside the model

  /** A raised exception: its class and `str(e)`. */
  datatype Error = Error(kind: ErrorKind, msg: string)

  datatype Result<+T> = Ok(value: T) | Err(error: Error) {
    predicate IsFailure() { Err? }

    function PropagateFailure<U>(): Result<U>
      requires Err?
    {
      Err(error)
    }

    function Extract(): T
      requires Ok?
    {
      value
    }
  }
}

=== FILE: params.dfy ===
/** The parameter model a tool derives from its callable's signature: one
    field per parameter (except `self`), in signature order, and the
    validation that turns keyword arguments into the model's field values.
    Pydantic's own type checking and coercion are not modelled: a provided
    value is taken as it is. */
module ParameterModels {
  import opened Outcomes
  import opened Dicts
  import opened Values
  import opened Seqs

  datatype FieldType = TAny | TNone | TNamed(t: string) | TOptional(inner: FieldType)

  /** A model field: its type, its default (None: required) and its title
      (set only for unannotated parameters). */
  datatype Field = Field(name: string, fieldType: FieldType, default: Option<Value>, title: Option<string>)

  datatype ParamModel = ParamModel(modelName: string, fields: seq<Field>)

  /** The annotation as the field sees it, after evaluating a string
      annotation in the function's module namespace. */
  function ResolvedType(a: Annotation, globals: string -> Option<string>): (r: Result<FieldType>)
    ensures a.Unannotated? ==> r == Ok(TAny)
    ensures a.AnnNone? ==> r == Ok(TNone)
    ensures a.AnnType? ==> r == Ok(TNamed(a.t))
    ensures r.Err? <==> a.AnnStr? && globals(a.text).None?
    ensures r.Err? ==> r.error.kind == InvalidSignature
  {
    match a
    case Unannotated => Ok(TAny)
    case AnnNone => Ok(TNone)
    case AnnType(t) => Ok(TNamed(t))
    case AnnStr(text) =>
      match globals(text)
      case Some(t) => Ok(TNamed(t))
      case None => Err(Error(InvalidSignature, "Unable to evaluate type annotation ForwardRef('" + text + "')"))
  }

  function CreateField(p: Param, ty: FieldType): (f: Field)
    ensures f.name == p.name
    ensures f.default == p.default
    ensures f.fieldType == if p.default.Some? then TOptional(ty) else ty
    ensures f.title == if p.annotation.Unannotated? then Some(p.name) else None
  {
    var title := if p.annotation.Unannotated? then Some(p.name) else None;
    if p.default.None? then Field(p.name, ty, None, title)
    else Field(p.name, TOptional(ty), p.default, title)
  }

  /** The parameters that become fields: all but the one named "self". */
  function NonSelf(ps: seq<Param>): (qs: seq<Param>)
    ensures |qs| <= |ps|
    ensures forall q :: q in qs ==> q in ps && q.name != "self"
    ensures forall p :: p in ps && p.name != "self" ==> p in qs
  {
    if |ps| == 0 then []
    else if ps[0].name == "self" then NonSelf(ps[1..])
    else [ps[0]] + NonSelf(ps[1..])
  }

  /** Dropping `self` commutes with concatenation, so the kept parameters
      stay in signature order and each appears as often as it did. */
  lemma {:induction false} NonSelfAppend(a: seq<Param>, b: seq<Param>)
    ensures NonSelf(a + b) == NonSelf(a) + NonSelf(b)
    decreases |a|
  {
    if |a| == 0 {
      assert a + b == b;
    } else {
      var h := if a[0].name == "self" then [] else [a[0]];
      NonSelfAppend(a[1..], b);
      NonSelfConsAppend(a, b);
      NonSelfUnfold(a);
      ConcatShift(h, NonSelf(a + b), NonSelf(a), NonSelf(a[1..]), NonSelf(b));
    }
  }

  /** A signature without `self` is kept whole, in order. */
  lemma {:induction false} NonSelfKeepsAll(ps: seq<Param>)
    requires forall i :: 0 <= i < |ps| ==> ps[i].name != "self"
    ensures NonSelf(ps) == ps
    decreases |ps|
  {
    if |ps| > 0 {
      NonSelfKeepsAll(ps[1..]);
      NonSelfUnfold(ps);
    }
  }

  lemma NonSelfConsAppend(a: seq<Param>, b: seq<Param>)
    requires |a| > 0 && NonSelf(a[1..] + b) == NonSelf(a[1..]) + NonSelf(b)
    ensures NonSelf(a + b) == (if a[0].name == "self" then [] else [a[0]]) + (NonSelf(a[1..]) + NonSelf(b))
  {
    ConsSplit(a, b);
    NonSelfCons(a[0], a[1..] + b);
  }

  lemma NonSelfCons(p: Param, rest: seq<Param>)
    ensures NonSelf([p] + rest) == (if p.name == "self" then [] else [p]) + NonSelf(rest)
  {
    assert ([p] + rest)[1..] == rest;
  }

  lemma NonSelfUnfold(ps: seq<Param>)
    requires |ps| > 0
    ensures NonSelf(ps) == (if ps[0].name == "self" then [] else [ps[0]]) + NonSelf(ps[1..])
  { }

  predicate Unresolvable(p: Param, globals: string -> Option<string>) {
    p.annotation.AnnStr? && globals(p.annotation.text).None?
  }

  /** The fields of the non-self parameters, or the first annotation error. */
  function Fields(ps: seq<Param>, globals: string -> Option<string>): (r: Result<seq<Field>>)
    ensures r.Err? <==> exists i :: 0 <= i < |ps| && ps[i].name != "self" && Unresolvable(ps[i], globals)
    ensures r.Ok? ==> |r.value| == |NonSelf(ps)|
    ensures r.Ok? ==> forall i :: 0 <= i < |r.value| ==>
      var q := NonSelf(ps)[i];
      var f := r.value[i];
      && f.name == q.name
      && (f.default.None? <==> q.default.None?)
      && (q.default.Some? ==> f.fieldType.TOptional? && f.default == q.default)
      && (f.title.Some? <==> q.annotation.Unannotated?)
      && (q.annotation.Unannotated? ==> f.fieldType in {TAny, TOptional(TAny)})
      && (q.annotation.AnnNone? ==> f.fieldType in {TNone, TOptional(TNone)})
    ensures r.Ok? ==> BuiltFrom(r.value, NonSelf(ps), globals)
  {
    if |ps| == 0 then Ok([])
    else
      var rest := Fields(ps[1..], globals);
      assert forall i :: 1 <= i < |ps| ==> ps[i] == ps[1..][i - 1];
      if ps[0].name == "self" then rest
      else
        var ty := ResolvedType(ps[0].annotation, globals);
        if ty.Err? then Err(ty.error)
        else if rest.Err? then rest
        else
          var fs := [CreateField(ps[0], ty.value)] + rest.value;
          BuiltFromCons(ps[0], rest.value, NonSelf(ps[1..]), globals);
          BuiltFromRules(fs, NonSelf(ps), globals);
          Ok(fs)
  }

  /** Field i is made by `_create_field` from parameter i and its resolved
      annotation type. */
  predicate BuiltFrom(fs: seq<Field>, qs: seq<Param>, globals: string -> Option<string>) {
    |fs| == |qs| &&
    forall i :: 0 <= i < |qs| ==>
      ResolvedType(qs[i].annotation, globals).Ok? && fs[i] == CreateField(qs[i], ResolvedType(qs[i].annotation, globals).value)
  }

  lemma BuiltFromCons(q: Param, fs: seq<Field>, qs: seq<Param>, globals: string -> Option<string>)
    requires BuiltFrom(fs, qs, globals) && ResolvedType(q.annotation, globals).Ok?
    ensures BuiltFrom([CreateField(q, ResolvedType(q.annotation, globals).value)] + fs, [q] + qs, globals)
  {
    var fs' := [CreateField(q, ResolvedType(q.annotation, globals).value)] + fs;
    var qs' := [q] + qs;
    forall i | 1 <= i < |qs'|
      ensures ResolvedType(qs'[i].annotation, globals).Ok? && fs'[i] == CreateField(qs'[i], ResolvedType(qs'[i].annotation, globals).value)
    {
      assert qs'[i] == qs[i - 1] && fs'[i] == fs[i - 1];
    }
  }

  /** What the field rules give each field of a model built from `qs`. */
  lemma BuiltFromRules(fs: seq<Field>, qs: seq<Param>, globals: string -> Option<string>)
    requires BuiltFrom(fs, qs, globals)
    ensures forall i :: 0 <= i < |fs| ==>
      var q := qs[i];
      var f := fs[i];
      && f.name == q.name
      && (f.default.None? <==> q.default.None?)
      && (q.default.Some? ==> f.fieldType.TOptional? && f.default == q.default)
      && (f.title.Some? <==> q.annotation.Unannotated?)
      && (q.annotation.Unannotated? ==> f.fieldType in {TAny, TOptional(TAny)})
      && (q.annotation.AnnNone? ==> f.fieldType in {TNone, TOptional(TNone)})
  { }

  /** `_generate_parameters_model`: None when the signature cannot be read
      or an annotation cannot be evaluated. */
  function GenerateParametersModel(f: Callable): (m: Option<ParamModel>)
    ensures m.Some? <==> f.signature.Some? && Fields(f.signature.value, f.globals).Ok?
    ensures m.Some? ==> m.value.modelName == f.name + "Parameters"
    ensures m.Some? ==> |m.value.fields| == |NonSelf(f.signature.value)|
    ensures m.Some? ==> m.value.fields == Fields(f.signature.value, f.globals).value
  {
    if f.signature.None? then None
    else
      match Fields(f.signature.value, f.globals)
      case Ok(fs) => Some(ParamModel(f.name + "Parameters", fs))
      case Err(_) => None
  }

  function FieldNames(fs: seq<Field>): (ns: seq<string>)
    ensures |ns| == |fs|
    ensures forall i :: 0 <= i < |fs| ==> ns[i] == fs[i].name
  {
    seq(|fs|, i requires 0 <= i < |fs| => fs[i].name)
  }

  /** `model(**params).model_dump_one_level()`: the value of every field, in
      field order -- the provided one, else the default -- or a validation
      error naming the first required field that is missing.  Keys the model
      does not declare are dropped. */
  function Validate(fs: seq<Field>, modelName: string, params: Args): (r: Result<Args>)
    ensures r.Ok? ==> Keys(r.value) == FieldNames(fs)
    ensures r.Ok? ==> forall i :: 0 <= i < |fs| ==> Some(r.value[i].1) == Expected(fs[i], params)
    ensures r.Err? <==> MissingRequired(fs, params)
    ensures r.Err? ==> r.error.kind == ValidationError
  {
    if |fs| == 0 then Ok([])
    else
      var f := fs[0];
      var rest := Validate(fs[1..], modelName, params);
      MissingCons(fs, params);
      match Get(params, f.name)
      case Some(v) =>
        if rest.Err? then rest
        else
          ValidateCons(fs, params, (f.name, v), rest.value);
          Ok([(f.name, v)] + rest.value)
      case None =>
        if f.default.None? then Err(Error(ValidationError, modelName + ": field required: " + f.name))
        else if rest.Err? then rest
        else
          ValidateCons(fs, params, (f.name, f.default.value), rest.value);
          Ok([(f.name, f.default.value)] + rest.value)
  }

  /** Some required field (one without a default) is not provided. */
  predicate MissingRequired(fs: seq<Field>, params: Args) {
    exists i :: 0 <= i < |fs| && fs[i].default.None? && fs[i].name !in KeySet(params)
  }

  lemma MissingCons(fs: seq<Field>, params: Args)
    requires |fs| > 0
    ensures MissingRequired(fs, params) <==>
      (fs[0].default.None? && fs[0].name !in KeySet(params)) || MissingRequired(fs[1..], params)
  {
    assert forall i :: 1 <= i < |fs| ==> fs[i] == fs[1..][i - 1];
  }

  /** The value a field takes: the provided one, else its default. */
  function Expected(f: Field, params: Args): Option<Value> {
    if f.name in KeySet(params) then Get(params, f.name) else f.default
  }

  /** Prepending the first field's value to the values of the rest. */
  lemma ValidateCons(fs: seq<Field>, params: Args, h: (string, Value), rest: Args)
    requires |fs| > 0 && h.0 == fs[0].name && Some(h.1) == Expected(fs[0], params)
    requires Keys(rest) == FieldNames(fs[1..])
    requires forall i :: 0 <= i < |rest| ==> Some(rest[i].1) == Expected(fs[1..][i], params)
    ensures Keys([h] + rest) == FieldNames(fs)
    ensures forall i :: 0 <= i < |fs| ==> Some(([h] + rest)[i].1) == Expected(fs[i], params)
  {
    KeysCons(h, rest);
    FieldNamesCons(fs);
    ValuesCons(fs, params, h, rest);
  }

  lemma ValuesCons(fs: seq<Field>, params: Args, h: (string, Value), rest: Args)
    requires |fs| > 0 && Some(h.1) == Expected(fs[0], params) && |rest| == |fs| - 1
    requires forall i :: 0 <= i < |rest| ==> Some(rest[i].1) == Expected(fs[1..][i], params)
    ensures forall i :: 0 <= i < |fs| ==> Some(([h] + rest)[i].1) == Expected(fs[i], params)
  {
    forall i | 1 <= i < |fs| ensures Some(([h] + rest)[i].1) == Expected(fs[i], params) {
      assert ([h] + rest)[i] == rest[i - 1];
      assert fs[i] == fs[1..][i - 1];
    }
  }

  lemma FieldNamesCons(fs: seq<Field>)
    requires |fs| > 0
    ensures FieldNames(fs) == [fs[0].name] + FieldNames(fs[1..])
  { }
}

=== FILE: registry.dfy ===
/** The tool registry: a name, an insertion-ordered map from tool name to
    tool, and a separately stored set of sub-registry prefixes.  Every
    mutator of the Python class is a function returning the new state(s).
    `norm` stands for `normalize_tool_name`, whose definition is not part of
    this model. */
module Registry {
  import opened Outcomes
  import opened Strs
  import opened Dicts
  import opened Values
  import opened ParameterModels
  import opened Tools

  datatype Registry = Registry(name: string, tools: Dict<Tool>, subRegistries: set<string>)

  /** `_find_sub_registries`: the namespaces of the dotted tool names. */
  function FindSubRegistries(tools: Dict<Tool>): set<string> {
    set k | k in KeySet(tools) && '.' in k :: BeforeFirst(k, '.')
  }

  /** The stored prefix set is the one the tool names imply. */
  predicate SubRegistriesAgree(r: Registry) {
    r.subRegistries == FindSubRegistries(r.tools)
  }

  /** Each tool is stored under its own name. */
  predicate Coherent(d: Dict<Tool>) {
    forall i :: 0 <= i < |d| ==> d[i].1.name == d[i].0
  }

  /** A registry built by `ToolRegistry(name)`. */
  function Empty(name: string): (r: Registry)
    ensures KeySet(r.tools) == {} && SubRegistriesAgree(r)
  {
    Registry(name, [], {})
  }

  // ---------------------------------------------------------------- lookups

  /** `name in registry`. */
  predicate Contains(r: Registry, name: string) {
    name in KeySet(r.tools)
  }

  /** `get_available_tools`: the names in registration order. */
  function GetAvailableTools(r: Registry): seq<string> {
    Keys(r.tools)
  }

  /** `get_tool`. */
  function GetTool(r: Registry, name: string): (t: Option<Tool>)
    ensures t.Some? <==> Contains(r, name)
    ensures t.Some? ==> (name, t.value) in r.tools
  {
    Get(r.tools, name)
  }

  /** `get_callable` and `registry[name]`. */
  function GetCallable(r: Registry, name: string): (c: Option<Callable>)
    ensures c.Some? <==> Contains(r, name)
    ensures c.Some? ==> c.value == GetTool(r, name).value.callable
  {
    match GetTool(r, name)
    case Some(t) => Some(t.callable)
    case None => None
  }

  function Schemas(ts: seq<(string, Tool)>): (js: seq<Json>)
    ensures |js| == |ts|
    ensures forall i :: 0 <= i < |ts| ==> js[i] == GetJsonSchema(ts[i].1)
  {
    seq(|ts|, i requires 0 <= i < |ts| => GetJsonSchema(ts[i].1))
  }

  /** `get_tools_json(tool_name)`: the description of the named tool (none
      when it is absent), or of every tool in order when no name is given. */
  function GetToolsJson(r: Registry, toolName: Option<string>): (js: seq<Json>)
    ensures toolName.Some? && toolName.value != "" ==>
      |js| == (if Contains(r, toolName.value) then 1 else 0)
    ensures toolName.Some? && toolName.value != "" && Contains(r, toolName.value) ==>
      var t := GetTool(r, toolName.value).value;
      ReadJsonSchema(js[0]) == Some((t.name, t.description, t.parameters, t.isAsync))
    ensures (toolName.None? || toolName.value == "") ==> |js| == |r.tools|
    ensures (toolName.None? || toolName.value == "") && Coherent(r.tools) ==>
      forall i :: 0 <= i < |js| ==> ReadJsonSchema(js[i]).Some? && ReadJsonSchema(js[i]).value.0 == r.tools[i].0
  {
    if toolName.Some? && toolName.value != "" then
      match GetTool(r, toolName.value)
      case Some(t) =>
        [GetJsonSchema(t)]
      case None => []
    else
      var js := Schemas(r.tools);
      js
  }

  // --------------------------------------------------------------- register

  /** What `register` is handed: a Tool instance, or a plain function. */
  datatype Registrable = AsTool(tool: Tool) | AsFunction(f: Callable)

  /** The prefix set after `register` with this namespace. */
  function AddNamespace(norm: string -> string, subs: set<string>, namespace: Option<string>): set<string> {
    if namespace.Some? && namespace.value != "" then subs + {norm(namespace.value)} else subs
  }

  lemma PutOthers<V>(d: Dict<V>, k: string, v: V)
    ensures forall k' :: k' != k ==> Get(Put(d, k, v), k') == Get(d, k')
  {
    forall k' | k' != k { PutOther(d, k, v, k'); }
  }

  /** Stores a tool under its own name after moving it into `namespace`. */
  function StoreInNamespace(norm: string -> string, r: Registry, t: Tool, namespace: Option<string>): (r': Registry)
    ensures r'.name == r.name
    ensures KeySet(r'.tools) == KeySet(r.tools) + {UpdateNamespace(norm, t.name, namespace, true)}
    ensures Get(r'.tools, UpdateNamespace(norm, t.name, namespace, true)) ==
      Some(UpdateToolNamespace(norm, t, namespace, true))
    ensures forall k :: k != UpdateNamespace(norm, t.name, namespace, true) ==> Get(r'.tools, k) == Get(r.tools, k)
    ensures Unique(r.tools) ==> Unique(r'.tools)
    ensures Coherent(r.tools) ==> Coherent(r'.tools)
  {
    var t' := UpdateToolNamespace(norm, t, namespace, true);
    PutOthers(r.tools, t'.name, t');
    if Coherent(r.tools) then CoherentPut(r.tools, t'); r.(tools := Put(r.tools, t'.name, t'))
    else r.(tools := Put(r.tools, t'.name, t'))
  }

  /** `register(tool_or_func, description, name, namespace)` as the code
      stands: a plain function is handed to `Tool.from_function` together
      with a `namespace` keyword that the method does not accept, so every
      function registration raises TypeError -- after the prefix set has
      already been extended. */
  function RegisterAsWritten(norm: string -> string, r: Registry, item: Registrable,
                             description: Option<string>, name: Option<string>,
                             namespace: Option<string>): (res: (Registry, Option<Error>))
    ensures item.AsFunction? ==> res.1 == Some(Error(TypeError,
      "Tool.from_function() got an unexpected keyword argument 'namespace'"))
    ensures item.AsFunction? ==> res.0.tools == r.tools
    ensures res.0.subRegistries == AddNamespace(norm, r.subRegistries, namespace)
  {
    var r1 := r.(subRegistries := AddNamespace(norm, r.subRegistries, namespace));
    match item
    case AsTool(t) => (StoreInNamespace(norm, r1, t, namespace), None)
    case AsFunction(_) =>
      (r1, Some(Error(TypeError, "Tool.from_function() got an unexpected keyword argument 'namespace'")))
  }

  /** `register` as evidently intended: a plain function becomes a tool by
      `Tool.from_function(func, name, description)` and is then moved into
      the namespace like a Tool instance.  The tool is stored under its final
      name, replacing whatever was there; no other entry changes; a truthy
      namespace is added, normalised, to the prefix set. */
  function Register(norm: string -> string, r: Registry, item: Registrable,
                    description: Option<string>, name: Option<string>,
                    namespace: Option<string>, schemaOf: ParamModel -> Json): (res: (Registry, Option<Error>))
    ensures res.0.name == r.name
    ensures res.0.subRegistries == AddNamespace(norm, r.subRegistries, namespace)
    ensures item.AsTool? ==> res.1.None?
    ensures item.AsFunction? ==> (res.1.Some? <==> ChosenName(item.f, name) == "<lambda>")
    ensures res.1.Some? ==> res.0.tools == r.tools
    ensures res.1.None? ==>
      var t := if item.AsTool? then item.tool else FromFunction(item.f, name, description, schemaOf).value;
      var key := UpdateNamespace(norm, t.name, namespace, true);
      && KeySet(res.0.tools) == KeySet(r.tools) + {key}
      && Get(res.0.tools, key) == Some(UpdateToolNamespace(norm, t, namespace, true))
      && (forall k :: k != key ==> Get(res.0.tools, k) == Get(r.tools, k))
    ensures Coherent(r.tools) ==> Coherent(res.0.tools)
  {
    var r1 := r.(subRegistries := AddNamespace(norm, r.subRegistries, namespace));
    match item
    case AsTool(t) => (StoreInNamespace(norm, r1, t, namespace), None)
    case AsFunction(f) =>
      match FromFunction(f, name, description, schemaOf)
      case Err(e) => (r1, Some(e))
      case Ok(t) => (StoreInNamespace(norm, r1, t, namespace), None)
  }

  /** The set of names `FindSubRegistries` reads grows by one key. */
  lemma FindSubRegistriesAdd(tools: Dict<Tool>, tools': Dict<Tool>, key: string)
    requires KeySet(tools') == KeySet(tools) + {key}
    ensures FindSubRegistries(tools') ==
      FindSubRegistries(tools) + (if '.' in key then {BeforeFirst(key, '.')} else {})
  {
  }

  /** A successful registration into a normalised, dot-free namespace keeps
      the stored prefix set equal to the one the names imply; so does
      registering an undotted tool without a namespace.  (A failed
      registration does not: the namespace is added before the failure.) */
  lemma RegisterKeepsSubRegistriesAgree(norm: string -> string, r: Registry, item: Registrable,
                                        description: Option<string>, name: Option<string>,
                                        namespace: Option<string>, schemaOf: ParamModel -> Json)
    requires SubRegistriesAgree(r)
    requires item.AsFunction? ==> ChosenName(item.f, name) != "<lambda>"
    requires namespace.Some? && namespace.value != "" ==> '.' !in norm(namespace.value)
    requires (namespace.None? || namespace.value == "") ==>
      '.' !in (if item.AsTool? then item.tool.name else ChosenName(item.f, name))
    ensures SubRegistriesAgree(Register(norm, r, item, description, name, namespace, schemaOf).0)
  {
    var res := Register(norm, r, item, description, name, namespace, schemaOf);
    if res.1.None? {
      var t := if item.AsTool? then item.tool else FromFunction(item.f, name, description, schemaOf).value;
      var key := UpdateNamespace(norm, t.name, namespace, true);
      FindSubRegistriesAdd(r.tools, res.0.tools, key);
      if namespace.Some? && namespace.value != "" {
        UpdateNamespaceParts(norm, t.name, namespace.value, true);
      }
    }
  }

  // ----------------------------------------------------- namespaces & merge

  /** Storing a tool under its own name keeps every tool under its own name. */
  lemma CoherentPut(d: Dict<Tool>, t: Tool)
    requires Coherent(d)
    ensures Coherent(Put(d, t.name, t))
  {
    var i := Find(Keys(d), t.name);
    assert Put(d, t.name, t) == if i < |d| then d[i := (t.name, t)] else d + [(t.name, t)];
  }

  lemma {:induction false} CoherentUpdate(d: Dict<Tool>, e: seq<(string, Tool)>)
    requires Coherent(d) && Coherent(e)
    ensures Coherent(Update(d, e))
    decreases |e|
  {
    if |e| > 0 {
      CoherentPut(d, e[0].1);
      CoherentUpdate(Put(d, e[0].0, e[0].1), e[1..]);
    }
  }

  /** The pairs `_prefix_tools_namespace` stores: each tool moved into the
      registry's namespace, keyed by its new name. */
  function PrefixPairs(norm: string -> string, rname: string, tools: Dict<Tool>, force: bool): (ps: seq<(string, Tool)>)
    ensures |ps| == |tools|
    ensures forall i :: 0 <= i < |ps| ==>
      ps[i].1 == UpdateToolNamespace(norm, tools[i].1, Some(rname), force) && ps[i].0 == ps[i].1.name
  {
    seq(|tools|, i requires 0 <= i < |tools| =>
      var t := UpdateToolNamespace(norm, tools[i].1, Some(rname), force);
      (t.name, t))
  }

  /** `_prefix_tools_namespace(force)`: every tool is renamed by
      `update_namespace(registry name, force)` and the map rebuilt under the
      new names (colliding names keep the last tool). */
  function PrefixToolsNamespace(norm: string -> string, r: Registry, force: bool): (r': Registry)
    ensures r'.name == r.name && r'.subRegistries == r.subRegistries
    ensures Unique(r'.tools) && Coherent(r'.tools)
    ensures |r'.tools| <= |r.tools|
    ensures KeySet(r'.tools) == KeySet(PrefixPairs(norm, r.name, r.tools, force))
    ensures forall k :: Get(r'.tools, k) == LastValue(PrefixPairs(norm, r.name, r.tools, force), k, None)
  {
    var ps := PrefixPairs(norm, r.name, r.tools, force);
    CoherentUpdate([], ps);
    r.(tools := FromPairs(ps))
  }

  /** For tools stored under their own names, the prefixed names are the
      old names, each moved into the registry's namespace. */
  lemma PrefixKeys(norm: string -> string, r: Registry, force: bool)
    requires Coherent(r.tools)
    ensures KeySet(PrefixToolsNamespace(norm, r, force).tools) ==
      set k | k in KeySet(r.tools) :: UpdateNamespace(norm, k, Some(r.name), force)
  {
    var ps := PrefixPairs(norm, r.name, r.tools, force);
    var img := set k | k in KeySet(r.tools) :: UpdateNamespace(norm, k, Some(r.name), force);
    forall x | x in KeySet(ps) ensures x in img {
      var i :| 0 <= i < |ps| && Keys(ps)[i] == x;
      assert r.tools[i].0 in Keys(r.tools);
    }
    forall x | x in img ensures x in KeySet(ps) {
      var k :| k in KeySet(r.tools) && x == UpdateNamespace(norm, k, Some(r.name), force);
      var i :| 0 <= i < |r.tools| && Keys(r.tools)[i] == k;
      assert Keys(ps)[i] == x;
    }
  }

  /** `p.x` for every `x` in `xs`. */
  function Prefixed(p: string, xs: set<string>): set<string> {
    set x | x in xs :: p + "." + x
  }

  /** Prefixing a registry whose tools are undotted and stored under their
      own names puts every name into the registry's normalised namespace. */
  lemma PrefixUndotted(norm: string -> string, r: Registry, force: bool)
    requires Coherent(r.tools) && r.name != ""
    requires forall k :: k in KeySet(r.tools) ==> '.' !in k
    ensures KeySet(PrefixToolsNamespace(norm, r, force).tools) == Prefixed(norm(r.name), KeySet(r.tools))
  {
    PrefixKeys(norm, r, force);
  }

  /** Prefixing without force leaves already-dotted names alone. */
  lemma PrefixKeepsDotted(norm: string -> string, r: Registry)
    requires Coherent(r.tools)
    requires forall k :: k in KeySet(r.tools) ==> '.' in k
    ensures KeySet(PrefixToolsNamespace(norm, r, false).tools) == KeySet(r.tools)
  {
    PrefixKeys(norm, r, false);
  }

  /** Whether `merge` stores other's tool under `k` in this registry: every
      one of them when overriding, only the names this registry lacks under
      keep_existing. */
  predicate Taken(mine: Dict<Tool>, k: string, keepExisting: bool) {
    !keepExisting || k !in KeySet(mine)
  }

  /** Other's map after `merge`.  Both maps hold the same Tool objects, and
      the forced re-prefixing renames those objects in place, so each tool
      other shares with this registry is renamed into this registry's
      namespace while keeping its old key in other's map. */
  function OtherAfterMerge(norm: string -> string, rname: string, mine: Dict<Tool>, theirs: Dict<Tool>,
                           keepExisting: bool, force: bool): (d: Dict<Tool>)
    ensures Keys(d) == Keys(theirs)
    ensures !force ==> d == theirs
    ensures forall i :: 0 <= i < |d| && !Taken(mine, theirs[i].0, keepExisting) ==> d[i] == theirs[i]
    ensures force ==> forall i :: 0 <= i < |d| && Taken(mine, theirs[i].0, keepExisting) ==>
      d[i].1.name == UpdateNamespace(norm, theirs[i].1.name, Some(rname), true) &&
      d[i].1 == theirs[i].1.(name := d[i].1.name)
  {
    var d := seq(|theirs|, i requires 0 <= i < |theirs| =>
      if force && Taken(mine, theirs[i].0, keepExisting)
      then (theirs[i].0, UpdateToolNamespace(norm, theirs[i].1, Some(rname), true))
      else theirs[i]);
    assert Keys(d) == Keys(theirs);
    d
  }

  /** `merge(other, keep_existing, force_namespace)`: returns this registry
      and `other` as they stand afterwards (both have been prefixed). */
  function Merge(norm: string -> string, r: Registry, o: Registry, keepExisting: bool, force: bool): (res: (Registry, Registry))
    ensures res.0.name == r.name && res.1.name == o.name && res.1.subRegistries == o.subRegistries
    ensures !force ==> res.1 == PrefixToolsNamespace(norm, o, false)
    ensures res.1.tools == OtherAfterMerge(norm, r.name, PrefixToolsNamespace(norm, r, false).tools,
                                           PrefixToolsNamespace(norm, o, false).tools, keepExisting, force)
    ensures SubRegistriesAgree(res.0)
    ensures Unique(res.0.tools) && Coherent(res.0.tools)
    ensures |res.0.tools| <= |r.tools| + |o.tools|
    ensures !force ==> (KeySet(res.0.tools) ==
      KeySet(PrefixToolsNamespace(norm, r, false).tools) + KeySet(PrefixToolsNamespace(norm, o, false).tools))
  {
    var r1 := PrefixToolsNamespace(norm, r, false);
    var o1 := PrefixToolsNamespace(norm, o, false);
    var merged := if keepExisting then AddAbsent(r1.tools, o1.tools) else Update(r1.tools, o1.tools);
    assert Coherent(merged) by {
      if keepExisting { CoherentAddAbsent(r1.tools, o1.tools); } else { CoherentUpdate(r1.tools, o1.tools); }
    }
    var r2 := if force then PrefixToolsNamespace(norm, r1.(tools := merged), true) else r1.(tools := merged);
    (r2.(subRegistries := FindSubRegistries(r2.tools)), o1.(tools := OtherAfterMerge(norm, r.name, r1.tools, o1.tools, keepExisting, force)))
  }

  /** With force_namespace, the merged names are the union of both
      prefixed name sets, each then moved into this registry's namespace. */
  lemma MergeForceNames(norm: string -> string, r: Registry, o: Registry, keepExisting: bool)
    ensures KeySet(Merge(norm, r, o, keepExisting, true).0.tools) ==
      set k | k in KeySet(PrefixToolsNamespace(norm, r, false).tools) + KeySet(PrefixToolsNamespace(norm, o, false).tools)
            :: UpdateNamespace(norm, k, Some(r.name), true)
  {
    var r1 := PrefixToolsNamespace(norm, r, false);
    var o1 := PrefixToolsNamespace(norm, o, false);
    var merged := if keepExisting then AddAbsent(r1.tools, o1.tools) else Update(r1.tools, o1.tools);
    assert Coherent(merged) by {
      if keepExisting { CoherentAddAbsent(r1.tools, o1.tools); } else { CoherentUpdate(r1.tools, o1.tools); }
    }
    PrefixKeys(norm, r1.(tools := merged), true);
  }

  /** Merging with force_namespace and without keep_existing leaves every
      tool `other` still holds named in this registry's namespace, under a
      key in other's namespace: other's keys and names no longer agree. */
  lemma MergeForceRenamesOther(norm: string -> string, r: Registry, o: Registry)
    requires r.name != "" && '.' !in norm(r.name)
    ensures var o2 := Merge(norm, r, o, false, true).1;
      forall i :: 0 <= i < |o2.tools| ==> NamespaceOf(o2.tools[i].1.name) == Some(norm(r.name))
  {
    var o1 := PrefixToolsNamespace(norm, o, false);
    var o2 := Merge(norm, r, o, false, true).1;
    forall i | 0 <= i < |o2.tools| ensures NamespaceOf(o2.tools[i].1.name) == Some(norm(r.name)) {
      UpdateNamespaceParts(norm, o1.tools[i].1.name, r.name, true);
    }
  }

  lemma OneFromPair(k: string, t: Tool)
    ensures FromPairs([(k, t)]) == [(k, t)]
  {
    PutAbsent([], k, t);
    assert [(k, t)][1..] == [];
    assert Update([], [(k, t)]) == Update(Put([], k, t), []);
  }

  /** A small instance: any registry "a" merged, forced, with "b" holding
      `y`.  Other keeps the key `b.y` for a tool now named `a.y`. */
  lemma MergeForceExample(norm: string -> string, r: Registry, o: Registry, ty: Tool)
    requires norm("a") == "a" && norm("b") == "b"
    requires ty.name == "y"
    requires r.name == "a" && o == Registry("b", [("y", ty)], {})
    ensures Merge(norm, r, o, false, true).1.tools == [("b.y", ty.(name := "a.y"))]
  {
    ExamplePrefixed(norm, o, ty);
    ExampleRenamed(norm, PrefixToolsNamespace(norm, r, false).tools, PrefixToolsNamespace(norm, o, false).tools, ty);
  }

  lemma ExamplePrefixed(norm: string -> string, o: Registry, ty: Tool)
    requires norm("b") == "b" && ty.name == "y"
    requires o == Registry("b", [("y", ty)], {})
    ensures PrefixToolsNamespace(norm, o, false).tools == [("b.y", ty.(name := "b.y"))]
  {
    PrefixOne(norm, "b", ty, "y");
    assert "b" + "." + "y" == "b.y";
  }

  lemma ExampleRenamed(norm: string -> string, mine: Dict<Tool>, theirs: Dict<Tool>, ty: Tool)
    requires norm("a") == "a"
    requires theirs == [("b.y", ty.(name := "b.y"))]
    ensures OtherAfterMerge(norm, "a", mine, theirs, false, true) == [("b.y", ty.(name := "a.y"))]
  {
    SplitJoin("b", '.', "y");
    assert UpdateNamespace(norm, "b.y", Some("a"), true) == "a.y";
    var d := OtherAfterMerge(norm, "a", mine, theirs, false, true);
    assert |d| == 1 && d[0].0 == "b.y";
  }

  /** Prefixing a one-tool registry whose tool is undotted. */
  lemma PrefixOne(norm: string -> string, rname: string, t: Tool, x: string)
    requires rname != "" && t.name == x && '.' !in x
    ensures PrefixToolsNamespace(norm, Registry(rname, [(x, t)], {}), false).tools ==
      [(norm(rname) + "." + x, t.(name := norm(rname) + "." + x))]
  {
    var k := norm(rname) + "." + x;
    assert PrefixPairs(norm, rname, [(x, t)], false) == [(k, t.(name := k))];
    OneFromPair(k, t.(name := k));
  }

  lemma {:induction false} CoherentAddAbsent(d: Dict<Tool>, e: seq<(string, Tool)>)
    requires Coherent(d) && Coherent(e)
    ensures Coherent(AddAbsent(d, e))
    decreases |e|
  {
    if |e| > 0 {
      CoherentPut(d, e[0].1);
      var d' := if e[0].0 in KeySet(d) then d else Put(d, e[0].0, e[0].1);
      CoherentAddAbsent(d', e[1..]);
    }
  }

  /** Without force, a name present in both keeps this registry's tool under
      keep_existing and takes other's tool otherwise; every other name keeps
      the tool of the registry it came from. */
  lemma MergeConflicts(norm: string -> string, r: Registry, o: Registry, keepExisting: bool, k: string)
    ensures var r1 := PrefixToolsNamespace(norm, r, false);
      var o1 := PrefixToolsNamespace(norm, o, false);
      var m := Merge(norm, r, o, keepExisting, false).0;
      Get(m.tools, k) ==
        if keepExisting then (if k in KeySet(r1.tools) then Get(r1.tools, k) else Get(o1.tools, k))
        else (if k in KeySet(o1.tools) then Get(o1.tools, k) else Get(r1.tools, k))
  {
    var r1 := PrefixToolsNamespace(norm, r, false);
    var o1 := PrefixToolsNamespace(norm, o, false);
    if keepExisting {
      if k in KeySet(r1.tools) { AddAbsentKeeps(r1.tools, o1.tools, k); }
      else { AddAbsentAdds(r1.tools, o1.tools, k); }
    } else {
      UpdateGetDict(r1.tools, o1.tools, k);
    }
  }

  /** With force, every tool is re-prefixed after the union: names can only
      collapse, never multiply. */
  lemma ForceNeverGrows(norm: string -> string, r: Registry, o: Registry, keepExisting: bool)
    ensures |KeySet(Merge(norm, r, o, keepExisting, true).0.tools)| <=
      |KeySet(Merge(norm, r, o, keepExisting, false).0.tools)|
  {
    var m0 := Merge(norm, r, o, keepExisting, false).0;
    var m1 := Merge(norm, r, o, keepExisting, true).0;
    UniqueSize(m0.tools);
    UniqueSize(m1.tools);
  }

  // ------------------------------------------------------- reduce & spinoff

  /** The one element of a singleton set. */
  function Only(s: set<string>): (x: string)
    requires |s| == 1
    ensures s == {x}
  {
    var x :| x in s;
    assert s == {x} by {
      assert |s - {x}| == 0;
    }
    x
  }

  /** Each key with its first `n` characters dropped (Python's `name[n:]`). */
  function StripPairs(tools: Dict<Tool>, n: nat): (ps: seq<(string, Tool)>)
    ensures |ps| == |tools|
    ensures forall i :: 0 <= i < |ps| ==> ps[i] == (SliceFrom(tools[i].0, n), tools[i].1)
  {
    seq(|tools|, i requires 0 <= i < |tools| => (SliceFrom(tools[i].0, n), tools[i].1))
  }

  /** The names with their first `n` characters dropped. */
  function StrippedKeys(tools: Dict<Tool>, n: nat): set<string> {
    set k | k in KeySet(tools) :: SliceFrom(k, n)
  }

  lemma StripPairsKeys(tools: Dict<Tool>, n: nat)
    ensures KeySet(StripPairs(tools, n)) == StrippedKeys(tools, n)
  {
    var ps := StripPairs(tools, n);
    var img := StrippedKeys(tools, n);
    forall x | x in KeySet(ps) ensures x in img {
      var i :| 0 <= i < |ps| && Keys(ps)[i] == x;
      var k := tools[i].0;
      assert x == SliceFrom(k, n);
      assert Keys(tools)[i] == k;
      assert k in KeySet(tools);
    }
    forall x | x in img ensures x in KeySet(ps) {
      var k :| k in KeySet(tools) && x == SliceFrom(k, n);
      var i :| 0 <= i < |tools| && Keys(tools)[i] == k;
      assert Keys(ps)[i] == x;
    }
  }

  /** `reduce_namespace`: a no-op unless exactly one prefix `p` is stored;
      then `len(p)+1` leading characters are dropped from every name (whether
      or not it starts with `p.`) and the prefix set is emptied. */
  function ReduceNamespace(r: Registry): (r': Registry)
    ensures |r.subRegistries| != 1 ==> r' == r
    ensures |r.subRegistries| == 1 ==> r'.name == r.name && r'.subRegistries == {}
    ensures |r.subRegistries| == 1 ==> KeySet(r'.tools) == StrippedKeys(r.tools, |Only(r.subRegistries)| + 1)
    ensures |r.subRegistries| == 1 ==>
      forall k :: Get(r'.tools, k) == LastValue(StripPairs(r.tools, |Only(r.subRegistries)| + 1), k, None)
  {
    if |r.subRegistries| == 1 then
      var p := Only(r.subRegistries);
      var ps := StripPairs(r.tools, |p| + 1);
      StripPairsKeys(r.tools, |p| + 1);
      Registry(r.name, FromPairs(ps), {})
    else r
  }

  /** Dropping `p.` from `p.x` gives back `x`. */
  lemma StripPrefixed(p: string, x: string)
    ensures SliceFrom(p + "." + x, |p| + 1) == x
  {
    assert (p + "." + x)[|p| + 1..] == x;
  }

  /** Reducing a registry whose names are all `p.x` with `p` its only prefix
      gives back the `x`s. */
  lemma ReduceUndoesPrefix(r: Registry, p: string, xs: set<string>)
    requires r.subRegistries == {p}
    requires KeySet(r.tools) == Prefixed(p, xs)
    ensures KeySet(ReduceNamespace(r).tools) == xs
  {
    assert Only(r.subRegistries) == p;
    forall x | x in xs ensures x in KeySet(ReduceNamespace(r).tools) {
      StripPrefixed(p, x);
      assert p + "." + x in KeySet(r.tools);
    }
    forall y | y in KeySet(ReduceNamespace(r).tools) ensures y in xs {
      var k :| k in KeySet(r.tools) && y == SliceFrom(k, |p| + 1);
      var x :| x in xs && k == p + "." + x;
      StripPrefixed(p, x);
    }
  }

  function InNamespace(prefix: string): string -> bool {
    k => StartsWith(k, prefix + ".")
  }

  function NotInNamespace(prefix: string): string -> bool {
    k => !StartsWith(k, prefix + ".")
  }

  /** The two registries `spinoff` builds before any namespace is reduced:
      the tools named `prefix.…` under the name `prefix` with prefix set
      {prefix}, and the other tools with `prefix` discarded from the set. */
  function SpinoffParts(r: Registry, prefix: string): (parts: (Registry, Registry))
    ensures parts.0 == Registry(prefix, FilterKeys(r.tools, InNamespace(prefix)), {prefix})
    ensures parts.1 == Registry(r.name, FilterKeys(r.tools, NotInNamespace(prefix)), r.subRegistries - {prefix})
    ensures KeySet(parts.0.tools) == set k | k in KeySet(r.tools) && StartsWith(k, prefix + ".")
    ensures KeySet(parts.1.tools) == set k | k in KeySet(r.tools) && !StartsWith(k, prefix + ".")
  {
    (Registry(prefix, FilterKeys(r.tools, InNamespace(prefix)), {prefix}),
     Registry(r.name, FilterKeys(r.tools, NotInNamespace(prefix)), r.subRegistries - {prefix}))
  }

  /** `spinoff(prefix, retain_namespace)`: fails, changing nothing, when no
      name starts with `prefix.`; otherwise the new registry holds exactly
      the matching tools and this one keeps exactly the rest; without
      retain_namespace both are then reduced. */
  function Spinoff(r: Registry, prefix: string, retain: bool): (res: Result<(Registry, Registry)>)
    ensures res.Err? <==> forall k :: k in KeySet(r.tools) ==> !StartsWith(k, prefix + ".")
    ensures res.Err? ==> res.error == Error(ValueError, "No tools with prefix '" + prefix + "' found in the registry.")
    ensures res.Ok? ==> res.value.0.name == prefix && res.value.1.name == r.name
    ensures res.Ok? && retain ==> res.value == SpinoffParts(r, prefix)
    ensures res.Ok? && !retain ==>
      res.value == (ReduceNamespace(SpinoffParts(r, prefix).0), ReduceNamespace(SpinoffParts(r, prefix).1))
  {
    var parts := SpinoffParts(r, prefix);
    if |parts.0.tools| == 0 then
      assert KeySet(parts.0.tools) == {};
      assert forall k :: k in KeySet(r.tools) ==> !StartsWith(k, prefix + ".") by {
        forall k | k in KeySet(r.tools) ensures !StartsWith(k, prefix + ".") {
          assert k !in KeySet(parts.0.tools);
        }
      }
      Err(Error(ValueError, "No tools with prefix '" + prefix + "' found in the registry."))
    else
      assert parts.0.tools[0].0 in KeySet(parts.0.tools);
      if retain then Ok(parts) else Ok((ReduceNamespace(parts.0), ReduceNamespace(parts.1)))
  }

  /** With retain_namespace the two registries split the names between them. */
  lemma SpinoffPartitions(r: Registry, prefix: string)
    requires Spinoff(r, prefix, true).Ok?
    ensures var (a, b) := Spinoff(r, prefix, true).value;
      && KeySet(a.tools) + KeySet(b.tools) == KeySet(r.tools)
      && KeySet(a.tools) * KeySet(b.tools) == {}
      && (forall k :: k in KeySet(a.tools) ==> StartsWith(k, prefix + "."))
      && (forall k :: k in KeySet(b.tools) ==> !StartsWith(k, prefix + "."))
  {
  }

  /** The names under `prefix.`, with `prefix.` dropped. */
  function Unprefixed(tools: Dict<Tool>, prefix: string): set<string> {
    set k | k in KeySet(tools) && StartsWith(k, prefix + ".") :: k[|prefix| + 1..]
  }

  /** Without retain_namespace the new registry holds the matching names with
      `prefix.` dropped and has no prefixes left. */
  lemma SpinoffReducesNew(r: Registry, prefix: string)
    requires Spinoff(r, prefix, false).Ok?
    ensures Spinoff(r, prefix, false).value.0.subRegistries == {}
    ensures KeySet(Spinoff(r, prefix, false).value.0.tools) == Unprefixed(r.tools, prefix)
  {
    var parts := SpinoffParts(r, prefix);
    assert Only(parts.0.subRegistries) == prefix;
    var a := ReduceNamespace(parts.0);
    assert Spinoff(r, prefix, false).value.0 == a;
    assert KeySet(a.tools) == StrippedKeys(parts.0.tools, |prefix| + 1);
    var want := Unprefixed(r.tools, prefix);
    forall y | y in KeySet(a.tools) ensures y in want {
      var k :| k in KeySet(parts.0.tools) && y == SliceFrom(k, |prefix| + 1);
      assert SliceFrom(k, |prefix| + 1) == k[|prefix| + 1..];
    }
    forall y | y in want ensures y in KeySet(a.tools) {
      var k :| k in KeySet(r.tools) && StartsWith(k, prefix + ".") && y == k[|prefix| + 1..];
      assert k in KeySet(parts.0.tools);
      assert SliceFrom(k, |prefix| + 1) == y;
    }
  }

  /** A name that starts with `b.`, for a dot-free `b`, is in namespace `b`. */
  lemma StartsWithNamespace(s: string, b: string)
    requires '.' !in b
    ensures StartsWith(s, b + ".") ==> BeforeFirst(s, '.') == b
  {
    if StartsWith(s, b + ".") {
      var x := s[|b| + 1..];
      assert s == b + "." + x by {
        assert s[..|b| + 1] == b + ".";
      }
      SplitJoin(b, '.', x);
    }
  }

  /** `a.x` lies in namespace `a` and in no other dot-free namespace. */
  lemma PrefixedNamespace(a: string, x: string, b: string)
    requires '.' !in a && '.' !in b
    ensures BeforeFirst(a + "." + x, '.') == a
    ensures StartsWith(a + "." + x, b + ".") <==> a == b
  {
    SplitJoin(a, '.', x);
    StartsWithNamespace(a + "." + x, b);
    assert StartsWith(a + "." + x, a + ".") by {
      assert (a + "." + x)[..|a| + 1] == a + ".";
    }
  }

  /** The namespaces implied by two prefixed name sets. */
  lemma FindSubRegistriesPrefixed(tools: Dict<Tool>, a: string, xs: set<string>, b: string, ys: set<string>)
    requires '.' !in a && '.' !in b
    requires KeySet(tools) == Prefixed(a, xs) + Prefixed(b, ys)
    ensures FindSubRegistries(tools) == (if xs == {} then {} else {a}) + (if ys == {} then {} else {b})
  {
    var want := (if xs == {} then {} else {a}) + (if ys == {} then {} else {b});
    forall n | n in FindSubRegistries(tools) ensures n in want {
      var k :| k in KeySet(tools) && '.' in k && n == BeforeFirst(k, '.');
      if k in Prefixed(a, xs) {
        var x :| x in xs && k == a + "." + x;
        PrefixedNamespace(a, x, b);
      } else {
        var y :| y in ys && k == b + "." + y;
        PrefixedNamespace(b, y, a);
      }
    }
    forall n | n in want ensures n in FindSubRegistries(tools) {
      if n == a && xs != {} {
        var x :| x in xs;
        PrefixedNamespace(a, x, b);
        assert a + "." + x in KeySet(tools);
      } else {
        var y :| y in ys;
        PrefixedNamespace(b, y, a);
        assert b + "." + y in KeySet(tools);
      }
    }
  }

  /** Splitting the names `a.x` and `b.y` by the prefix `b.` separates the
      two namespaces. */
  lemma SplitPrefixed(a: string, xs: set<string>, b: string, ys: set<string>)
    requires a != b && '.' !in a && '.' !in b
    ensures (set k | k in Prefixed(a, xs) + Prefixed(b, ys) && StartsWith(k, b + ".")) == Prefixed(b, ys)
    ensures (set k | k in Prefixed(a, xs) + Prefixed(b, ys) && !StartsWith(k, b + ".")) == Prefixed(a, xs)
  {
    forall k | k in Prefixed(a, xs) ensures !StartsWith(k, b + ".") {
      var x :| x in xs && k == a + "." + x;
      PrefixedNamespace(a, x, b);
    }
    forall k | k in Prefixed(b, ys) ensures StartsWith(k, b + ".") {
      var y :| y in ys && k == b + "." + y;
      PrefixedNamespace(b, y, b);
    }
  }

  /** The merged registry of two undotted registries with distinct,
      normalised, dot-free names. */
  lemma MergeUndotted(norm: string -> string, r: Registry, o: Registry, keepExisting: bool)
    requires r.name != "" && o.name != ""
    requires '.' !in r.name && '.' !in o.name
    requires norm(r.name) == r.name && norm(o.name) == o.name
    requires Coherent(r.tools) && Coherent(o.tools)
    requires forall k :: k in KeySet(r.tools) ==> '.' !in k
    requires forall k :: k in KeySet(o.tools) ==> '.' !in k
    ensures var m := Merge(norm, r, o, keepExisting, false).0;
      && KeySet(m.tools) == Prefixed(r.name, KeySet(r.tools)) + Prefixed(o.name, KeySet(o.tools))
      && m.subRegistries == (if KeySet(r.tools) == {} then {} else {r.name}) +
                            (if KeySet(o.tools) == {} then {} else {o.name})
  {
    var m := Merge(norm, r, o, keepExisting, false).0;
    PrefixUndotted(norm, r, false);
    PrefixUndotted(norm, o, false);
    FindSubRegistriesPrefixed(m.tools, r.name, KeySet(r.tools), o.name, KeySet(o.tools));
  }

  /** Some name lies in namespace `b`, so the spinoff succeeds. */
  lemma SpinoffPrefixedFound(m: Registry, a: string, xs: set<string>, b: string, ys: set<string>)
    requires a != b && '.' !in a && '.' !in b
    requires KeySet(m.tools) == Prefixed(a, xs) + Prefixed(b, ys)
    requires m.subRegistries == (if xs == {} then {} else {a}) + (if ys == {} then {} else {b})
    requires ys != {}
    ensures Spinoff(m, b, false).Ok?
  {
    SplitPrefixed(a, xs, b, ys);
    var parts := SpinoffParts(m, b);
    var y :| y in ys;
    assert b + "." + y in KeySet(parts.0.tools);
  }
  /** The spun-off registry, reduced, holds the `y`s. */
  lemma SpinoffPrefixedNew(m: Registry, a: string, xs: set<string>, b: string, ys: set<string>)
    requires a != b && '.' !in a && '.' !in b
    requires KeySet(m.tools) == Prefixed(a, xs) + Prefixed(b, ys)
    requires m.subRegistries == (if xs == {} then {} else {a}) + (if ys == {} then {} else {b})
    requires ys != {}
    ensures KeySet(ReduceNamespace(SpinoffParts(m, b).0).tools) == ys
  {
    SplitPrefixed(a, xs, b, ys);
    var parts := SpinoffParts(m, b);
    ReduceUndoesPrefix(parts.0, b, ys);
  }
  /** The rest, reduced when `a` is its only prefix, holds the `x`s. */
  lemma SpinoffPrefixedRest(m: Registry, a: string, xs: set<string>, b: string, ys: set<string>)
    requires a != b && '.' !in a && '.' !in b
    requires KeySet(m.tools) == Prefixed(a, xs) + Prefixed(b, ys)
    requires m.subRegistries == (if xs == {} then {} else {a}) + (if ys == {} then {} else {b})
    requires ys != {}
    ensures KeySet(ReduceNamespace(SpinoffParts(m, b).1).tools) == xs
  {
    SplitPrefixed(a, xs, b, ys);
    var parts := SpinoffParts(m, b);
    if xs != {} {
      assert parts.1.subRegistries == {a};
      ReduceUndoesPrefix(parts.1, a, xs);
    } else {
      assert parts.1.subRegistries == {};
    }
  }
  /** Spinning namespace `b` off a registry holding the names `a.x` and
      `b.y`, with the prefix set those names imply, gives back the `y`s and
      leaves the `x`s. */
  lemma SpinoffPrefixed(m: Registry, a: string, xs: set<string>, b: string, ys: set<string>)
    requires a != b && '.' !in a && '.' !in b
    requires KeySet(m.tools) == Prefixed(a, xs) + Prefixed(b, ys)
    requires m.subRegistries == (if xs == {} then {} else {a}) + (if ys == {} then {} else {b})
    requires ys != {}
    ensures var s := Spinoff(m, b, false);
      && s.Ok?
      && s.value.0.name == b && KeySet(s.value.0.tools) == ys
      && s.value.1.name == m.name && KeySet(s.value.1.tools) == xs
  {
    SpinoffPrefixedFound(m, a, xs, b, ys);
    SpinoffPrefixedNew(m, a, xs, b, ys);
    SpinoffPrefixedRest(m, a, xs, b, ys);
  }

  /** Merging `o` into `r` without force and then spinning `o`'s name off
      without retaining the namespace gives back both name sets: the
      spun-off registry holds `o`'s names and `r` keeps its own.  This holds
      for distinct, normalised, dot-free registry names and undotted tool
      names stored under their own names. */
  lemma MergeThenSpinoff(norm: string -> string, r: Registry, o: Registry, keepExisting: bool)
    requires r.name != o.name && r.name != "" && o.name != ""
    requires '.' !in r.name && '.' !in o.name
    requires norm(r.name) == r.name && norm(o.name) == o.name
    requires Coherent(r.tools) && Coherent(o.tools)
    requires forall k :: k in KeySet(r.tools) ==> '.' !in k
    requires forall k :: k in KeySet(o.tools) ==> '.' !in k
    requires KeySet(o.tools) != {}
    ensures var s := Spinoff(Merge(norm, r, o, keepExisting, false).0, o.name, false);
      && s.Ok?
      && s.value.0.name == o.name && KeySet(s.value.0.tools) == KeySet(o.tools)
      && s.value.1.name == r.name && KeySet(s.value.1.tools) == KeySet(r.tools)
  {
    MergeUndotted(norm, r, o, keepExisting);
    SpinoffPrefixed(Merge(norm, r, o, keepExisting, false).0, r.name, KeySet(r.tools), o.name, KeySet(o.tools));
  }
}

=== FILE: searxng.dfy ===
/** The SearXNG client: how the base URL is normalised, and what `search`
    does with the engine's answer -- the score filter, the stable sort by
    descending score, the cut to the requested count, and the per-entry
    page fetch.  The HTTP exchange, the two scrapers and `_format_text` are
    parameters. */
module Searxng {
  import opened Outcomes
  import opened Strs

  // ---------------------------------------------------------------- base URL

  const SearchSuffix: string := "/search"

  /** `__init__`: the trailing slashes are stripped and "/search" appended
      unless the stripped URL already ends with it. */
  function BaseUrl(u: string): (r: string)
    ensures EndsWith(r, SearchSuffix)
    ensures StartsWith(r, RStrip(u, '/'))
    ensures |r| <= |RStrip(u, '/')| + |SearchSuffix|
  {
    var s := RStrip(u, '/');
    if EndsWith(s, SearchSuffix) then s
    else
      assert (s + SearchSuffix)[|s|..] == SearchSuffix;
      assert (s + SearchSuffix)[..|s|] == s;
      s + SearchSuffix
  }

  /** A URL ending in "/search" is left exactly as it is. */
  lemma BaseUrlKeepsNormal(u: string)
    requires EndsWith(u, SearchSuffix)
    ensures BaseUrl(u) == u
  {
    assert u[|u| - 1] == SearchSuffix[|SearchSuffix| - 1];
    assert RStrip(u, '/') == u;
  }

  /** Normalising twice is normalising once. */
  lemma BaseUrlIdempotent(u: string)
    ensures BaseUrl(BaseUrl(u)) == BaseUrl(u)
  {
    BaseUrlKeepsNormal(BaseUrl(u));
  }

  /** The URLs the constructor leaves untouched are exactly those ending in
      "/search". */
  lemma BaseUrlFixedPoints(u: string)
    ensures BaseUrl(u) == u <==> EndsWith(u, SearchSuffix)
  {
    if EndsWith(u, SearchSuffix) {
      BaseUrlKeepsNormal(u);
    }
  }

  // ----------------------------------------------------------------- entries

  /** One entry of the engine's `results` list, reduced to the keys `search`
      and `_fetch_webpage_content` read; `None` is a missing key. */
  datatype Entry = Entry(score: Option<real>, url: Option<string>, title: Option<string>, content: Option<string>)

  /** `entry.get("score", 0)`. */
  function Score(e: Entry): real {
    e.score.GetOr(0.0)
  }

  /** The entries scoring at least `threshold`, in their order. */
  function Kept(es: seq<Entry>, threshold: real): (r: seq<Entry>)
    ensures |r| <= |es|
    ensures forall i :: 0 <= i < |r| ==> Score(r[i]) >= threshold
    ensures forall e :: e in r <==> e in es && Score(e) >= threshold
    decreases |es|
  {
    if |es| == 0 then []
    else
      var rest := Kept(es[1..], threshold);
      assert es == [es[0]] + es[1..];
      if Score(es[0]) >= threshold then [es[0]] + rest else rest
  }

  /** The entries of score `k`, in their order. */
  function WithScore(es: seq<Entry>, k: real): seq<Entry>
    decreases |es|
  {
    if |es| == 0 then []
    else (if Score(es[0]) == k then [es[0]] else []) + WithScore(es[1..], k)
  }

  lemma {:induction false} WithScoreMembers(es: seq<Entry>, k: real)
    ensures forall e :: e in WithScore(es, k) ==> e in es && Score(e) == k
    decreases |es|
  {
    if |es| > 0 {
      WithScoreMembers(es[1..], k);
      assert es == [es[0]] + es[1..];
    }
  }

  /** The filter keeps, for every score, the entries of that score in their
      order when the score passes, and none of them otherwise. */
  lemma {:induction false} KeptWithScore(es: seq<Entry>, threshold: real, k: real)
    ensures WithScore(Kept(es, threshold), k) == if k >= threshold then WithScore(es, k) else []
    decreases |es|
  {
    if |es| > 0 {
      KeptWithScore(es[1..], threshold, k);
      var rest := Kept(es[1..], threshold);
      if Score(es[0]) >= threshold {
        assert ([es[0]] + rest)[1..] == rest;
      }
    }
  }

  // -------------------------------------------------------------------- sort

  predicate Descending(s: seq<Entry>) {
    forall i, j :: 0 <= i < j < |s| ==> Score(s[i]) >= Score(s[j])
  }

  /** Puts `x` before the first entry scoring no more than it. */
  function Insert(x: Entry, s: seq<Entry>): (r: seq<Entry>)
    ensures |r| == |s| + 1
    decreases |s|
  {
    if |s| == 0 || Score(s[0]) <= Score(x) then [x] + s
    else [s[0]] + Insert(x, s[1..])
  }

  lemma {:induction false} InsertPermutes(x: Entry, s: seq<Entry>)
    ensures multiset(Insert(x, s)) == multiset(s) + multiset{x}
    decreases |s|
  {
    if |s| > 0 && Score(s[0]) > Score(x) {
      InsertPermutes(x, s[1..]);
      assert s == [s[0]] + s[1..];
    }
  }

  /** A head scoring at least every later entry extends a descending tail. */
  lemma DescendingCons(h: Entry, r: seq<Entry>)
    requires Descending(r)
    requires forall j :: 0 <= j < |r| ==> Score(r[j]) <= Score(h)
    ensures Descending([h] + r)
  {
    var t := [h] + r;
    forall i, j | 0 <= i < j < |t| ensures Score(t[i]) >= Score(t[j]) {
      assert t[j] == r[j - 1];
      if i > 0 { assert t[i] == r[i - 1]; }
    }
  }

  lemma {:induction false} InsertKeepsOrder(x: Entry, s: seq<Entry>)
    requires Descending(s)
    ensures Descending(Insert(x, s))
    decreases |s|
  {
    if |s| == 0 || Score(s[0]) <= Score(x) {
      if |s| > 0 { DescendingHead(s); }
      forall j | 0 <= j < |s| ensures Score(s[j]) <= Score(x) {
        assert s[j] in s;
      }
      DescendingCons(x, s);
    } else {
      var rest := Insert(x, s[1..]);
      assert Descending(s[1..]) by {
        assert forall j :: 0 <= j < |s[1..]| ==> s[1..][j] == s[j + 1];
      }
      InsertKeepsOrder(x, s[1..]);
      InsertPermutes(x, s[1..]);
      DescendingHead(s);
      forall j | 0 <= j < |rest| ensures Score(rest[j]) <= Score(s[0]) {
        assert rest[j] in multiset(rest);
        assert rest[j] == x || rest[j] in multiset(s[1..]);
        assert rest[j] != x ==> rest[j] in s;
      }
      DescendingCons(s[0], rest);
    }
  }

  /** `list.sort(key=score, reverse=True)`, which Python keeps stable. */
  function SortDesc(es: seq<Entry>): (r: seq<Entry>)
    ensures multiset(r) == multiset(es)
    ensures Descending(r)
    decreases |es|
  {
    if |es| == 0 then []
    else
      assert es == [es[0]] + es[1..];
      InsertPermutes(es[0], SortDesc(es[1..]));
      InsertKeepsOrder(es[0], SortDesc(es[1..]));
      Insert(es[0], SortDesc(es[1..]))
  }

  lemma {:induction false} InsertWithScore(x: Entry, s: seq<Entry>, k: real)
    ensures WithScore(Insert(x, s), k) == (if Score(x) == k then [x] else []) + WithScore(s, k)
    decreases |s|
  {
    if |s| == 0 || Score(s[0]) <= Score(x) {
      assert ([x] + s)[1..] == s;
    } else {
      var rest := Insert(x, s[1..]);
      InsertWithScore(x, s[1..], k);
      assert ([s[0]] + rest)[1..] == rest;
    }
  }

  /** Stability: for every score, the entries of that score come out in the
      order they went in. */
  lemma {:induction false} SortStable(es: seq<Entry>, k: real)
    ensures WithScore(SortDesc(es), k) == WithScore(es, k)
    decreases |es|
  {
    if |es| > 0 {
      SortStable(es[1..], k);
      InsertWithScore(es[0], SortDesc(es[1..]), k);
    }
  }

  /** A descending sequence holds no entry above its head. */
  lemma DescendingHead(s: seq<Entry>)
    requires Descending(s) && |s| > 0
    ensures forall e :: e in s ==> Score(e) <= Score(s[0])
  {
    forall e | e in s ensures Score(e) <= Score(s[0]) {
      var j :| 0 <= j < |s| && s[j] == e;
      if j > 0 { assert Score(s[0]) >= Score(s[j]); }
    }
  }

  /** Sequences of entries agreeing on the entries of every score. */
  ghost predicate SameScoreOrders(t: seq<Entry>, u: seq<Entry>) {
    forall k :: WithScore(t, k) == WithScore(u, k)
  }

  /** A non-empty sequence has its head among the entries of its score. */
  lemma HeadListed(s: seq<Entry>)
    ensures |s| > 0 ==> WithScore(s, Score(s[0])) == [s[0]] + WithScore(s[1..], Score(s[0]))
  {
  }

  /** Two non-empty descending sequences agreeing on every score start alike. */
  lemma SameHead(t: seq<Entry>, u: seq<Entry>)
    requires Descending(t) && Descending(u) && SameScoreOrders(t, u)
    requires |t| > 0 && |u| > 0
    ensures t[0] == u[0]
  {
    var m := Score(t[0]);
    var m' := Score(u[0]);
    HeadListed(t);
    HeadListed(u);
    assert WithScore(t, m') == WithScore(u, m') && WithScore(t, m) == WithScore(u, m);
    WithScoreMembers(t, m');
    WithScoreMembers(u, m);
    DescendingHead(t);
    DescendingHead(u);
    assert WithScore(t, m')[0] in t;
    assert WithScore(u, m)[0] in u;
  }

  lemma SameTails(t: seq<Entry>, u: seq<Entry>)
    requires SameScoreOrders(t, u)
    requires |t| > 0 && |u| > 0 && t[0] == u[0]
    ensures SameScoreOrders(t[1..], u[1..])
  {
    var m := Score(t[0]);
    forall k ensures WithScore(t[1..], k) == WithScore(u[1..], k) {
      assert WithScore(t, k) == WithScore(u, k);
      if m == k {
        assert WithScore(t[1..], k) == WithScore(t, k)[1..];
        assert WithScore(u[1..], k) == WithScore(u, k)[1..];
      } else {
        assert WithScore(t[1..], k) == WithScore(t, k);
        assert WithScore(u[1..], k) == WithScore(u, k);
      }
    }
  }

  /** Two descending sequences that agree on the entries of every score are
      equal: order by score plus order within a score fixes everything. */
  lemma {:induction false} SortedUnique(t: seq<Entry>, u: seq<Entry>)
    requires Descending(t) && Descending(u) && SameScoreOrders(t, u)
    ensures t == u
    decreases |t|
  {
    HeadListed(t);
    HeadListed(u);
    assert |u| > 0 ==> WithScore(t, Score(u[0])) == WithScore(u, Score(u[0]));
    assert |t| > 0 ==> WithScore(u, Score(t[0])) == WithScore(t, Score(t[0]));
    if |t| > 0 && |u| > 0 {
      SameHead(t, u);
      SameTails(t, u);
      SortedUnique(t[1..], u[1..]);
      assert t == [t[0]] + t[1..];
      assert u == [u[0]] + u[1..];
    }
  }

  lemma SortStableAll(es: seq<Entry>)
    ensures SameScoreOrders(SortDesc(es), es)
  {
    forall k ensures WithScore(SortDesc(es), k) == WithScore(es, k) {
      SortStable(es, k);
    }
  }

  /** The sort is the only descending arrangement that keeps each score's
      entries in input order. */
  lemma SortCharacterised(es: seq<Entry>, t: seq<Entry>)
    ensures Descending(t) && SameScoreOrders(t, es) <==> t == SortDesc(es)
  {
    SortStableAll(es);
    if Descending(t) && SameScoreOrders(t, es) {
      assert SameScoreOrders(t, SortDesc(es));
      SortedUnique(t, SortDesc(es));
    }
  }

  // -------------------------------------------------------------- truncation

  /** `if len(r) > n: r = r[:n]`, negative `n` counting from the end. */
  function Truncate(r: seq<Entry>, n: int): (t: seq<Entry>)
    ensures 0 <= n ==> |t| == (if n < |r| then n else |r|)
    ensures n < 0 ==> |t| == (if |r| + n < 0 then 0 else |r| + n)
    ensures t == r[..|t|]
  {
    if |r| > n then Slice(r, 0, n) else r
  }

  /** The entries passing the threshold, best first. */
  function Ranked(es: seq<Entry>, threshold: real): seq<Entry> {
    SortDesc(Kept(es, threshold))
  }

  /** What `search` keeps of the engine's entries, in the order it returns
      them. */
  function Selected(es: seq<Entry>, threshold: real, n: int): seq<Entry> {
    Truncate(Ranked(es, threshold), n)
  }

  /** Only entries of the answer that pass the threshold are selected. */
  lemma SelectedSound(es: seq<Entry>, threshold: real, n: int)
    ensures forall e :: e in Selected(es, threshold, n) ==> e in es && Score(e) >= threshold
  {
    var s := Ranked(es, threshold);
    forall e | e in Selected(es, threshold, n) ensures e in es && Score(e) >= threshold {
      assert e in s;
      assert e in multiset(s);
    }
  }

  /** As many entries as asked for are selected when enough pass the
      threshold, all of them otherwise. */
  lemma SelectedCount(es: seq<Entry>, threshold: real, n: nat)
    ensures |Selected(es, threshold, n)| == if n < |Kept(es, threshold)| then n else |Kept(es, threshold)|
  {
    assert |multiset(Ranked(es, threshold))| == |multiset(Kept(es, threshold))|;
  }

  /** The selection is best first, and no entry passing the threshold that
      was cut scores above one that was kept. */
  lemma SelectedTop(es: seq<Entry>, threshold: real, n: int)
    ensures Descending(Selected(es, threshold, n))
    ensures forall i, j :: 0 <= i < |Selected(es, threshold, n)| <= j < |Ranked(es, threshold)| ==>
      Score(Selected(es, threshold, n)[i]) >= Score(Ranked(es, threshold)[j])
  {
    var s := Ranked(es, threshold);
    var sel := Selected(es, threshold, n);
    assert forall i :: 0 <= i < |sel| ==> sel[i] == s[i];
  }

  // -------------------------------------------------------------- enrichment

  datatype Page = Page(title: string, url: string, content: string, excerpt: string)

  const UnableContent: string := "Unable to fetch content"
  const UnableTitle: string := "Unable to fetch title"
  const MissingUrl: Error := Error(ValueError, "Result missing URL")

  /** The scraped text: BeautifulSoup first, the Jina reader when that
      gave nothing. */
  function Scraped(url: string, bs4: string -> string, jina: string -> string): string {
    if bs4(url) != "" then bs4(url) else jina(url)
  }

  /** `_fetch_webpage_content`.  An entry without a (non-empty) url is a
      ValueError; an entry without `content` takes the except branch, whose
      title is not formatted. */
  function FetchPage(e: Entry, bs4: string -> string, jina: string -> string, fmt: string -> string): (r: Result<Page>)
    ensures r.Err? <==> e.url.None? || e.url.value == ""
    ensures r.Err? ==> r.error == MissingUrl
    ensures r.Ok? ==> r.value.url == e.url.value
    ensures r.Ok? && e.content.None? ==>
      r.value == Page(e.title.GetOr(UnableTitle), e.url.value, UnableContent, UnableContent)
    ensures r.Ok? && e.content.Some? ==>
      && r.value.title == fmt(e.title.GetOr(UnableTitle))
      && r.value.excerpt == e.content.value
      && (bs4(e.url.value) != "" ==> r.value.content == fmt(bs4(e.url.value)))
      && (bs4(e.url.value) == "" && jina(e.url.value) != "" ==> r.value.content == fmt(jina(e.url.value)))
      && (bs4(e.url.value) == "" && jina(e.url.value) == "" ==> r.value.content == UnableContent)
  {
    match e.url
    case None => Err(MissingUrl)
    case Some(url) =>
      if url == "" then Err(MissingUrl)
      else
        var content := Scraped(url, bs4, jina);
        match e.content
        case None => Ok(Page(e.title.GetOr(UnableTitle), url, UnableContent, UnableContent))
        case Some(excerpt) =>
          Ok(Page(fmt(e.title.GetOr(UnableTitle)), url, if content != "" then fmt(content) else UnableContent, excerpt))
  }

  predicate HasUrl(e: Entry) {
    e.url.Some? && e.url.value != ""
  }

  /** `list(executor.map(_fetch_webpage_content, entries))`: one page per
      entry in order, or the first entry's ValueError. */
  function Enrich(es: seq<Entry>, bs4: string -> string, jina: string -> string, fmt: string -> string)
    : (r: Result<seq<Page>>)
    ensures r.Ok? <==> forall i :: 0 <= i < |es| ==> HasUrl(es[i])
    ensures r.Err? ==> r.error == MissingUrl
    ensures r.Ok? ==> |r.value| == |es|
    ensures r.Ok? ==> forall i :: 0 <= i < |es| ==> Ok(r.value[i]) == FetchPage(es[i], bs4, jina, fmt)
    decreases |es|
  {
    if |es| == 0 then Ok([])
    else
      var rest := Enrich(es[1..], bs4, jina, fmt);
      assert forall i :: 1 <= i < |es| ==> es[i] == es[1..][i - 1];
      match FetchPage(es[0], bs4, jina, fmt)
      case Err(e) => Err(e)
      case Ok(p) =>
        match rest
        case Err(e) => Err(e)
        case Ok(ps) => Ok([p] + ps)
  }

  // ------------------------------------------------------------------ search

  /** What the HTTP exchange gives: a transport error, an error status, or a
      JSON body whose `results` key may be missing. */
  datatype Response = RequestFailed | StatusFailed(code: int) | Body(results: Option<seq<Entry>>)

  /** `search(query, number_of_results)` for a given answer of the engine. */
  function Search(resp: Response, threshold: real, n: int,
                  bs4: string -> string, jina: string -> string, fmt: string -> string): (r: Result<seq<Page>>)
    ensures !resp.Body? ==> r == Ok([])
    ensures resp.Body? ==> (r.Ok? <==> forall e :: e in Selected(resp.results.GetOr([]), threshold, n) ==> HasUrl(e))
    ensures r.Err? ==> r.error == MissingUrl
    ensures resp.Body? && r.Ok? ==>
      var sel := Selected(resp.results.GetOr([]), threshold, n);
      && |r.value| == |sel|
      && (forall i :: 0 <= i < |sel| ==> sel[i].url.Some? && r.value[i].url == sel[i].url.value)
      && (forall i :: 0 <= i < |sel| ==> Ok(r.value[i]) == FetchPage(sel[i], bs4, jina, fmt))
  {
    match resp
    case Body(results) =>
      var sel := Selected(results.GetOr([]), threshold, n);
      var r := Enrich(sel, bs4, jina, fmt);
      assert (forall i :: 0 <= i < |sel| ==> HasUrl(sel[i])) <==> (forall e :: e in sel ==> HasUrl(e));
      r
    case _ => Ok([])
  }
}

=== FILE: seqs.dfy ===
/** Two facts about sequence concatenation, proved once for any element
    type, so that the proofs that use them need not rediscover them
    among the facts about a particular list. */
module Seqs {

  lemma ConsSplit<T>(a: seq<T>, b: seq<T>)
    requires |a| > 0
    ensures a + b == [a[0]] + (a[1..] + b)
  { }

  lemma ConcatShift<T>(h: seq<T>, whole: seq<T>, part: seq<T>, x: seq<T>, y: seq<T>)
    requires whole == h + (x + y) && part == h + x
    ensures whole == part + y
  { }
}

=== FILE: strs.dfy ===
/** The string and sequence primitives of Python that the modelled code relies
    on: prefix tests, `split(c, 1)`, `rstrip(c)`, `replace`, `str(int)`,
    `int(digits)`, ASCII `lower()`, and slicing/indexing with negative bounds. */
module Strs {
  import opened Outcomes

  predicate StartsWith(s: string, p: string) {
    |p| <= |s| && s[..|p|] == p
  }

  predicate EndsWith(s: string, p: string) {
    |p| <= |s| && s[|s| - |p|..] == p
  }

  /** Python's `p in s` for strings: `p` occurs as a contiguous substring. */
  predicate HasSubstring(s: string, p: string)
    decreases |s|
  {
    |p| <= |s| && (s[..|p|] == p || (|s| > 0 && HasSubstring(s[1..], p)))
  }

  /** Index of the first `c` in `s`, or `|s|` when there is none. */
  function IndexOf(s: string, c: char): (k: nat)
    ensures k <= |s|
    ensures k < |s| <==> c in s
    ensures k < |s| ==> s[k] == c
    ensures c !in s[..k]
  {
    if |s| == 0 then 0
    else if s[0] == c then 0
    else
      var k := 1 + IndexOf(s[1..], c);
      assert s[..k] == [s[0]] + s[1..][..k - 1];
      k
  }

  /** `s.split(c, 1)[0]`: the text before the first `c` (all of `s` without one). */
  function BeforeFirst(s: string, c: char): (r: string)
    ensures c !in r
    ensures StartsWith(s, r)
    ensures c !in s ==> r == s
    ensures c in s ==> |r| < |s| && s[|r|] == c
  {
    s[..IndexOf(s, c)]
  }

  /** The text after the first `c` (`s.split(c, 1)[1]`), or "" when there is no `c`. */
  function AfterFirst(s: string, c: char): (r: string)
    ensures c in s ==> s == BeforeFirst(s, c) + [c] + r
  {
    var k := IndexOf(s, c);
    if k < |s| then s[k + 1..] else ""
  }

  /** Splitting `p + c + x` at its first `c` gives back `p` and `x` when `p`
      holds no `c`. */
  lemma SplitJoin(p: string, c: char, x: string)
    requires c !in p
    ensures IndexOf(p + [c] + x, c) == |p|
    ensures BeforeFirst(p + [c] + x, c) == p
    ensures AfterFirst(p + [c] + x, c) == x
  {
    var s := p + [c] + x;
    var k := IndexOf(s, c);
    assert s[|p|] == c;
    assert s[..|p|] == p;
    assert forall j :: 0 <= j < |p| ==> s[j] == p[j];
    assert s[k + 1..] == x;
  }

  /** `s.rstrip(c)` for a single character: every trailing `c` removed. */
  function RStrip(s: string, c: char): (r: string)
    ensures StartsWith(s, r)
    ensures |r| == 0 || r[|r| - 1] != c
    ensures forall i :: |r| <= i < |s| ==> s[i] == c
  {
    if |s| == 0 then s
    else if s[|s| - 1] == c then RStrip(s[..|s| - 1], c)
    else s
  }

  /** Python's `s.replace(pat, rep)` for a non-empty `pat`: every non-overlapping
      occurrence, scanning from the left, is replaced. */
  function ReplaceAll(s: string, pat: string, rep: string): (r: string)
    requires |pat| > 0
    decreases |s|
  {
    if |s| < |pat| then s
    else if s[..|pat|] == pat then rep + ReplaceAll(s[|pat|..], pat, rep)
    else [s[0]] + ReplaceAll(s[1..], pat, rep)
  }

  predicate IsDigit(c: char) {
    '0' <= c <= '9'
  }

  function DigitValue(c: char): nat
    requires IsDigit(c)
  {
    (c as int - '0' as int) as nat
  }

  function DigitChar(d: nat): (c: char)
    requires d < 10
    ensures IsDigit(c) && DigitValue(c) == d
  {
    ('0' as int + d) as char
  }

  /** Decimal rendering of a natural number, as `str(n)`. */
  function NatToString(n: nat): (r: string)
    ensures |r| > 0
    ensures forall i :: 0 <= i < |r| ==> IsDigit(r[i])
    decreases n
  {
    if n < 10 then [DigitChar(n)]
    else NatToString(n / 10) + [DigitChar(n % 10)]
  }

  /** Python's `str(i)` for any integer. */
  function IntToString(i: int): string {
    if i < 0 then "-" + NatToString(-i) else NatToString(i)
  }

  predicate AllDigits(s: string) {
    forall i :: 0 <= i < |s| ==> IsDigit(s[i])
  }

  /** `int(s)` for a string of ASCII digits (leading zeros allowed). */
  function ParseDigits(s: string): nat
    requires AllDigits(s)
  {
    if |s| == 0 then 0
    else ParseDigits(s[..|s| - 1]) * 10 + DigitValue(s[|s| - 1])
  }

  lemma {:induction false} ParseNatToString(n: nat)
    ensures AllDigits(NatToString(n))
    ensures ParseDigits(NatToString(n)) == n
    decreases n
  {
    var r := NatToString(n);
    if n >= 10 {
      ParseNatToString(n / 10);
      assert r[..|r| - 1] == NatToString(n / 10);
    }
  }

  /** Length of the longest run of ASCII digits at the front of `s`. */
  function DigitRun(s: string): (k: nat)
    ensures k <= |s|
    ensures AllDigits(s[..k])
    ensures k < |s| ==> !IsDigit(s[k])
  {
    if |s| == 0 || !IsDigit(s[0]) then 0
    else
      var k := 1 + DigitRun(s[1..]);
      assert s[..k] == [s[0]] + s[1..][..k - 1];
      k
  }

  /** ASCII `c.lower()`. */
  function LowerChar(c: char): char {
    if 'A' <= c <= 'Z' then (c as int - 'A' as int + 'a' as int) as char else c
  }

  function Lower(s: string): (r: string)
    ensures |r| == |s|
    ensures forall i :: 0 <= i < |s| ==> r[i] == LowerChar(s[i])
  {
    seq(|s|, i requires 0 <= i < |s| => LowerChar(s[i]))
  }

  /** Lower-casing twice is lower-casing once. */
  lemma LowerIdempotent(s: string)
    ensures Lower(Lower(s)) == Lower(s)
  {
    assert forall i :: 0 <= i < |s| ==> LowerChar(LowerChar(s[i])) == LowerChar(s[i]);
  }

  /** Python's normalisation of a slice bound `i` against a length `n`. */
  function SliceBound(i: int, n: nat): (k: nat)
    ensures k <= n
  {
    if i < 0 then (if i + n < 0 then 0 else i + n)
    else if i > n then n
    else i
  }

  /** Python's `s[a:b]`: negative bounds count from the end, then both are clamped. */
  function Slice<T>(s: seq<T>, a: int, b: int): (r: seq<T>)
    ensures |r| <= |s|
  {
    var lo := SliceBound(a, |s|);
    var hi := SliceBound(b, |s|);
    if lo < hi then s[lo..hi] else []
  }

  /** Python's `s[a:]`. */
  function SliceFrom<T>(s: seq<T>, a: int): (r: seq<T>)
    ensures 0 <= a <= |s| ==> r == s[a..]
    ensures a >= |s| ==> r == []
  {
    Slice(s, a, |s|)
  }

  /** Python's `s[i]`: negative indices count from the end; out of range is an IndexError. */
  function Index<T>(s: seq<T>, i: int): (r: Option<T>)
    ensures 0 <= i < |s| ==> r == Some(s[i])
    ensures (i >= |s| || i < -|s|) <==> r.None?
  {
    if 0 <= i < |s| then Some(s[i])
    else if -|s| <= i < 0 then Some(s[|s| + i])
    else None
  }
}

=== FILE: tools.dfy ===
/** A tool: a callable with its name, description, JSON parameter schema and
    parameter model; how it is built from a function, how it describes itself,
    and how it runs (errors come back as strings, never raised).
    Also the namespace rule of `Tool.update_namespace`, which the registry
    applies to tool names: a dotted name `ns.local` carries the namespace
    `ns` (the text before the first '.'). */
module Tools {
  import opened Outcomes
  import opened Strs
  import opened Dicts
  import opened Values
  import opened ParameterModels

  datatype Tool = Tool(
    name: string,
    description: string,
    parameters: Json,
    callable: Callable,
    isAsync: bool,
    model: Option<ParamModel>)

  /** The namespace of a dotted name, None for an undotted one. */
  function NamespaceOf(name: string): Option<string> {
    if '.' in name then Some(BeforeFirst(name, '.')) else None
  }

  /** The name without its namespace. */
  function LocalName(name: string): string {
    if '.' in name then AfterFirst(name, '.') else name
  }

  /** `Tool.update_namespace(ns, force)` applied to a name, with `norm` the
      registry's `normalize_tool_name`: no namespace leaves the name alone;
      an undotted name gets `norm(ns).` in front; a dotted name keeps its
      namespace unless `force`, which replaces it. */
  function UpdateNamespace(norm: string -> string, name: string, ns: Option<string>, force: bool): (r: string)
    ensures r == name || (ns.Some? && StartsWith(r, norm(ns.value) + "."))
  {
    if ns.None? || ns.value == "" then name
    else if '.' !in name then norm(ns.value) + "." + name
    else if force then norm(ns.value) + "." + AfterFirst(name, '.')
    else name
  }

  /** When the namespace is applied, the name ends up in the normalised
      namespace and keeps its local part. */
  lemma UpdateNamespaceParts(norm: string -> string, name: string, ns: string, force: bool)
    requires ns != "" && '.' !in norm(ns)
    requires force || '.' !in name
    ensures NamespaceOf(UpdateNamespace(norm, name, Some(ns), force)) == Some(norm(ns))
    ensures LocalName(UpdateNamespace(norm, name, Some(ns), force)) == LocalName(name)
  {
    var r := UpdateNamespace(norm, name, Some(ns), force);
    SplitJoin(norm(ns), '.', LocalName(name));
    assert r == norm(ns) + "." + LocalName(name);
    assert r[|norm(ns)|] == '.';
  }

  /** Applying the same namespace twice is applying it once. */
  lemma UpdateNamespaceIdempotent(norm: string -> string, name: string, ns: Option<string>, force: bool)
    requires ns.Some? ==> '.' !in norm(ns.value)
    ensures var once := UpdateNamespace(norm, name, ns, force);
      UpdateNamespace(norm, once, ns, force) == once
  {
    var once := UpdateNamespace(norm, name, ns, force);
    if ns.Some? && ns.value != "" && (force || '.' !in name) {
      SplitJoin(norm(ns.value), '.', LocalName(name));
      assert once == norm(ns.value) + "." + LocalName(name);
      assert once[|norm(ns.value)|] == '.';
    }
  }

  function UpdateToolNamespace(norm: string -> string, t: Tool, ns: Option<string>, force: bool): (u: Tool)
    ensures u == t.(name := u.name)
  {
    t.(name := UpdateNamespace(norm, t.name, ns, force))
  }

  /** The error string of a failed execution, shared by `Tool.run`,
      `Tool.arun` and the pool workers. */
  function ExecError(fname: string, msg: string): Value {
    Str("Error executing " + fname + ": " + msg)
  }

  /** The name `Tool.from_function` gives: the explicit one when non-empty,
      else the function's `__name__`. */
  function ChosenName(f: Callable, name: Option<string>): string {
    if name.Some? && name.value != "" then name.value else f.name
  }

  /** `Tool.from_function(func, name, description)`; `schemaOf` is Pydantic's
      `model_json_schema`. */
  function FromFunction(f: Callable, name: Option<string>, description: Option<string>,
                        schemaOf: ParamModel -> Json): (r: Result<Tool>)
    ensures r.Err? <==> ChosenName(f, name) == "<lambda>"
    ensures r.Err? ==> r.error == Error(ValueError, "You must provide a name for lambda functions")
    ensures r.Ok? ==> r.value.name == ChosenName(f, name) && r.value.name != "<lambda>"
    ensures r.Ok? ==> (r.value.description ==
      if description.Some? && description.value != "" then description.value
      else if f.doc.Some? then f.doc.value else "")
    ensures r.Ok? ==> r.value.isAsync == f.isCoroutine
    ensures r.Ok? ==> r.value.model == GenerateParametersModel(f)
    ensures r.Ok? && r.value.model.None? ==> r.value.parameters == JObj([])
    ensures r.Ok? ==> r.value.callable == f
  {
    var fname := ChosenName(f, name);
    if fname == "<lambda>" then Err(Error(ValueError, "You must provide a name for lambda functions"))
    else
      var doc := if description.Some? && description.value != "" then description.value
                 else if f.doc.Some? then f.doc.value else "";
      var model := GenerateParametersModel(f);
      var params := if model.Some? then schemaOf(model.value) else JObj([]);
      Ok(Tool(fname, doc, params, f, f.isCoroutine, model))
  }

  /** `get_json_schema` (and its alias `describe`). */
  function GetJsonSchema(t: Tool): (j: Json)
    ensures ReadJsonSchema(j) == Some((t.name, t.description, t.parameters, t.isAsync))
  {
    JObj([("type", JStr("function")),
          ("function", JObj([("name", JStr(t.name)),
                             ("description", JStr(t.description)),
                             ("parameters", t.parameters),
                             ("is_async", JBool(t.isAsync))]))])
  }

  /** Reads the four described fields back out of a tool description. */
  function ReadJsonSchema(j: Json): Option<(string, string, Json, bool)> {
    if j.JObj? && |j.fields| == 2 && j.fields[0] == ("type", JStr("function"))
       && j.fields[1].0 == "function" && j.fields[1].1.JObj? && |j.fields[1].1.fields| == 4
    then
      var fs := j.fields[1].1.fields;
      if fs[0].0 == "name" && fs[0].1.JStr? && fs[1].0 == "description" && fs[1].1.JStr?
         && fs[2].0 == "parameters" && fs[3].0 == "is_async" && fs[3].1.JBool?
      then Some((fs[0].1.s, fs[1].1.s, fs[2].1, fs[3].1.b))
      else None
    else None
  }

  /** Two tools are described alike exactly when those four fields agree. */
  lemma JsonSchemaDependsOnlyOnFourFields(t1: Tool, t2: Tool)
    ensures GetJsonSchema(t1) == GetJsonSchema(t2) <==>
      (t1.name, t1.description, t1.parameters, t1.isAsync) == (t2.name, t2.description, t2.parameters, t2.isAsync)
  {
  }

  /** `_validate_parameters`: the input unchanged without a model, else the
      model's field values. */
  function ValidateParameters(t: Tool, params: Args): (r: Result<Args>)
    ensures t.model.None? ==> r == Ok(params)
    ensures t.model.Some? && r.Ok? ==> Keys(r.value) == FieldNames(t.model.value.fields)
  {
    match t.model
    case None => Ok(params)
    case Some(m) => Validate(m.fields, m.modelName, params)
  }

  /** `Tool.run`: never raises.  A validation error or an exception from the
      call becomes the execution error string; a coroutine function's call
      gives its (unawaited) coroutine object. */
  function Run(t: Tool, params: Args): (r: Value)
    ensures ValidateParameters(t, params).Err? ==>
      r == ExecError(t.name, ValidateParameters(t, params).error.msg)
    ensures ValidateParameters(t, params).Ok? && !t.callable.isCoroutine ==>
      var o := t.callable.invoke(ValidateParameters(t, params).value);
      r == if o.Returns? then o.v else ExecError(t.name, o.msg)
    ensures ValidateParameters(t, params).Ok? && t.callable.isCoroutine ==>
      r.Obj? && r.awaited == Some(t.callable.invoke(ValidateParameters(t, params).value))
  {
    match ValidateParameters(t, params)
    case Err(e) => ExecError(t.name, e.msg)
    case Ok(vp) =>
      if t.callable.isCoroutine then CoroutineObject(t.callable, vp)
      else
        match t.callable.invoke(vp)
        case Returns(v) => v
        case Raises(m) => ExecError(t.name, m)
  }

  function TypeName(v: Value): string {
    match v
    case Obj(tn, _, _, _) => tn
    case J(j) =>
      match j
      case JNull => "NoneType"
      case JBool(_) => "bool"
      case JInt(_) => "int"
      case JStr(_) => "str"
      case JArr(_) => "list"
      case JObj(_) => "dict"
  }

  /** `await v` inside the `try` of `Tool.arun`: an awaitable gives its
      outcome, anything else a TypeError; both failures become the
      execution error string. */
  function AwaitValue(name: string, v: Value): Value {
    if v.Obj? && v.awaited.Some? then
      match v.awaited.value
      case Returns(w) => w
      case Raises(m) => ExecError(name, m)
    else ExecError(name, "object " + TypeName(v) + " can't be used in 'await' expression")
  }

  /** `Tool.arun`: a coroutine function is awaited; any other callable is
      called and its result awaited (every callable has `__call__`, so the
      NotImplementedError branch is never reached). */
  function ARun(t: Tool, params: Args): (r: Value)
    ensures ValidateParameters(t, params).Err? ==>
      r == ExecError(t.name, ValidateParameters(t, params).error.msg)
    ensures ValidateParameters(t, params).Ok? && t.callable.isCoroutine ==>
      var o := t.callable.invoke(ValidateParameters(t, params).value);
      r == if o.Returns? then o.v else ExecError(t.name, o.msg)
  {
    match ValidateParameters(t, params)
    case Err(e) => ExecError(t.name, e.msg)
    case Ok(vp) =>
      if t.callable.isCoroutine then
        match t.callable.invoke(vp)
        case Returns(v) => v
        case Raises(m) => ExecError(t.name, m)
      else
        match t.callable.invoke(vp)
        case Raises(m) => ExecError(t.name, m)
        case Returns(v) => AwaitValue(t.name, v)
  }

  /** `arun` is `run` followed by an await, except where `run` already
      turned a raised exception into its error string. */
  lemma ARunAwaitsRun(t: Tool, params: Args)
    requires ValidateParameters(t, params).Ok?
    requires t.callable.isCoroutine || t.callable.invoke(ValidateParameters(t, params).value).Returns?
    ensures ARun(t, params) == AwaitValue(t.name, Run(t, params))
  {
  }

  /** A synchronous tool whose result is not awaitable fails under `arun`
      while `run` returns that result. */
  lemma ARunRejectsPlainResult(t: Tool, params: Args)
    requires ValidateParameters(t, params).Ok? && !t.callable.isCoroutine
    requires var o := t.callable.invoke(ValidateParameters(t, params).value);
      o.Returns? && !(o.v.Obj? && o.v.awaited.Some?)
    ensures Run(t, params) == t.callable.invoke(ValidateParameters(t, params).value).v
    ensures ARun(t, params) == ExecError(t.name, "object " + TypeName(Run(t, params)) + " can't be used in 'await' expression")
  {
  }
}

=== FILE: values.dfy ===
/** Python values as far as the registry and its workers observe them:
    JSON data, opaque objects (seen only through `str()`, `json.dumps` and
    `await`), and callables (seen through their name, docstring, signature
    and the outcome of invoking them). */
module Values {
  import opened Outcomes
  import opened Dicts

  datatype Json =
    | JNull
    | JBool(b: bool)
    | JInt(i: int)
    | JStr(s: string)
    | JArr(items: seq<Json>)
    | JObj(fields: seq<(string, Json)>)

  /** What `json.dumps(v)` does with an opaque object. */
  datatype Dumps = DumpsOk | DumpsTypeError | DumpsRaises(msg: string)

  datatype Value =
    | J(j: Json)
      /** Any other object: its type name, `str()` text, how `json.dumps`
          treats it, and -- when it is awaitable -- what awaiting it gives. */
    | Obj(typeName: string, repr: string, dumps: Dumps, awaited: Option<Outcome>)

  /** Calling (and, for a coroutine, awaiting) either returns or raises. */
  datatype Outcome = Returns(v: Value) | Raises(msg: string)

  type Args = Dict<Value>

  function Str(s: string): Value {
    J(JStr(s))
  }

  /** How a parameter is annotated in the signature. */
  datatype Annotation =
    | Unannotated              // inspect.Parameter.empty
    | AnnNone                  // the literal annotation `None`
    | AnnType(t: string)       // an evaluated type object
    | AnnStr(text: string)     // a string (forward reference) to be evaluated

  datatype Param = Param(name: string, annotation: Annotation, default: Option<Value>)

  /** A Python callable.  `invoke` is the outcome of calling it with keyword
      arguments; for a coroutine function it is the outcome of awaiting the
      coroutine the call produces.  `globals` evaluates a forward-reference
      annotation in the function's module namespace (None: NameError). */
  datatype Callable = Callable(
    name: string,
    doc: Option<string>,
    isCoroutine: bool,
    signature: Option<seq<Param>>,
    globals: string -> Option<string>,
    invoke: Args -> Outcome,
    dumpsError: Option<string>,
    loadsError: Option<string>)

  /** The coroutine object a coroutine function's call returns, unawaited. */
  function CoroutineObject(f: Callable, args: Args): (v: Value)
    requires f.isCoroutine
    ensures v.Obj? && v.awaited == Some(f.invoke(args))
    ensures v.dumps == DumpsTypeError
  {
    Obj("coroutine", "<coroutine object " + f.name + ">", DumpsTypeError, Some(f.invoke(args)))
  }
}
